=== FILE: README.md ===
# A verified model of the knowledge-base and audio-tool repository

This project is a Dafny model of the core logic of a multi-part Python repository. It also holds proofs about that model. The repository has six parts:

- **makino-ai-companion**, a chat companion backed by a knowledge base. The model covers:
  - the batch ingestion pipeline (`scripts/knowledge_pipeline.py`), which moves intake files through `processing/` to `completed/` or `failed/` and writes analysed ones into the knowledge tree as front-matter Markdown;
  - the entry-id allocator;
  - the content analyzer's JSON extraction, label repairs, terminology pass and transcript chunker;
  - the media processor's file classification;
  - keyword and vector retrieval;
  - the chat engine's escalation and classification;
  - the tabular knowledge base;
  - the profile, persona, auth, log, notifier and webhook helpers.
- **ai-development**, a Markdown knowledge base of text entries and images. The model covers title slugs, numbered file names that never overwrite, front matter, registration, listing, search, statistics and the index page.
- **pdf-upload-system**. The model covers page extraction, search with context snippets, and Markdown conversion over the document the PDF library yields.
- **desktop-organizer**. The model covers screenshot recognition by glob pattern, date parsing from file names, the move plan and its execution.
- **philosophia**. The model covers the theme index built from the front matter of writing material.
- **stem-separator**. The model covers:
  - the sound catalogue and the matcher;
  - note detection and drum-hit counting over given audio features;
  - the advice prompt builder and advisor;
  - batch separation with a content-hash cache.

Each Python module maps to one Dafny module: Advisor, AnalyzerJson, Auth, Catalog, ContentManager, ContentStore, Engine, EntryIds, FileManager, Labels, LogSummary, Matcher, Media, NoteDetector, Notifier, Organizer, Pdf, Persona, Pipeline, Processor, Profile, PromptBuilder, Rag, Slugs, ThemeIndex, VectorRag and Webhook. Three modules are shared helpers:

- `Wrappers` holds failure-carrying results;
- `Text` holds the Python string operations;
- `Lists` holds order-preserving filters and a stable sort.

Everything the code does not compute itself is a parameter of the model. This covers the file system, the clock, the language model, extractors, embeddings, audio analysis, hashing, HTTP transports and JWT decoding. Each such parameter is an oracle that returns what the real call would return, including whether it raises.

### Behaviour of the code that the model keeps

- **Concurrency.** `run` gathers every file's task at once, and `workers` only sizes the analyzer's semaphore. No await falls between id allocation and the last report append (`knowledge_pipeline.py:296-343`), so the model processes files one after another.
- **The failure path.** The move inside the `except` block is unguarded and can itself raise (`knowledge_pipeline.py:345-356`). `Pipeline.HandleSpec` models this as an escaped step. `Pipeline.RunFiles` stops at the first escape, whereas `gather` lets the other tasks finish.
- **Duplicate reason.** A skipped duplicate is recorded with the reason "同名ファイルが既に存在".
- **Extraction failure.** Extraction fails only for `None` or for a text that starts with "[" and contains "エラー". An empty text is not a failure.
- **Retries in the first classification pass.** Only JSON decode, index and key errors are retried. Any other error from the API escapes. The field test `"category" in parsed` runs on whatever `json.loads` returns: a list or a string can pass it and is returned as the classification, and a number, boolean or null raises a TypeError that ends the pass (`AnalyzerJson.AttemptEndOf`).
- **Failed-file record.** The intake directory is the configured input directory, and the failed record names the file as `intake/failed/{fname}`.
- **Entry ids.** The id allocator takes the maximum over every digit run of an id with the prefix, including the year-month, as its own comment says. After "ML_202610_001" the next id is therefore "ML_202610_202611". The model keeps this behaviour (`EntryIds`).
- **Statistics.** `_compute_stats` reads `self.success`, an attribute the pipeline object does not have (`knowledge_pipeline.py:383`); the success records live on the report. Every run that processes files therefore raises `AttributeError` after the files are settled. `Pipeline.RunPipelineAsWritten` models this, and `Pipeline.RunPipeline` is the corrected run that tallies `self.report.success` (see Findings).

## Model

| member | source | states |
|---|---|---|
| Auth.FromClaims | makino-ai-companion/src/auth/dependencies.py:19-25 | each of sub, email, name, picture and role is the claim of that name when present; an absent claim gives "" for the first four and "user" for the role |
| Auth.UserId | makino-ai-companion/src/auth/dependencies.py:27-29 | the user id is the email when it is non-empty, else the subject |
| Auth.CurrentUser | makino-ai-companion/src/auth/dependencies.py:37-50 | a missing or empty cookie and an undecodable token both give the 401 failure; success happens exactly for a decodable token, and the user is built from its claims |
| Auth.OptionalUser | makino-ai-companion/src/auth/dependencies.py:53-66 | there is no user exactly where the strict dependency fails, and otherwise the same user |
| Auth.RequireAdmin | makino-ai-companion/src/auth/dependencies.py:69-77 | the 401 failures are passed on, an authenticated non-admin gets the 403 failure, and an admin is returned unchanged |
| LogSummary.ShouldEscalate | makino-ai-companion/src/logging/log_handler.py:21-23 | escalation never happens at a confidence equal to the threshold |
| LogSummary.ShouldEscalateMonotone | makino-ai-companion/src/logging/log_handler.py:21-23 | a lower confidence escalates whenever a higher one does; the default threshold is 0.5, so 0.49 escalates and 0.5 does not |
| LogSummary.RequiresMandatoryEscalation | makino-ai-companion/src/logging/log_handler.py:13-28 | mandatory escalation holds exactly for the four listed categories |
| LogSummary.MandatoryIsExact | makino-ai-companion/src/logging/log_handler.py:26-28 | the check is membership, not substring search: a category name contained in a listed one is not escalated |
| LogSummary.SummaryLines | makino-ai-companion/src/logging/log_handler.py:31-41 | the summary has six lines beginning with the title line |
| LogSummary.SummaryHasSixLines | makino-ai-companion/src/logging/log_handler.py:31-41 | the joined summary splits back into exactly its six lines, and a missing metric is shown as 0 |
| Persona.FormatNgWords | makino-ai-companion/src/prompts/persona_config.py:63-65 | every forbidden word appears as a "- " bullet in the text |
| Persona.FormatSignaturePhrases | makino-ai-companion/src/prompts/persona_config.py:67-69 | every signature phrase appears as a "- 「…」" bullet in the text |
| Persona.NgWordsLines | makino-ai-companion/src/prompts/persona_config.py:63-65 | for single-line words the text has one line per word, line i being "- " followed by word i |
| Persona.SignatureLines | makino-ai-companion/src/prompts/persona_config.py:67-69 | for single-line phrases the text has one line per phrase, line i being phrase i in 「」 after "- " |
| Persona.LoadPersonaConfig | makino-ai-companion/src/prompts/persona_config.py:72-107 | no path or a missing file gives the default persona; loading fails exactly when the document, its `persona` value or that table's `traits` value is not a mapping (an empty file parses to null); otherwise each of name, role and the four traits is the document's value when given and its default when absent, each list is the document's when given and empty when absent, and the ending patterns keep their defaults |
| Persona.DocumentRoundTrip | makino-ai-companion/src/prompts/persona_config.py:91-104 | a document spelling out every setting of a persona loads back as that persona, with the default ending patterns |
| Persona.EmptyDocumentDropsLists | makino-ai-companion/src/prompts/persona_config.py:81-104 | a document without a `persona` table is not the default persona: it loses the default signature phrases and forbidden words |
| Webhook.ForwardToGas | makino-ai-companion/src/webhook/dify_webhook.py:41-77 | at most retry_count posts, true on the first 200, a sleep between attempts but none after the last, false after retry_count retryable failures, nothing posted for retry_count ≤ 0, and any other exception escapes |
| Webhook.NoticeEndpoint | makino-ai-companion/src/webhook/dify_webhook.py:99 | the notice goes to the notification endpoint when one is set, else to the GAS endpoint |
| Webhook.SendEscalationNotification | makino-ai-companion/src/webhook/dify_webhook.py:79-126 | true exactly for status 200, false for another status or a request error, and any other exception escapes |
| Notifier.MethodTokens | makino-ai-companion/src/notifications/escalation_notifier.py:255-258 | the method setting, "email" by default, yields at least one stripped token |
| Notifier.StripAll | makino-ai-companion/src/notifications/escalation_notifier.py:258 | token i is piece i of the comma split with surrounding whitespace stripped |
| Notifier.SetupBackends | makino-ai-companion/src/notifications/escalation_notifier.py:252-284 | there are never more backends than method tokens |
| Notifier.BackendsFollowTokens | makino-ai-companion/src/notifications/escalation_notifier.py:260-281 | the backends are exactly the email, slack and line tokens, in token order, with unknown tokens skipped |
| Notifier.DefaultIsEmail | makino-ai-companion/src/notifications/escalation_notifier.py:255 | with no method setting there is exactly one backend, the e-mail one |
| Notifier.EmailAndSlack | makino-ai-companion/src/notifications/escalation_notifier.py:258-274 | the method "email, slack" gives an e-mail backend followed by a Slack backend |
| Notifier.LinePushes | makino-ai-companion/src/notifications/escalation_notifier.py:213-238 | one push per admin id in order, carrying on after a failure, and success exactly when every push succeeded |
| Notifier.QuestionsTruncated | makino-ai-companion/src/notifications/escalation_notifier.py:161-208 | the question reaches Slack cut to 500 characters and LINE cut to 300 |
| Notifier.Send | makino-ai-companion/src/notifications/escalation_notifier.py:104-238 | e-mail fails without traffic when the host or the recipients are missing, Slack fails without traffic for an empty webhook URL, LINE fails without traffic when the token or the ids are missing; otherwise each succeeds exactly when its deliveries do |
| Notifier.Notify | makino-ai-companion/src/notifications/escalation_notifier.py:286-300 | one (class name, success) pair per backend in order; a backend that raised gives false and the later backends are still called |
| Notifier.NotifyReportsSends | makino-ai-companion/src/notifications/escalation_notifier.py:286-300 | for backends that do not raise, the fan-out reports exactly each backend's own send result |
| Engine.EstimateConfidence | makino-ai-companion/src/chat/engine.py:205-210 | the confidence is 0.0 without results and never above 1.0 |
| Engine.SumBounds | makino-ai-companion/src/chat/engine.py:209 | the summed score lies between n times the lowest and n times the highest score |
| Engine.ConfidenceBounds | makino-ai-companion/src/chat/engine.py:205-210 | for results scored between lo and hi, the confidence lies between min(lo, 1.0) and hi, as the mean capped at 1.0 must |
| Engine.FirstForced | makino-ai-companion/src/chat/engine.py:190-192 | the forced category found is one whose name, with "関連" removed, occurs in the question, and none is found exactly when no category's trigger occurs |
| Engine.CheckEscalation | makino-ai-companion/src/chat/engine.py:183-203 | escalation comes with a reason and no escalation with none; a forced reason names a category whose trigger occurs in the question |
| Engine.EscalationDecision | makino-ai-companion/src/chat/engine.py:183-203 | whatever the set's iteration order, escalation happens exactly when a trigger occurs, there are no results, or the confidence is below 0.3 |
| Engine.ComplianceTrigger | makino-ai-companion/src/chat/engine.py:191 | "コンプライアンス関連" triggers on "コンプライアンス", and a category without "関連" triggers on its whole name |
| Engine.ClassifyFrom | makino-ai-companion/src/chat/engine.py:224-227 | the class is either "一般" or a category one of whose keywords occurs in the question |
| Engine.ClassifyQuestion | makino-ai-companion/src/chat/engine.py:212-227 | the class is "一般" or a listed category with a keyword in the question |
| Engine.ClassifyFirst | makino-ai-companion/src/chat/engine.py:224-227 | the class is "一般" exactly when no keyword occurs, and otherwise the first category in declaration order with a keyword in the question |
| Engine.KeywordsNamed | makino-ai-companion/src/chat/engine.py:215-223 | no listed category is called "一般", so the fallback is unambiguous |
| Engine.Pairs | makino-ai-companion/src/chat/engine.py:138-140 | each history turn becomes a user message followed by an assistant message, in order |
| Engine.HistoryWindow | makino-ai-companion/src/chat/engine.py:136-141 | at most the last 10 turns are sent, as user/assistant pairs, followed by the question |
| Engine.SystemPrompt | makino-ai-companion/src/chat/engine.py:128-133 | the system prompt starts with the pattern prompt followed by the knowledge section holding the context |
| Engine.Chat | makino-ai-companion/src/chat/engine.py:83-181 | the chat fails only when the API raises something other than an API error |
| Engine.EscalationShortCircuits | makino-ai-companion/src/chat/engine.py:109-125 | on escalation the fixed holding answer comes back with confidence 0.0, no tokens and the escalation flag, without an API call; an answered chat never carries the flag |
| Engine.AnsweredIsConfident | makino-ai-companion/src/chat/engine.py:144-181 | when the API replies and there is no escalation, the answer is the API's text, the tokens are input plus output, and the confidence is at least 0.3 |
| Rag.InferCategory | makino-ai-companion/src/chat/rag.py:151-156 | the first path component under the root decides: a known directory gives its display name from the directory table, any other first component (a root-level file's own name included) is its own category, and "未分類" comes only with no components at all |
| Rag.InferPatternIds | makino-ai-companion/src/chat/rag.py:158-166 | the pattern ids are a non-empty list of numbers 1 to 4, all four for an unknown or missing top directory |
| Rag.PatternVisible | makino-ai-companion/src/chat/rag.py:158-166 | pattern p sees a file exactly when it lies in p's own directory, in the shared one, in an unknown one or directly under the root |
| Rag.TablesAgree | makino-ai-companion/src/chat/rag.py:23-38 | the pattern table and the category table know the same directories |
| Rag.PyIndex | makino-ai-companion/src/chat/rag.py:132 | a Python slice bound, negative ones counted from the end, never lies past the length |
| Rag.SliceLength | makino-ai-companion/src/chat/rag.py:135 | a Python slice is never longer than its bounds are apart |
| Rag.WindowCut | makino-ai-companion/src/chat/rag.py:130-134 | a non-final window ends at start+chunk_size when no "。" lies strictly after start, else just after the last such "。" |
| Rag.WindowFits | makino-ai-companion/src/chat/rag.py:130-135 | every window's text has at most chunk_size characters |
| Rag.LoopFits | makino-ai-companion/src/chat/rag.py:128-137 | every chunk the loop emits has at most chunk_size characters |
| Rag.ChunksFit | makino-ai-companion/src/chat/rag.py:123-138 | a text no longer than chunk_size is its own only chunk, and otherwise every chunk has at most chunk_size characters |
| Rag.NoOverlapPartitions | makino-ai-companion/src/chat/rag.py:128-137 | with no overlap the loop terminates and its chunks concatenate back to the text |
| Rag.WindowStep | makino-ai-companion/src/chat/rag.py:130-135 | each window advances and its slice is the text between start and the clamped end |
| Rag.WindowAdvances | makino-ai-companion/src/chat/rag.py:130-134 | the window's end lies after start and at most chunk_size further |
| Rag.SameTail | makino-ai-companion/src/chat/rag.py:129 | past the end of the text the loop stops wherever it starts |
| Rag.ChunkTextStalls | makino-ai-companion/src/chat/rag.py:130-137 | with a "。" within the overlap of the start the loop never advances ("a。xxxx", size 5, overlap 2) |
| Rag.StallLoop | makino-ai-companion/src/chat/rag.py:130-137 | the loop on "a。xxxx" from position 0 runs out of any fuel |
| Rag.ChunkTextSkipsText | makino-ai-companion/src/chat/rag.py:130-137 | a negative next start wraps around and the character "b" of "a。bcdefghi" (size 7, overlap 3) is in no chunk |
| Rag.FixedWindowsTile | makino-ai-companion/src/chat/rag.py:128-137 | the corrected loop, which always moves forward, terminates with windows of at most chunk_size that tile the text |
| Rag.TilesCons | makino-ai-companion/src/chat/rag.py:128-137 | adding a window in front of a tiling keeps it a tiling of narrow windows |
| Rag.TilesCover | makino-ai-companion/src/chat/rag.py:128-137 | every position inside a tiling lies in one of its windows |
| Rag.FixedChunksCover | makino-ai-companion/src/chat/rag.py:123-138 | the corrected chunker always terminates, its chunks have at most chunk_size characters, and every character of the text is in some chunk |
| Rag.FrontBlock | makino-ai-companion/src/chat/rag.py:143 | the front block is the text between a leading "---\n" and the first following "\n---", and there is none when either is missing |
| Rag.ParseLines | makino-ai-companion/src/chat/rag.py:144-147 | the parsed mapping has each key once |
| Rag.ExtractMetadata | makino-ai-companion/src/chat/rag.py:140-149 | the metadata has each key once and is empty unless the content starts with "---" |
| Rag.LastLineWins | makino-ai-companion/src/chat/rag.py:144-147 | a key maps to the stripped text after the first ":" on the last line that has it |
| Rag.MetadataLastWins | makino-ai-companion/src/chat/rag.py:140-149 | the metadata of a file maps each key to its value on the last block line that names it |
| Rag.QueryTerms | makino-ai-companion/src/chat/rag.py:195 | the query terms are distinct and non-empty |
| Rag.Hits | makino-ai-companion/src/chat/rag.py:199 | a chunk's hit count is at most the number of terms |
| Rag.ScoreAll | makino-ai-companion/src/chat/rag.py:197-201 | only chunks with at least one hit are scored, in order, each with its own hit count |
| Rag.ScoreAllComplete | makino-ai-companion/src/chat/rag.py:197-201 | every chunk sharing a term with the query is scored |
| Rag.Search | makino-ai-companion/src/chat/rag.py:175-209 | there are at most top_k results |
| Rag.SearchTopK | makino-ai-companion/src/chat/rag.py:204-209 | when a matching chunk sharing a term with the query is missing from the results, there are exactly top_k results and each scores at least as high as it |
| Text.TakeKeepsBest | makino-ai-companion/src/chat/rag.py:204-208 | cutting an ordered list to its first top_k: an element left out means the cut is full and every kept element ranks at least as high |
| Rag.ScoreMonotone | makino-ai-companion/src/chat/rag.py:201 | more hits never give a lower score |
| Rag.SearchSound | makino-ai-companion/src/chat/rag.py:175-209 | every result has a positive score and comes from the chunks, and with a pattern every result lists that pattern |
| Rag.PositiveScore | makino-ai-companion/src/chat/rag.py:200-201 | a chunk with a hit has a positive score |
| Rag.RankedSound | makino-ai-companion/src/chat/rag.py:187-203 | the ranking holds only chunks of the pattern with at least one hit, with their hit counts |
| Rag.SearchOrdered | makino-ai-companion/src/chat/rag.py:203-209 | results come in non-increasing score order |
| Rag.SearchScores | makino-ai-companion/src/chat/rag.py:199-201 | each score is the number of query terms in the chunk divided by the number of terms |
| Rag.SearchFindsAll | makino-ai-companion/src/chat/rag.py:175-209 | with top_k at least the number of chunks, every chunk of the pattern that shares a term with the query is found |
| Rag.ScoreAllFilter | makino-ai-companion/src/chat/rag.py:187-201 | scoring a sub-list of the chunks never scores more of them |
| Rag.UnfilteredFindsMore | makino-ai-companion/src/chat/rag.py:175-209 | for the same query and top_k, search without a pattern returns at least as many results as with one |
| Rag.Block | makino-ai-companion/src/chat/rag.py:217-220 | each reference block starts with "【参照" |
| Rag.Blocks | makino-ai-companion/src/chat/rag.py:216-220 | block k is the block of result k numbered from the given start |
| Rag.FormatContext | makino-ai-companion/src/chat/rag.py:211-223 | no results give the fixed not-found text |
| Rag.ContextBlocks | makino-ai-companion/src/chat/rag.py:211-223 | the context is the not-found text exactly when there are no results, and otherwise contains the block of every result, numbered from 1 |
| Rag.GetSources | makino-ai-companion/src/chat/rag.py:225-234 | the sources are distinct and are exactly the results' source files |
| Rag.SourcesFirstOccurrence | makino-ai-companion/src/chat/rag.py:225-234 | the sources keep each source file at its first occurrence, in order |
| VectorRag.LoadIndex | makino-ai-companion/src/chat/vector_rag.py:138-167 | loading succeeds exactly when both files exist, both read, and the index size equals the saved chunk count; a loaded index always matches its chunks |
| VectorRag.Construct | makino-ai-companion/src/chat/vector_rag.py:71-92 | the engine always ends with an index sized to its chunks and keeps the threshold |
| VectorRag.ConstructLoads | makino-ai-companion/src/chat/vector_rag.py:138-167 | a usable saved index is taken with its saved chunks and nothing is written; without a path, a missing file or an unreadable one, the given chunks are indexed |
| VectorRag.MismatchRebuildsSavedChunks | makino-ai-companion/src/chat/vector_rag.py:155-161 | on a count mismatch the rebuild indexes the saved chunks, which replaced the given ones before the check |
| VectorRag.SaveThenLoad | makino-ai-companion/src/chat/vector_rag.py:94-167 | after a rebuild saves a non-empty index, the next construction loads it back with the same chunks |
| VectorRag.Requested | makino-ai-companion/src/chat/vector_rag.py:192-193 | the neighbour count is min(3·top_k, ntotal) with a pattern and min(top_k, ntotal) without |
| VectorRag.RequestedCoversCut | makino-ai-companion/src/chat/vector_rag.py:192-210 | enough neighbours are requested to fill min(top_k, ntotal) results |
| VectorRag.PostFilter | makino-ai-companion/src/chat/vector_rag.py:196-208 | the kept results meet the threshold, come from the chunks and carry the pattern when one is given; an index past the chunk list raises |
| VectorRag.Search | makino-ai-companion/src/chat/vector_rag.py:169-210 | a missing or empty index gives no results; otherwise at most top_k results, all above the threshold and of the pattern |
| VectorRag.PostFilterOrdered | makino-ai-companion/src/chat/vector_rag.py:196-210 | the results keep the index's order, so neighbours in descending score give results in descending score |
| VectorRag.PostFilterScores | makino-ai-companion/src/chat/vector_rag.py:196-210 | every result's score is the score of one of the neighbours |
| VectorRag.ConsistentSearchSucceeds | makino-ai-companion/src/chat/vector_rag.py:155-204 | with an index that matches its chunks, search never fails |
| VectorRag.ScoredBlock | makino-ai-companion/src/chat/vector_rag.py:217-222 | each reference block starts with "【参照" |
| VectorRag.ScoredBlocks | makino-ai-companion/src/chat/vector_rag.py:216-222 | block k is the block of result k numbered from the given start |
| VectorRag.FormatContext | makino-ai-companion/src/chat/vector_rag.py:212-225 | no results give the fixed not-found text |
| VectorRag.ContextBlocks | makino-ai-companion/src/chat/vector_rag.py:212-225 | the context is the not-found text exactly when there are no results, and otherwise contains every result's block, numbered from 1 |
| Processor.SplitTags | makino-ai-companion/src/knowledge_base/processor.py:82-84 | each expression tag is a non-empty comma-free piece without surrounding whitespace |
| Processor.StrippedPieces | makino-ai-companion/src/knowledge_base/processor.py:82-84 | stripping and dropping blank pieces keeps at most as many pieces, each non-empty and unpadded |
| Processor.ReadRowHas | makino-ai-companion/src/knowledge_base/processor.py:70-71 | a row read by the dictionary reader has exactly the header's columns, whatever the line's length |
| Processor.ReadRowCell | makino-ai-companion/src/knowledge_base/processor.py:70-71 | a column holds the line's cell at its last header position, or None when the line is too short to reach it |
| Processor.CompleteByHeader | makino-ai-companion/src/knowledge_base/processor.py:73-79 | a row has every required column exactly when the header does, so a missing column skips every row and never only some |
| Processor.MapRow | makino-ai-companion/src/knowledge_base/processor.py:73-90 | a row missing a required column is skipped, a None tag cell raises the uncaught AttributeError, and otherwise the entry carries the required cells (None included), the emotion tag defaults to "" and the priority to "中" only for absent columns, and the tags are those of the cell or none |
| Processor.LoadLines | makino-ai-companion/src/knowledge_base/processor.py:67-93 | a load that succeeds has no more entries than lines, and one that fails fails with the AttributeError |
| Processor.LoadKnowledgeCsv | makino-ai-companion/src/knowledge_base/processor.py:63-93 | a missing file raises FileNotFoundError naming the path, and a table with at most a header loads no entries |
| Processor.LoadLinesExact | makino-ai-companion/src/knowledge_base/processor.py:67-93 | the load fails exactly when some non-blank line raises, and otherwise yields, in order, the entries of the lines that make one |
| Processor.HeaderLacksColumn | makino-ai-companion/src/knowledge_base/processor.py:71-91 | a header without some required column loads no entries and never raises |
| Processor.ShortLineAborts | makino-ai-companion/src/knowledge_base/processor.py:82-91 | with a complete header, one non-blank line stopping before the tag column makes the whole load fail |
| Processor.LoadKeepsEveryLine | makino-ai-companion/src/knowledge_base/processor.py:67-93 | with a complete header, a load that succeeds has one entry per non-blank line, each line's entry present |
| Processor.ValidateEntry | makino-ai-companion/src/knowledge_base/processor.py:96-125 | no messages exactly when id, topic, answer and source are neither None nor empty and category and priority are valid; one message per violation |
| Processor.ValidateKnowledgeBase | makino-ai-companion/src/knowledge_base/processor.py:128-149 | the result maps distinct ids, each to a non-empty error list |
| Processor.FailuresBy | makino-ai-companion/src/knowledge_base/processor.py:140-147 | the failures dictionary has distinct keys with non-empty error lists |
| Processor.AssignKeeps | makino-ai-companion/src/knowledge_base/processor.py:145 | storing a non-empty list keeps the keys distinct and every list non-empty |
| Processor.AssignValues | makino-ai-companion/src/knowledge_base/processor.py:145 | storing a non-empty list keeps every list non-empty |
| Processor.FailuresByExact | makino-ai-companion/src/knowledge_base/processor.py:140-147 | an id maps to the errors of the last failing entry with that id, and the dictionary is empty exactly when no entry fails |
| Processor.LastErrorsAgree | makino-ai-companion/src/knowledge_base/processor.py:140-147 | the last failure found by the generic scan is the last failing entry's validation errors |
| Processor.ValidateKnowledgeBaseExact | makino-ai-companion/src/knowledge_base/processor.py:128-149 | each failing id maps to its last entry's errors (a later duplicate overwrites), and the result is empty exactly when every entry validates |
| Processor.EntriesByCategory | makino-ai-companion/src/knowledge_base/processor.py:152-172 | the result holds exactly the entries of the category and, when the priority is non-empty, of that priority |
| Processor.FilterFilter | makino-ai-companion/src/knowledge_base/processor.py:167-171 | filtering twice equals filtering once by the conjunction |
| Processor.EntriesByCategoryOnePass | makino-ai-companion/src/knowledge_base/processor.py:152-172 | with a priority the result is the order-preserving sub-list of entries with both the category and the priority |
| Processor.CategoryStats | makino-ai-companion/src/knowledge_base/processor.py:191-192 | one "category_" count per valid category, each the number of entries in that category |
| Processor.GenerateStats | makino-ai-companion/src/knowledge_base/processor.py:175-194 | the statistics hold the total first and one count per priority and category |
| Processor.CountSplit | makino-ai-companion/src/knowledge_base/processor.py:185-188 | three predicates of which each entry meets exactly one count up to the total |
| Processor.PrioritiesAddUp | makino-ai-companion/src/knowledge_base/processor.py:184-189 | over valid entries the three priority counts add up to the total |
| Processor.CategoryCountsSum | makino-ai-companion/src/knowledge_base/processor.py:191-192 | the category counts add up to the number of entries with one of those categories |
| Processor.CountDisjoint | makino-ai-companion/src/knowledge_base/processor.py:191-192 | counting by a disjoint union adds the two counts |
| Processor.CategoriesDistinct | makino-ai-companion/src/knowledge_base/processor.py:16-23 | the valid categories are distinct |
| Processor.CategoriesAddUp | makino-ai-companion/src/knowledge_base/processor.py:175-194 | over valid entries the per-category counts add up to the total |
| Profile.AnyLevel | makino-ai-companion/src/memory/profile_manager.py:108-114 | a level mark is seen exactly when some detailed understanding entry's level contains it |
| Profile.NamedTopics | makino-ai-companion/src/memory/profile_manager.py:125-128 | no more topics are named than there are items |
| Profile.Guidelines | makino-ai-companion/src/memory/profile_manager.py:100-140 | at most five guidelines; the two beginner guidelines appear exactly for a beginner level and the advanced one exactly for an advanced level |
| Profile.ConcreteDistinct | makino-ai-companion/src/memory/profile_manager.py:117-138 | the four fixed guidelines are different texts |
| Profile.TopicGuidelineDistinct | makino-ai-companion/src/memory/profile_manager.py:130-132 | the unresolved-topic guideline is never one of the fixed level guidelines |
| Profile.NamedTopicsBound | makino-ai-companion/src/memory/profile_manager.py:123-132 | at most two topics are named in the guideline, taken from the first two items |
| Profile.NamedTopicsFrom | makino-ai-companion/src/memory/profile_manager.py:125-128 | every named topic is the topic of a record item |
| Profile.ContainsWithin | makino-ai-companion/src/memory/profile_manager.py:137 | containment of text is transitive |
| Profile.ConcreteNeedsNoBeginner | makino-ai-companion/src/memory/profile_manager.py:116-138 | the concrete-examples guideline appears only when it is asked for and no beginner guideline is present |
| Profile.ConcreteAlone | makino-ai-companion/src/memory/profile_manager.py:100-140 | asking for concrete examples with no level marks and no topic records gives exactly that one guideline |
| Profile.NoTopics | makino-ai-companion/src/memory/profile_manager.py:126-128 | items that are not records name no topic |
| Profile.LevelLines | makino-ai-companion/src/memory/profile_manager.py:50-58 | each understanding entry gives at least one line |
| Profile.ItemTexts | makino-ai-companion/src/memory/profile_manager.py:80-85 | each unresolved item is shown by its topic or as itself, in order |
| Profile.UnresolvedSection | makino-ai-companion/src/memory/profile_manager.py:77-85 | the section is absent without items and otherwise a heading plus one bullet for each of at most three items |
| Profile.Parts | makino-ai-companion/src/memory/profile_manager.py:44-92 | the parts always begin with the "## このユーザーについて" header |
| Profile.LoadProfileContext | makino-ai-companion/src/memory/profile_manager.py:17-97 | an empty or "anonymous" user, unparsable JSON and an empty profile give nothing; otherwise there is a context exactly when something beyond the header is emitted, and it starts with the header line |
| Profile.JoinHead | makino-ai-companion/src/memory/profile_manager.py:97 | joining two or more parts starts with the first part and the separator |
| ContentStore.Loaded | ai-development/src/text_handler.py:171-174 | a syntax error and a falsy value read as no keys, a mapping gives its keys, and a truthy non-mapping value makes the later key lookups fail |
| ContentStore.RunEnd | ai-development/src/text_handler.py:166 | the whitespace run after a position ends within the text |
| ContentStore.LastBreak | ai-development/src/text_handler.py:166 | the greedy `\s*\n` ends at the last newline of the whitespace run, and there is none when the run holds no newline |
| ContentStore.CloseFrom | ai-development/src/text_handler.py:166 | the lazy `(.*?)` stops at the first "\n---" line followed by whitespace and a newline, taking the longest such run |
| ContentStore.OpenFrom | ai-development/src/text_handler.py:166 | the match prefers the earliest break after the opening "---" whose block has a closing line, or reports that none has |
| ContentStore.FindBlock | ai-development/src/text_handler.py:166-167 | there is no match exactly when no front-matter block exists, and the match found is the one the regex engine prefers |
| ContentStore.ParseFrontmatter | ai-development/src/text_handler.py:164-176 | without a block the mapping is empty and the body is the text; with one the body is what follows the closing line, and malformed YAML gives an empty mapping |
| ContentStore.EntryTextPositions | ai-development/src/text_handler.py:76-87 | the written entry is "---", the dumped YAML, "---", a blank line, the "# title" heading, a blank line, the body and a final newline |
| ContentStore.OpensAtFour | ai-development/src/text_handler.py:166 | a text opening "---\n" followed by a non-space starts its block right after the newline |
| ContentStore.ClosesAt | ai-development/src/text_handler.py:166 | "\n---\n\n#" closes the block, with the whitespace run ending before the heading |
| ContentStore.NoCloseInside | ai-development/src/text_handler.py:166 | YAML that holds no "\n---" cannot close the block early |
| ContentStore.CreateEntry | ai-development/src/text_handler.py:25-88 | the new file takes a name not yet taken, the first free "{date}_{slug}.md" or "{date}_{slug}_{k}.md", and its front matter holds the title, category, both timestamps, status "draft", the tags or [] and the source or "" |
| ContentStore.ReadText | ai-development/src/text_handler.py:90-113 | reading fails only on unusable front matter; the body is stripped and missing keys default to "" and the tags to [] |
| ContentStore.EntryTextBlock | ai-development/src/text_handler.py:164-171 | the front-matter pattern finds exactly the block that was written |
| ContentStore.CreateThenRead | ai-development/src/text_handler.py:25-113 | reading a created entry back gives its title, category, timestamps, tags, source, status "draft" and the stripped heading and body |
| ContentStore.RegisterImageAsWritten | ai-development/src/image_handler.py:27-100 | a missing source fails before the extension is checked, an unlisted lower-cased suffix fails, and the image never overwrites; the metadata name is "{date}_{slug}.meta.yaml" whether taken or not |
| ContentStore.ReRegisterOverwritesMeta | ai-development/src/image_handler.py:71-98 | registering the same title twice on one day writes the second metadata over the first, which then no longer describes the first image |
| ContentStore.RegisterImage | ai-development/src/image_handler.py:27-100 | the corrected registration: the same failures, and the image and the metadata both take names not yet taken, so two files are added; the metadata names the image, status "draft", tags or [], source or "" |
| ContentStore.ReRegisterKeepsBoth | ai-development/src/image_handler.py:71-98 | with the corrected naming, registering the same title twice keeps both images and both metadata files |
| ContentStore.ReadImage | ai-development/src/image_handler.py:102-128 | reading fails exactly on metadata that does not parse as YAML (no handler catches the error) or is a truthy non-mapping; the image path is "" exactly when image_file is empty, else the file beside the metadata, and the tags default to [] |
| ContentStore.SearchDirs | ai-development/src/text_handler.py:131-140 | with a category only that directory is searched (when present), else every visible subdirectory |
| ContentStore.ListDirExact | ai-development/src/text_handler.py:142-150 | the listing of a directory holds exactly the readable entries of the right suffix that pass the tag filter |
| ContentStore.ListDirsExact | ai-development/src/text_handler.py:142-150 | the listing over several directories holds exactly what some directory lists |
| ContentStore.ListEntriesExact | ai-development/src/text_handler.py:115-152 | the listing holds exactly the readable entries with the tag in the searched directories; unreadable files are skipped |
| ContentStore.ListTextInCategory | ai-development/src/text_handler.py:115-152 | with a category every text entry listed lies in that category's directory and carries the tag |
| ContentStore.ListedImageParsed | ai-development/src/image_handler.py:111-165 | a metadata file whose YAML does not parse is skipped by the listing: every listed image entry comes from a metadata file that parsed |
| ContentStore.ListImagesInCategory | ai-development/src/image_handler.py:130-167 | with a category every image entry listed lies in that category's directory and carries the tag |
| ContentManager.ListAll | ai-development/src/content_manager.py:100-125 | the listing is a rearrangement of the gathered text and image entries |
| ContentManager.ListAllMembers | ai-development/src/content_manager.py:116-122 | text entries are listed exactly for content type None or "text", image entries exactly for None or "images", and any other type lists nothing |
| ContentManager.ListAllNewestFirst | ai-development/src/content_manager.py:124 | the listing is sorted by created_at descending, and entries with equal timestamps keep their gathered order |
| ContentManager.Search | ai-development/src/content_manager.py:127-151 | the results are exactly the listed entries whose joined searchable text contains the lower-cased query |
| ContentManager.SearchNewestFirst | ai-development/src/content_manager.py:139-151 | search results stay newest first |
| ContentManager.SearchEmptyQuery | ai-development/src/content_manager.py:148 | the empty query matches every entry |
| ContentManager.SearchSpansFields | ai-development/src/content_manager.py:140-148 | a query can match across the space between two fields while matching no single field |
| ContentManager.CategoriesOf | ai-development/src/content_manager.py:210-218 | entry i's category is category i |
| ContentManager.KindsPartition | ai-development/src/content_manager.py:208-209 | every entry is a text or an image entry, never both |
| ContentManager.GetStats | ai-development/src/content_manager.py:205-227 | the total is the text count plus the image count, and each per-category table has distinct keys summing to its count |
| ContentManager.StatsByCategory | ai-development/src/content_manager.py:211-219 | each category's count is the number of listed entries of that kind in it |
| ContentManager.EntryLine | ai-development/src/content_manager.py:177-183 | an index line is a bullet |
| ContentManager.EntryLines | ai-development/src/content_manager.py:176-183 | one index line per entry, in order |
| ContentManager.Section | ai-development/src/content_manager.py:172-184 | an empty section emits nothing; otherwise the heading, a blank line, one line per entry and a blank line |
| ContentManager.Header | ai-development/src/content_manager.py:162-169 | the index opens with six header lines starting with the title |
| ContentManager.HeaderHasNoHeading | ai-development/src/content_manager.py:162-169 | neither section heading occurs among the header lines |
| ContentManager.SectionHasNoOtherHeading | ai-development/src/content_manager.py:172-199 | a section never contains the other section's heading |
| ContentManager.UpdateIndexEntries | ai-development/src/content_manager.py:153-203 | every entry of the full listing, text or image, has its index line on the page `update_index` writes |
| ContentManager.IndexStructure | ai-development/src/content_manager.py:153-203 | the index has the header, then the text section only when there are text entries and the image section only when there are images, one line per entry |
| Slugs.Sanitize | ai-development/src/text_handler.py:157 | every character outside the kept classes becomes "_", one for one |
| Slugs.Squeeze | ai-development/src/text_handler.py:158 | runs of "_" collapse to one, so no "__" remains |
| Slugs.Trim | ai-development/src/text_handler.py:158 | stripping the outer "_" leaves no "_" at either end and keeps the letters |
| Slugs.Cut | ai-development/src/text_handler.py:160-161 | the cut keeps a prefix of at most 80 characters without a trailing "_", and a short slug unchanged |
| Slugs.Slugify | ai-development/src/text_handler.py:154-162 | a slug has at most 80 characters, no "__", no "_" at either end, and only kept characters and "_" |
| Slugs.SliceNoRun | ai-development/src/text_handler.py:161 | a slice of a text without "__" has none |
| Slugs.SanitizeLetters | ai-development/src/text_handler.py:157 | the substitution keeps exactly the kept characters other than "_", in order |
| Slugs.SqueezeLetters | ai-development/src/text_handler.py:158 | collapsing runs of "_" keeps the other characters |
| Slugs.SliceLetters | ai-development/src/text_handler.py:158 | dropping outer "_" keeps the other characters |
| Slugs.PrefixLetters | ai-development/src/text_handler.py:161 | the letters of a prefix are a prefix of the letters |
| Slugs.SlugifyLetters | ai-development/src/text_handler.py:154-162 | the slug's non-"_" characters are a prefix of the title's kept characters, all of them when the title has at most 80 characters |
| Slugs.SanitizeSafe | ai-development/src/text_handler.py:157 | a text of kept characters and "_" is unchanged by the substitution |
| Slugs.SqueezeNoRun | ai-development/src/text_handler.py:158 | a text without "__" is unchanged by the collapse |
| Slugs.SlugifyFixes | ai-development/src/text_handler.py:154-162 | a slug is its own slug |
| Slugs.SlugifyIdempotent | ai-development/src/text_handler.py:154-162 | slugifying twice gives the same slug as once |
| Slugs.Candidate | ai-development/src/text_handler.py:51-61 | the first name tried is the plain "{stem}{ext}" |
| Slugs.CandidateInjective | ai-development/src/text_handler.py:59-63 | different attempts give different names |
| Slugs.TakenBound | ai-development/src/text_handler.py:59-63 | k distinct taken candidates need at least k taken names, so the loop ends |
| Slugs.FirstFree | ai-development/src/text_handler.py:59-63 | the search stops at the first candidate not taken, within the number of taken names |
| Slugs.FreeNameOf | ai-development/src/text_handler.py:50-63 | the chosen name is never taken, and it is "{stem}{ext}" when that is free |
| Slugs.FreeName | ai-development/src/image_handler.py:71-77 | the loop picks the first free candidate, every earlier candidate being taken |
| Pdf.Open | pdf-upload-system/src/pdf_processor.py:58-66 | a missing file gives FileNotFoundError, a file that does not open as a PDF gives ValueError, and otherwise the document keeps the absolute path, pages and metadata |
| Pdf.OrEmpty | pdf-upload-system/src/pdf_processor.py:91-94 | a metadata value is its text when present and "" otherwise |
| Pdf.GetInfo | pdf-upload-system/src/pdf_processor.py:83-96 | the information carries the path, the page count, the file size and each metadata field or "" |
| Pdf.ExtractPage | pdf-upload-system/src/pdf_processor.py:98-120 | a page comes back exactly when 1 ≤ n ≤ page count, keeping its number, text and image count; otherwise IndexError |
| Pdf.PageRange | pdf-upload-system/src/pdf_processor.py:139 | the pages lo..hi come back in order, none when lo > hi |
| Pdf.ExtractPages | pdf-upload-system/src/pdf_processor.py:122-139 | start is raised to 1, end (page count when absent) is lowered to the page count, and the pages between come back ascending, none when start > end |
| Pdf.ExtractPagesAll | pdf-upload-system/src/pdf_processor.py:133-139 | with no arguments every page comes back, numbered from 1 |
| Pdf.PageMarker | pdf-upload-system/src/pdf_processor.py:146 | a marker line reads "--- Page n ---" |
| Pdf.MarkedParts | pdf-upload-system/src/pdf_processor.py:144-147 | each page contributes its marker line followed by its text, in order |
| Pdf.ExtractAllText | pdf-upload-system/src/pdf_processor.py:141-148 | an empty document gives ""; every page's marker and text appear |
| Pdf.ExtractAllTextOnePage | pdf-upload-system/src/pdf_processor.py:141-148 | a one-page document gives its marker line, a newline and its text |
| Pdf.Snippet | pdf-upload-system/src/pdf_processor.py:170-179 | the snippet gets "..." in front exactly when the window starts after 0 and behind when it ends before the text does, is the stripped text when the window covers it, and is never longer than the query plus 166 |
| Pdf.PageHit | pdf-upload-system/src/pdf_processor.py:160-185 | a page is a hit exactly when its lower-cased text contains the lower-cased query, with its 1-based number and the number of non-overlapping occurrences |
| Pdf.CollectOrdered | pdf-upload-system/src/pdf_processor.py:160-188 | the collected hits have page numbers in range and strictly increasing |
| Pdf.CollectSound | pdf-upload-system/src/pdf_processor.py:160-185 | each collected hit is the one its page gives |
| Pdf.CollectComplete | pdf-upload-system/src/pdf_processor.py:160-185 | every page with a hit has its hit collected |
| Pdf.HitIndex | pdf-upload-system/src/pdf_processor.py:160-185 | the k-th collected hit names a page in range, and is the hit that page gives |
| Pdf.PageHitsNumbered | pdf-upload-system/src/pdf_processor.py:182 | every hit carries the number of the page it came from |
| Pdf.HitsSound | pdf-upload-system/src/pdf_processor.py:160-185 | each hit is the hit of the page it names |
| Pdf.HitFacts | pdf-upload-system/src/pdf_processor.py:164-185 | a hit's page contains the query, ignoring case, and its count is the number of occurrences |
| Pdf.HitsMatch | pdf-upload-system/src/pdf_processor.py:160-185 | every hit names a page that contains the query, ignoring case, with the right occurrence count |
| Pdf.HitsComplete | pdf-upload-system/src/pdf_processor.py:160-185 | every page containing the query, ignoring case, has a hit |
| Pdf.Search | pdf-upload-system/src/pdf_processor.py:150-190 | the results are the first hits, cut at max_results, and a max_results ≤ 0 still lets one result through |
| Pdf.Scan | pdf-upload-system/src/pdf_processor.py:157-190 | the loop collects the hits in page order and stops once max_results are held |
| Pdf.SearchOrdered | pdf-upload-system/src/pdf_processor.py:157-190 | results come in strictly increasing page order |
| Pdf.HitsNone | pdf-upload-system/src/pdf_processor.py:160-185 | there are no hits exactly when no page contains the query, ignoring case |
| Pdf.SearchComplete | pdf-upload-system/src/pdf_processor.py:157-190 | search is empty exactly when there are no hits, returns all hits when they fit, and exactly max_results otherwise |
| Pdf.PageSection | pdf-upload-system/src/pdf_processor.py:216-219 | a page section has four lines, the second and fourth blank |
| Pdf.PageSections | pdf-upload-system/src/pdf_processor.py:212-219 | four lines per page |
| Pdf.PageSectionsAt | pdf-upload-system/src/pdf_processor.py:212-219 | page k's section is "## Page k+1", a blank line, the stripped text and a blank line |
| Pdf.MarkdownTitle | pdf-upload-system/src/pdf_processor.py:198 | the heading is the metadata title, or the file stem when that is empty |
| Pdf.MarkdownHeader | pdf-upload-system/src/pdf_processor.py:197-209 | the header is the title, an author and a subject line only when present, the page count, and the rule |
| Pdf.MarkdownPage | pdf-upload-system/src/pdf_processor.py:212-219 | the Markdown holds a "## Page n" heading for page n |
| Pdf.MarkdownPages | pdf-upload-system/src/pdf_processor.py:192-221 | the Markdown holds a "## Page n" heading for every page |
| Pdf.HeaderUnbroken | pdf-upload-system/src/pdf_processor.py:197-209 | header lines hold no line break when the title, author and subject hold none |
| Pdf.SectionsUnbroken | pdf-upload-system/src/pdf_processor.py:212-219 | section lines hold no line break when no stripped page text does |
| Pdf.MarkdownLines | pdf-upload-system/src/pdf_processor.py:192-221 | for single-line texts the Markdown splits back into the header lines followed by the page sections |
| Pdf.NumberUnbroken | pdf-upload-system/src/pdf_processor.py:216 | a page number holds no line break |
| Organizer.DaysIn | desktop-organizer/src/organizer.py:37 | every month has 28 to 31 days |
| Organizer.OrdinalChronological | desktop-organizer/src/organizer.py:128 | comparing dates by their day number is comparing year, then month, then day, and equal numbers mean equal dates |
| Organizer.MinDateFirst | desktop-organizer/src/organizer.py:128 | datetime.min is no later than any valid date and equals only itself |
| Organizer.FirstDateShape | desktop-organizer/src/organizer.py:14-34 | the search finds the leftmost four-two-two digit pattern from a position, or reports there is none |
| Organizer.ExtractDate | desktop-organizer/src/organizer.py:24-40 | a date found is valid and is read from the leftmost pattern match; there is none exactly when that first match is not a valid calendar date or no match exists |
| Organizer.IsoDate | desktop-organizer/src/organizer.py:37 | a date written "YYYY-MM-DD" has ten characters |
| Organizer.Pow10 | desktop-organizer/src/organizer.py:37 | powers of ten are positive |
| Organizer.NatToStringShort | desktop-organizer/src/organizer.py:37 | a number below 10^k has at most k digits |
| Organizer.ExtractDateAfter | desktop-organizer/src/organizer.py:24-40 | a valid date written after digit-free text is read back |
| Organizer.FirstMatchOnly | desktop-organizer/src/organizer.py:24-40 | "2026-13-01 2026-01-17" gives no date, although a later valid date exists |
| Organizer.GlobFixed | desktop-organizer/src/organizer.py:53-66 | a pattern without "*" matches names of its length, "?" matching any character |
| Organizer.GlobStar | desktop-organizer/src/organizer.py:53-66 | a leading "*" matches when the rest matches some suffix of the name |
| Organizer.StarMatchesAll | desktop-organizer/src/organizer.py:53-66 | "*" alone matches every name |
| Organizer.MatchesAny | desktop-organizer/src/organizer.py:43-66 | a name is a screenshot, or excluded, exactly when some pattern matches the whole name |
| Organizer.MonthFolder | desktop-organizer/src/organizer.py:84 | the default "%Y-%m" folder has seven characters with "-" after the year |
| Organizer.Destination | desktop-organizer/src/organizer.py:113-118 | a dated file with grouping on goes to organized/<date folder>/<name>, anything else to organized/other/<name> |
| Organizer.PlanItem | desktop-organizer/src/organizer.py:91-125 | an item is planned exactly when it is not a directory, not excluded, has a target suffix and matches a screenshot pattern, with its source, extracted date and destination |
| Organizer.ScanDesktopAsWritten | desktop-organizer/src/organizer.py:69-130 | a missing desktop gives FileNotFoundError, and otherwise a plan |
| Organizer.ScanDesktop | desktop-organizer/src/organizer.py:69-130 | the corrected scan, undated last, fails exactly when the desktop is missing |
| Organizer.CandidatesExact | desktop-organizer/src/organizer.py:91-125 | the candidates are exactly the plans of the eligible items, and every date in them is valid |
| Organizer.ScanDesktopPlan | desktop-organizer/src/organizer.py:91-130 | the corrected plan holds exactly the candidates, sorted by date with every undated item after every dated one, keeping listing order among equal keys |
| Organizer.UndatedFirst | desktop-organizer/src/organizer.py:127-128 | as written, anything sorted before an undated item is undated or dated datetime.min, so undated items come first |
| Organizer.UndatedFirstExample | desktop-organizer/src/organizer.py:127-128 | a dated item listed before an undated one ends up after it as written, and before it in the corrected order |
| Organizer.ExecutePlan | desktop-organizer/src/organizer.py:133-166 | moved + skipped + errors is the plan's length; a dry run changes nothing and counts every absent destination as moved; without failures there are no errors and every moved file reaches its destination |
| ThemeIndex.Block | philosophia/scripts/build_index.py:20-22 | the front matter is the shortest non-empty text between an opening "---\n" and the first later "\n---"; there is none when the file does not open that way or never closes |
| ThemeIndex.BlockRoundTrip | philosophia/scripts/build_index.py:20 | a block with no "\n---" inside, written between the markers, is read back |
| ThemeIndex.ListItem | philosophia/scripts/build_index.py:33 | a blank item is dropped; any other is stripped of blanks and then of quotes |
| ThemeIndex.ListItems | philosophia/scripts/build_index.py:32-33 | there are no more items than comma-separated pieces, and no item holds a comma |
| ThemeIndex.PlainItemKept | philosophia/scripts/build_index.py:33 | an item with no blank or quote at either end is kept unchanged |
| ThemeIndex.FilterMapPlain | philosophia/scripts/build_index.py:33 | a list of such items is kept unchanged |
| ThemeIndex.ListItemsJoin | philosophia/scripts/build_index.py:31-33 | plain items joined with commas read back as the same items |
| ThemeIndex.ParseValue | philosophia/scripts/build_index.py:31-35 | a value is a list exactly when it starts with "[" and ends with "]", with the items between; otherwise it is kept as text |
| ThemeIndex.ParseLine | philosophia/scripts/build_index.py:26-29 | a line gives a field exactly when it holds ":", with a stripped key free of ":" |
| ThemeIndex.ParseLineOf | philosophia/scripts/build_index.py:26-35 | "key: value" with a colon-free key gives the stripped key and the parsed stripped value |
| ThemeIndex.FieldsLast | philosophia/scripts/build_index.py:24-36 | each key holds the value of its last line |
| ThemeIndex.Frontmatter | philosophia/scripts/build_index.py:17-36 | a file without front matter gives no fields |
| ThemeIndex.Themes | philosophia/scripts/build_index.py:48 | no "themes" field gives no themes, and a plain-text field is taken one character at a time |
| ThemeIndex.Add | philosophia/scripts/build_index.py:49-68 | a path is appended to the list of its kind only |
| ThemeIndex.PathsForNone | philosophia/scripts/build_index.py:39-70 | a theme no tag names has no paths |
| ThemeIndex.TagThemes | philosophia/scripts/build_index.py:48 | one theme per tag, in order |
| ThemeIndex.BuildLookup | philosophia/scripts/build_index.py:39-70 | a theme is in the index exactly when some tag names it, holding the paths of its tags per kind in order |
| ThemeIndex.BuildKeys | philosophia/scripts/build_index.py:49 | the themes appear in the order they were first met |
| ThemeIndex.MarkdownFiles | philosophia/scripts/build_index.py:46 | the files picked are exactly the listed ones ending in ".md" |
| ThemeIndex.TagsOfListed | philosophia/scripts/build_index.py:46-50 | every theme a file names gives a tag for that file |
| ThemeIndex.PathsForHas | philosophia/scripts/build_index.py:49-50 | each tag puts its path in its theme's list for its kind |
| ThemeIndex.TagListed | philosophia/scripts/build_index.py:49-68 | a tag's path is listed under its theme, in the list of its kind |
| ThemeIndex.DirTagsListed | philosophia/scripts/build_index.py:45-50 | a Markdown file of an existing directory gives a tag per theme it names |
| ThemeIndex.InAllTags | philosophia/scripts/build_index.py:39-70 | a tag of any of the three directories is a tag of the scan |
| ThemeIndex.ScanListed | philosophia/scripts/build_index.py:39-70 | each theme a listed Markdown file names is indexed, with the file under its kind |
| ThemeIndex.FileListed | philosophia/scripts/build_index.py:39-70 | the same, for the themes read from the file's own front matter |
| ThemeIndex.SizeCountsTags | philosophia/scripts/build_index.py:84 | a theme's total is the number of (file, theme) pairs naming it |
| ThemeIndex.PathsForCount | philosophia/scripts/build_index.py:84 | the three per-kind lists together hold as many paths as tags name the theme |
| NoteDetector.NoteNameParts | stem-separator/src/note_detector.py:328-332 | note number 12·(octave+1)+pc is named by its pitch class followed by its octave |
| NoteDetector.MiddleC | stem-separator/src/note_detector.py:328-332 | note 60 is "C4" |
| NoteDetector.GuessInstrument | stem-separator/src/note_detector.py:88-94 | the answer is the first of vocals, drums, bass, guitar, piano that the lower-cased name contains, and "other" exactly when it contains none |
| NoteDetector.ResolveInstrument | stem-separator/src/note_detector.py:77-78 | a requested instrument is kept; "auto" becomes one of the five names or "other" |
| NoteDetector.VocalsBeforeDrums | stem-separator/src/note_detector.py:88-94 | a name holding both "drums" and "vocals" is taken as vocals |
| NoteDetector.RunStart | stem-separator/src/note_detector.py:156-172 | a note starts at the first frame of the run of equal voiced pitches it closes |
| NoteDetector.NoteAt | stem-separator/src/note_detector.py:162-182 | a closing frame emits the previous pitch, from its run's first frame to this frame, at velocity 80 |
| NoteDetector.Closers | stem-separator/src/note_detector.py:156-182 | exactly the frames that close a note, in increasing order |
| NoteDetector.NotesAt | stem-separator/src/note_detector.py:156-185 | the notes are one per closing frame, in order, each the note that frame emits |
| NoteDetector.DetectWithPyin | stem-separator/src/note_detector.py:144-185 | the loop over the frames produces exactly those notes |
| NoteDetector.RunStartAfterCloser | stem-separator/src/note_detector.py:162-172 | a run ending at or after a closing frame starts no earlier than it |
| NoteDetector.NotesOrdered | stem-separator/src/note_detector.py:144-185 | with increasing frame times every note ends after it starts, and no note starts before the previous one ends |
| NoteDetector.SegmentLength | stem-separator/src/note_detector.py:214-218 | the segment around an onset is at most 4096 samples, and exactly that far from both ends |
| NoteDetector.Classify | stem-separator/src/note_detector.py:225-234 | below 200 Hz is a kick (36), below 2000 Hz a snare (38), anything higher a hihat (42) |
| NoteDetector.HitKinds | stem-separator/src/note_detector.py:243 | one kind per hit, in order |
| NoteDetector.AnalyzeDrums | stem-separator/src/note_detector.py:187-252 | the pattern counts every kind exactly as often as the hits show it, no more hits than onsets |
| NoteDetector.DrumHits | stem-separator/src/note_detector.py:211-243 | the hits are exactly the onsets whose segment has at least 1024 samples, each classified by its centroid at velocity 100 |
| NoteDetector.Program | stem-separator/src/note_detector.py:371-378 | bass is program 33, guitar 25, vocals 52, anything else 0 |
| NoteDetector.ToMidi | stem-separator/src/note_detector.py:334-393 | drums give a drum track with a 100 ms note per hit at its drum note; other instruments a track of their program with one note per detected note, same pitch and times |
| NoteDetector.TrackOrdered | stem-separator/src/note_detector.py:144-185 | the melodic track of detected notes has each note ending after it starts and none overlapping the previous |
| Matcher.Candidates | stem-separator/src/matcher.py:61-67 | the candidates are exactly the catalogued sounds with error-free features, in the filter's category (compared lower-cased) when a filter is given |
| Matcher.MatchSounds | stem-separator/src/matcher.py:69-90 | no candidates give no matches, and never more than top_k |
| Matcher.MatchTopK | stem-separator/src/matcher.py:74-90 | when a candidate with positive similarity is left out, there are exactly top_k matches and each is at least as similar as it |
| Matcher.MatchSound | stem-separator/src/matcher.py:74-90 | every match is a candidate whose unrounded similarity is positive, recorded with its rounded similarity, and the matches are in non-increasing similarity |
| Matcher.MatchComplete | stem-separator/src/matcher.py:74-90 | with room for all candidates every candidate of positive unrounded similarity is matched, and sounds of equal similarity keep catalogue order |
| Matcher.TinySimilarityKept | stem-separator/src/matcher.py:77-83 | a candidate whose similarity is positive but rounds to 0 is still matched, with similarity 0 |
| Matcher.GuessCategory | stem-separator/src/matcher.py:183-198 | the category is that of the first key of drums, bass, piano, guitar, vocals, other the lower-cased stem contains; none when it contains none of the first five |
| Matcher.MatchStem | stem-separator/src/matcher.py:166-209 | the result names the file and its guessed category, and all its matches lie in that category |
| Matcher.BassStem | stem-separator/src/matcher.py:183-198 | "song_bass" is matched in "Bass" |
| Matcher.Mark | stem-separator/src/matcher.py:262-272 | every match is kept in order with the given keyword flag |
| Matcher.KeywordFirstAt | stem-separator/src/matcher.py:251-281 | the result has min(top_k, all) entries: the keyword matches first, flagged, then the others in order, unflagged |
| Matcher.KeywordFirstShape | stem-separator/src/matcher.py:251-281 | every entry comes from the matches, is flagged exactly when it has a keyword, and flagged ones precede unflagged ones; enough keyword matches leave no unflagged entry |
| Matcher.UnknownPart | stem-separator/src/matcher.py:248 | with no keywords the first top_k matches are kept unflagged |
| Matcher.UnknownDrumStem | stem-separator/src/matcher.py:248-251 | a part outside the drum table gets the first top_k of the 3·top_k plain matches |
| Matcher.PickCategories | stem-separator/src/matcher.py:351-352 | one category per picked part, in order |
| Matcher.KitSuggestion | stem-separator/src/matcher.py:321-360 | the parts are the best match of every part with matches, and there is a recommended kit exactly when there is some part |
| Matcher.KitIsMostFrequent | stem-separator/src/matcher.py:351-358 | the recommended kit is a category of a pick that no other category outnumbers, the first such one met |
| Catalog.SoundOf | stem-separator/src/catalog_builder.py:101-114 | a file directly in the library is "Uncategorized"; otherwise its first folder is the category and, when nested two deep, its second the subcategory; the name is the stem and the format the lower-cased suffix |
| Catalog.CategoryNames | stem-separator/src/catalog_builder.py:110 | one category per sound |
| Catalog.AddSoundLookup | stem-separator/src/catalog_builder.py:118-126 | counting a sound changes only its own category's entry |
| Catalog.CountTally | stem-separator/src/catalog_builder.py:121-126 | counting a sound adds one to its category and one to its subcategory, if any |
| Catalog.CategoryLookup | stem-separator/src/catalog_builder.py:116-126 | each category's entry counts the sounds in it and tallies their subcategories |
| Catalog.SameCategoryStep | stem-separator/src/catalog_builder.py:119-126 | counting one more sound of a category keeps its entry equal to the tally of its sounds |
| Catalog.ExpectedCounted | stem-separator/src/catalog_builder.py:119-126 | the entry expected after one more sound of a category is the entry before with that sound counted |
| Catalog.SameCategoryLast | stem-separator/src/catalog_builder.py:121-126 | one more sound of a category adds one to its count and its subcategory, if any, to the subcategory tally |
| Catalog.OtherCategoryStep | stem-separator/src/catalog_builder.py:119-126 | one more sound of another category leaves a category's expected entry alone |
| Catalog.TallySnoc | stem-separator/src/catalog_builder.py:124-126 | tallying one more key bumps that key's count |
| Catalog.SubcategoriesNone | stem-separator/src/catalog_builder.py:123-126 | a category with no sounds has no subcategories |
| Catalog.SubcategoriesBounded | stem-separator/src/catalog_builder.py:121-126 | a category's subcategory counts add up to at most its count |
| Catalog.CategoryOrder | stem-separator/src/catalog_builder.py:119-120 | the categories appear in the order their first sound was found |
| Catalog.Scan | stem-separator/src/catalog_builder.py:66-141 | with no library the catalogue is unchanged and 0 returned; otherwise the number returned is the number of sounds, as are the totals in the stats, and every sound has an audio format |
| Catalog.AllSoundsAudio | stem-separator/src/catalog_builder.py:96-99 | every catalogued sound has one of the six audio suffixes |
| Catalog.LibraryAudio | stem-separator/src/catalog_builder.py:96-99 | the same, for one library |
| Catalog.LibraryCatalogued | stem-separator/src/catalog_builder.py:91-116 | every audio entry of every scanned library is catalogued |
| Catalog.ScanCounts | stem-separator/src/catalog_builder.py:116-135 | a category is listed exactly when some sound has it, with the count of its sounds and subcategory counts adding up to at most that |
| Catalog.ExpectedCounts | stem-separator/src/catalog_builder.py:116-135 | the expected entry exists exactly for a category some sound has, counts its sounds, and its subcategory counts add up to no more |
| Catalog.Search | stem-separator/src/catalog_builder.py:226-249 | the loop returns the first matching sounds, stopping once it has limit of them |
| Catalog.TakeKept | stem-separator/src/catalog_builder.py:228-249 | the loop keeps the first kept sounds up to the limit |
| Catalog.TakeFilterPrefix | stem-separator/src/catalog_builder.py:244-247 | the kept sounds of a prefix are a prefix of all the kept sounds |
| Catalog.SearchResults | stem-separator/src/catalog_builder.py:209-249 | at most the limit of results, all catalogued and matching the category and query, and all matches when they fit |
| Catalog.NoneFindsMissingSubcategory | stem-separator/src/catalog_builder.py:239 | the query "none" finds every sound without a subcategory |
| Catalog.ListedAfterScan | stem-separator/src/catalog_builder.py:251-253 | after a scan the categories are listed in first-found order, each once |
| PromptBuilder.FieldText | stem-separator/src/prompt_builder.py:45-68 | a field gives a line exactly when the analysis has that key |
| PromptBuilder.LineField | stem-separator/src/prompt_builder.py:46-68 | a line is read as the field whose label starts it |
| PromptBuilder.LineFieldOfLabel | stem-separator/src/prompt_builder.py:46-68 | no label starts another's line, so the labels tell the lines apart |
| PromptBuilder.FormatAnalysisFields | stem-separator/src/prompt_builder.py:41-70 | an empty analysis gives empty text; otherwise the lines of the text name exactly the present keys, in the fixed order |
| PromptBuilder.LinesReadBack | stem-separator/src/prompt_builder.py:43-68 | one line per present key, its labels in order |
| PromptBuilder.LinesUnbroken | stem-separator/src/prompt_builder.py:43-68 | with single-line values no line holds a line break |
| PromptBuilder.LineBreakFree | stem-separator/src/prompt_builder.py:46-68 | a present field's line holds no line break when its value holds none |
| PromptBuilder.MatchLines | stem-separator/src/prompt_builder.py:78-80 | one numbered line per match, counting on from the first number |
| PromptBuilder.FormatMatchesLines | stem-separator/src/prompt_builder.py:72-82 | the header and then one line "i. name (" per match, at most five |
| PromptBuilder.MatchLineUnbroken | stem-separator/src/prompt_builder.py:80 | a match line holds no line break when its fields hold none |
| PromptBuilder.MatchLinePrefix | stem-separator/src/prompt_builder.py:80 | a match line starts with its number, ". ", the name and " (" |
| PromptBuilder.NoBreakInInt | stem-separator/src/prompt_builder.py:78-80 | a number written out holds no line break |
| PromptBuilder.KindOf | stem-separator/src/prompt_builder.py:30-38 | each of the four other advice names selects its builder, and any other name the recreation builder |
| PromptBuilder.MatchesInclusion | stem-separator/src/prompt_builder.py:84-95 | without matches, or for a builder that ignores them, the prompt is the bare one; otherwise the match block is inserted after the analysis and nothing else changes |
| Advisor.GuessInstrument | stem-separator/src/claude_advisor.py:191-206 | the first of drums, bass, piano, guitar, vocals the lower-cased file name contains; otherwise drums above a 0.7 percussive ratio, piano below 0.3, and "default" in between |
| Advisor.NoHintIsDefault | stem-separator/src/claude_advisor.py:200-206 | with no instrument in the name and no ratio the guess is "default", the missing ratio counting as 0.5 |
| Advisor.NameBeforeRatio | stem-separator/src/claude_advisor.py:193-197 | "bass" in the name, without "drums", gives "bass" whatever the ratio |
| Advisor.TemplateFor | stem-separator/src/claude_advisor.py:84-177 | drums, bass and piano have their own template; every other instrument falls back to the default one |
| Advisor.SlotLines | stem-separator/src/claude_advisor.py:181-187 | one filled line per template slot, in order |
| Advisor.OfflineAdvice | stem-separator/src/claude_advisor.py:76-189 | the offline advice renders the template of the guessed instrument, the default one exactly for guitar, vocals and "default" |
| Advisor.TemplateValues | stem-separator/src/claude_advisor.py:84-187 | only the drums template shows the percussive ratio, every other one shows the key, the piano and default ones the tempo, all the centroid, and each shown value appears in the filled text |
| Advisor.SlotShowsValue | stem-separator/src/claude_advisor.py:181-187 | a filled slot shows its value, "N/A" when missing |
| Advisor.GenerateAdvice | stem-separator/src/claude_advisor.py:41-74 | without a key the offline advice is given; with one the model's answer to the built prompt, or the offline advice when the call fails |
| Advisor.AdviceFallback | stem-separator/src/claude_advisor.py:63-74 | the advice is either the offline advice or the model's answer to the prompt for these inputs |
| Advisor.StemEntries | stem-separator/src/claude_advisor.py:223 | exactly the files named "*_analysis.json" are used |
| Advisor.CollectAssigns | stem-separator/src/claude_advisor.py:233-260 | the loop assigns each file's text to its stem name, in listing order |
| Advisor.CollectLookup | stem-separator/src/claude_advisor.py:233-260 | the stems are keyed in first-met order; a stem no file names has no entry, and each stem holds the outcome of its last file |
| Advisor.CollectLast | stem-separator/src/claude_advisor.py:233-260 | a file's text is kept under its stem name unless a later file has the same name |
| Advisor.NoAnalysisNoAdvice | stem-separator/src/claude_advisor.py:223-227 | the result is empty exactly when no analysis file is present |
| Advisor.FailureRecorded | stem-separator/src/claude_advisor.py:258-260 | an unreadable last file of a stem records "Error: " and the reason |
| FileManager.SharedEnding | stem-separator/file_manager.py:59-61 | two endings of one name overlap: the shorter one's first character sits at the matching place in the longer |
| FileManager.OneExtension | stem-separator/file_manager.py:59-61 | a name ends with at most one dot-extension, so no file is globbed twice |
| FileManager.PatternsAreExtensions | stem-separator/file_manager.py:21-61 | the twelve patterns, each format lower- and upper-cased, are distinct dot-extensions |
| FileManager.GlobAllExact | stem-separator/file_manager.py:56-61 | globbing pattern by pattern collects every matching file exactly once |
| FileManager.FindAudioFilesExact | stem-separator/file_manager.py:51-63 | the files found are each listed file with a supported suffix in either case, once, at the top level or at any depth when recursive, sorted by lower-cased name |
| FileManager.NestedNeedsRecursive | stem-separator/file_manager.py:57 | a file in a subdirectory is found only by a recursive search |
| FileManager.QueueSkipsCached | stem-separator/file_manager.py:131-138 | the queue keeps, in order, exactly the files whose hash is not in the cache, each with its own hash |
| FileManager.ProcessQueue | stem-separator/file_manager.py:153-179 | the count is the number of successful separations, at most the queue's length, and the cache is the one recording them |
| FileManager.RecordLookup | stem-separator/file_manager.py:169-177 | a hash is cached afterwards exactly when it was before or one of its files was separated; other entries are unchanged, and a hash holds the file and output of its last success |
| FileManager.SuccessesBounded | stem-separator/file_manager.py:177 | the number of successes is at most the queue's length |
| FileManager.BatchProcess | stem-separator/file_manager.py:101-184 | nothing processed leaves the stored cache unchanged; the count is at most the queue's length, and 0 on a dry run |
| FileManager.NoSkipQueuesAll | stem-separator/file_manager.py:129 | without skipping every file found is queued |
| FileManager.SkipKeepsOrder | stem-separator/file_manager.py:129-138 | with skipping the queue is the files found whose hash is not stored, still sorted by name |
| FileManager.BatchAccounting | stem-separator/file_manager.py:129-184 | the count is the number of successes, and after a run that processed something a hash is stored exactly when it was in the working cache or was separated |
| Pipeline.MatchesFilter | makino-ai-companion/scripts/knowledge_pipeline.py:240-252 | no filter or an unknown file type always matches; "text" allows text, pdf and docx, "media" video, audio and image, and any other filter only its own type |
| Pipeline.Names | makino-ai-companion/scripts/knowledge_pipeline.py:236 | one name per entry, in order |
| Pipeline.DiscoverFiles | makino-ai-companion/scripts/knowledge_pipeline.py:224-238 | a missing input folder gives nothing; otherwise exactly the wanted entries' names, sorted, and without repeats when the listing has none |
| Pipeline.DiscoverMembers | makino-ai-companion/scripts/knowledge_pipeline.py:231-236 | every name found is a wanted entry's, and every wanted entry is found |
| Pipeline.DiscoverSorted | makino-ai-companion/scripts/knowledge_pipeline.py:231 | the names come in sorted order |
| Pipeline.DiscoverDistinct | makino-ai-companion/scripts/knowledge_pipeline.py:231-236 | distinct entries give distinct names |
| Pipeline.SanitizeFilename | makino-ai-companion/scripts/knowledge_pipeline.py:368-376 | the name is 1 to 50 allowed characters, without blanks at either end, taken from the input unless it is "untitled" |
| Pipeline.SanitizeKeepsSafeName | makino-ai-companion/scripts/knowledge_pipeline.py:368-376 | a name already safe, short and unpadded is kept |
| Pipeline.SanitizeIdempotent | makino-ai-companion/scripts/knowledge_pipeline.py:368-376 | sanitising twice is sanitising once |
| Pipeline.Move | makino-ai-companion/scripts/knowledge_pipeline.py:273 | a move succeeds exactly when the file is in the source folder and the system allows it; the file is then in the target and not the source, and no other file or folder changes |
| Pipeline.ToDict | makino-ai-companion/scripts/knowledge_pipeline.py:73-89 | each count in the results is the length of its list, and the lists, input count and stats are passed through |
| Pipeline.TypeKey | makino-ai-companion/scripts/knowledge_pipeline.py:386-387 | an id with "_" is counted under the text before its first "_", any other under "OTHER" |
| Pipeline.TypeKeyOfPrefixed | makino-ai-companion/scripts/knowledge_pipeline.py:387 | an id of the form prefix + "_" + … is counted under its prefix |
| Pipeline.GeneratedIdType | makino-ai-companion/scripts/knowledge_pipeline.py:296 | an allocated id is counted under the prefix it was allocated for |
| Pipeline.Categories | makino-ai-companion/scripts/knowledge_pipeline.py:384 | one category per record |
| Pipeline.TypeKeys | makino-ai-companion/scripts/knowledge_pipeline.py:386-387 | one type per record |
| Pipeline.ComputeStats | makino-ai-companion/scripts/knowledge_pipeline.py:378-393 | over the report's success records (the as-written method names an attribute the pipeline lacks; see Findings), both tallies add up to the number of successes, have each key once and cover every record's category and type |
| Pipeline.CategoryCount | makino-ai-companion/scripts/knowledge_pipeline.py:383-385 | each category's count is the number of successful records in it |
| Pipeline.Paths | makino-ai-companion/scripts/knowledge_pipeline.py:309 | one path per stored file |
| Pipeline.Contents | makino-ai-companion/scripts/knowledge_pipeline.py:320 | one content per stored file |
| Pipeline.PlaceSpec | makino-ai-companion/scripts/knowledge_pipeline.py:305-343 | placing only touches its own file; it succeeds exactly when the file is being processed, the move to completed works and either the output already exists or the write works, then recording one outcome and completing the file; a failure leaves the folders and the successes alone |
| Pipeline.StoreIsPlace | makino-ai-companion/scripts/knowledge_pipeline.py:296-306 | storing places the analysis at its allocated id and output path |
| Pipeline.TryShape | makino-ai-companion/scripts/knowledge_pipeline.py:271-343 | the try block fails if the lock move fails, then if extraction or analysis fails, and otherwise stores the result |
| Pipeline.MovedThenFramed | makino-ai-companion/scripts/knowledge_pipeline.py:273 | a move of the file alone followed by a framed change is framed |
| Pipeline.FramedThenFailed | makino-ai-companion/scripts/knowledge_pipeline.py:345-356 | a framed change followed by recording a failure is framed |
| Pipeline.TrySmooth | makino-ai-companion/scripts/knowledge_pipeline.py:271-343 | with working moves on a fresh input file the try block records one outcome and completes the file, or records nothing and leaves it locked in processing |
| Pipeline.TryFrame | makino-ai-companion/scripts/knowledge_pipeline.py:271-343 | the try block only moves its own file |
| Pipeline.HandleSpec | makino-ai-companion/scripts/knowledge_pipeline.py:345-356 | the handler records the failure unless its own move raises, which escapes unchanged; it moves only its own file, from processing or input to failed |
| Pipeline.StepSettles | makino-ai-companion/scripts/knowledge_pipeline.py:266-356 | with working moves a fresh file ends in completed or failed with exactly one outcome recorded, nothing else moved |
| Pipeline.StepFrame | makino-ai-companion/scripts/knowledge_pipeline.py:266-356 | processing a file moves no other file |
| Pipeline.UnsupportedFails | makino-ai-companion/scripts/knowledge_pipeline.py:283-356 | an unsupported format is recorded as failed with its message and moved to intake/failed |
| Pipeline.ExtractorErrorFails | makino-ai-companion/scripts/knowledge_pipeline.py:286-356 | an extraction error text is recorded as the failure |
| Pipeline.DuplicateIsSkipped | makino-ai-companion/scripts/knowledge_pipeline.py:308-317 | an existing output is a skipped duplicate: nothing written, no success, the file completed |
| Pipeline.SkippedThenFailed | makino-ai-companion/scripts/knowledge_pipeline.py:308-356 | a duplicate whose move to completed fails is recorded both as skipped and as failed, and ends in failed |
| Pipeline.WrittenEntryRecorded | makino-ai-companion/scripts/knowledge_pipeline.py:319-342 | a new output is written with the entry, one success naming the file, output and id is recorded, and a review entry exactly when the analysis asks for one |
| Pipeline.WrittenEntryCarriesId | makino-ai-companion/scripts/knowledge_pipeline.py:296-320 | the stored document's front matter reads back the id its success record names |
| Pipeline.RunSettles | makino-ai-companion/scripts/knowledge_pipeline.py:199-201 | a run over distinct fresh files with working moves records one outcome per file and settles every file |
| Pipeline.RunFrame | makino-ai-companion/scripts/knowledge_pipeline.py:199-201 | a run moves no file it is not given |
| Pipeline.RunAccountsForEveryFile | makino-ai-companion/scripts/knowledge_pipeline.py:176-216 | for the corrected run, which tallies the report's successes: every discovered file is a success, a failure or a skipped duplicate, reviews never outnumber successes, the category stats add up to the successes, and every file is settled |
| Pipeline.RunReviews | makino-ai-companion/scripts/knowledge_pipeline.py:336-342 | across a run review entries never outnumber new successes |
| Pipeline.StepGrowth | makino-ai-companion/scripts/knowledge_pipeline.py:310-352 | a run's report only appends to the report it started from |
| Pipeline.RunPipeline | makino-ai-companion/scripts/knowledge_pipeline.py:176-216 | for the corrected run: the report counts every discovered file as input; a dry run returns before any move or write and records nothing |
| Pipeline.RunPipelineAsWritten | makino-ai-companion/scripts/knowledge_pipeline.py:176-216 | the report counts every discovered file as input, and the run returns normally exactly when there are no files or it is a dry run: any other run raises in the statistics step |
| Pipeline.AsWrittenRunRaises | makino-ai-companion/scripts/knowledge_pipeline.py:383 | with files to process, the as-written run raises AttributeError after every file is settled and before the statistics are set, while the corrected run ends with the same folders and knowledge tree and the report tallied from its successes |
| EntryIds.ScanInFront | makino-ai-companion/src/knowledge_base/content_analyzer.py:954-969 | inside the front matter the scan reads the first "id:" line before the closing fence, and nothing when the fence or the end comes first |
| EntryIds.ScanBeforeFront | makino-ai-companion/src/knowledge_base/content_analyzer.py:954-969 | before the front matter the scan skips to the first fence and then reads as above |
| EntryIds.FrontMatterIdSpec | makino-ai-companion/src/knowledge_base/content_analyzer.py:952-969 | a file's id is the value of the first "id:" line after its first fence with no fence between, and there is none otherwise |
| EntryIds.DigitPrefix | makino-ai-companion/src/knowledge_base/content_analyzer.py:964 | the leading run of digits is as long as possible |
| EntryIds.DigitPrefixSep | makino-ai-companion/src/knowledge_base/content_analyzer.py:964 | a non-digit ends the leading run |
| EntryIds.DigitRunsSep | makino-ai-companion/src/knowledge_base/content_analyzer.py:964 | a non-digit separates the runs on either side of it |
| EntryIds.DigitPrefixAll | makino-ai-companion/src/knowledge_base/content_analyzer.py:964 | a digit string is one leading run |
| EntryIds.DigitRunsOfDigits | makino-ai-companion/src/knowledge_base/content_analyzer.py:964 | a non-empty digit string is the single number it spells |
| EntryIds.MaxRun | makino-ai-companion/src/knowledge_base/content_analyzer.py:967-968 | the maximum bounds every number and is one of them, or 0 |
| EntryIds.MaxNum | makino-ai-companion/src/knowledge_base/content_analyzer.py:947-971 | the maximum over all files bounds every number in an id with the prefix, and is one of them or 0 |
| EntryIds.NextNumber | makino-ai-companion/src/knowledge_base/content_analyzer.py:947-973 | the next number is at least 1 and above every number in every existing id with the prefix |
| EntryIds.YearMonth | makino-ai-companion/src/knowledge_base/content_analyzer.py:944 | the year-month is at least six digits |
| EntryIds.RunThenTail | makino-ai-companion/src/knowledge_base/content_analyzer.py:964 | a digit run followed by a non-digit is read as its number, then the rest |
| EntryIds.RunsAfter | makino-ai-companion/src/knowledge_base/content_analyzer.py:964 | an underscore, a digit run and a non-digit tail give that number between the two sides' numbers |
| EntryIds.ParseZeroOne | makino-ai-companion/src/knowledge_base/content_analyzer.py:978 | "01" is the number 1 |
| EntryIds.UnderscoreOne | makino-ai-companion/src/knowledge_base/content_analyzer.py:978 | "_01" holds the single number 1 |
| EntryIds.QaIdRuns | makino-ai-companion/src/knowledge_base/content_analyzer.py:975-976 | a question id holds exactly its serial |
| EntryIds.EpisodeIdRuns | makino-ai-companion/src/knowledge_base/content_analyzer.py:977-978 | a video or audio id holds its prefix's numbers, the year-month, the serial and 1 |
| EntryIds.BookIdRuns | makino-ai-companion/src/knowledge_base/content_analyzer.py:979-980 | a book id holds its serial and 1 |
| EntryIds.MonthlyIdRuns | makino-ai-companion/src/knowledge_base/content_analyzer.py:981-982 | any other id holds its prefix's numbers, the year-month and the serial |
| EntryIds.DatedShape | makino-ai-companion/src/knowledge_base/content_analyzer.py:978-982 | a dated id starts with the prefix, "_", the year-month and "_" |
| EntryIds.BookShape | makino-ai-companion/src/knowledge_base/content_analyzer.py:980 | a book id starts "BK_" and ends "_P001" |
| EntryIds.GeneratedShape | makino-ai-companion/src/knowledge_base/content_analyzer.py:975-982 | every id starts with its prefix and "_"; dated ones carry the year-month next, video and audio ids end "_01" and book ids "_P001" |
| EntryIds.GeneratedRuns | makino-ai-companion/src/knowledge_base/content_analyzer.py:975-982 | the numbers in a new id are the prefix's, the year-month when dated, the serial, and 1 for video, audio and book ids |
| EntryIds.GeneratedIdIsFresh | makino-ai-companion/src/knowledge_base/content_analyzer.py:939-941 | a new id differs from every existing id that starts with its prefix |
| EntryIds.StripSpacedId | makino-ai-companion/src/knowledge_base/content_analyzer.py:961 | the id after "id:" is read back without the space |
| EntryIds.EndsWithDigit | makino-ai-companion/src/knowledge_base/content_analyzer.py:975-982 | every new id ends with a digit |
| EntryIds.FenceLine | makino-ai-companion/src/knowledge_base/content_analyzer.py:955 | "---" is a fence |
| EntryIds.StoredIdLine | makino-ai-companion/src/knowledge_base/content_analyzer.py:955-961 | the "id:" line of a stored document is not a fence and yields the id |
| EntryIds.StoredDocumentId | makino-ai-companion/src/knowledge_base/content_analyzer.py:952-969 | a stored document's front matter reads back its id |
| EntryIds.StoredIdIsRead | makino-ai-companion/src/knowledge_base/content_analyzer.py:934-982 | a generated id, once stored, is read back from the file |
| EntryIds.NextNumberGrowsAfterStore | makino-ai-companion/src/knowledge_base/content_analyzer.py:939-973 | storing a new entry raises the next number for its prefix, so the following id differs |
| Labels.SubcategoriesOf | makino-ai-companion/src/knowledge_base/content_analyzer.py:43-68 | a category has subcategories exactly when it is one of the six valid ones |
| Labels.FirstNear | makino-ai-companion/src/knowledge_base/content_analyzer.py:730-732 | the first candidate from a position that contains the value or is contained in it |
| Labels.FuzzyMatch | makino-ai-companion/src/knowledge_base/content_analyzer.py:721-733 | an empty value matches nothing; an exact candidate wins; otherwise the first candidate in either containment, and none exactly when there is no such candidate |
| Labels.FixCategory | makino-ai-companion/src/knowledge_base/content_analyzer.py:692-703 | the category ends valid: kept when valid, else the fuzzy match, else the fallback with a review flag, a reason appended, confidence capped at 0.4, and nothing else changed |
| Labels.ValidateAndFixLabels | makino-ai-companion/src/knowledge_base/content_analyzer.py:690-719 | category and priority end valid, a valid priority and a valid subcategory are kept, and each tag list is its valid members in order |
| Labels.FixSubcategory | makino-ai-companion/src/knowledge_base/content_analyzer.py:706-711 | a subcategory already in the list stays, and otherwise it becomes a listed one or stays as it was |
| Labels.ValidTagsKept | makino-ai-companion/src/knowledge_base/content_analyzer.py:717-719 | a tag survives the repair exactly when it was given and is in the valid vocabulary |
| Labels.ValidateAndFixIdempotent | makino-ai-companion/src/knowledge_base/content_analyzer.py:690-719 | fixing fixed labels changes nothing |
| Labels.NoVariantUnchanged | makino-ai-companion/src/knowledge_base/content_analyzer.py:570-574 | a text in which no variant occurs comes back unchanged |
| Labels.ReplaceInTurnAppend | makino-ai-companion/src/knowledge_base/content_analyzer.py:572-573 | replacing by two tables in turn is replacing by the first and then the second |
| Labels.AbsentHead | makino-ai-companion/src/knowledge_base/content_analyzer.py:573 | a variant whose first character is absent does not occur |
| Labels.AbsentHeads | makino-ai-companion/src/knowledge_base/content_analyzer.py:570-574 | no variant starting with a character of the text changes it |
| Labels.RulesBeforeApo | makino-ai-companion/src/knowledge_base/content_analyzer.py:107-126 | the first eighteen rules leave "アポイントメント" alone |
| Labels.ApoRule | makino-ai-companion/src/knowledge_base/content_analyzer.py:127 | the "アポ" rule turns "アポイントメント" into "アポイントイントメント" |
| Labels.AppointmentRule | makino-ai-companion/src/knowledge_base/content_analyzer.py:128 | the "アポイントメント" rule then finds nothing to replace |
| Labels.RulesAfterAppointment | makino-ai-companion/src/knowledge_base/content_analyzer.py:129-132 | the later rules leave the result alone |
| Labels.SkipToApo | makino-ai-companion/src/knowledge_base/content_analyzer.py:107-126 | normalising "アポイントメント" starts at the "アポ" rule |
| Labels.ApplyApo | makino-ai-companion/src/knowledge_base/content_analyzer.py:127 | applying the "アポ" rule in turn |
| Labels.ApplyAppointment | makino-ai-companion/src/knowledge_base/content_analyzer.py:128 | applying the "アポイントメント" rule in turn |
| Labels.AppointmentVariantMissed | makino-ai-companion/src/knowledge_base/content_analyzer.py:127-128 | as written "アポイントメント" normalises to "アポイントイントメント", not "アポイント" |
| Labels.LongestAt | makino-ai-companion/src/knowledge_base/content_analyzer.py:107-132 | at a position the longest key that occurs there is chosen, the earliest one on a tie, and none when none occurs |
| Labels.ScanNoVariant | makino-ai-companion/src/knowledge_base/content_analyzer.py:107-132 | under the single scan a text in which no variant occurs is unchanged |
| Labels.ApoVariantsAtStart | makino-ai-companion/src/knowledge_base/content_analyzer.py:107-132 | of the corrected candidates only the two "アポ" variants and the canonical "アポイント" occur at the start of "アポイントメント" |
| Labels.AppointmentVariantOnce | makino-ai-companion/src/knowledge_base/content_analyzer.py:128 | the single longest-first scan normalises "アポイントメント" to "アポイント" |
| Labels.WholeKeyFixed | makino-ai-companion/src/knowledge_base/content_analyzer.py:107-132 | a text that is a key, where every candidate up to that key with the same spelling maps it to itself, comes back unchanged from the scan |
| Labels.CanonicalFixed | makino-ai-companion/src/knowledge_base/content_analyzer.py:107-132 | every canonical form of the dictionary comes back unchanged from the corrected normalisation |
| Labels.PlVariantsAtStart | makino-ai-companion/src/knowledge_base/content_analyzer.py:122 | of the corrected candidates only the variant "損益計算書" occurs at the start of "損益計算書" |
| Labels.PlOnceIdempotent | makino-ai-companion/src/knowledge_base/content_analyzer.py:122 | the corrected normalisation turns "損益計算書" into "P/L（損益計算書）" and a second pass changes nothing |
| Labels.OneRuleApplies | makino-ai-companion/src/knowledge_base/content_analyzer.py:570-574 | when the rules before one rule leave a text alone and those after it leave that rule's output alone, the normalisation is that one rule |
| Labels.ReplaceSingle | makino-ai-companion/src/knowledge_base/content_analyzer.py:573 | a pattern occurring first at one position and not after it is replaced there only |
| Labels.OnlyHeadAt | makino-ai-companion/src/knowledge_base/content_analyzer.py:573 | a pattern whose first character occurs once, without its second character after it, does not occur |
| Labels.ComplianceMangled | makino-ai-companion/src/knowledge_base/content_analyzer.py:130 | as written the canonical "コンプライアンス" becomes "コンプライアンスイアンス" |
| Labels.PresentationMangled | makino-ai-companion/src/knowledge_base/content_analyzer.py:129 | as written the canonical "プレゼンテーション" becomes "プレゼンテーションテーション" |
| Labels.PlFirstPass | makino-ai-companion/src/knowledge_base/content_analyzer.py:122 | as written "損益計算書" becomes "P/L（損益計算書）" |
| Labels.PlSecondPass | makino-ai-companion/src/knowledge_base/content_analyzer.py:122 | as written a second pass turns "P/L（損益計算書）" into "P/L（P/L（損益計算書））" |
| Labels.PlNotIdempotent | makino-ai-companion/src/knowledge_base/content_analyzer.py:570-574 | as written normalising twice differs from normalising once, shown on "損益計算書" |
| Labels.WindowChunks | makino-ai-companion/src/knowledge_base/content_analyzer.py:790-799 | as written: every chunk is non-empty and at most the window, the first is a prefix of the rest of the text, and together they hold no more than it |
| Labels.TranscriptChunks | makino-ai-companion/src/knowledge_base/content_analyzer.py:783-801 | a text that fits is one chunk, and the chunks never hold more than the text |
| Labels.TranscriptChunksDropText | makino-ai-companion/src/knowledge_base/content_analyzer.py:791-797 | a 10001-character text with "。" near the start loses text between windows |
| Labels.SentenceChunks | makino-ai-companion/src/knowledge_base/content_analyzer.py:790-799 | the corrected chunks cover the text exactly, each at most the window and ending at "。" unless full |
| Labels.SentenceCut | makino-ai-companion/src/knowledge_base/content_analyzer.py:794-797 | a full window is cut inside it, and the chunk up to the cut ends at "。" or fills the window |
| Labels.CleanupTranscriptAsWritten | makino-ai-companion/src/knowledge_base/content_analyzer.py:783-787 | a text that fits one window is cleaned in one call |
| Labels.CleanupChunks | makino-ai-companion/src/knowledge_base/content_analyzer.py:783-801 | the corrected chunks concatenate back to the transcript, none longer than a window, and a text that fits is one chunk |
| Labels.CleanupTranscript | makino-ai-companion/src/knowledge_base/content_analyzer.py:783-787 | corrected: a text that fits one window is cleaned in one call, as before; a longer one is cleaned over the corrected chunks, which cover it |
| Labels.DropExampleChunks | makino-ai-companion/src/knowledge_base/content_analyzer.py:791-797 | for the 10 001-character transcript the as-written windows are "あ。" and "う", the corrected chunks keep every character |
| Labels.CleanupAsWrittenDrops | makino-ai-companion/src/knowledge_base/content_analyzer.py:783-797 | with an identity clean-up the as-written clean-up of that transcript returns "あ。", a blank line and "う"; the corrected one returns the whole text |
| AnalyzerJson.ScanBraces | makino-ai-companion/src/knowledge_base/content_analyzer.py:837-848 | the scan returns the first balanced top-level brace block, and none when there is none |
| AnalyzerJson.NoBlockAfterOpen | makino-ai-companion/src/knowledge_base/content_analyzer.py:837-848 | a text that never closes its first top-level brace holds no balanced block |
| AnalyzerJson.ExtractJson | makino-ai-companion/src/knowledge_base/content_analyzer.py:824-848 | only an unclosed fence raises, and a text without fences always gives a value |
| AnalyzerJson.ExtractJsonBraces | makino-ai-companion/src/knowledge_base/content_analyzer.py:836-848 | without fences the result is the first balanced top-level brace block, or the whole text when there is none |
| AnalyzerJson.FencedRoundTrip | makino-ai-companion/src/knowledge_base/content_analyzer.py:827-830 | a body between "```json" and "```" is read back stripped |
| AnalyzerJson.UnclosedFenceRaises | makino-ai-companion/src/knowledge_base/content_analyzer.py:827-829 | a "```json" opener with no closing fence raises |
| AnalyzerJson.AttemptEndOf | makino-ai-companion/src/knowledge_base/content_analyzer.py:586-605 | an attempt succeeds exactly when the decoded value passes both `in` tests (an object's key, a list's element, a string's substring) and is then returned; a number, boolean or null raises the uncaught TypeError; a decode error or a reply without content is caught; an API error escapes |
| AnalyzerJson.ScalarReplyEscapes | makino-ai-companion/src/knowledge_base/content_analyzer.py:595-602 | a reply decoding to a scalar, after only retried attempts, ends the pass on that call with the TypeError |
| AnalyzerJson.FieldTestClassifies | makino-ai-companion/src/knowledge_base/content_analyzer.py:595-599 | a reply whose decoded value passes both `in` tests, after only retried attempts, is returned as the classification on that call |
| AnalyzerJson.FieldNamesClassify | makino-ai-companion/src/knowledge_base/content_analyzer.py:595-599 | the string "category confidence" and the list ["category", "confidence"] pass the field test and are returned as classifications |
| AnalyzerJson.RunFrom | makino-ai-companion/src/knowledge_base/content_analyzer.py:585-618 | the attempts fall back exactly when every one is retried, using all of them; otherwise they stop at the first that succeeds or escapes, and sleep only between attempts |
| AnalyzerJson.Pass1Classify | makino-ai-companion/src/knowledge_base/content_analyzer.py:580-618 | at most retry_count calls; the fallback comes exactly when every attempt is retried; otherwise every call before the last was retried and the last one's value (passing both field tests) or escaping error is the outcome; zero retries fall straight back |
| AnalyzerJson.SleepsFollowCaughtErrors | makino-ai-companion/src/knowledge_base/content_analyzer.py:602-605 | there is one sleep per caught parse error before the last attempt |
| Media.ClassifyFile | makino-ai-companion/src/knowledge_base/media_processor.py:43-62 | a file has a type exactly when its lower-cased suffix is supported, and the type is the one whose suffix set holds it |
| Media.ImageMediaType | makino-ai-companion/src/knowledge_base/media_processor.py:280-291 | the media type is one of five; jpeg exactly for .jpg and .jpeg, "image/" and the suffix for the others, and png for anything else |
| Media.PadTwo | makino-ai-companion/src/knowledge_base/media_processor.py:343-344 | a number below 100 is written in two digits |
| Media.FormatTimestamp | makino-ai-companion/src/knowledge_base/media_processor.py:338-344 | an hour or more gives "HH:MM:SS" with the hours zero-padded to at least two digits, less gives "MM:SS" |
| Media.SplitDigitFields | makino-ai-companion/src/knowledge_base/media_processor.py:343-344 | digit fields joined with ":" split back into the same fields |
| Media.ParseHms | makino-ai-companion/src/knowledge_base/media_processor.py:343 | "HH:MM:SS" reads back as its seconds |
| Media.ParseMs | makino-ai-companion/src/knowledge_base/media_processor.py:344 | "MM:SS" reads back as its seconds |
| Media.HourDivision | makino-ai-companion/src/knowledge_base/media_processor.py:340-341 | the two divisions by 60 split seconds into hours, minutes and seconds |
| Media.FormatTimestampRoundTrip | makino-ai-companion/src/knowledge_base/media_processor.py:338-344 | a timestamp reads back as its seconds, a negative one modulo an hour |
| Media.ProcessFile | makino-ai-companion/src/knowledge_base/media_processor.py:294-335 | unsupported files give nothing; others keep their type and path, images get empty text, and an extraction error becomes the text "[処理エラー: …]" |
| Media.RaisedExtractionIsErrorText | makino-ai-companion/src/knowledge_base/media_processor.py:329-335 | that error text starts with "[" and holds "エラー", so the pipeline rejects it |

## Left out

- File and network I/O, YAML/JSON/CSV parsing and serialisation, logging and console printing are not modelled. Their results enter as parameters.
- Pipeline: `_infer_source_name` (`knowledge_pipeline.py:358-366`) only feeds the Markdown body, which is an oracle here. `generate_markdown` is modelled only through the id line of the stored document.
- Pipeline: directory creation, saving and printing the report, removing the temporary directory, `show_report`, the run id and timestamps are left out. They do not affect which files end where.
- Pipeline: the model is sequential, and a failure-handler exception stops the run. Under `gather`, the sibling tasks would still finish.
- Content analyzer: passes 2 and 3, the thresholds of `_analyze_internal` and the image description are left out. They are language-model calls and prose.
- Content analyzer: the first pass's prompt truncation to 8000 characters and its fallback title text are left out. The language model is an oracle.
- Media: the `extract_*` back-ends and `encode_image_base64` are an oracle, which gives each extraction's outcome.
- Organizer: configuration loading and dry-run printing are left out.
- Organizer: glob patterns support only `*` and `?`. `[...]` classes are left out.
- Organizer: `strptime` is modelled by a calendar check of the default date format. Other folder date formats are a parameter.
- ThemeIndex: the printing in `main` is left out. The counts it prints appear as `ThemeIndex.SizeCountsTags`.
- NoteDetector: the librosa and basic-pitch numerics, the main path of `_analyze_pitched`, and chords and fills are left out. Audio features are inputs, and times are whole milliseconds.
- Matcher: the similarity measure is an oracle in ten-thousandths. `match_all_drum_stems`, a loop over existing files, and `TimbreMatcher`, a numeric feature comparison, are left out.
- Catalog: `analyze` (`catalog_builder.py:143-207`), load, save and file sizes are left out. Directories whose names end in an audio suffix are catalogued as sounds, as the glob yields them. A search limit of zero or less still returns one result, as the loop's post-append check implies.
- PromptBuilder: the fixed prose of each prompt and the formatting of percentages are parameters.
- Advisor: the API client, the template text and the exception messages are abstract. The `KeyError` path of `str.format` and the order of the directory glob are left out.
- FileManager:
  - hashing and separation are oracles;
  - the cache entry's date is left out;
  - the `list_files` display, `watch_directory` and `clean_empty_dirs` are left out;
  - the iteration order of the supported-format set is a parameter;
  - glob is case-sensitive, so extensions in mixed case are not found.
- Rag and VectorRag: FAISS and the embedding model are oracles. The vector engine's `get_sources` (`vector_rag.py:227-236`) is the same code as the keyword engine's and is modelled by `Rag.GetSources`.
- Auth: JWT decoding is an oracle.
- Notifier and Webhook: HTTP transports are sequences of outcomes. The sleep durations are left out.
- Engine: the language-model call is an oracle. A failure is modelled only for an exception other than an API error, which is the only kind that escapes `chat`.
- Text: `lower()` is ASCII-only. `\w` in the slug rules is an abstract character predicate. Python floats are modelled as exact reals where the code compares or divides them: `Rag.ScoreOf`, `Engine.EstimateConfidence` and its 0.3 bound, `LogSummary.ShouldEscalate`, the `VectorRag` threshold, the `Persona` traits and the `Labels` confidence. The same holds for the other `real` values of the model. Float rounding at these comparisons is not modelled. The sound matcher's `round(similarity, 4)` is an integer in ten-thousandths, and a media timestamp takes the seconds after `int(seconds)`, whose truncation of a float is left out.
- Processor: the CSV lexer (quoting, cells that span lines) is left out; the table enters as a header and lines of cells. Cells past the header, which the reader files under a non-string key, are not kept, since no column reads them.
- ExtractDate (`Organizer.ExtractDate`): only ASCII digits count as digits. Python's `\d` and `strptime` also accept other Unicode decimal digits, such as fullwidth ones, so a file name dated in those is dated by the code and undated by the model.
- MaxNum (`EntryIds.MaxNum`): digit runs are ASCII digits only. Python's `\d` and `int()` also accept other Unicode decimal digits, so a fullwidth number in an existing id counts in the code and not in the model.
- NextNumber (`EntryIds.NextNumber`): the next number exceeds every ASCII digit run of the existing ids; numbers written in other Unicode decimal digits are not covered, as for MaxNum.
- Persona.LoadPersonaConfig: a `name`, `role`, trait or list key that is present with a null or wrongly typed value is not modelled; the code stores such a value as it is, and the model's settings carry only well-typed values.
- Pipeline: the constructor annotations at `knowledge_pipeline.py:140` and `:143` use `Optional`, which the module imports only at line 431 and without postponed annotations. Importing the module therefore raises `NameError` on Python versions that evaluate annotations eagerly. The model assumes the module loads.
- Profile.ConcreteNeedsNoBeginner: this lemma states one direction only. The concrete-examples guideline is also suppressed when its phrase occurs inside an unresolved-topic name of the earlier text.

## Findings

| source | as written | input that shows it | evidently intended | confidence | as-written member | corrected member |
|---|---|---|---|---|---|---|
| makino-ai-companion/src/chat/rag.py:130-137 | the next start `end - overlap` can fall before the current start, or below zero, where a Python slice wraps around | "a。bcdefghi" with chunk size 7 and overlap 3 gives chunks without "b"; "a。xxxx" with size 5 and overlap 2 never advances | chunks that always advance and together cover the text | not executed | Rag.ChunkTextSkipsText, Rag.ChunkTextStalls | Rag.FixedChunksCover |
| makino-ai-companion/src/knowledge_base/content_analyzer.py:107-132 | the replacements run one after another, so a short variant also rewrites the inside of a longer form already replaced or already canonical, and a canonical form that contains its variant is rewritten on every pass | "アポイントメント" becomes "アポイントイントメント"; the canonical "プレゼンテーション" and "コンプライアンス" become "プレゼンテーションテーション" and "コンプライアンスイアンス"; "損益計算書" becomes "P/L（損益計算書）" and then "P/L（P/L（損益計算書））" on a second pass | every variant becomes its canonical form exactly once, canonical forms stay as they are, and normalising is idempotent | not executed | Labels.AppointmentVariantMissed, Labels.ComplianceMangled, Labels.PresentationMangled, Labels.PlNotIdempotent | Labels.CanonicalFixed, Labels.AppointmentVariantOnce, Labels.PlOnceIdempotent |
| makino-ai-companion/src/knowledge_base/content_analyzer.py:791-797 | a window is cut at its last "。", and the text after that "。" up to the window's end is never emitted | "あ。" followed by 9998 "い" and one "う" loses text | chunks that concatenate back to the transcript | not executed | Labels.TranscriptChunksDropText, Labels.CleanupAsWrittenDrops | Labels.SentenceChunks, Labels.CleanupTranscript |
| ai-development/src/image_handler.py:82-98 | the image file name is made unique but the metadata name is not, so a second image with the same title on the same day overwrites the first image's metadata | registering two images titled alike on one day | each image keeps its own metadata file | not executed | ContentStore.ReRegisterOverwritesMeta | ContentStore.ReRegisterKeepsBoth |
| desktop-organizer/src/organizer.py:127-128 | undated items sort with key `datetime.min`, which puts them first | a plan with one dated and one undated screenshot lists the undated one first | undated items last, as the comment above the sort says | not executed | Organizer.UndatedFirst, Organizer.UndatedFirstExample | Organizer.ScanDesktopPlan |
| makino-ai-companion/scripts/knowledge_pipeline.py:383 | `_compute_stats` iterates `self.success`, which the pipeline object never defines; the success list belongs to the report | any run, not a dry run, with at least one discovered file raises `AttributeError` after processing, and no statistics are set | tally `self.report.success` | not executed | Pipeline.AsWrittenRunRaises, Pipeline.RunPipelineAsWritten | Pipeline.RunAccountsForEveryFile, Pipeline.RunPipeline |

=== FILE: advisor.dfy ===
/** The sound-recreation advisor: the instrument guess, the offline
    template chosen for it, the fall-back from the API to that template, and
    the advice collected for a directory of stem analyses. The API is a
    parameter answering a prompt with a text, or with nothing when the call
    raises. */
module Advisor {
  import opened Wrappers
  import opened Text
  import opened Lists
  import opened PromptBuilder

  // ---------------------------------------------------------------------
  // _guess_instrument
  // ---------------------------------------------------------------------

  const Instruments: seq<string> := ["drums", "bass", "piano", "guitar", "vocals"]

  /** The percussive ratio, 0.5 when the analysis has none. */
  function RatioOf(a: Analysis): real
  {
    if a.percussiveRatio.Some? then a.percussiveRatio.value.value else 0.5
  }

  /** The first instrument named in the lower-cased file name; otherwise
      drums for a ratio above 0.7, piano below 0.3, and "default" between. */
  function GuessInstrument(a: Analysis): (r: string)
    ensures var name := Lower(if a.file.Some? then a.file.value else "");
      && (FirstContained(name, Instruments).Some? ==> r == Instruments[FirstContained(name, Instruments).value])
      && (FirstContained(name, Instruments).None? ==>
            r == (if RatioOf(a) > 0.7 then "drums" else if RatioOf(a) < 0.3 then "piano" else "default"))
  {
    var name := Lower(if a.file.Some? then a.file.value else "");
    match FirstContained(name, Instruments)
    case Some(i) => Instruments[i]
    case None =>
      if RatioOf(a) > 0.7 then "drums" else if RatioOf(a) < 0.3 then "piano" else "default"
  }

  /** A name mentioning no instrument and a missing ratio give "default". */
  lemma NoHintIsDefault(a: Analysis)
    requires a.percussiveRatio.None?
    requires forall i :: 0 <= i < |Instruments| ==> !Contains(Lower(if a.file.Some? then a.file.value else ""), Instruments[i])
    ensures GuessInstrument(a) == "default"
  {
  }

  /** A file name wins over the ratio: "bass" in the name makes the guess
      "bass" even for a fully percussive sound, unless "drums" is also
      named. */
  lemma NameBeforeRatio(a: Analysis)
    requires a.file.Some? && Contains(Lower(a.file.value), "bass") && !Contains(Lower(a.file.value), "drums")
    ensures GuessInstrument(a) == "bass"
  {
    var name := Lower(a.file.value);
    assert Instruments[0] == "drums" && Instruments[1] == "bass";
  }

  // ---------------------------------------------------------------------
  // _get_offline_advice
  // ---------------------------------------------------------------------

  datatype TemplateKind = DrumsTemplate | BassTemplate | PianoTemplate | DefaultTemplate

  /** `templates.get(instrument, templates["default"])`. */
  function TemplateFor(instrument: string): (t: TemplateKind)
    ensures t == DrumsTemplate <==> instrument == "drums"
    ensures t == BassTemplate <==> instrument == "bass"
    ensures t == PianoTemplate <==> instrument == "piano"
  {
    if instrument == "drums" then DrumsTemplate
    else if instrument == "bass" then BassTemplate
    else if instrument == "piano" then PianoTemplate
    else DefaultTemplate
  }

  /** The values a template can show. */
  datatype Slot = BpmSlot | KeySlot | CentroidSlot | PercussiveSlot

  function Title(t: TemplateKind): string
  {
    match t
    case DrumsTemplate => "Drum Sound Recreation"
    case BassTemplate => "Bass Sound Recreation"
    case PianoTemplate => "Piano Sound Recreation"
    case DefaultTemplate => "Sound Recreation Guide"
  }

  /** The lines of a template's "Based on analysis" list. */
  function Slots(t: TemplateKind): seq<Slot>
  {
    match t
    case DrumsTemplate => [PercussiveSlot, CentroidSlot]
    case BassTemplate => [KeySlot, CentroidSlot]
    case PianoTemplate => [KeySlot, BpmSlot, CentroidSlot]
    case DefaultTemplate => [BpmSlot, KeySlot, CentroidSlot]
  }

  const NotAvailable := "N/A"

  /** The value filled into a slot: the printed value or "N/A", and the
      ratio (0 when missing) as a percentage. */
  function SlotValue(a: Analysis, s: Slot, fmt: Formats): string
  {
    match s
    case BpmSlot => if a.bpm.Some? then a.bpm.value.shown else NotAvailable
    case KeySlot => if a.key.Some? then a.key.value else NotAvailable
    case CentroidSlot => if a.spectralCentroid.Some? then a.spectralCentroid.value.shown else NotAvailable
    case PercussiveSlot => fmt.percent1(if a.percussiveRatio.Some? then a.percussiveRatio.value.value else 0.0) + "%"
  }

  function SlotLine(a: Analysis, s: Slot, fmt: Formats): string
  {
    match s
    case BpmSlot => "- **BPM**: " + SlotValue(a, s, fmt)
    case KeySlot => "- **Key**: " + SlotValue(a, s, fmt)
    case CentroidSlot => "- **Spectral Centroid**: " + SlotValue(a, s, fmt) + " Hz"
    case PercussiveSlot => "- **Percussive Ratio**: " + SlotValue(a, s, fmt)
  }

  function SlotLines(a: Analysis, slots: seq<Slot>, fmt: Formats): (r: seq<string>)
    ensures |r| == |slots|
    ensures forall i :: 0 <= i < |slots| ==> r[i] == SlotLine(a, slots[i], fmt)
  {
    if |slots| == 0 then [] else [SlotLine(a, slots[0], fmt)] + SlotLines(a, slots[1..], fmt)
  }

  /** The filled template: its title, its analysis list, and its fixed
      recommendations (a parameter). */
  function Render(t: TemplateKind, a: Analysis, fmt: Formats, body: TemplateKind -> string): string
  {
    "\n## " + Title(t) + "\n\nBased on analysis:\n" + Join(SlotLines(a, Slots(t), fmt), "\n") + "\n" + body(t)
  }

  /** `_get_offline_advice`: the template of the guessed instrument; the
      advice type does not enter. */
  function OfflineAdvice(a: Analysis, adviceType: string, fmt: Formats, body: TemplateKind -> string): (r: string)
    ensures var t := TemplateFor(GuessInstrument(a));
      r == Render(t, a, fmt, body) && (t == DefaultTemplate <==> GuessInstrument(a) in {"guitar", "vocals", "default"})
  {
    var g := GuessInstrument(a);
    assert g in {"drums", "bass", "piano", "guitar", "vocals", "default"} by {
      var name := Lower(if a.file.Some? then a.file.value else "");
      if FirstContained(name, Instruments).Some? {
        var i := FirstContained(name, Instruments).value;
        assert Instruments[i] in Instruments;
      }
    }
    Render(TemplateFor(g), a, fmt, body)
  }

  /** Each template shows its own values: drums the percussive ratio and
      centroid, bass the key and centroid, piano the key, tempo and
      centroid, and the default template tempo, key and centroid. */
  lemma TemplateValues(t: TemplateKind, a: Analysis, fmt: Formats)
    ensures PercussiveSlot in Slots(t) <==> t == DrumsTemplate
    ensures KeySlot in Slots(t) <==> t != DrumsTemplate
    ensures BpmSlot in Slots(t) <==> t == PianoTemplate || t == DefaultTemplate
    ensures CentroidSlot in Slots(t)
    ensures forall s :: s in Slots(t) ==> Contains(Join(SlotLines(a, Slots(t), fmt), "\n"), SlotValue(a, s, fmt))
  {
    var lines := SlotLines(a, Slots(t), fmt);
    forall s | s in Slots(t) ensures Contains(Join(lines, "\n"), SlotValue(a, s, fmt)) {
      var i :| 0 <= i < |Slots(t)| && Slots(t)[i] == s;
      JoinContains(lines, "\n", i);
      SlotShowsValue(a, s, fmt);
      ContainsTrans(Join(lines, "\n"), lines[i], SlotValue(a, s, fmt));
    }
  }

  lemma SlotShowsValue(a: Analysis, s: Slot, fmt: Formats)
    ensures Contains(SlotLine(a, s, fmt), SlotValue(a, s, fmt))
  {
    var v := SlotValue(a, s, fmt);
    var pre := match s
      case BpmSlot => "- **BPM**: "
      case KeySlot => "- **Key**: "
      case CentroidSlot => "- **Spectral Centroid**: "
      case PercussiveSlot => "- **Percussive Ratio**: ";
    var post := if s == CentroidSlot then " Hz" else "";
    assert SlotLine(a, s, fmt) == pre + v + post;
    assert (pre + v + post)[|pre|..|pre| + |v|] == v;
    assert OccursAt(SlotLine(a, s, fmt), v, |pre|);
  }

  // ---------------------------------------------------------------------
  // generate_advice
  // ---------------------------------------------------------------------

  /** Everything the advisor is given beyond the analysis: the explicit key,
      the environment's key, the API (nothing when the call raises), and
      the fixed texts. */
  datatype Setup = Setup(
    apiKey: Option<string>,
    envKey: Option<string>,
    api: (string, string) -> Option<string>,
    fmt: Formats,
    prose: PromptKind -> Prose,
    body: TemplateKind -> string)

  /** `api_key or os.environ.get(...)`: an empty explicit key falls through. */
  function EffectiveKey(s: Setup): Option<string>
  {
    if s.apiKey.Some? && s.apiKey.value != "" then s.apiKey else s.envKey
  }

  /** The client can be built only with a non-empty key. */
  predicate HasKey(s: Setup)
  {
    EffectiveKey(s).Some? && EffectiveKey(s).value != ""
  }

  /** `generate_advice`: the API's answer to the built prompt, or the offline
      advice when there is no key or the call raises. */
  function GenerateAdvice(a: Analysis, adviceType: string, ms: seq<MatchInfo>, s: Setup): (r: string)
    ensures !HasKey(s) ==> r == OfflineAdvice(a, adviceType, s.fmt, s.body)
    ensures HasKey(s) ==>
      var answer := s.api(EffectiveKey(s).value, Build(adviceType, a, ms, s.fmt, s.prose));
      r == if answer.Some? then answer.value else OfflineAdvice(a, adviceType, s.fmt, s.body)
  {
    if !HasKey(s) then OfflineAdvice(a, adviceType, s.fmt, s.body)
    else
      match s.api(EffectiveKey(s).value, Build(adviceType, a, ms, s.fmt, s.prose))
      case Some(text) => text
      case None => OfflineAdvice(a, adviceType, s.fmt, s.body)
  }

  /** Whatever the API does, the advice is either its answer or the offline
      template; a missing key never reaches the API. */
  lemma AdviceFallback(a: Analysis, adviceType: string, ms: seq<MatchInfo>, s: Setup)
    ensures var r := GenerateAdvice(a, adviceType, ms, s);
      r == OfflineAdvice(a, adviceType, s.fmt, s.body)
      || (HasKey(s) && s.api(EffectiveKey(s).value, Build(adviceType, a, ms, s.fmt, s.prose)) == Some(r))
  {
  }

  // ---------------------------------------------------------------------
  // generate_advice_for_stems
  // ---------------------------------------------------------------------

  const AnalysisSuffix := "_analysis.json"
  const AnalysisTag := "_analysis"

  /** What reading and answering one analysis file gives: the analysis and,
      when writing the advice file raised, its message; or the message of
      a file that could not be read. */
  datatype Outcome = Parsed(analysis: Analysis, writeError: Option<string>) | Unreadable(reason: string)

  datatype StemFile = StemFile(name: string, outcome: Outcome)

  predicate IsAnalysisFile(f: StemFile)
  {
    EndsWith(f.name, AnalysisSuffix)
  }

  /** The stem name: the file's stem with every "_analysis" removed. */
  function StemName(fileName: string): string
  {
    var stem := if EndsWith(fileName, ".json") then fileName[..|fileName| - 5] else Stem(fileName);
    Replace(stem, AnalysisTag, "")
  }

  /** The stored text for one file: its advice, or "Error: " and the
      message when reading or writing raised. */
  function StemValue(f: StemFile, s: Setup): string
  {
    match f.outcome
    case Unreadable(reason) => "Error: " + reason
    case Parsed(a, writeError) =>
      if writeError.Some? then "Error: " + writeError.value else GenerateAdvice(a, "recreation", [], s)
  }

  function StemEntries(files: seq<StemFile>): (r: seq<StemFile>)
    ensures forall f :: f in r <==> f in files && IsAnalysisFile(f)
  {
    Filter(files, IsAnalysisFile)
  }

  function Collect(files: seq<StemFile>, s: Setup): seq<(string, string)>
  {
    if |files| == 0 then []
    else Assign(Collect(files[..|files| - 1], s), StemName(files[|files| - 1].name), StemValue(files[|files| - 1], s))
  }

  /** `generate_advice_for_stems` over the directory's files in listing
      order. */
  function AdviceForStems(files: seq<StemFile>, s: Setup): seq<(string, string)>
  {
    Collect(StemEntries(files), s)
  }

  /** The stem name of each file. */
  function StemNames(files: seq<StemFile>): seq<string>
  {
    seq(|files|, i requires 0 <= i < |files| => StemName(files[i].name))
  }

  /** The stored text of each file. */
  function StemValues(files: seq<StemFile>, s: Setup): seq<string>
  {
    seq(|files|, i requires 0 <= i < |files| => StemValue(files[i], s))
  }

  /** The loop stores each file's value under its stem name, in order. */
  lemma {:induction false} CollectAssigns(files: seq<StemFile>, s: Setup)
    ensures Collect(files, s) == AssignAll(StemNames(files), StemValues(files, s))
  {
    if |files| > 0 {
      var n := |files| - 1;
      CollectAssigns(files[..n], s);
      assert StemNames(files)[..n] == StemNames(files[..n]);
      assert StemValues(files, s)[..n] == StemValues(files[..n], s);
    }
  }

  /** The result's keys are the stem names in first-seen order, and each
      holds the value of the last file with that name. */
  lemma CollectLookup(files: seq<StemFile>, s: Setup, key: string)
    ensures Keys(Collect(files, s)) == Dedup(StemNames(files))
    ensures key !in StemNames(files) ==> Lookup(Collect(files, s), key) == None
    ensures forall j :: 0 <= j < |files| && StemName(files[j].name) == key
                        && (forall l :: j < l < |files| ==> StemName(files[l].name) != key)
                        ==> Lookup(Collect(files, s), key) == Some(StemValue(files[j], s))
  {
    CollectAssigns(files, s);
    AssignAllKeys(StemNames(files), StemValues(files, s));
    if key !in StemNames(files) {
      AssignAllAbsent(StemNames(files), StemValues(files, s), key);
    }
    forall j | 0 <= j < |files| && StemName(files[j].name) == key
               && (forall l :: j < l < |files| ==> StemName(files[l].name) != key)
      ensures Lookup(Collect(files, s), key) == Some(StemValue(files[j], s))
    {
      CollectLast(files, s, j);
    }
  }

  /** A file's value is stored under its stem name unless a later file has
      the same one. */
  lemma CollectLast(files: seq<StemFile>, s: Setup, j: nat)
    requires j < |files|
    requires forall l :: j < l < |files| ==> StemName(files[l].name) != StemName(files[j].name)
    ensures Lookup(Collect(files, s), StemName(files[j].name)) == Some(StemValue(files[j], s))
  {
    var ns := StemNames(files);
    CollectAssigns(files, s);
    forall l | j < l < |ns| ensures ns[l] != ns[j] {
    }
    AssignAllLast(ns, StemValues(files, s), j);
  }

  /** No analysis file, no advice: the result is empty exactly when the
      directory has no "*_analysis.json" file. */
  lemma NoAnalysisNoAdvice(files: seq<StemFile>, s: Setup)
    ensures AdviceForStems(files, s) == [] <==> forall f :: f in files ==> !IsAnalysisFile(f)
  {
    var entries := StemEntries(files);
    CollectLookup(entries, s, "");
    if |entries| > 0 {
      assert entries[0] in entries;
      assert StemNames(entries)[0] in Dedup(StemNames(entries));
    }
  }

  /** A file whose reading failed leaves "Error: " and its message, unless a
      later file has the same stem name. */
  lemma FailureRecorded(files: seq<StemFile>, s: Setup, j: nat)
    requires j < |files| && files[j].outcome.Unreadable?
    requires forall l :: j < l < |files| ==> StemName(files[l].name) != StemName(files[j].name)
    ensures Lookup(Collect(files, s), StemName(files[j].name)) == Some("Error: " + files[j].outcome.reason)
  {
    CollectLast(files, s, j);
  }
}

=== FILE: analyzer_json.dfy ===
/** How the content analyzer pulls a JSON object out of a model reply
    (`_extract_json`) and the retry-then-fallback loop of the first
    classification pass (`_pass1_classify`), with the model's replies and
    the JSON decoder as oracles. */
module AnalyzerJson {
  import opened Wrappers
  import opened Text

  // ---------------------------------------------------------------------
  // Brace scanning
  // ---------------------------------------------------------------------

  /** The brace depth after the first `i` characters: +1 per "{", -1 per
      "}"; it may go negative. */
  function Depth(text: string, i: nat): int
    requires i <= |text|
  {
    if i == 0 then 0
    else Depth(text, i - 1) + (if text[i - 1] == '{' then 1 else if text[i - 1] == '}' then -1 else 0)
  }

  /** An opening brace at top level (depth 0 before it). */
  predicate TopOpen(text: string, k: nat)
  {
    k < |text| && text[k] == '{' && Depth(text, k) == 0
  }

  /** `text[a..b]` is a balanced block opened at top level: it starts with
      "{", the depth returns to 0 at `b` and stays positive strictly
      inside. */
  predicate TopBlock(text: string, a: nat, b: nat)
  {
    a < b <= |text| && TopOpen(text, a) && Depth(text, b) == 0
    && forall m :: a < m < b ==> Depth(text, m) > 0
  }

  /** The scan of `_extract_json`'s last branch from position `i`, with the
      running depth and the start of the open top-level block (-1 for
      none); it answers the first top-level block, if one closes. */
  function ScanBraces(text: string, i: nat, depth: int, start: int): (r: Option<(nat, nat)>)
    requires i <= |text| && depth == Depth(text, i) && start >= -1
    requires start == -1 ==> depth <= 0 && forall k :: 0 <= k < i ==> !TopOpen(text, k)
    requires start >= 0 ==> start < i && TopOpen(text, start)
                            && (forall k :: 0 <= k < start ==> !TopOpen(text, k))
                            && forall m :: start < m <= i ==> Depth(text, m) > 0
    ensures r.Some? ==> TopBlock(text, r.value.0, r.value.1)
                        && forall k :: 0 <= k < r.value.0 ==> !TopOpen(text, k)
    ensures r.None? ==> forall a, b :: 0 <= a < b <= |text| ==> !TopBlock(text, a, b)
    decreases |text| - i
  {
    if i == |text| then
      NoBlockAfterOpen(text, start);
      None
    else if text[i] == '{' then
      assert start >= 0 ==> Depth(text, i) > 0;
      if depth == 0 then ScanBraces(text, i + 1, 1, i)
      else ScanBraces(text, i + 1, depth + 1, start)
    else if text[i] == '}' then
      if depth - 1 == 0 && start >= 0 then Some((start as nat, i + 1))
      else ScanBraces(text, i + 1, depth - 1, start)
    else ScanBraces(text, i + 1, depth, start)
  }

  /** At the end of the text: no top-level block closes, whether or not one
      was opened. */
  lemma NoBlockAfterOpen(text: string, start: int)
    requires start >= -1
    requires start == -1 ==> forall k :: 0 <= k < |text| ==> !TopOpen(text, k)
    requires start >= 0 ==> start < |text| && TopOpen(text, start)
                            && (forall k :: 0 <= k < start ==> !TopOpen(text, k))
                            && forall m :: start < m <= |text| ==> Depth(text, m) > 0
    ensures forall a, b :: 0 <= a < b <= |text| ==> !TopBlock(text, a, b)
  {
    forall a | 0 <= a < |text| && TopOpen(text, a)
      ensures a == start
    {
    }
  }

  // ---------------------------------------------------------------------
  // Extraction
  // ---------------------------------------------------------------------

  /** The body between the opening marker at `Find(text, open)` and the next
      "```" after it, stripped; raises (as `str.index` does) when no
      closing fence follows. */
  function FenceBody(text: string, open: string): (r: Result<string, string>)
    requires Contains(text, open)
  {
    var start := Find(text, open) + |open|;
    var end := FindFrom(text, "```", start);
    if end < 0 then Failure("substring not found")
    else Success(Strip(text[start..end]))
  }

  /** `_extract_json`: the body of a "```json" fence, else of a plain "```"
      fence, else the first top-level balanced "{…}" block, else the text
      unchanged. An unclosed fence raises `ValueError`, modelled as a
      failure. */
  function ExtractJson(text: string): (r: Result<string, string>)
    ensures r.Failure? ==> Contains(text, "```")
    ensures !Contains(text, "```") ==> r.Success?
  {
    if Contains(text, "```json") then
      assert Contains(text, "```") by {
        var i := Find(text, "```json");
        assert text[i..i + 3] == "```json"[..3];
        assert OccursAt(text, "```", i);
      }
      FenceBody(text, "```json")
    else if Contains(text, "```") then FenceBody(text, "```")
    else match ScanBraces(text, 0, 0, -1)
      case Some((a, b)) => Success(text[a..b])
      case None => Success(text)
  }

  /** Without fences the answer is the first top-level balanced block, and
      the text itself exactly when no such block exists. */
  lemma ExtractJsonBraces(text: string)
    requires !Contains(text, "```")
    ensures var r := ExtractJson(text).value;
            (exists a: nat, b: nat :: TopBlock(text, a, b)
                            && (forall k :: 0 <= k < a ==> !TopOpen(text, k))
                            && r == text[a..b])
            || ((forall a, b :: 0 <= a < b <= |text| ==> !TopBlock(text, a, b)) && r == text)
  {
  }

  /** A reply that is exactly a "```json" fence around a body free of
      fences gives back the stripped body. */
  lemma FencedRoundTrip(body: string)
    requires !Contains(body, "```")
    requires |body| == 0 || body[|body| - 1] != '`'
    ensures ExtractJson("```json" + body + "```") == Success(Strip(body))
  {
    var text := "```json" + body + "```";
    assert OccursAt(text, "```json", 0);
    assert Find(text, "```json") == 0;
    var end := |text| - 3;
    assert OccursAt(text, "```", end);
    forall j | 7 <= j < end
      ensures !OccursAt(text, "```", j)
    {
      if j + 3 <= end {
        assert text[j..j + 3] == body[j - 7..j - 4];
        assert !OccursAt(body, "```", j - 7);
      } else {
        assert text[end - 1] == body[|body| - 1];
        assert text[j..j + 3][end - 1 - j] == text[end - 1];
      }
    }
    assert FindFrom(text, "```", 7) == end;
    assert text[7..end] == body;
  }

  /** A "```json" opener with no closing fence after it raises. */
  lemma UnclosedFenceRaises(body: string)
    requires !Contains(body, "```")
    requires |body| == 0 || body[|body| - 1] != '`'
    ensures ExtractJson("```json" + body).Failure?
  {
    var text := "```json" + body;
    assert OccursAt(text, "```json", 0);
    assert Find(text, "```json") == 0;
    forall j | 7 <= j
      ensures !OccursAt(text, "```", j)
    {
      if j + 3 <= |text| {
        assert text[j..j + 3] == body[j - 7..j - 4];
        assert !OccursAt(body, "```", j - 7);
      }
    }
  }

  // ---------------------------------------------------------------------
  // The first classification pass
  // ---------------------------------------------------------------------

  /** What the model call of one attempt gives: a reply text, a reply with
      no content block (`IndexError`, caught), or an API error (not
      caught). */
  datatype Reply = Text(text: string) | NoContent | ApiError(message: string)

  /** A decoded JSON value, as far as the field test can tell values
      apart: an object by its keys, an array by its elements, a string, or
      any other scalar (a number, `true`, `false` or `null`). */
  datatype JsonValue = Object(keys: set<string>) | Array(items: seq<JsonValue>) | Str(s: string) | Scalar

  /** Python's `name in parsed`: a key of an object, an element of an
      array, a substring of a string. On a scalar the test raises. */
  predicate HasField(v: JsonValue, name: string)
  {
    match v
    case Object(keys) => name in keys
    case Array(items) => Str(name) in items
    case Str(s) => Contains(s, name)
    case Scalar => false
  }

  /** The `TypeError` of a membership test on a number, a bool or `None`;
      the except clause does not name it. */
  const NotIterable := "TypeError: argument of type is not iterable"

  /** How one attempt ends. */
  datatype AttemptEnd =
    | Valid(value: JsonValue)     // parsed, with "category" and "confidence"
    | MissingFields               // parsed, a required field absent: retried without sleeping
    | Caught                      // decode or index error: retried after a sleep
    | Raises(message: string)     // any other error escapes the loop

  /** The end of one attempt, with `decode` the JSON decoder (`None` for a
      decode error). */
  function AttemptEndOf(reply: Reply, decode: string -> Option<JsonValue>): (e: AttemptEnd)
    ensures e.Valid? ==> HasField(e.value, "category") && HasField(e.value, "confidence")
    ensures reply.ApiError? ==> e == Raises(reply.message)
    ensures reply.NoContent? ==> e == Caught
    ensures reply.Text? && ExtractJson(reply.text).Failure? ==> e == Raises(ExtractJson(reply.text).error)
    ensures reply.Text? && ExtractJson(reply.text).Success? ==>
              var d := decode(ExtractJson(reply.text).value);
              && (d.None? <==> e == Caught)
              && (d == Some(Scalar) <==> e == Raises(NotIterable))
              && (e.Valid? <==> d.Some? && HasField(d.value, "category") && HasField(d.value, "confidence"))
              && (e.Valid? ==> e.value == d.value)
  {
    match reply
    case ApiError(m) => Raises(m)
    case NoContent => Caught
    case Text(t) =>
      match ExtractJson(t)
      case Failure(m) => Raises(m)
      case Success(js) =>
        match decode(js)
        case None => Caught
        case Some(v) =>
          if v.Scalar? then Raises(NotIterable)
          else if HasField(v, "category") && HasField(v, "confidence") then Valid(v)
          else MissingFields
  }

  datatype Pass1Outcome = Classified(value: JsonValue) | Fallback | Escaped(message: string)

  /** The outcome of the pass, the number of model calls made and the
      sleeps taken, in seconds. */
  datatype Pass1Run = Pass1Run(outcome: Pass1Outcome, calls: nat, sleeps: seq<nat>)

  predicate Retried(e: AttemptEnd)
  {
    e.MissingFields? || e.Caught?
  }

  /** The attempts from `attempt` on; `ends[a]` is how attempt `a` ends. */
  function RunFrom(ends: seq<AttemptEnd>, retryCount: nat, attempt: nat): (r: Pass1Run)
    requires attempt <= retryCount <= |ends|
    ensures attempt + r.calls <= retryCount
    ensures r.outcome.Fallback? <==> forall a :: attempt <= a < retryCount ==> Retried(ends[a])
    ensures r.outcome.Fallback? ==> r.calls == retryCount - attempt
    ensures r.outcome.Classified? ==>
              r.calls > 0 && ends[attempt + r.calls - 1] == Valid(r.outcome.value)
              && forall a :: attempt <= a < attempt + r.calls - 1 ==> Retried(ends[a])
    ensures r.outcome.Escaped? ==>
              r.calls > 0 && ends[attempt + r.calls - 1] == Raises(r.outcome.message)
              && forall a :: attempt <= a < attempt + r.calls - 1 ==> Retried(ends[a])
    ensures |r.sleeps| <= r.calls
    ensures forall k :: 0 <= k < |r.sleeps| ==> attempt < r.sleeps[k] < retryCount
    decreases retryCount - attempt
  {
    if attempt == retryCount then Pass1Run(Fallback, 0, [])
    else
      match ends[attempt]
      case Valid(v) => Pass1Run(Classified(v), 1, [])
      case Raises(m) => Pass1Run(Escaped(m), 1, [])
      case MissingFields =>
        var rest := RunFrom(ends, retryCount, attempt + 1);
        Pass1Run(rest.outcome, rest.calls + 1, rest.sleeps)
      case Caught =>
        var rest := RunFrom(ends, retryCount, attempt + 1);
        var nap := if attempt < retryCount - 1 then [attempt + 1] else [];
        Pass1Run(rest.outcome, rest.calls + 1, nap + rest.sleeps)
  }

  /** How each attempt ends, attempt by attempt. */
  function AttemptEnds(replies: seq<Reply>, decode: string -> Option<JsonValue>): (ends: seq<AttemptEnd>)
    ensures |ends| == |replies|
    ensures forall a :: 0 <= a < |replies| ==> ends[a] == AttemptEndOf(replies[a], decode)
  {
    seq(|replies|, a requires 0 <= a < |replies| => AttemptEndOf(replies[a], decode))
  }

  /** `_pass1_classify` over the replies its attempts would get. A fallback
      stands for the fixed record with an empty category and confidence
      0.0. */
  function Pass1Classify(replies: seq<Reply>, decode: string -> Option<JsonValue>, retryCount: nat): (r: Pass1Run)
    requires |replies| >= retryCount
    ensures r.calls <= retryCount
    ensures r.outcome.Classified? ==> HasField(r.outcome.value, "category") && HasField(r.outcome.value, "confidence")
    ensures r.outcome.Fallback? <==> forall a :: 0 <= a < retryCount ==> Retried(AttemptEndOf(replies[a], decode))
    ensures !r.outcome.Fallback? ==>
              && r.calls > 0
              && (forall a :: 0 <= a < r.calls - 1 ==> Retried(AttemptEndOf(replies[a], decode)))
              && (r.outcome.Classified? ==> AttemptEndOf(replies[r.calls - 1], decode) == Valid(r.outcome.value))
              && (r.outcome.Escaped? ==> AttemptEndOf(replies[r.calls - 1], decode) == Raises(r.outcome.message))
    ensures retryCount == 0 ==> r == Pass1Run(Fallback, 0, [])
  {
    RunFrom(AttemptEnds(replies, decode), retryCount, 0)
  }

  /** A reply that decodes to a number, a bool or `null` ends the pass
      with the uncaught `TypeError` once every earlier attempt was
      retried. */
  lemma ScalarReplyEscapes(replies: seq<Reply>, decode: string -> Option<JsonValue>, retryCount: nat, k: nat)
    requires k < retryCount <= |replies|
    requires forall a :: 0 <= a < k ==> Retried(AttemptEndOf(replies[a], decode))
    requires replies[k].Text? && ExtractJson(replies[k].text).Success?
    requires decode(ExtractJson(replies[k].text).value) == Some(Scalar)
    ensures Pass1Classify(replies, decode, retryCount).outcome == Escaped(NotIterable)
    ensures Pass1Classify(replies, decode, retryCount).calls == k + 1
  {
    var r := Pass1Classify(replies, decode, retryCount);
    assert AttemptEndOf(replies[k], decode) == Raises(NotIterable);
    FirstStop((a: nat) => a < |replies| && Retried(AttemptEndOf(replies[a], decode)), k, r.calls - 1);
  }

  /** A reply that decodes to a string holding both field names, or to an
      array holding both as elements, is returned as the classification
      once every earlier attempt was retried. */
  lemma FieldNamesClassify(replies: seq<Reply>, decode: string -> Option<JsonValue>, retryCount: nat, k: nat, v: JsonValue)
    requires k < retryCount <= |replies|
    requires forall a :: 0 <= a < k ==> Retried(AttemptEndOf(replies[a], decode))
    requires replies[k].Text? && ExtractJson(replies[k].text).Success?
    requires decode(ExtractJson(replies[k].text).value) == Some(v)
    requires v == Str("category confidence") || v == Array([Str("category"), Str("confidence")])
    ensures Pass1Classify(replies, decode, retryCount).outcome == Classified(v)
  {
    NamesPassFieldTest(v);
    FieldTestClassifies(replies, decode, retryCount, k, v);
  }

  /** Any decoded value that passes both field tests is returned as the
      classification once every earlier attempt was retried. */
  lemma FieldTestClassifies(replies: seq<Reply>, decode: string -> Option<JsonValue>, retryCount: nat, k: nat, v: JsonValue)
    requires k < retryCount <= |replies|
    requires forall a :: 0 <= a < k ==> Retried(AttemptEndOf(replies[a], decode))
    requires replies[k].Text? && ExtractJson(replies[k].text).Success?
    requires decode(ExtractJson(replies[k].text).value) == Some(v)
    requires HasField(v, "category") && HasField(v, "confidence")
    ensures Pass1Classify(replies, decode, retryCount).outcome == Classified(v)
  {
    var r := Pass1Classify(replies, decode, retryCount);
    assert AttemptEndOf(replies[k], decode) == Valid(v);
    FirstStop((a: nat) => a < |replies| && Retried(AttemptEndOf(replies[a], decode)), k, r.calls - 1);
  }

  /** Two positions each preceded only by retried attempts and not retried
      themselves are the same position. */
  lemma FirstStop(retried: nat -> bool, k: nat, p: nat)
    requires forall a: nat :: a < k ==> retried(a)
    requires forall a: nat :: a < p ==> retried(a)
    requires !retried(k) && !retried(p)
    ensures p == k
  {
  }

  /** Both such values pass the field test. */
  lemma NamesPassFieldTest(v: JsonValue)
    requires v == Str("category confidence") || v == Array([Str("category"), Str("confidence")])
    ensures HasField(v, "category") && HasField(v, "confidence")
  {
    if v.Str? {
      assert OccursAt(v.s, "category", 0);
      assert OccursAt(v.s, "confidence", 9);
    } else {
      assert v.items[0] == Str("category") && v.items[1] == Str("confidence");
    }
  }

  /** The sleeps are one per caught error, except after the last attempt,
      and the k-th attempt sleeps k seconds. */
  lemma {:induction false} SleepsFollowCaughtErrors(ends: seq<AttemptEnd>, retryCount: nat, attempt: nat)
    requires attempt <= retryCount <= |ends|
    ensures var r := RunFrom(ends, retryCount, attempt);
            |r.sleeps| == CaughtBefore(ends, attempt, attempt + r.calls, retryCount - 1)
    decreases retryCount - attempt
  {
    if attempt < retryCount && Retried(ends[attempt]) {
      SleepsFollowCaughtErrors(ends, retryCount, attempt + 1);
    }
  }

  /** The number of caught errors among attempts `lo..hi` that are not
      attempt `last`. */
  function CaughtBefore(ends: seq<AttemptEnd>, lo: nat, hi: nat, last: int): nat
    requires lo <= hi <= |ends|
    decreases hi - lo
  {
    if lo == hi then 0
    else (if ends[lo].Caught? && lo != last then 1 else 0) + CaughtBefore(ends, lo + 1, hi, last)
  }
}

=== FILE: auth.dfy ===
/** Request authentication: the user built from a session token's claims,
    and the three dependency functions that read the session cookie. */
module Auth {
  import opened Wrappers
  import opened Lists

  /** A decoded token's claims, by name. */
  type Claims = seq<(string, string)>

  datatype AuthUser = AuthUser(sub: string, email: string, name: string, picture: string, role: string)

  /** An HTTP error response. */
  datatype HttpError = HttpError(status: int, detail: string)

  const LoginRequired := HttpError(401, "認証が必要です")
  const SessionExpired := HttpError(401, "セッションが期限切れです")
  const AdminRequired := HttpError(403, "管理者権限が必要です")

  /** The user of a set of claims; absent claims are empty, except the
      role, which defaults to "user". */
  function FromClaims(claims: Claims): (u: AuthUser)
    ensures Lookup(claims, "sub").Some? ==> u.sub == Lookup(claims, "sub").value
    ensures Lookup(claims, "sub").None? ==> u.sub == ""
    ensures Lookup(claims, "email").Some? ==> u.email == Lookup(claims, "email").value
    ensures Lookup(claims, "email").None? ==> u.email == ""
    ensures Lookup(claims, "name").Some? ==> u.name == Lookup(claims, "name").value
    ensures Lookup(claims, "name").None? ==> u.name == ""
    ensures Lookup(claims, "picture").Some? ==> u.picture == Lookup(claims, "picture").value
    ensures Lookup(claims, "picture").None? ==> u.picture == ""
    ensures Lookup(claims, "role").Some? ==> u.role == Lookup(claims, "role").value
    ensures Lookup(claims, "role").None? ==> u.role == "user"
  {
    AuthUser(Lookup(claims, "sub").GetOr(""), Lookup(claims, "email").GetOr(""),
             Lookup(claims, "name").GetOr(""), Lookup(claims, "picture").GetOr(""),
             Lookup(claims, "role").GetOr("user"))
  }

  /** The stored user id: the email when there is one, else the subject. */
  function UserId(u: AuthUser): (id: string)
    ensures |u.email| > 0 ==> id == u.email
    ensures |u.email| == 0 ==> id == u.sub
  {
    if |u.email| > 0 then u.email else u.sub
  }

  predicate IsAdmin(u: AuthUser)
  {
    u.role == "admin"
  }

  /** The logged-in user; `cookie` is the session cookie if sent, and
      `decode` the token verifier, `None` for a token it rejects. An
      absent or empty cookie, and a rejected token or empty claims, are
      401 errors. */
  function CurrentUser(cookie: Option<string>, decode: string -> Option<Claims>): (r: Result<AuthUser, HttpError>)
    ensures cookie.None? || cookie == Some("") ==> r == Failure(LoginRequired)
    ensures r.Failure? ==> r.error.status == 401
    ensures r.Success? <==> (cookie.Some? && cookie.value != "" && decode(cookie.value).Some? && decode(cookie.value).value != [])
    ensures r.Success? ==> r.value == FromClaims(decode(cookie.value).value)
  {
    if cookie.None? || cookie.value == "" then Failure(LoginRequired)
    else
      var claims := decode(cookie.value);
      if claims.None? || claims.value == [] then Failure(SessionExpired)
      else Success(FromClaims(claims.value))
  }

  /** The logged-in user, if any: empty exactly where `CurrentUser`
      fails, and the same user elsewhere. */
  function OptionalUser(cookie: Option<string>, decode: string -> Option<Claims>): (r: Option<AuthUser>)
    ensures r.None? <==> CurrentUser(cookie, decode).Failure?
    ensures r.Some? ==> CurrentUser(cookie, decode) == Success(r.value)
  {
    if cookie.None? || cookie.value == "" then None
    else
      var claims := decode(cookie.value);
      if claims.None? || claims.value == [] then None
      else Some(FromClaims(claims.value))
  }

  /** The logged-in administrator: the 401 errors of `CurrentUser`, and a
      403 error for a user who is not an administrator. */
  function RequireAdmin(cookie: Option<string>, decode: string -> Option<Claims>): (r: Result<AuthUser, HttpError>)
    ensures CurrentUser(cookie, decode).Failure? ==> r == CurrentUser(cookie, decode)
    ensures r.Success? <==> CurrentUser(cookie, decode).Success? && IsAdmin(CurrentUser(cookie, decode).value)
    ensures r.Success? ==> r == CurrentUser(cookie, decode)
    ensures r == Failure(AdminRequired) <==> CurrentUser(cookie, decode).Success? && !IsAdmin(CurrentUser(cookie, decode).value)
  {
    var user :- CurrentUser(cookie, decode);
    if !IsAdmin(user) then Failure(AdminRequired) else Success(user)
  }
}

=== FILE: catalog.dfy ===
/** The sound catalogue: scanning sound libraries into sounds with a
    category and subcategory taken from their folders, the per-category
    counts, searching, and the category list. A library is the list of
    paths, relative to its base, that a recursive walk yields. */
module Catalog {
  import opened Wrappers
  import opened Text
  import opened Lists

  const AudioExtensions: set<string> := {".aif", ".aiff", ".wav", ".caf", ".mp3", ".m4a"}

  /** A path found under a library, as its components below the base. */
  datatype Entry = Entry(parts: seq<string>, size: nat)

  datatype Library = Library(base: string, entries: seq<Entry>)

  datatype Sound = Sound(name: string, path: string, category: string, subcategory: Option<string>, format: string, size: nat)

  /** The last component of an entry (its file name). */
  function FileName(e: Entry): string
  {
    if |e.parts| == 0 then "" else e.parts[|e.parts| - 1]
  }

  predicate IsAudio(e: Entry)
  {
    Lower(Suffix(FileName(e))) in AudioExtensions
  }

  /** The folder below the base, or "Uncategorized" for a file directly in
      it; the folder below that, when the file is deeper still. */
  function SoundOf(base: string, e: Entry): (s: Sound)
    ensures s.category == if |e.parts| > 1 then e.parts[0] else "Uncategorized"
    ensures s.subcategory == if |e.parts| > 2 then Some(e.parts[1]) else None
    ensures s.name == Stem(FileName(e)) && s.format == Lower(Suffix(FileName(e)))
  {
    Sound(Stem(FileName(e)), base + "/" + Join(e.parts, "/"),
          if |e.parts| > 1 then e.parts[0] else "Uncategorized",
          if |e.parts| > 2 then Some(e.parts[1]) else None,
          Lower(Suffix(FileName(e))), e.size)
  }

  function LibrarySounds(lib: Library): (ss: seq<Sound>)
  {
    FilterMap(lib.entries, (e: Entry) => if IsAudio(e) then Some(SoundOf(lib.base, e)) else None)
  }

  /** The sounds of all libraries, in library order. */
  function AllSounds(libs: seq<Library>): seq<Sound>
  {
    FlatMap(libs, LibrarySounds)
  }

  // ---------------------------------------------------------------------
  // Category counts
  // ---------------------------------------------------------------------

  datatype CategoryInfo = CategoryInfo(count: nat, subcategories: seq<(string, nat)>)

  /** The subcategory a sound adds to its category's tally: none when it
      is missing or empty. */
  function NewSubcategory(s: Sound): seq<string>
  {
    if s.subcategory.Some? && s.subcategory.value != "" then [s.subcategory.value] else []
  }

  /** A category's entry with one more of its sounds counted. */
  function CountSound(info: CategoryInfo, s: Sound): CategoryInfo
  {
    CategoryInfo(info.count + 1,
      if s.subcategory.Some? && s.subcategory.value != "" then Bump(info.subcategories, s.subcategory.value) else info.subcategories)
  }

  /** The entry of category `c`, or an empty one. */
  function InfoOf(cats: seq<(string, CategoryInfo)>, c: string): CategoryInfo
  {
    match Lookup(cats, c) case Some(info) => info case None => CategoryInfo(0, [])
  }

  function AddSound(cats: seq<(string, CategoryInfo)>, s: Sound): seq<(string, CategoryInfo)>
  {
    Assign(cats, s.category, CountSound(InfoOf(cats, s.category), s))
  }

  /** The per-category counts, built sound by sound. */
  function Categories(sounds: seq<Sound>): seq<(string, CategoryInfo)>
  {
    if |sounds| == 0 then [] else AddSound(Categories(sounds[..|sounds| - 1]), sounds[|sounds| - 1])
  }

  /** The category of each sound, in order. */
  function CategoryNames(sounds: seq<Sound>): (cs: seq<string>)
    ensures |cs| == |sounds|
  {
    if |sounds| == 0 then [] else CategoryNames(sounds[..|sounds| - 1]) + [sounds[|sounds| - 1].category]
  }

  /** The non-empty subcategories of the sounds in category `c`, in order. */
  function SubcategoriesIn(sounds: seq<Sound>, c: string): seq<string>
  {
    if |sounds| == 0 then []
    else
      var s := sounds[|sounds| - 1];
      SubcategoriesIn(sounds[..|sounds| - 1], c) + (if s.category == c then NewSubcategory(s) else [])
  }

  /** Counting a sound changes only its own category's entry. */
  lemma AddSoundLookup(cats: seq<(string, CategoryInfo)>, s: Sound, c: string)
    ensures Lookup(AddSound(cats, s), c) ==
      if s.category != c then Lookup(cats, c) else Some(CountSound(InfoOf(cats, c), s))
  {
    if s.category != c {
      AssignOther(cats, s.category, CountSound(InfoOf(cats, s.category), s), c);
    }
  }

  lemma CountTally(occ: nat, subs: seq<string>, s: Sound)
    ensures CountSound(CategoryInfo(occ, Tally(subs)), s) == CategoryInfo(occ + 1, Tally(subs + NewSubcategory(s)))
  {
    if NewSubcategory(s) != [] {
      TallySnoc(subs, s.subcategory.value);
    } else {
      assert subs + NewSubcategory(s) == subs;
    }
  }

  /** The entry of category `c` that counting `sounds` should give: present exactly when some
      sound is in it, with its number of sounds and the tally of their
      subcategories. */
  function Expected(sounds: seq<Sound>, c: string): Option<CategoryInfo>
  {
    InfoFrom(CategoryNames(sounds), Tally(SubcategoriesIn(sounds, c)), c)
  }

  /** The entry of category `c` for the given category names and
      subcategory counts of `c`. */
  function InfoFrom<K(==)>(names: seq<K>, subcategories: seq<(string, nat)>, c: K): Option<CategoryInfo>
  {
    if c in names then Some(CategoryInfo(Occurrences(names, c), subcategories)) else None
  }

  /** A category has an entry exactly when some sound is in it; its count is
      the number of its sounds, and its subcategory counts are the tally of
      its sounds' subcategories. */
  lemma {:induction false} CategoryLookup(sounds: seq<Sound>, c: string)
    ensures Lookup(Categories(sounds), c) == Expected(sounds, c)
  {
    if |sounds| > 0 {
      var init := sounds[..|sounds| - 1];
      var s := sounds[|sounds| - 1];
      CategoryLookup(init, c);
      if s.category != c {
        AddSoundLookup(Categories(init), s, c);
        OtherCategoryStep(sounds, c);
      } else {
        SameCategoryStep(sounds, c);
      }
    }
  }

  /** Counting a sound of category `c` keeps its entry as expected. */
  lemma SameCategoryStep(sounds: seq<Sound>, c: string)
    requires |sounds| > 0 && sounds[|sounds| - 1].category == c
    requires Lookup(Categories(sounds[..|sounds| - 1]), c) == Expected(sounds[..|sounds| - 1], c)
    ensures Lookup(Categories(sounds), c) == Expected(sounds, c)
  {
    var init := sounds[..|sounds| - 1];
    var s := sounds[|sounds| - 1];
    var cats := Categories(init);
    calc {
      Lookup(Categories(sounds), c);
      Lookup(AddSound(cats, s), c);
      { AddSoundLookup(cats, s, c); }
      Some(CountSound(InfoOf(cats, c), s));
      Some(CountSound(OrEmpty(Expected(init, c)), s));
      { ExpectedCounted(sounds, c); }
      Expected(sounds, c);
    }
  }

  /** An entry, or an empty one. */
  function OrEmpty(info: Option<CategoryInfo>): CategoryInfo
  {
    match info case Some(i) => i case None => CategoryInfo(0, [])
  }

  /** The expected entry after one more sound of category `c` is the one
      before with that sound counted. */
  lemma ExpectedCounted(sounds: seq<Sound>, c: string)
    requires |sounds| > 0 && sounds[|sounds| - 1].category == c
    ensures Expected(sounds, c) == Some(CountSound(OrEmpty(Expected(sounds[..|sounds| - 1], c)), sounds[|sounds| - 1]))
  {
    var init := sounds[..|sounds| - 1];
    var s := sounds[|sounds| - 1];
    ExpectedOrEmpty(init, c);
    CountTally(Occurrences(CategoryNames(init), c), SubcategoriesIn(init, c), s);
    SameCategoryLast(sounds, c);
  }

  /** A category without sounds has the empty entry. */
  lemma ExpectedOrEmpty(sounds: seq<Sound>, c: string)
    ensures OrEmpty(Expected(sounds, c)) == CategoryInfo(Occurrences(CategoryNames(sounds), c), Tally(SubcategoriesIn(sounds, c)))
  {
    if c !in CategoryNames(sounds) {
      SubcategoriesNone(sounds, c);
      OccurrencesNone(CategoryNames(sounds), c);
    }
  }

  /** One more sound of category `c` adds one to its count and its
      subcategory, if any, to its tally. */
  lemma SameCategoryLast(sounds: seq<Sound>, c: string)
    requires |sounds| > 0 && sounds[|sounds| - 1].category == c
    ensures Expected(sounds, c) ==
      Some(CategoryInfo(Occurrences(CategoryNames(sounds[..|sounds| - 1]), c) + 1,
                        Tally(SubcategoriesIn(sounds[..|sounds| - 1], c) + NewSubcategory(sounds[|sounds| - 1]))))
  {
    var init := sounds[..|sounds| - 1];
    var t := Tally(SubcategoriesIn(init, c) + NewSubcategory(sounds[|sounds| - 1]));
    NamesSnoc(sounds);
    SubcategoriesSnoc(sounds, c);
    assert Tally(SubcategoriesIn(sounds, c)) == t;
    InfoFromSame(CategoryNames(init), t, c);
  }

  /** One more sound of another category leaves the expected entry of `c` alone. */
  lemma OtherCategoryStep(sounds: seq<Sound>, c: string)
    requires |sounds| > 0 && sounds[|sounds| - 1].category != c
    ensures Expected(sounds, c) == Expected(sounds[..|sounds| - 1], c)
  {
    var init := sounds[..|sounds| - 1];
    NamesSnoc(sounds);
    SubcategoriesSnoc(sounds, c);
    assert SubcategoriesIn(init, c) + [] == SubcategoriesIn(init, c);
    InfoFromOther(CategoryNames(init), sounds[|sounds| - 1].category, Tally(SubcategoriesIn(init, c)), c);
  }

  lemma NamesSnoc(sounds: seq<Sound>)
    requires |sounds| > 0
    ensures CategoryNames(sounds) == CategoryNames(sounds[..|sounds| - 1]) + [sounds[|sounds| - 1].category]
  {
  }

  lemma SubcategoriesSnoc(sounds: seq<Sound>, c: string)
    requires |sounds| > 0
    ensures var s := sounds[|sounds| - 1];
            SubcategoriesIn(sounds, c) == SubcategoriesIn(sounds[..|sounds| - 1], c) + (if s.category == c then NewSubcategory(s) else [])
  {
  }

  lemma InfoFromSame<K>(names: seq<K>, t: seq<(string, nat)>, c: K)
    ensures InfoFrom(names + [c], t, c) == Some(CategoryInfo(Occurrences(names, c) + 1, t))
  {
    assert (names + [c])[|names|] == c;
    OccurrencesSnoc(names, c, c);
  }

  lemma InfoFromOther<K>(names: seq<K>, x: K, t: seq<(string, nat)>, c: K)
    requires x != c
    ensures InfoFrom(names + [x], t, c) == InfoFrom(names, t, c)
  {
    assert c in names + [x] <==> c in names;
    OccurrencesSnoc(names, x, c);
  }

  lemma OccurrencesSnoc<K>(keys: seq<K>, x: K, k: K)
    ensures Occurrences(keys + [x], k) == Occurrences(keys, k) + (if x == k then 1 else 0)
  {
    assert (keys + [x])[..|keys|] == keys;
  }

  lemma TallySnoc<K>(keys: seq<K>, k: K)
    ensures Tally(keys + [k]) == Bump(Tally(keys), k)
  {
    assert (keys + [k])[..|keys|] == keys;
  }

  lemma {:induction false} SubcategoriesNone(sounds: seq<Sound>, c: string)
    requires c !in CategoryNames(sounds)
    ensures SubcategoriesIn(sounds, c) == []
  {
    if |sounds| > 0 {
      var init := sounds[..|sounds| - 1];
      assert CategoryNames(sounds) == CategoryNames(init) + [sounds[|sounds| - 1].category];
      SubcategoriesNone(init, c);
    }
  }

  lemma {:induction false} OccurrencesNone<K>(s: seq<K>, k: K)
    requires k !in s
    ensures Occurrences(s, k) == 0
  {
    if |s| > 0 {
      OccurrencesNone(s[..|s| - 1], k);
    }
  }

  /** The subcategory counts of a category add up to at most its count. */
  lemma {:induction false} SubcategoriesBounded(sounds: seq<Sound>, c: string)
    ensures |SubcategoriesIn(sounds, c)| <= Occurrences(CategoryNames(sounds), c)
  {
    if |sounds| > 0 {
      var init := sounds[..|sounds| - 1];
      SubcategoriesBounded(init, c);
      assert CategoryNames(sounds)[..|sounds| - 1] == CategoryNames(init);
    }
  }

  /** The categories appear in the order their first sound was found. */
  lemma {:induction false} CategoryOrder(sounds: seq<Sound>)
    ensures Keys(Categories(sounds)) == Dedup(CategoryNames(sounds))
  {
    if |sounds| > 0 {
      var init := sounds[..|sounds| - 1];
      var s := sounds[|sounds| - 1];
      CategoryOrder(init);
      assert CategoryNames(sounds)[..|sounds| - 1] == CategoryNames(init);
      LookupKeys(Categories(init), s.category);
      CategoryLookup(init, s.category);
      assert s.category in Dedup(CategoryNames(init)) <==> s.category in CategoryNames(init) by {
        if s.category in CategoryNames(init) {
          var k :| 0 <= k < |init| && CategoryNames(init)[k] == s.category;
        }
      }
    }
  }

  // ---------------------------------------------------------------------
  // scan
  // ---------------------------------------------------------------------

  datatype Stats = Stats(totalSounds: nat, totalCategories: nat)

  datatype CatalogData = CatalogData(sounds: seq<Sound>, categories: seq<(string, CategoryInfo)>, stats: Stats)

  /** `scan`: with no libraries to scan, 0 and the catalogue unchanged;
      otherwise the catalogue is replaced and its sound count returned.
      `installed` are the default libraries that exist. */
  function Scan(catalog: CatalogData, paths: Option<seq<Library>>, installed: seq<Library>): (r: (nat, CatalogData))
    ensures var libs := if paths.None? then installed else paths.value;
      && (libs == [] ==> r == (0, catalog))
      && (libs != [] ==> r.0 == |r.1.sounds| == r.1.stats.totalSounds && r.1.stats.totalCategories == |r.1.categories|)
    ensures forall s :: s in r.1.sounds && r.1 != catalog ==> s.format in AudioExtensions
  {
    var libs := if paths.None? then installed else paths.value;
    if libs == [] then (0, catalog)
    else
      var sounds := AllSounds(libs);
      AllSoundsAudio(libs);
      (|sounds|, CatalogData(sounds, Categories(sounds), Stats(|sounds|, |Categories(sounds)|)))
  }

  lemma AllSoundsAudio(libs: seq<Library>)
    ensures forall s :: s in AllSounds(libs) ==> s.format in AudioExtensions
  {
    FlatMapMembers(libs, LibrarySounds);
    forall s | s in AllSounds(libs) ensures s.format in AudioExtensions {
      var k :| 0 <= k < |libs| && s in LibrarySounds(libs[k]);
      LibraryAudio(libs[k], s);
    }
  }

  lemma LibraryAudio(lib: Library, s: Sound)
    requires s in LibrarySounds(lib)
    ensures s.format in AudioExtensions
  {
    var f := (e: Entry) => if IsAudio(e) then Some(SoundOf(lib.base, e)) else None;
    FilterMapExact(lib.entries, f);
    var i :| 0 <= i < |LibrarySounds(lib)| && LibrarySounds(lib)[i] == s;
  }

  /** Every audio file of a scanned library is catalogued, under the folder
      it lies in. */
  lemma LibraryCatalogued(libs: seq<Library>, k: nat, e: Entry)
    requires k < |libs| && e in libs[k].entries && IsAudio(e)
    ensures SoundOf(libs[k].base, e) in AllSounds(libs)
  {
    var f := (x: Entry) => if IsAudio(x) then Some(SoundOf(libs[k].base, x)) else None;
    FilterMapExact(libs[k].entries, f);
    var j :| 0 <= j < |libs[k].entries| && libs[k].entries[j] == e;
    FlatMapMembers(libs, LibrarySounds);
  }

  /** The catalogue's counts: each category's count is its number of
      sounds, and its subcategory counts add up to no more. */
  lemma ScanCounts(catalog: CatalogData, paths: Option<seq<Library>>, installed: seq<Library>, c: string)
    requires (if paths.None? then installed else paths.value) != []
    ensures var cat := Scan(catalog, paths, installed).1;
      var info := Lookup(cat.categories, c);
      && (info.Some? <==> c in CategoryNames(cat.sounds))
      && (info.Some? ==> info.value.count == Occurrences(CategoryNames(cat.sounds), c)
                         && Total(info.value.subcategories) <= info.value.count)
  {
    var cat := Scan(catalog, paths, installed).1;
    CategoryLookup(cat.sounds, c);
    assert Lookup(cat.categories, c) == Expected(cat.sounds, c);
    ExpectedCounts(cat.sounds, c);
  }

  lemma ExpectedCounts(sounds: seq<Sound>, c: string)
    ensures var info := Expected(sounds, c);
      && (info.Some? <==> c in CategoryNames(sounds))
      && (info.Some? ==> info.value.count == Occurrences(CategoryNames(sounds), c)
                         && Total(info.value.subcategories) <= info.value.count)
  {
    SubcategoriesBounded(sounds, c);
    TallyShape(SubcategoriesIn(sounds, c));
  }

  // ---------------------------------------------------------------------
  // search and list_categories
  // ---------------------------------------------------------------------

  /** `str(subcategory)`: a missing subcategory reads "None". */
  function SubcategoryText(sub: Option<string>): string
  {
    if sub.None? then "None" else sub.value
  }

  /** A sound passes the category filter and the query, each applied only
      when non-empty. */
  function Keep(query: Option<string>, category: Option<string>): Sound -> bool
  {
    (s: Sound) =>
      && (category.None? || category.value == "" || Lower(s.category) == Lower(category.value))
      && (query.None? || query.value == ""
          || Contains(Lower(s.name), Lower(query.value))
          || Contains(Lower(s.category), Lower(query.value))
          || Contains(Lower(SubcategoryText(s.subcategory)), Lower(query.value)))
  }

  /** `search`: the kept sounds in catalogue order, stopping once the count
      reaches `limit` (checked after each addition). */
  method Search(sounds: seq<Sound>, query: Option<string>, category: Option<string>, limit: int) returns (results: seq<Sound>)
    ensures results == Take(Filter(sounds, Keep(query, category)), Cap(limit))
  {
    results := TakeKept(sounds, Keep(query, category), limit);
  }

  /** The first kept items, stopping once `limit` is reached. */
  method TakeKept<T>(items: seq<T>, keep: T -> bool, limit: int) returns (results: seq<T>)
    ensures results == Take(Filter(items, keep), Cap(limit))
  {
    results := [];
    for i := 0 to |items|
      invariant results == Filter(items[..i], keep)
      invariant |results| < Cap(limit)
    {
      FilterStep(items, i, keep);
      if keep(items[i]) {
        results := results + [items[i]];
        if |results| >= limit {
          TakeStop(items, i + 1, keep, results, limit);
          return;
        }
      }
    }
    assert items[..|items|] == items;
    TakeWhole(results, Cap(limit));
  }

  lemma TakeStop<T>(items: seq<T>, n: nat, keep: T -> bool, results: seq<T>, limit: int)
    requires n <= |items| && results == Filter(items[..n], keep)
    requires |results| == Cap(limit)
    ensures results == Take(Filter(items, keep), Cap(limit))
  {
    TakeFilterPrefix(items, n, keep, results);
  }

  lemma FilterStep<T>(items: seq<T>, i: nat, keep: T -> bool)
    requires i < |items|
    ensures Filter(items[..i + 1], keep) == Filter(items[..i], keep) + (if keep(items[i]) then [items[i]] else [])
  {
    assert items[..i + 1] == items[..i] + [items[i]];
    FilterAppend(items[..i], [items[i]], keep);
  }

  lemma TakeFilterPrefix<T>(items: seq<T>, n: nat, keep: T -> bool, results: seq<T>)
    requires n <= |items| && results == Filter(items[..n], keep)
    ensures Take(Filter(items, keep), |results|) == results
  {
    assert items == items[..n] + items[n..];
    FilterAppend(items[..n], items[n..], keep);
    var all := Filter(items, keep);
    assert all == results + Filter(items[n..], keep);
    assert all[..|results|] == results;
  }

  /** The results are kept sounds in catalogue order, at most `limit` of
      them (one when `limit` is below one), and all kept sounds when they
      are fewer. */
  lemma SearchResults(sounds: seq<Sound>, query: Option<string>, category: Option<string>, limit: int)
    ensures var r := Take(Filter(sounds, Keep(query, category)), Cap(limit));
      && |r| <= Cap(limit)
      && (forall s :: s in r ==> s in sounds && Keep(query, category)(s))
      && (|Filter(sounds, Keep(query, category))| <= Cap(limit) ==> r == Filter(sounds, Keep(query, category)))
  {
  }

  /** A query "none" finds every sound without a subcategory. */
  lemma NoneFindsMissingSubcategory(s: Sound)
    requires s.subcategory.None?
    ensures Keep(Some("none"), None)(s)
  {
    var q := Lower("none");
    assert q == "none" by {
      assert |q| == 4 && q[0] == 'n' && q[1] == 'o' && q[2] == 'n' && q[3] == 'e';
    }
    var h := Lower(SubcategoryText(s.subcategory));
    assert h == "none" by {
      assert SubcategoryText(s.subcategory) == "None";
      assert |h| == 4 && h[0] == 'n' && h[1] == 'o' && h[2] == 'n' && h[3] == 'e';
    }
    assert OccursAt(h, q, 0);
  }

  /** `list_categories`: the categories in first-found order. */
  function ListCategories(catalog: CatalogData): seq<string>
  {
    Keys(catalog.categories)
  }

  lemma ListedAfterScan(catalog: CatalogData, paths: Option<seq<Library>>, installed: seq<Library>)
    requires (if paths.None? then installed else paths.value) != []
    ensures var cat := Scan(catalog, paths, installed).1;
      ListCategories(cat) == Dedup(CategoryNames(cat.sounds))
  {
    CategoryOrder(Scan(catalog, paths, installed).1.sounds);
  }
}

=== FILE: content_manager.dfy ===
/** The content manager of the AI-development knowledge base: the merged
    entry list of the text and image stores, keyword search, statistics,
    and the index page. */
module ContentManager {
  import opened Wrappers
  import opened Text
  import opened Lists
  import opened ContentStore

  /** Both stores: each root's category directories, its path, and the
      YAML loader. */
  datatype Stores = Stores(textRoot: seq<Node>, textPath: string, imageRoot: seq<Node>, imagePath: string,
                           load: string -> Yaml)

  predicate IncludesText(contentType: Option<string>)
  {
    contentType.None? || contentType == Some("text")
  }

  predicate IncludesImages(contentType: Option<string>)
  {
    contentType.None? || contentType == Some("images")
  }

  function CreatedAt(): Entry -> string
  {
    (e: Entry) => e.createdAt
  }

  /** The order of `sort(key=created_at, reverse=True)`. */
  function NewestFirst(): (string, string) -> bool
  {
    Flip(StringLe())
  }

  /** The text listing, then the image listing, as the content type selects. */
  function Gathered(st: Stores, contentType: Option<string>, category: Option<string>, tag: Option<string>): seq<Entry>
  {
    (if IncludesText(contentType) then ListText(st.textRoot, st.textPath, category, tag, st.load) else [])
    + (if IncludesImages(contentType) then ListImages(st.imageRoot, st.imagePath, category, tag, st.load) else [])
  }

  /** Python's `ContentManager.list_entries`: the selected listings,
      stably sorted by creation time, newest first. */
  function ListAll(st: Stores, contentType: Option<string>, category: Option<string>, tag: Option<string>): (r: seq<Entry>)
    ensures |r| == |Gathered(st, contentType, category, tag)|
    ensures multiset(r) == multiset(Gathered(st, contentType, category, tag))
  {
    SortBy(Gathered(st, contentType, category, tag), CreatedAt(), NewestFirst())
  }

  /** Text entries are listed exactly for no content type or "text", image
      entries exactly for none or "images"; any other type lists nothing. */
  lemma ListAllMembers(st: Stores, contentType: Option<string>, category: Option<string>, tag: Option<string>, e: Entry)
    ensures e in ListAll(st, contentType, category, tag)
        <==> ((IncludesText(contentType) && e in ListText(st.textRoot, st.textPath, category, tag, st.load))
              || (IncludesImages(contentType) && e in ListImages(st.imageRoot, st.imagePath, category, tag, st.load)))
    ensures !IncludesText(contentType) && !IncludesImages(contentType) ==> ListAll(st, contentType, category, tag) == []
  {
    SortByMembers(Gathered(st, contentType, category, tag), CreatedAt(), NewestFirst());
  }

  /** The merged list is newest first, and entries created at the same
      time keep their listing order (text before images). */
  lemma ListAllNewestFirst(st: Stores, contentType: Option<string>, category: Option<string>, tag: Option<string>, stamp: string)
    ensures var r := ListAll(st, contentType, category, tag);
      forall i, j :: 0 <= i < j < |r| ==> LexLe(r[j].createdAt, r[i].createdAt)
    ensures ClassOf(ListAll(st, contentType, category, tag), CreatedAt(), NewestFirst(), stamp)
         == ClassOf(Gathered(st, contentType, category, tag), CreatedAt(), NewestFirst(), stamp)
  {
    StringLePreorder();
    FlipPreorder(StringLe());
    var g := Gathered(st, contentType, category, tag);
    SortSorted(g, CreatedAt(), NewestFirst());
    SortStable(g, CreatedAt(), NewestFirst(), stamp);
    var r := ListAll(st, contentType, category, tag);
    forall i, j | 0 <= i < j < |r| ensures LexLe(r[j].createdAt, r[i].createdAt) {
      assert NewestFirst()(CreatedAt()(r[i]), CreatedAt()(r[j]));
    }
  }

  // ---------------------------------------------------------------------
  // Search
  // ---------------------------------------------------------------------

  /** The text searched: title, category, the tags, body and description,
      joined with spaces. */
  function Searchable(e: Entry): string
  {
    Join([e.title, e.category, Join(e.tags, " "), BodyOf(e), DescriptionOf(e)], " ")
  }

  predicate Matches(query: string, e: Entry)
  {
    Contains(Lower(Searchable(e)), Lower(query))
  }

  function MatchesQuery(query: string): Entry -> bool
  {
    (e: Entry) => Matches(query, e)
  }

  /** Python's `search`: the entries of the full listing whose searchable
      text contains the query, case-insensitively, in listing order. */
  function Search(st: Stores, query: string): (r: seq<Entry>)
    ensures forall e :: e in r <==> e in ListAll(st, None, None, None) && Matches(query, e)
    ensures |r| <= |ListAll(st, None, None, None)|
  {
    Filter(ListAll(st, None, None, None), MatchesQuery(query))
  }

  /** Search results stay newest first. */
  lemma SearchNewestFirst(st: Stores, query: string)
    ensures var r := Search(st, query);
      forall i, j :: 0 <= i < j < |r| ==> LexLe(r[j].createdAt, r[i].createdAt)
  {
    StringLePreorder();
    FlipPreorder(StringLe());
    var all := ListAll(st, None, None, None);
    SortSorted(Gathered(st, None, None, None), CreatedAt(), NewestFirst());
    FilterKeepsOrder(all, MatchesQuery(query), CreatedAt(), NewestFirst());
    var r := Search(st, query);
    forall i, j | 0 <= i < j < |r| ensures LexLe(r[j].createdAt, r[i].createdAt) {
      assert NewestFirst()(CreatedAt()(r[i]), CreatedAt()(r[j]));
    }
  }

  /** The empty query matches every entry. */
  lemma SearchEmptyQuery(st: Stores)
    ensures Search(st, "") == ListAll(st, None, None, None)
  {
    forall e ensures Matches("", e) {
      assert OccursAt(Lower(Searchable(e)), Lower(""), 0);
    }
    FilterAll(ListAll(st, None, None, None), MatchesQuery(""));
  }

  /** A query can match across the space between two fields: "a b"
      matches the title "a" with the category "b", though neither field
      contains it. */
  lemma SearchSpansFields(path: string)
    ensures var e := TextEntry(path, "a", "b", "", "", [], "", "", "");
      Matches("a b", e) && !Contains(e.title, "a b") && !Contains(e.category, "a b")
  {
    var e := TextEntry(path, "a", "b", "", "", [], "", "", "");
    assert Join(e.tags, " ") == "" && BodyOf(e) == "" && DescriptionOf(e) == "";
    assert Join(["", ""], " ") == " ";
    assert Join(["", "", ""], " ") == "  ";
    assert Join(["b", "", "", ""], " ") == "b   ";
    assert Join(["a", "b", "", "", ""], " ") == "a b   ";
    assert Searchable(e) == "a b   ";
    assert Lower("a b") == "a b";
    assert Lower("a b   ")[0..3] == "a b";
    assert OccursAt(Lower(Searchable(e)), Lower("a b"), 0);
  }

  // ---------------------------------------------------------------------
  // Statistics
  // ---------------------------------------------------------------------

  datatype Stats = Stats(total: nat, textCount: nat, imageCount: nat,
                         textByCategory: seq<(string, nat)>, imageByCategory: seq<(string, nat)>)

  function IsText(): Entry -> bool
  {
    (e: Entry) => e.TextEntry?
  }

  function IsImage(): Entry -> bool
  {
    (e: Entry) => e.ImageEntry?
  }

  function CategoriesOf(es: seq<Entry>): (cs: seq<string>)
    ensures |cs| == |es|
    ensures forall i :: 0 <= i < |es| ==> cs[i] == es[i].category
  {
    if |es| == 0 then [] else [es[0].category] + CategoriesOf(es[1..])
  }

  /** Every entry is a text or an image entry, never both. */
  lemma {:induction false} KindsPartition(es: seq<Entry>)
    ensures |Filter(es, IsText())| + |Filter(es, IsImage())| == |es|
  {
    if |es| > 0 {
      KindsPartition(es[1..]);
    }
  }

  /** Python's `get_stats` over the full listing: the counts, and per
      kind the counts by category in order of first appearance. */
  function GetStats(st: Stores): (s: Stats)
    ensures s.total == s.textCount + s.imageCount
    ensures Total(s.textByCategory) == s.textCount && Total(s.imageByCategory) == s.imageCount
    ensures Distinct(Keys(s.textByCategory)) && Distinct(Keys(s.imageByCategory))
  {
    var all := ListAll(st, None, None, None);
    var texts := Filter(all, IsText());
    var images := Filter(all, IsImage());
    KindsPartition(all);
    TallyShape(CategoriesOf(texts));
    TallyShape(CategoriesOf(images));
    Stats(|all|, |texts|, |images|, Tally(CategoriesOf(texts)), Tally(CategoriesOf(images)))
  }

  /** Each category's count is the number of listed entries of that kind
      in that category. */
  lemma StatsByCategory(st: Stores, c: string)
    ensures var all := ListAll(st, None, None, None);
      CountOf(GetStats(st).textByCategory, c) == Occurrences(CategoriesOf(Filter(all, IsText())), c)
      && CountOf(GetStats(st).imageByCategory, c) == Occurrences(CategoriesOf(Filter(all, IsImage())), c)
  {
    var all := ListAll(st, None, None, None);
    TallyCounts(CategoriesOf(Filter(all, IsText())), c);
    TallyCounts(CategoriesOf(Filter(all, IsImage())), c);
  }

  // ---------------------------------------------------------------------
  // The index page
  // ---------------------------------------------------------------------

  const IndexTitle := "# AI開発 ナレッジベース インデックス"
  const TextHeading := "## テキスト"
  const ImageHeading := "## 画像"

  /** The tags after the category, in backquotes, or nothing when they
      join to the empty string. */
  function TagsDisplay(tags: seq<string>): string
  {
    var joined := Join(tags, ", ");
    if joined != "" then " `" + joined + "`" else ""
  }

  function EntryLine(e: Entry): (line: string)
    ensures |line| > 0 && line[0] == '-'
  {
    "- [" + e.title + "](" + e.path + ") [" + e.category + "]" + TagsDisplay(e.tags) + " (" + e.createdAt + ")"
  }

  function EntryLines(es: seq<Entry>): (lines: seq<string>)
    ensures |lines| == |es|
    ensures forall i :: 0 <= i < |es| ==> lines[i] == EntryLine(es[i])
  {
    if |es| == 0 then [] else [EntryLine(es[0])] + EntryLines(es[1..])
  }

  /** A section: its heading, a blank line, one line per entry and a blank
      line, or nothing at all for no entries. */
  function Section(heading: string, es: seq<Entry>): (lines: seq<string>)
    ensures |es| == 0 ==> lines == []
    ensures |es| > 0 ==> |lines| == |es| + 3 && lines[0] == heading && lines[1] == "" && lines[|lines| - 1] == ""
    ensures |es| > 0 ==> forall i :: 0 <= i < |es| ==> lines[i + 2] == EntryLine(es[i])
  {
    if |es| == 0 then []
    else
      var body := EntryLines(es);
      Framed(heading, body);
      [heading, ""] + body + [""]
  }

  /** The lines of `body` between a heading, a blank line and a closing
      blank line. */
  lemma Framed(heading: string, body: seq<string>)
    ensures var lines := [heading, ""] + body + [""];
      |lines| == |body| + 3 && lines[0] == heading && lines[1] == "" && lines[|lines| - 1] == ""
      && forall i :: 0 <= i < |body| ==> lines[i + 2] == body[i]
  {
  }

  function Header(count: nat, stamp: string): (lines: seq<string>)
    ensures |lines| == 6 && lines[0] == IndexTitle
  {
    [IndexTitle, "", "最終更新: " + stamp, "", "総エントリ数: " + NatToString(count), ""]
  }

  /** The lines of INDEX.md for the listing `es`, given the formatted time. */
  function IndexLines(es: seq<Entry>, stamp: string): seq<string>
  {
    Header(|es|, stamp) + Section(TextHeading, Filter(es, IsText())) + Section(ImageHeading, Filter(es, IsImage()))
  }

  /** Python's `update_index`: the page text for the full listing. */
  function UpdateIndex(st: Stores, stamp: string): string
  {
    Join(IndexLines(ListAll(st, None, None, None), stamp), "\n")
  }

  /** Every entry of the full listing, text or image, has its line on the
      index page. */
  lemma UpdateIndexEntries(st: Stores, stamp: string, e: Entry)
    requires e in ListAll(st, None, None, None)
    ensures Contains(UpdateIndex(st, stamp), EntryLine(e))
  {
    IndexHasEntry(ListAll(st, None, None, None), stamp, e);
  }

  lemma IndexHasEntry(es: seq<Entry>, stamp: string, e: Entry)
    requires e in es
    ensures Contains(Join(IndexLines(es, stamp), "\n"), EntryLine(e))
  {
    var k;
    if e.TextEntry? {
      k := TextLineAt(es, stamp, e);
    } else {
      k := ImageLineAt(es, stamp, e);
    }
    JoinContains(IndexLines(es, stamp), "\n", k);
  }

  lemma TextLineAt(es: seq<Entry>, stamp: string, e: Entry) returns (k: nat)
    requires e in es && e.TextEntry?
    ensures k < |IndexLines(es, stamp)| && IndexLines(es, stamp)[k] == EntryLine(e)
  {
    var texts := Filter(es, IsText());
    assert e in texts;
    var i :| 0 <= i < |texts| && texts[i] == e;
    var sec := Section(TextHeading, texts);
    assert sec[i + 2] == EntryLine(e);
    k := InSecond(Header(|es|, stamp), sec, Section(ImageHeading, Filter(es, IsImage())), i + 2);
  }

  lemma ImageLineAt(es: seq<Entry>, stamp: string, e: Entry) returns (k: nat)
    requires e in es && e.ImageEntry?
    ensures k < |IndexLines(es, stamp)| && IndexLines(es, stamp)[k] == EntryLine(e)
  {
    var images := Filter(es, IsImage());
    assert e in images;
    var i :| 0 <= i < |images| && images[i] == e;
    var sec := Section(ImageHeading, images);
    assert sec[i + 2] == EntryLine(e);
    k := InThird(Header(|es|, stamp), Section(TextHeading, Filter(es, IsText())), sec, i + 2);
  }

  lemma InSecond(a: seq<string>, b: seq<string>, c: seq<string>, j: nat) returns (k: nat)
    requires j < |b|
    ensures k < |a + b + c| && (a + b + c)[k] == b[j]
  {
    k := |a| + j;
  }

  lemma InThird(a: seq<string>, b: seq<string>, c: seq<string>, j: nat) returns (k: nat)
    requires j < |c|
    ensures k < |a + b + c| && (a + b + c)[k] == c[j]
  {
    k := |a| + |b| + j;
  }

  /** Neither heading is a header line. */
  lemma HeaderHasNoHeading(count: nat, stamp: string)
    ensures TextHeading !in Header(count, stamp) && ImageHeading !in Header(count, stamp)
  {
    assert TextHeading[1] == '#' && ImageHeading[1] == '#' && IndexTitle[1] == ' ';
    assert TextHeading[0] == '#' && ImageHeading[0] == '#';
    var h := Header(count, stamp);
    assert h[2][0] == '最' && h[4][0] == '総';
  }

  /** A section holds no heading but its own: its other lines are blank
      or entry lines, which start with "-". */
  lemma SectionHasNoOtherHeading(heading: string, es: seq<Entry>, other: string)
    requires other != heading && |other| > 0 && other[0] == '#'
    ensures other !in Section(heading, es)
  {
    var lines := Section(heading, es);
    forall k | 0 <= k < |lines| ensures lines[k] != other {
      if 2 <= k < |lines| - 1 {
        assert lines[k] == EntryLine(es[k - 2]);
      }
    }
  }

  /** The page has the six header lines, then a text section exactly when
      there are text entries and an image section exactly when there are
      image entries, each with one line per entry in listing order. */
  lemma IndexStructure(es: seq<Entry>, stamp: string)
    ensures var texts := Filter(es, IsText());
      var images := Filter(es, IsImage());
      var lines := IndexLines(es, stamp);
      |lines| == 6 + (if |texts| > 0 then |texts| + 3 else 0) + (if |images| > 0 then |images| + 3 else 0)
      && (TextHeading in lines <==> |texts| > 0)
      && (ImageHeading in lines <==> |images| > 0)
      && (|texts| > 0 ==> lines[6] == TextHeading && forall i :: 0 <= i < |texts| ==> lines[8 + i] == EntryLine(texts[i]))
  {
    HeadingsDiffer();
    HeaderHasNoHeading(|es|, stamp);
    SectionHasNoOtherHeading(ImageHeading, Filter(es, IsImage()), TextHeading);
    SectionHasNoOtherHeading(TextHeading, Filter(es, IsText()), ImageHeading);
    IndexTextSection(es, stamp);
  }

  lemma HeadingsDiffer()
    ensures TextHeading[0] == '#' && ImageHeading[0] == '#' && TextHeading != ImageHeading
  {
    assert TextHeading[3] != ImageHeading[3];
  }

  /** The text section, when there is one, opens right after the header. */
  lemma IndexTextSection(es: seq<Entry>, stamp: string)
    ensures var texts := Filter(es, IsText());
      var lines := IndexLines(es, stamp);
      |texts| > 0 ==> lines[6] == TextHeading && forall i :: 0 <= i < |texts| ==> lines[8 + i] == EntryLine(texts[i])
  {
    var texts := Filter(es, IsText());
    assert IndexLines(es, stamp) == Header(|es|, stamp) + Section(TextHeading, texts) + Section(ImageHeading, Filter(es, IsImage()));
    if |texts| > 0 {
      SectionAfterHeader(Header(|es|, stamp), TextHeading, texts, Section(ImageHeading, Filter(es, IsImage())));
    }
  }

  lemma SectionAfterHeader(head: seq<string>, heading: string, es: seq<Entry>, rest: seq<string>)
    requires |head| == 6 && |es| > 0
    ensures var lines := head + Section(heading, es) + rest;
      lines[6] == heading && forall i :: 0 <= i < |es| ==> lines[8 + i] == EntryLine(es[i])
  {
    var body := EntryLines(es);
    assert Section(heading, es) == [heading, ""] + body + [""];
    AfterHeader(head, heading, body, rest);
  }

  lemma AfterHeader(head: seq<string>, heading: string, body: seq<string>, rest: seq<string>)
    requires |head| == 6
    ensures var lines := head + ([heading, ""] + body + [""]) + rest;
      lines[6] == heading && forall i :: 0 <= i < |body| ==> lines[8 + i] == body[i]
  {
    var ts := [heading, ""] + body + [""];
    var lines := head + ts + rest;
    assert lines[6] == ts[0];
    forall i | 0 <= i < |body| ensures lines[8 + i] == body[i] {
      assert lines[8 + i] == ts[i + 2];
    }
  }
}

=== FILE: content_store.dfy ===
/** The text and image stores of the AI-development knowledge base: the
    front-matter block of a Markdown entry, creating and reading entries,
    registering images with their metadata, and listing a store's
    category directories. */
module ContentStore {
  import opened Wrappers
  import opened Text
  import opened Lists
  import opened Slugs

  // ---------------------------------------------------------------------
  // Metadata
  // ---------------------------------------------------------------------

  /** The keys the handlers read from a front-matter block or a metadata
      file; an absent key is `None`. */
  datatype Meta = Meta(
    title: Option<string>,
    category: Option<string>,
    createdAt: Option<string>,
    updatedAt: Option<string>,
    tags: Option<seq<string>>,
    source: Option<string>,
    status: Option<string>,
    imageFile: Option<string>,
    originalPath: Option<string>,
    description: Option<string>)

  const NoKeys := Meta(None, None, None, None, None, None, None, None, None, None)

  /** What `yaml.safe_load` makes of a text: a syntax error, null, a
      mapping, or some other value, truthy or not. */
  datatype Yaml = Malformed | Null | Mapping(meta: Meta) | NotMapping(truthy: bool)

  /** The loaded metadata as the handlers use it (`safe_load(…) or {}`,
      with a syntax error also read as `{}`): a mapping, or a truthy
      non-mapping value on which the later key lookups fail. */
  datatype FrontMatter = Fields(meta: Meta) | Unusable

  function Loaded(y: Yaml): (fm: FrontMatter)
    ensures fm.Unusable? <==> y.NotMapping? && y.truthy
    ensures y.Mapping? ==> fm == Fields(y.meta)
    ensures fm.Fields? && !y.Mapping? ==> fm.meta == NoKeys
  {
    match y
    case Mapping(m) => Fields(m)
    case NotMapping(truthy) => if truthy then Unusable else Fields(NoKeys)
    case _ => Fields(NoKeys)
  }

  // ---------------------------------------------------------------------
  // The front-matter pattern `^---\s*\n(.*?)\n---\s*\n(.*)$` (DOTALL)
  // ---------------------------------------------------------------------

  const Fence := "---"
  const Closer := "\n---"

  /** The end of the whitespace run that starts at `i`. */
  function RunEnd(t: string, i: nat): (r: nat)
    requires i <= |t|
    ensures i <= r <= |t|
  {
    SkipFrom(t, IsSpace, i)
  }

  /** `\s*\n` matched from `i` up to the newline at `j`. */
  predicate BreakAt(t: string, i: int, j: int)
  {
    0 <= i <= j && i <= |t| && j < RunEnd(t, i) && t[j] == '\n'
  }

  /** `\n---\s*\n` matched from `e`, its last newline at `j`. */
  predicate Closing(t: string, e: int, j: int)
  {
    OccursAt(t, Closer, e) && BreakAt(t, e + 4, j)
  }

  /** The whole pattern matched with the block `t[g..e]`, the closing
      line ending at the newline `j`, and the rest `t[j + 1..]`. */
  predicate IsBlock(t: string, g: int, e: int, j: int)
  {
    StartsWith(t, Fence) && BreakAt(t, 3, g - 1) && g <= e && Closing(t, e, j)
  }

  datatype Block = Block(start: nat, stop: nat, newline: nat)

  /** The regular-expression engine's preference: the greedy `\s*` makes
      the block start as late as possible, then the lazy `(.*?)` makes it
      stop as early as possible, then the second greedy `\s*` makes the
      closing line as long as possible. */
  predicate Preferred(b: Block, g: int, e: int, j: int)
  {
    g < b.start || (g == b.start && (e > b.stop || (e == b.stop && j <= b.newline)))
  }

  /** The greedy `\s*\n` from `i`: the last newline of the run, or -1. */
  function LastBreak(t: string, i: nat): (r: int)
    requires i <= |t|
    ensures r >= 0 ==> BreakAt(t, i, r)
    ensures forall j :: BreakAt(t, i, j) ==> 0 <= j <= r
  {
    RFindChar(t, '\n', i, RunEnd(t, i))
  }

  /** The lazy search for the closing line from `from` on. */
  function CloseFrom(t: string, from: nat): (r: Option<(nat, nat)>)
    requires from <= |t|
    ensures r.Some? ==> from <= r.value.0 && Closing(t, r.value.0, r.value.1)
    ensures r.Some? ==> forall j :: Closing(t, r.value.0, j) ==> j <= r.value.1
    ensures r.Some? ==> forall e, j :: from <= e < r.value.0 ==> !Closing(t, e, j)
    ensures r.None? ==> forall e, j :: from <= e ==> !Closing(t, e, j)
    decreases |t| - from
  {
    if from + 4 > |t| then None
    else
      var j := LastBreak(t, from + 4);
      if OccursAt(t, Closer, from) && j >= 0 then Some((from, j as nat))
      else CloseFrom(t, from + 1)
  }

  /** The backtracking over the opening line: the newlines of the
      whitespace run after "---" are tried from the last one before `hi`
      down to the first. */
  function OpenFrom(t: string, hi: nat): (r: Option<Block>)
    requires StartsWith(t, Fence) && hi <= RunEnd(t, 3)
    ensures r.Some? ==> IsBlock(t, r.value.start, r.value.stop, r.value.newline) && r.value.start <= hi
    ensures r.Some? ==> forall g, e, j :: IsBlock(t, g, e, j) && g <= hi ==> Preferred(r.value, g, e, j)
    ensures r.None? ==> forall g, e, j :: g <= hi ==> !IsBlock(t, g, e, j)
    decreases hi
  {
    var b := RFindChar(t, '\n', 3, hi);
    if b < 0 then None
    else
      match CloseFrom(t, b + 1)
      case Some(c) => Some(Block(b + 1, c.0, c.1))
      case None => OpenFrom(t, b)
  }

  /** The match the pattern finds, if any. */
  function FindBlock(t: string): (r: Option<Block>)
    ensures r.None? <==> forall g, e, j :: !IsBlock(t, g, e, j)
    ensures r.Some? ==> IsBlock(t, r.value.start, r.value.stop, r.value.newline)
    ensures r.Some? ==> forall g, e, j :: IsBlock(t, g, e, j) ==> Preferred(r.value, g, e, j)
  {
    if !StartsWith(t, Fence) then None
    else
      var r := OpenFrom(t, RunEnd(t, 3));
      assert forall g, e, j :: IsBlock(t, g, e, j) ==> g <= RunEnd(t, 3);
      r
  }

  /** Python's `_parse_frontmatter`: the loaded block and the text after
      the closing line, or no keys and the whole text when there is no
      block. */
  function ParseFrontmatter(t: string, load: string -> Yaml): (r: (FrontMatter, string))
    ensures FindBlock(t).None? ==> r == (Fields(NoKeys), t)
    ensures FindBlock(t).Some? ==> |r.1| < |t| && r.1 == t[FindBlock(t).value.newline + 1..]
    ensures FindBlock(t).Some? && load(t[FindBlock(t).value.start..FindBlock(t).value.stop]).Malformed? ==>
      r.0 == Fields(NoKeys)
  {
    match FindBlock(t)
    case None => (Fields(NoKeys), t)
    case Some(b) => (Loaded(load(t[b.start..b.stop])), t[b.newline + 1..])
  }

  // ---------------------------------------------------------------------
  // Entries
  // ---------------------------------------------------------------------

  /** An entry as the handlers return it; keys a handler does not set
      read as "" in the content manager's lookups. */
  datatype Entry =
    | TextEntry(path: string, title: string, category: string, createdAt: string, updatedAt: string,
                tags: seq<string>, source: string, status: string, body: string)
    | ImageEntry(path: string, imagePath: string, title: string, category: string, createdAt: string,
                 description: string, tags: seq<string>, source: string, status: string)

  /** The `body` lookup: "" for an image entry. */
  function BodyOf(e: Entry): string
  {
    if e.TextEntry? then e.body else ""
  }

  /** The `description` lookup: "" for a text entry. */
  function DescriptionOf(e: Entry): string
  {
    if e.ImageEntry? then e.description else ""
  }

  /** The file a text entry is written to: the fenced YAML, a blank line,
      the title as a heading, a blank line, the body and a final newline. */
  function EntryText(yaml: string, title: string, body: string): string
  {
    Fence + "\n" + yaml + "\n" + Fence + "\n" + "\n" + "# " + title + "\n" + "\n" + body + "\n"
  }

  /** The positions of a new entry's file: the opening fence, the YAML,
      the closing fence, two newlines, and the heading. */
  lemma EntryTextPositions(yaml: string, title: string, body: string)
    requires |yaml| > 0
    ensures var t := EntryText(yaml, title, body);
      var e := 4 + |yaml|;
      |t| > e + 6 && t[..3] == Fence && t[3] == '\n' && t[4] == yaml[0] && t[4..e] == yaml
      && t[e..e + 4] == Closer && t[e + 4] == '\n' && t[e + 5] == '\n' && t[e + 6] == '#'
      && t[e + 6..] == "# " + title + "\n\n" + body + "\n"
  {
  }

  /** After "---", a newline and a non-space character, every match
      starts its block right after that newline. */
  lemma OpensAtFour(t: string)
    requires |t| > 4 && t[..3] == Fence && t[3] == '\n' && !IsSpace(t[4])
    ensures RunEnd(t, 3) == 4 && BreakAt(t, 3, 3)
    ensures forall g, e, j :: IsBlock(t, g, e, j) ==> g == 4
  {
    assert IsSpace(t[3]);
    assert SkipFrom(t, IsSpace, 4) == 4;
  }

  /** A closing fence followed by two newlines and a non-space character
      ends its closing line at the second newline. */
  lemma ClosesAt(t: string, e: nat)
    requires e + 6 < |t| && t[e..e + 4] == Closer && t[e + 4] == '\n' && t[e + 5] == '\n' && !IsSpace(t[e + 6])
    ensures Closing(t, e, e + 5)
    ensures forall j :: Closing(t, e, j) ==> j <= e + 5
  {
    assert SkipFrom(t, IsSpace, e + 6) == e + 6;
    assert RunEnd(t, e + 4) == e + 6;
  }

  /** A YAML text without a closing fence, followed by a newline, lets no
      closing fence start inside it: one that started in its last three
      characters would need a '-' where the newline is. */
  lemma NoCloseInside(t: string, yaml: string)
    requires |t| >= 5 + |yaml| && t[4..4 + |yaml|] == yaml && t[4 + |yaml|] == '\n'
    requires |yaml| > 0 && !Contains(yaml, Closer)
    ensures forall e :: 4 <= e < 4 + |yaml| ==> !OccursAt(t, Closer, e)
  {
    var n := 4 + |yaml|;
    forall e | 4 <= e < n ensures !OccursAt(t, Closer, e) {
      if e + 4 <= n {
        if OccursAt(t, Closer, e) {
          forall k | 0 <= k < 4 ensures yaml[e - 4 + k] == Closer[k] {
            assert yaml[e - 4 + k] == t[4..4 + |yaml|][e - 4 + k] == t[e + k];
            assert t[e + k] == t[e..e + 4][k];
          }
          assert yaml[e - 4..e] == Closer;
          assert OccursAt(yaml, Closer, e - 4);
        }
      } else {
        assert t[n] == '\n' && Closer[n - e] == '-';
        assert e + 4 > |t| || t[e..e + 4][n - e] == t[n];
      }
    }
  }

  datatype Created = Created(name: string, meta: Meta, text: string)

  /** Python's `create_entry`: the first free name "{date}_{slug}.md" or
      "{date}_{slug}_{k}.md" in the category directory, whose existing
      names are `taken`, and the new front matter, dumped by `dump`
      (`yaml.dump`) and stripped. */
  function CreateEntry(taken: set<string>, date: string, now: string, title: string, body: string,
                       category: string, tags: Option<seq<string>>, source: Option<string>,
                       isWord: char -> bool, dump: Meta -> string): (c: Created)
    ensures c.name !in taken
    ensures c.name == FreeNameOf(date + "_" + Slugify(title, isWord), ".md", taken)
    ensures c.meta.title == Some(title) && c.meta.category == Some(category)
    ensures c.meta.createdAt == Some(now) && c.meta.updatedAt == Some(now)
    ensures c.meta.status == Some("draft")
    ensures c.meta.tags == Some(if tags.Some? then tags.value else [])
    ensures c.meta.source == Some(if source.Some? then source.value else "")
    ensures c.text == EntryText(Strip(dump(c.meta)), title, body)
  {
    var meta := Meta(Some(title), Some(category), Some(now), Some(now), Some(tags.GetOr([])),
                     Some(source.GetOr("")), Some("draft"), None, None, None);
    Created(FreeNameOf(date + "_" + Slugify(title, isWord), ".md", taken), meta, EntryText(Strip(dump(meta)), title, body))
  }

  /** Python's `TextHandler.read_entry` of the file `text` at `path`: a
      failure when the front matter is not a mapping; otherwise each
      missing key reads as "" (the tags as []) and the body is stripped. */
  function ReadText(path: string, text: string, load: string -> Yaml): (r: Result<Entry, string>)
    ensures r.Failure? <==> ParseFrontmatter(text, load).0.Unusable?
    ensures r.Success? ==> r.value.TextEntry? && r.value.path == path
    ensures r.Success? ==> r.value.body == Strip(ParseFrontmatter(text, load).1)
    ensures r.Success? && ParseFrontmatter(text, load).0.meta.title.None? ==> r.value.title == ""
    ensures r.Success? && ParseFrontmatter(text, load).0.meta.tags.None? ==> r.value.tags == []
  {
    var (fm, body) := ParseFrontmatter(text, load);
    match fm
    case Unusable => Failure("front matter is not a mapping")
    case Fields(m) =>
      Success(TextEntry(path, m.title.GetOr(""), m.category.GetOr(""), m.createdAt.GetOr(""),
                        m.updatedAt.GetOr(""), m.tags.GetOr([]), m.source.GetOr(""), m.status.GetOr(""),
                        Strip(body)))
  }

  /** YAML text the block search reads back whole: it is non-empty, does
      not start with whitespace and holds no closing fence. A stripped
      non-empty dump meets the first two. */
  predicate Fenceable(yaml: string)
  {
    |yaml| > 0 && !IsSpace(yaml[0]) && !Contains(yaml, Closer)
  }

  /** The file of a new entry parses into exactly its YAML block and the
      heading, body and final newline after the closing fence. */
  lemma EntryTextBlock(yaml: string, title: string, body: string)
    requires Fenceable(yaml)
    ensures FindBlock(EntryText(yaml, title, body)) == Some(Block(4, 4 + |yaml|, 9 + |yaml|))
  {
    var t := EntryText(yaml, title, body);
    var e := 4 + |yaml|;
    EntryTextPositions(yaml, title, body);
    NoCloseInside(t, yaml);
    BlockAt(t, e);
  }

  /** An opening fence line, then text without a closing fence up to `e`,
      where a closing fence is followed by two newlines and a non-space
      character: the block runs from 4 to `e` and its closing line ends
      at the second newline. */
  lemma BlockAt(t: string, e: nat)
    requires |t| > 4 && t[..3] == Fence && t[3] == '\n' && !IsSpace(t[4])
    requires 4 <= e && e + 6 < |t| && t[e..e + 4] == Closer && t[e + 4] == '\n' && t[e + 5] == '\n'
    requires !IsSpace(t[e + 6])
    requires forall x :: 4 <= x < e ==> !OccursAt(t, Closer, x)
    ensures FindBlock(t) == Some(Block(4, e, e + 5))
  {
    OpensAtFour(t);
    ClosesAt(t, e);
    assert IsBlock(t, 4, e, e + 5);
    var b := FindBlock(t).value;
    assert Preferred(b, 4, e, e + 5);
    assert b.stop == e by {
      assert OccursAt(t, Closer, b.stop);
    }
  }

  /** Reading back a new entry gives its title, category, timestamps,
      tags (or []), source (or ""), status "draft", and the stripped text
      from the heading on, whenever the stripped YAML dump is non-empty,
      holds no closing fence and reads back as the same mapping. */
  lemma CreateThenRead(taken: set<string>, date: string, now: string, title: string, body: string,
                       category: string, tags: Option<seq<string>>, source: Option<string>,
                       isWord: char -> bool, dump: Meta -> string, load: string -> Yaml, path: string)
    requires var c := CreateEntry(taken, date, now, title, body, category, tags, source, isWord, dump);
      var yaml := Strip(dump(c.meta));
      |yaml| > 0 && !Contains(yaml, Closer) && load(yaml) == Mapping(c.meta)
    ensures var c := CreateEntry(taken, date, now, title, body, category, tags, source, isWord, dump);
      ReadText(path, c.text, load)
      == Success(TextEntry(path, title, category, now, now, tags.GetOr([]), source.GetOr(""), "draft",
                           Strip("# " + title + "\n\n" + body + "\n")))
  {
    var c := CreateEntry(taken, date, now, title, body, category, tags, source, isWord, dump);
    var yaml := Strip(dump(c.meta));
    EntryTextBlock(yaml, title, body);
    EntryTextPositions(yaml, title, body);
  }

  // ---------------------------------------------------------------------
  // Images
  // ---------------------------------------------------------------------

  /** The source image: the path as given, its resolved form, the final
      component of the resolved path, and whether it exists. */
  datatype ImageSource = ImageSource(given: string, resolved: string, name: string, present: bool)

  datatype RegisterError = NotFound(path: string) | Unsupported(ext: string)

  /** A registration: the copied image's name, the metadata file's name,
      the metadata written, and the category directory's names after. */
  datatype Registered = Registered(imageName: string, metaName: string, meta: Meta, files: set<string>)

  const MetaExt := ".meta.yaml"

  function ImageMeta(title: string, category: string, now: string, imageName: string, src: ImageSource,
                     description: string, tags: Option<seq<string>>, source: Option<string>): Meta
  {
    Meta(Some(title), Some(category), Some(now), None, Some(tags.GetOr([])), Some(source.GetOr("")),
         Some("draft"), Some(imageName), Some(src.resolved), Some(description))
  }

  /** Python's `register_image` as written: a missing source fails before
      the extension is checked, the lower-cased suffix must be allowed, the
      image takes the first free "{date}_{slug}{ext}" or
      "{date}_{slug}_{k}{ext}", and the metadata always takes
      "{date}_{slug}.meta.yaml", replacing any file of that name. */
  function RegisterImageAsWritten(files: set<string>, src: ImageSource, allowed: seq<string>, date: string,
                                  now: string, title: string, description: string, category: string,
                                  tags: Option<seq<string>>, source: Option<string>,
                                  isWord: char -> bool): (r: Result<Registered, RegisterError>)
    ensures !src.present ==> r == Failure(NotFound(src.given))
    ensures src.present && Lower(Suffix(src.name)) !in allowed ==> r == Failure(Unsupported(Lower(Suffix(src.name))))
    ensures r.Success? <==> src.present && Lower(Suffix(src.name)) in allowed
    ensures r.Success? ==> r.value.imageName !in files
    ensures r.Success? ==> r.value.metaName == date + "_" + Slugify(title, isWord) + MetaExt
    ensures r.Success? ==> r.value.files == files + {r.value.imageName, r.value.metaName}
  {
    if !src.present then Failure(NotFound(src.given))
    else
      var ext := Lower(Suffix(src.name));
      if ext !in allowed then Failure(Unsupported(ext))
      else
        var stem := date + "_" + Slugify(title, isWord);
        var imageName := FreeNameOf(stem, ext, files);
        var metaName := stem + MetaExt;
        Success(Registered(imageName, metaName, ImageMeta(title, category, now, imageName, src, description, tags, source),
                           files + {imageName, metaName}))
  }

  /** A same-day re-registration of a title keeps both images but writes
      its metadata over the first registration's metadata, so the first
      image is left without metadata. */
  lemma ReRegisterOverwritesMeta(files: set<string>, src: ImageSource, allowed: seq<string>, date: string,
                                 now: string, title: string, description: string, category: string,
                                 tags: Option<seq<string>>, source: Option<string>, isWord: char -> bool)
    requires RegisterImageAsWritten(files, src, allowed, date, now, title, description, category, tags, source, isWord).Success?
    ensures var first := RegisterImageAsWritten(files, src, allowed, date, now, title, description, category, tags, source, isWord).value;
      var second := RegisterImageAsWritten(first.files, src, allowed, date, now, title, description, category, tags, source, isWord);
      second.Success? && second.value.metaName == first.metaName && first.metaName in first.files
      && second.value.imageName != first.imageName
      && second.value.meta.imageFile == Some(second.value.imageName)
  {
  }

  /** `register_image` with the metadata name chosen like the image's:
      the first free "{date}_{slug}.meta.yaml" or
      "{date}_{slug}_{k}.meta.yaml" once the image is placed. */
  function RegisterImage(files: set<string>, src: ImageSource, allowed: seq<string>, date: string,
                         now: string, title: string, description: string, category: string,
                         tags: Option<seq<string>>, source: Option<string>,
                         isWord: char -> bool): (r: Result<Registered, RegisterError>)
    ensures !src.present ==> r == Failure(NotFound(src.given))
    ensures src.present && Lower(Suffix(src.name)) !in allowed ==> r == Failure(Unsupported(Lower(Suffix(src.name))))
    ensures r.Success? <==> src.present && Lower(Suffix(src.name)) in allowed
    ensures r.Success? ==> r.value.imageName !in files && r.value.metaName !in files
    ensures r.Success? ==> r.value.imageName != r.value.metaName
    ensures r.Success? ==> r.value.files == files + {r.value.imageName, r.value.metaName}
    ensures r.Success? ==> |r.value.files| == |files| + 2
    ensures r.Success? ==> r.value.meta.imageFile == Some(r.value.imageName)
    ensures r.Success? ==>
      r.value.meta.status == Some("draft") && r.value.meta.tags == Some(tags.GetOr([]))
      && r.value.meta.source == Some(source.GetOr(""))
  {
    if !src.present then Failure(NotFound(src.given))
    else
      var ext := Lower(Suffix(src.name));
      if ext !in allowed then Failure(Unsupported(ext))
      else
        var stem := date + "_" + Slugify(title, isWord);
        var imageName := FreeNameOf(stem, ext, files);
        var metaName := FreeNameOf(stem, MetaExt, files + {imageName});
        TwoFresh(files, imageName, metaName);
        Success(Registered(imageName, metaName, ImageMeta(title, category, now, imageName, src, description, tags, source),
                           files + {imageName, metaName}))
  }

  /** Two names added one after the other, each fresh when it is added. */
  lemma TwoFresh<T>(files: set<T>, a: T, b: T)
    requires a !in files && b !in files + {a}
    ensures b !in files && a != b
    ensures |files + {a, b}| == |files| + 2
  {
    assert files + {a, b} == files + {a} + {b};
  }

  /** Registering the same title twice on one day leaves two images and
      two metadata files, the second naming the second image. */
  lemma ReRegisterKeepsBoth(files: set<string>, src: ImageSource, allowed: seq<string>, date: string,
                            now: string, title: string, description: string, category: string,
                            tags: Option<seq<string>>, source: Option<string>, isWord: char -> bool)
    requires RegisterImage(files, src, allowed, date, now, title, description, category, tags, source, isWord).Success?
    ensures var first := RegisterImage(files, src, allowed, date, now, title, description, category, tags, source, isWord).value;
      var second := RegisterImage(first.files, src, allowed, date, now, title, description, category, tags, source, isWord);
      second.Success? && |second.value.files| == |files| + 4
      && second.value.metaName != first.metaName && second.value.imageName != first.imageName
  {
  }

  /** Python's `ImageHandler.read_entry` of the metadata file `name` in
      the directory `dir`: a failure when the metadata does not parse (no
      handler catches the YAML error here) or is a truthy non-mapping;
      otherwise missing keys read as "" (the tags as []), and the image
      path is the image file beside the metadata, or "" without one. */
  function ReadImage(dir: string, name: string, y: Yaml): (r: Result<Entry, string>)
    ensures r.Failure? <==> y.Malformed? || (y.NotMapping? && y.truthy)
    ensures r.Success? ==> r.value.ImageEntry? && r.value.path == dir + "/" + name
    ensures r.Success? ==> (r.value.imagePath == "" <==> Loaded(y).meta.imageFile.GetOr("") == "")
    ensures r.Success? && Loaded(y).meta.imageFile.GetOr("") != "" ==>
      r.value.imagePath == dir + "/" + Loaded(y).meta.imageFile.value
    ensures r.Success? && Loaded(y).meta.tags.None? ==> r.value.tags == []
  {
    if y.Malformed? then Failure("metadata is not valid YAML")
    else match Loaded(y)
    case Unusable => Failure("metadata is not a mapping")
    case Fields(m) =>
      var imageFile := m.imageFile.GetOr("");
      Success(ImageEntry(dir + "/" + name, if imageFile != "" then dir + "/" + imageFile else "",
                         m.title.GetOr(""), m.category.GetOr(""), m.createdAt.GetOr(""),
                         m.description.GetOr(""), m.tags.GetOr([]), m.source.GetOr(""), m.status.GetOr("")))
  }

  // ---------------------------------------------------------------------
  // Listing
  // ---------------------------------------------------------------------

  /** A file of a category directory; `None` content when it cannot be read. */
  datatype File = File(name: string, content: Option<string>)

  /** A node of a store's root: a category directory with its files, or
      another file (which holds no entries). */
  datatype Node = Node(name: string, isDir: bool, files: seq<File>)

  function Named(name: string): Node -> bool
  {
    (d: Node) => d.name == name
  }

  function Visible(): Node -> bool
  {
    (d: Node) => d.isDir && !StartsWith(d.name, ".")
  }

  /** The directories searched: the one named by a non-empty category if
      it exists, else every directory whose name does not start with ".". */
  function SearchDirs(root: seq<Node>, category: Option<string>): (dirs: seq<Node>)
    ensures category.Some? && category.value != "" ==>
      forall d :: d in dirs <==> d in root && d.name == category.value
    ensures category.None? || category.value == "" ==>
      forall d :: d in dirs <==> d in root && d.isDir && !StartsWith(d.name, ".")
  {
    if category.Some? && category.value != "" then Filter(root, Named(category.value))
    else Filter(root, Visible())
  }

  /** The tag filter: no tag, or an empty one, keeps every entry. */
  predicate TagOk(tag: Option<string>, e: Entry)
  {
    tag.None? || tag.value == "" || tag.value in e.tags
  }

  /** Reading a file as an entry: the directory path, the file name and
      its text give an entry or a failure. */
  type Reader = (string, string, string) -> Result<Entry, string>

  /** What one file contributes: nothing unless it matches the glob, can
      be read, reads as an entry, and passes the tag filter. */
  function Pick(dirPath: string, suffix: string, tag: Option<string>, read: Reader): File -> Option<Entry>
  {
    (f: File) =>
      if !EndsWith(f.name, suffix) || f.content.None? then None
      else
        match read(dirPath, f.name, f.content.value)
        case Failure(_) => None
        case Success(e) => if TagOk(tag, e) then Some(e) else None
  }

  function ListDir(rootPath: string, d: Node, suffix: string, tag: Option<string>, read: Reader): seq<Entry>
  {
    if d.isDir then FilterMap(d.files, Pick(rootPath + "/" + d.name, suffix, tag, read)) else []
  }

  function ListDirs(rootPath: string, dirs: seq<Node>, suffix: string, tag: Option<string>, read: Reader): seq<Entry>
  {
    if |dirs| == 0 then [] else ListDir(rootPath, dirs[0], suffix, tag, read) + ListDirs(rootPath, dirs[1..], suffix, tag, read)
  }

  /** Both handlers' `list_entries`: the entries of the searched
      directories, directory by directory, skipping what cannot be read. */
  function ListEntries(root: seq<Node>, rootPath: string, category: Option<string>, tag: Option<string>,
                       suffix: string, read: Reader): seq<Entry>
  {
    ListDirs(rootPath, SearchDirs(root, category), suffix, tag, read)
  }

  /** `f` of directory `d` is a matching, readable file whose entry is `e`
      and passes the tag filter. */
  predicate ListedFrom(rootPath: string, d: Node, f: File, suffix: string, tag: Option<string>, read: Reader, e: Entry)
  {
    d.isDir && f in d.files && EndsWith(f.name, suffix) && f.content.Some?
    && read(rootPath + "/" + d.name, f.name, f.content.value) == Success(e) && TagOk(tag, e)
  }

  lemma ListDirExact(rootPath: string, d: Node, suffix: string, tag: Option<string>, read: Reader, e: Entry)
    ensures e in ListDir(rootPath, d, suffix, tag, read) <==> exists f :: ListedFrom(rootPath, d, f, suffix, tag, read, e)
  {
    if d.isDir {
      var pick := Pick(rootPath + "/" + d.name, suffix, tag, read);
      FilterMapExact(d.files, pick);
      if e in ListDir(rootPath, d, suffix, tag, read) {
        var i :| 0 <= i < |FilterMap(d.files, pick)| && FilterMap(d.files, pick)[i] == e;
        var j :| 0 <= j < |d.files| && pick(d.files[j]) == Some(e);
        assert ListedFrom(rootPath, d, d.files[j], suffix, tag, read, e);
      }
      if exists f :: ListedFrom(rootPath, d, f, suffix, tag, read, e) {
        var f :| ListedFrom(rootPath, d, f, suffix, tag, read, e);
        var j :| 0 <= j < |d.files| && d.files[j] == f;
        assert pick(d.files[j]) == Some(e);
      }
    }
  }

  lemma {:induction false} ListDirsExact(rootPath: string, dirs: seq<Node>, suffix: string, tag: Option<string>, read: Reader, e: Entry)
    ensures e in ListDirs(rootPath, dirs, suffix, tag, read)
        <==> exists d, f :: d in dirs && ListedFrom(rootPath, d, f, suffix, tag, read, e)
  {
    if |dirs| > 0 {
      ListDirsExact(rootPath, dirs[1..], suffix, tag, read, e);
      ListDirExact(rootPath, dirs[0], suffix, tag, read, e);
      if exists d, f :: d in dirs && ListedFrom(rootPath, d, f, suffix, tag, read, e) {
        var d, f :| d in dirs && ListedFrom(rootPath, d, f, suffix, tag, read, e);
        if d != dirs[0] {
          assert d in dirs[1..];
        }
      }
    }
  }

  /** An entry is listed exactly when some searched directory holds a
      matching, readable file that reads as that entry and passes the tag
      filter; unreadable files and failed reads drop out. */
  lemma ListEntriesExact(root: seq<Node>, rootPath: string, category: Option<string>, tag: Option<string>,
                         suffix: string, read: Reader, e: Entry)
    ensures e in ListEntries(root, rootPath, category, tag, suffix, read)
        <==> exists d, f :: d in SearchDirs(root, category) && ListedFrom(rootPath, d, f, suffix, tag, read, e)
  {
    ListDirsExact(rootPath, SearchDirs(root, category), suffix, tag, read, e);
  }

  /** The text store's reader: the entry's path is the file's path. */
  function TextReader(load: string -> Yaml): Reader
  {
    (dir: string, name: string, text: string) => ReadText(dir + "/" + name, text, load)
  }

  /** The image store's reader of metadata files. */
  function ImageReader(load: string -> Yaml): Reader
  {
    (dir: string, name: string, text: string) => ReadImage(dir, name, load(text))
  }

  function ListText(root: seq<Node>, rootPath: string, category: Option<string>, tag: Option<string>,
                    load: string -> Yaml): seq<Entry>
  {
    ListEntries(root, rootPath, category, tag, ".md", TextReader(load))
  }

  function ListImages(root: seq<Node>, rootPath: string, category: Option<string>, tag: Option<string>,
                      load: string -> Yaml): seq<Entry>
  {
    ListEntries(root, rootPath, category, tag, MetaExt, ImageReader(load))
  }

  /** With a category, every listed text entry lies in that category's
      directory, and with a tag, every listed entry carries it. */
  lemma ListTextInCategory(root: seq<Node>, rootPath: string, category: string, tag: Option<string>,
                           load: string -> Yaml, e: Entry)
    requires category != ""
    requires e in ListText(root, rootPath, Some(category), tag, load)
    ensures e.TextEntry? && StartsWith(e.path, rootPath + "/" + category + "/")
    ensures tag.Some? && tag.value != "" ==> tag.value in e.tags
  {
    ListEntriesExact(root, rootPath, Some(category), tag, ".md", TextReader(load), e);
    var d, f :| d in SearchDirs(root, Some(category)) && ListedFrom(rootPath, d, f, ".md", tag, TextReader(load), e);
    assert e.path == rootPath + "/" + category + "/" + f.name;
    assert (rootPath + "/" + category + "/" + f.name)[..|rootPath + "/" + category + "/"|] == rootPath + "/" + category + "/";
  }

  /** With a category, every listed image entry's metadata lies in that
      category's directory, and with a tag, every listed entry carries it. */
  lemma ListImagesInCategory(root: seq<Node>, rootPath: string, category: string, tag: Option<string>,
                             load: string -> Yaml, e: Entry)
    requires category != ""
    requires e in ListImages(root, rootPath, Some(category), tag, load)
    ensures e.ImageEntry? && StartsWith(e.path, rootPath + "/" + category + "/")
    ensures tag.Some? && tag.value != "" ==> tag.value in e.tags
  {
    ListEntriesExact(root, rootPath, Some(category), tag, MetaExt, ImageReader(load), e);
    var d, f :| d in SearchDirs(root, Some(category)) && ListedFrom(rootPath, d, f, MetaExt, tag, ImageReader(load), e);
    assert e.path == rootPath + "/" + category + "/" + f.name;
    assert (rootPath + "/" + category + "/" + f.name)[..|rootPath + "/" + category + "/"|] == rootPath + "/" + category + "/";
  }

  /** A metadata file whose YAML does not parse is skipped: every listed
      image entry was read from a metadata file that parsed. */
  lemma ListedImageParsed(root: seq<Node>, rootPath: string, category: Option<string>, tag: Option<string>,
                          load: string -> Yaml, e: Entry)
    requires e in ListImages(root, rootPath, category, tag, load)
    ensures exists d, f ::
      && d in SearchDirs(root, category) && d.isDir && f in d.files && f.content.Some?
      && !load(f.content.value).Malformed? && e.path == rootPath + "/" + d.name + "/" + f.name
  {
    ListEntriesExact(root, rootPath, category, tag, MetaExt, ImageReader(load), e);
    var d, f :| d in SearchDirs(root, category) && ListedFrom(rootPath, d, f, MetaExt, tag, ImageReader(load), e);
    assert ReadImage(rootPath + "/" + d.name, f.name, load(f.content.value)) == Success(e);
  }
}

=== FILE: engine.dfy ===
/** The decisions of the chat engine around the language-model call:
    forced and confidence-based escalation, the confidence estimate, the
    keyword classification of questions, and the request built from the
    retrieved context and the conversation history. Retrieval results, the
    base system prompt and the model call are inputs. */
module Engine {
  import opened Wrappers
  import opened Text
  import opened Lists
  import opened Rag

  // ---------------------------------------------------------------------
  // Confidence
  // ---------------------------------------------------------------------

  function SumScores(rs: seq<SearchResult>): real
  {
    if |rs| == 0 then 0.0 else SumScores(rs[..|rs| - 1]) + rs[|rs| - 1].score
  }

  /** The confidence of an answer: 0 without results, else the mean score
      capped at 1. */
  function EstimateConfidence(rs: seq<SearchResult>): (c: real)
    ensures |rs| == 0 ==> c == 0.0
    ensures c <= 1.0
  {
    if |rs| == 0 then 0.0
    else
      var mean := SumScores(rs) / |rs| as real;
      if mean < 1.0 then mean else 1.0
  }

  lemma {:induction false} SumBounds(rs: seq<SearchResult>, lo: real, hi: real)
    requires forall i :: 0 <= i < |rs| ==> lo <= rs[i].score <= hi
    ensures lo * |rs| as real <= SumScores(rs) <= hi * |rs| as real
  {
    if |rs| > 0 {
      SumBounds(rs[..|rs| - 1], lo, hi);
      assert lo * |rs| as real == lo * (|rs| - 1) as real + lo;
      assert hi * |rs| as real == hi * (|rs| - 1) as real + hi;
    }
  }

  /** The confidence lies between the lowest and highest score (capped at
      1): results all scoring at least `lo` give at least `min(lo, 1)`. */
  lemma ConfidenceBounds(rs: seq<SearchResult>, lo: real, hi: real)
    requires |rs| > 0
    requires forall i :: 0 <= i < |rs| ==> lo <= rs[i].score <= hi
    ensures EstimateConfidence(rs) >= (if lo < 1.0 then lo else 1.0)
    ensures EstimateConfidence(rs) <= hi
  {
    SumBounds(rs, lo, hi);
    var n := |rs| as real;
    var mean := SumScores(rs) / n;
    assert mean * n == SumScores(rs);
    assert lo <= mean;
    assert mean <= hi;
  }

  // ---------------------------------------------------------------------
  // Escalation
  // ---------------------------------------------------------------------

  /** The categories that always go to the human expert. The source keeps
      them in a set, so the order in which they are tried is an input. */
  const EscalationCategories: set<string> := {"コンプライアンス関連", "個別顧客の契約内容", "具体的な保険料試算", "税務の最終判断"}

  const LowConfidence: real := 0.3

  /** The phrase looked for in the question: the category without "関連". */
  function Trigger(cat: string): string
  {
    Replace(cat, "関連", "")
  }

  datatype Reason = Forced(category: string) | NoKnowledge | Unsure(confidence: real) | NoReason

  /** The forced category found first in iteration order `order`, if any. */
  function FirstForced(order: seq<string>, question: string): (r: Option<string>)
    ensures r.Some? ==> r.value in order && Contains(question, Trigger(r.value))
    ensures r.None? <==> forall i :: 0 <= i < |order| ==> !Contains(question, Trigger(order[i]))
  {
    if |order| == 0 then None
    else if Contains(question, Trigger(order[0])) then Some(order[0])
    else FirstForced(order[1..], question)
  }

  /** The escalation check with the categories tried in order `order`:
      a forced category in the question, else no results, else a confidence
      below 0.3. */
  function CheckEscalation(order: seq<string>, question: string, rs: seq<SearchResult>): (r: (bool, Reason))
    ensures r.0 <==> r.1 != NoReason
    ensures r.1.Forced? ==> r.1.category in order && Contains(question, Trigger(r.1.category))
  {
    var forced := FirstForced(order, question);
    if forced.Some? then (true, Forced(forced.value))
    else if |rs| == 0 then (true, NoKnowledge)
    else
      var c := EstimateConfidence(rs);
      if c < LowConfidence then (true, Unsure(c)) else (false, NoReason)
  }

  /** Reference: the question mentions some forced category's phrase. */
  predicate MentionsForced(question: string)
  {
    exists cat :: cat in EscalationCategories && Contains(question, Trigger(cat))
  }

  /** Whether to escalate does not depend on the order the categories
      are tried in: it holds exactly when the question mentions a forced
      category, there are no results, or the confidence is below 0.3. */
  lemma EscalationDecision(order: seq<string>, question: string, rs: seq<SearchResult>)
    requires forall c :: c in order <==> c in EscalationCategories
    ensures CheckEscalation(order, question, rs).0 <==>
      MentionsForced(question) || |rs| == 0 || EstimateConfidence(rs) < LowConfidence
  {
    var forced := FirstForced(order, question);
    if MentionsForced(question) {
      var cat :| cat in EscalationCategories && Contains(question, Trigger(cat));
      assert cat in order;
      var i :| 0 <= i < |order| && order[i] == cat;
    }
  }

  /** "コンプライアンス関連" is looked for as "コンプライアンス"; the other
      categories are looked for verbatim. */
  lemma ComplianceTrigger()
    ensures Trigger("コンプライアンス関連") == "コンプライアンス"
    ensures Trigger("税務の最終判断") == "税務の最終判断"
  {
    CompliancePhrase();
    TaxPhrase();
  }

  lemma CompliancePhrase()
    ensures Trigger("コンプライアンス関連") == "コンプライアンス"
  {
    var a := "コンプライアンス";
    assert a + "関連" == "コンプライアンス関連";
    assert '関' !in a;
    ReplaceSuffix(a, "関連", "");
    assert a + "" == a;
  }

  lemma TaxPhrase()
    ensures Trigger("税務の最終判断") == "税務の最終判断"
  {
    assert '関' !in "税務の最終判断";
    NoContains("税務の最終判断", "関連");
  }

  // ---------------------------------------------------------------------
  // Classification
  // ---------------------------------------------------------------------

  /** The question categories with their keywords, in declaration order. */
  const Keywords: seq<(string, seq<string>)> := [
    ("法人保険", ["法人", "会社", "経営", "企業"]),
    ("ドクターマーケット", ["ドクター", "医師", "医療", "開業医", "クリニック"]),
    ("決算書分析", ["決算", "P/L", "B/S", "貸借", "損益"]),
    ("退職金設計", ["退職金", "退職"]),
    ("事業承継", ["承継", "後継者"]),
    ("相続", ["相続", "遺産"]),
    ("営業マインド", ["辛い", "落ち込", "やる気", "モチベ", "悩み"])
  ]

  const General: string := "一般"

  predicate AnyIn(words: seq<string>, question: string)
  {
    exists w :: w in words && Contains(question, w)
  }

  function ClassifyFrom(table: seq<(string, seq<string>)>, question: string): (c: string)
    ensures c == General || exists i :: 0 <= i < |table| && table[i].0 == c && AnyIn(table[i].1, question)
  {
    if |table| == 0 then General
    else if AnyIn(table[0].1, question) then table[0].0
    else ClassifyFrom(table[1..], question)
  }

  /** The simple classification of a question. */
  function ClassifyQuestion(question: string): (c: string)
    ensures c == General || exists i :: 0 <= i < |Keywords| && Keywords[i].0 == c && AnyIn(Keywords[i].1, question)
  {
    ClassifyFrom(Keywords, question)
  }

  /** The classification is the first category, in table order, with a
      keyword in the question, and "一般" when there is none. */
  lemma {:induction false} ClassifyFirst(table: seq<(string, seq<string>)>, question: string)
    requires forall i :: 0 <= i < |table| ==> table[i].0 != General
    ensures (forall i :: 0 <= i < |table| ==> !AnyIn(table[i].1, question)) <==> ClassifyFrom(table, question) == General
    ensures forall i :: (0 <= i < |table| && AnyIn(table[i].1, question) &&
      (forall j :: 0 <= j < i ==> !AnyIn(table[j].1, question))) ==> ClassifyFrom(table, question) == table[i].0
  {
    if |table| > 0 {
      ClassifyFirst(table[1..], question);
      forall i | 0 <= i < |table| && AnyIn(table[i].1, question) &&
        (forall j :: 0 <= j < i ==> !AnyIn(table[j].1, question))
        ensures ClassifyFrom(table, question) == table[i].0
      {
        if i > 0 {
          assert table[1..][i - 1] == table[i];
          forall j | 0 <= j < i - 1 ensures !AnyIn(table[1..][j].1, question) {
            assert table[1..][j] == table[j + 1];
          }
        }
      }
      if forall i :: 1 <= i < |table| ==> !AnyIn(table[i].1, question) {
        assert forall i :: 0 <= i < |table[1..]| ==> !AnyIn(table[1..][i].1, question) by {
          forall i | 0 <= i < |table[1..]| ensures !AnyIn(table[1..][i].1, question) {
            assert table[1..][i] == table[i + 1];
          }
        }
      }
      if !AnyIn(table[0].1, question) && ClassifyFrom(table[1..], question) == General {
        forall i | 0 <= i < |table| ensures !AnyIn(table[i].1, question) {
          if i > 0 { assert table[1..][i - 1] == table[i]; }
        }
      }
    }
  }

  /** The table's category names are never the fallback. */
  lemma KeywordsNamed()
    ensures forall i :: 0 <= i < |Keywords| ==> Keywords[i].0 != General
  {
  }

  // ---------------------------------------------------------------------
  // One chat turn
  // ---------------------------------------------------------------------

  datatype ChatResponse = ChatResponse(
    answer: string,
    sources: seq<string>,
    confidence: real,
    shouldEscalate: bool,
    escalationReason: Reason,
    tokensUsed: nat,
    category: string)

  datatype Turn = Turn(question: string, answer: string)

  datatype Role = User | Assistant

  datatype Message = Message(role: Role, content: string)

  datatype Request = Request(system: string, messages: seq<Message>)

  /** What the model call gives back: a reply with its token counts, the
      API's own error (answered with an apology), or any other exception,
      which escapes the turn. */
  datatype ApiOutcome = ApiReply(text: string, inputTokens: nat, outputTokens: nat) | ApiError | ApiRaised(message: string)

  const HoldingAnswer: string := "この質問については、より正確にお答えするために牧野に確認いたします。回答までしばらくお待ちください。"
  const ApologyAnswer: string := "申し訳ありません。一時的にシステムに問題が発生しております。しばらく経ってから再度お試しください。"
  const SystemError: string := "システムエラー"
  const HistoryLimit: nat := 10

  /** The messages sent: the last ten turns of the history as user and
      assistant pairs, then the question. */
  function Messages(history: seq<Turn>, question: string): (ms: seq<Message>)
  {
    Pairs(Last(history, HistoryLimit)) + [Message(User, question)]
  }

  function Pairs(turns: seq<Turn>): (ms: seq<Message>)
    ensures |ms| == 2 * |turns|
    ensures forall i :: 0 <= i < |turns| ==>
      ms[2 * i] == Message(User, turns[i].question) && ms[2 * i + 1] == Message(Assistant, turns[i].answer)
  {
    if |turns| == 0 then []
    else [Message(User, turns[0].question), Message(Assistant, turns[0].answer)] + Pairs(turns[1..])
  }

  /** At most the last ten turns are sent, each as a question and answer
      pair in order, and the question comes last. */
  lemma HistoryWindow(history: seq<Turn>, question: string)
    ensures |Messages(history, question)| == 2 * Sent(history) + 1
    ensures Messages(history, question)[2 * Sent(history)] == Message(User, question)
    ensures forall i :: 0 <= i < Sent(history) ==>
      Messages(history, question)[2 * i] == Message(User, history[|history| - Sent(history) + i].question) &&
      Messages(history, question)[2 * i + 1] == Message(Assistant, history[|history| - Sent(history) + i].answer)
  {
    var w := Last(history, HistoryLimit);
    var ms := Messages(history, question);
    assert ms == Pairs(w) + [Message(User, question)];
    assert |w| == Sent(history);
    forall i | 0 <= i < Sent(history)
      ensures ms[2 * i] == Message(User, history[|history| - Sent(history) + i].question)
      ensures ms[2 * i + 1] == Message(Assistant, history[|history| - Sent(history) + i].answer)
    {
      PairAt(w, question, i);
      assert w[i] == history[|history| - Sent(history) + i];
    }
  }

  lemma PairAt(turns: seq<Turn>, question: string, i: nat)
    requires i < |turns|
    ensures (Pairs(turns) + [Message(User, question)])[2 * i] == Message(User, turns[i].question)
    ensures (Pairs(turns) + [Message(User, question)])[2 * i + 1] == Message(Assistant, turns[i].answer)
  {
  }

  /** How many turns of the history are sent: all of them, up to ten. */
  function Sent(history: seq<Turn>): nat
  {
    if |history| < HistoryLimit then |history| else HistoryLimit
  }

  /** The system prompt: the base prompt, the reference-knowledge section,
      and the user profile when one is given and non-empty. */
  function SystemPrompt(base: string, context: string, profile: Option<string>): (p: string)
    ensures StartsWith(p, base + "\n\n## 参照ナレッジ\n" + context)
  {
    var head := base + "\n\n## 参照ナレッジ\n" + context;
    Affixes(head, "\n\n" + profile.GetOr(""));
    assert StartsWith(head, head) by { Affixes(head, ""); assert head + "" == head; }
    if profile.Some? && |profile.value| > 0 then head + "\n\n" + profile.value else head
  }

  /** One chat turn, given the retrieval results with their context and
      sources, the order the forced categories are tried in, the base
      system prompt and the outcome of the model call. The result also
      carries the request when the model was called. */
  function Chat(question: string, history: Option<seq<Turn>>, profile: Option<string>,
                rs: seq<SearchResult>, context: string, sources: seq<string>,
                order: seq<string>, base: string, api: ApiOutcome): (r: Result<(ChatResponse, Option<Request>), string>)
    ensures r.Failure? ==> api.ApiRaised?
  {
    var (escalate, reason) := CheckEscalation(order, question, rs);
    if escalate then
      Success((ChatResponse(HoldingAnswer, sources, 0.0, true, reason, 0, ClassifyQuestion(question)), None))
    else
      var request := Request(SystemPrompt(base, context, profile), Messages(history.GetOr([]), question));
      match api
      case ApiError =>
        Success((ChatResponse(ApologyAnswer, [], 0.0, false, NoReason, 0, SystemError), Some(request)))
      case ApiRaised(m) => Failure(m)
      case ApiReply(text, i, o) =>
        Success((ChatResponse(text, sources, EstimateConfidence(rs), false, NoReason, i + o, ClassifyQuestion(question)), Some(request)))
  }

  /** An escalated turn gives the fixed holding answer with zero confidence
      and no tokens and never calls the model; a turn that is not escalated
      always calls it. */
  lemma EscalationShortCircuits(question: string, history: Option<seq<Turn>>, profile: Option<string>,
                                rs: seq<SearchResult>, context: string, sources: seq<string>,
                                order: seq<string>, base: string, api: ApiOutcome)
    ensures var r := Chat(question, history, profile, rs, context, sources, order, base, api);
      CheckEscalation(order, question, rs).0 ==>
        r.Success? && r.value.1.None? && r.value.0.answer == HoldingAnswer &&
        r.value.0.confidence == 0.0 && r.value.0.tokensUsed == 0 && r.value.0.shouldEscalate
    ensures var r := Chat(question, history, profile, rs, context, sources, order, base, api);
      r.Success? && !CheckEscalation(order, question, rs).0 ==> r.value.1.Some? && !r.value.0.shouldEscalate
  {
  }

  /** A turn answered by the model had results with a confidence of at
      least 0.3, and reports that confidence and the summed token counts. */
  lemma AnsweredIsConfident(question: string, history: Option<seq<Turn>>, profile: Option<string>,
                            rs: seq<SearchResult>, context: string, sources: seq<string>,
                            order: seq<string>, base: string, text: string, i: nat, o: nat)
    requires !CheckEscalation(order, question, rs).0
    ensures var r := Chat(question, history, profile, rs, context, sources, order, base, ApiReply(text, i, o));
      r.Success? && |rs| > 0 && r.value.0.confidence >= LowConfidence &&
      r.value.0.answer == text && r.value.0.tokensUsed == i + o && r.value.0.sources == sources
  {
    assert |rs| > 0 && EstimateConfidence(rs) >= LowConfidence by {
      NotEscalated(order, question, rs);
    }
  }

  /** A question that is not escalated has results and enough confidence. */
  lemma NotEscalated(order: seq<string>, question: string, rs: seq<SearchResult>)
    requires !CheckEscalation(order, question, rs).0
    ensures |rs| > 0 && EstimateConfidence(rs) >= LowConfidence
  {
  }
}

=== FILE: entry_ids.dfy ===
/** The knowledge-entry id allocator (`generate_entry_id`): it scans the
    front matter of every Markdown file already in the knowledge tree and
    numbers the new entry one past the largest decimal run found in any id
    that starts with the requested prefix. */
module EntryIds {
  import opened Wrappers
  import opened Text

  // ---------------------------------------------------------------------
  // Front matter scanning
  // ---------------------------------------------------------------------

  /** A Markdown file of the tree as its lines, or `None` when reading it
      fails before its id line is reached (such a file is skipped). */
  type MdFile = Option<seq<string>>

  /** A front-matter delimiter line. */
  predicate IsFence(line: string)
  {
    Strip(line) == "---"
  }

  predicate IsIdLine(line: string)
  {
    StartsWith(line, "id:")
  }

  /** The value of an "id:" line: the text after its first colon, stripped. */
  function IdValue(line: string): string
    requires IsIdLine(line)
  {
    Strip(line[3..])
  }

  /** The scan of one file from line `i`; `inFront` says whether the first
      fence has been passed. */
  function ScanId(lines: seq<string>, i: nat, inFront: bool): Option<string>
    requires i <= |lines|
    decreases |lines| - i
  {
    if i == |lines| then None
    else if IsFence(lines[i]) then (if inFront then None else ScanId(lines, i + 1, true))
    else if inFront && IsIdLine(lines[i]) then Some(IdValue(lines[i]))
    else ScanId(lines, i + 1, inFront)
  }

  /** The id a file declares, as the allocator reads it. */
  function FrontMatterId(lines: seq<string>): Option<string>
  {
    ScanId(lines, 0, false)
  }

  /** Line `j` is the first "id:" line after line `a`, with no fence between. */
  predicate FirstIdAfter(lines: seq<string>, a: int, j: int)
  {
    0 <= a < j < |lines| && !IsFence(lines[j]) && IsIdLine(lines[j])
    && forall k :: a < k < j ==> !IsFence(lines[k]) && !IsIdLine(lines[k])
  }

  /** Line `a` is the first fence of the file. */
  predicate FirstFence(lines: seq<string>, a: int)
  {
    0 <= a < |lines| && IsFence(lines[a]) && forall k :: 0 <= k < a ==> !IsFence(lines[k])
  }

  lemma {:induction false} ScanInFront(lines: seq<string>, i: nat, v: string)
    requires 0 < i <= |lines|
    ensures ScanId(lines, i, true) == Some(v)
        <==> exists j :: FirstIdAfter(lines, i - 1, j) && v == IdValue(lines[j])
    decreases |lines| - i
  {
    if i < |lines| && !IsFence(lines[i]) && !IsIdLine(lines[i]) {
      ScanInFront(lines, i + 1, v);
      if ScanId(lines, i, true) == Some(v) {
        var j :| FirstIdAfter(lines, i, j) && v == IdValue(lines[j]);
        assert FirstIdAfter(lines, i - 1, j);
      }
      if exists j :: FirstIdAfter(lines, i - 1, j) && v == IdValue(lines[j]) {
        var j :| FirstIdAfter(lines, i - 1, j) && v == IdValue(lines[j]);
        assert FirstIdAfter(lines, i, j);
      }
    } else if i < |lines| && !IsFence(lines[i]) {
      assert FirstIdAfter(lines, i - 1, i);
    }
  }

  /** Some first "id:" line after the first fence carries `v`. */
  ghost predicate DeclaresId(lines: seq<string>, v: string)
  {
    exists a, j :: FirstFence(lines, a) && FirstIdAfter(lines, a, j) && v == IdValue(lines[j])
  }

  lemma {:induction false} ScanBeforeFront(lines: seq<string>, i: nat, v: string)
    requires i <= |lines|
    requires forall k :: 0 <= k < i ==> !IsFence(lines[k])
    ensures ScanId(lines, i, false) == Some(v) <==> DeclaresId(lines, v)
    decreases |lines| - i
  {
    if i == |lines| {
      ScanAtEnd(lines, v);
    } else if IsFence(lines[i]) {
      ScanAtFence(lines, i, v);
    } else {
      ScanBeforeFront(lines, i + 1, v);
    }
  }

  lemma ScanAtEnd(lines: seq<string>, v: string)
    requires forall k :: 0 <= k < |lines| ==> !IsFence(lines[k])
    ensures !DeclaresId(lines, v)
  {
    forall a | 0 <= a < |lines| ensures !FirstFence(lines, a) {
    }
  }

  lemma ScanAtFence(lines: seq<string>, i: nat, v: string)
    requires i < |lines| && IsFence(lines[i])
    requires forall k :: 0 <= k < i ==> !IsFence(lines[k])
    ensures ScanId(lines, i, false) == Some(v) <==> DeclaresId(lines, v)
  {
    assert FirstFence(lines, i);
    ScanInFront(lines, i + 1, v);
    assert ScanId(lines, i, false) == ScanId(lines, i + 1, true);
    if DeclaresId(lines, v) {
      var a, j :| FirstFence(lines, a) && FirstIdAfter(lines, a, j) && v == IdValue(lines[j]);
      FenceUnique(lines, a, i);
    }
  }

  lemma FenceUnique(lines: seq<string>, a: int, b: int)
    requires FirstFence(lines, a) && FirstFence(lines, b)
    ensures a == b
  {
  }

  /** The allocator reads exactly the first "id:" line after the first fence,
      provided no second fence comes before it. */
  lemma FrontMatterIdSpec(lines: seq<string>, v: string)
    ensures FrontMatterId(lines) == Some(v)
        <==> exists a, j :: FirstFence(lines, a) && FirstIdAfter(lines, a, j) && v == IdValue(lines[j])
  {
    ScanBeforeFront(lines, 0, v);
  }

  // ---------------------------------------------------------------------
  // Decimal runs (`re.findall(r"(\d+)", …)`)
  // ---------------------------------------------------------------------

  /** The length of the run of digits that `s` starts with. */
  function DigitPrefix(s: string): (n: nat)
    ensures n <= |s| && AllDigits(s[..n])
    ensures n < |s| ==> !IsDigit(s[n])
  {
    if |s| == 0 || !IsDigit(s[0]) then 0
    else
      var n := 1 + DigitPrefix(s[1..]);
      assert s[..n] == [s[0]] + s[1..][..n - 1];
      n
  }

  /** The values of the maximal digit runs of `s`, left to right. */
  function DigitRuns(s: string): seq<nat>
    decreases |s|
  {
    if |s| == 0 then []
    else if !IsDigit(s[0]) then DigitRuns(s[1..])
    else
      var n := DigitPrefix(s);
      [ParseNat(s[..n])] + DigitRuns(s[n..])
  }

  lemma {:induction false} DigitPrefixSep(x: string, c: char, y: string)
    requires !IsDigit(c)
    ensures DigitPrefix(x + [c] + y) == DigitPrefix(x)
  {
    if |x| > 0 && IsDigit(x[0]) {
      DigitPrefixSep(x[1..], c, y);
      assert (x + [c] + y)[1..] == x[1..] + [c] + y;
    }
  }

  /** A non-digit separates the runs on either side of it. */
  lemma {:induction false} DigitRunsSep(x: string, c: char, y: string)
    requires !IsDigit(c)
    ensures DigitRuns(x + [c] + y) == DigitRuns(x) + DigitRuns(y)
    decreases |x|
  {
    var s := x + [c] + y;
    if |x| == 0 {
      assert s[1..] == y;
    } else if !IsDigit(x[0]) {
      DigitRunsSep(x[1..], c, y);
      assert s[1..] == x[1..] + [c] + y;
    } else {
      var n := DigitPrefix(x);
      DigitPrefixSep(x, c, y);
      DigitRunsSep(x[n..], c, y);
      assert s[..n] == x[..n];
      assert s[n..] == x[n..] + [c] + y;
    }
  }

  lemma {:induction false} DigitPrefixAll(d: string)
    requires AllDigits(d)
    ensures DigitPrefix(d) == |d|
  {
    if |d| > 0 {
      DigitPrefixAll(d[1..]);
    }
  }

  /** A non-empty digit string is a single run. */
  lemma DigitRunsOfDigits(d: string)
    requires AllDigits(d) && |d| > 0
    ensures DigitRuns(d) == [ParseNat(d)]
  {
    DigitPrefixAll(d);
    assert d[..|d|] == d;
    assert d[|d|..] == [];
  }

  /** The largest element of `xs`, or 0 for an empty sequence. */
  function MaxRun(xs: seq<nat>): (m: nat)
    ensures forall x :: x in xs ==> x <= m
    ensures m == 0 || m in xs
  {
    if |xs| == 0 then 0
    else
      var m := MaxRun(xs[1..]);
      assert xs == [xs[0]] + xs[1..];
      if xs[0] >= m then xs[0] else m
  }

  // ---------------------------------------------------------------------
  // The allocator
  // ---------------------------------------------------------------------

  /** The decimal runs a file contributes for `prefix`: those of its id when
      the id starts with the prefix. */
  function RunsOf(f: MdFile, prefix: string): seq<nat>
  {
    match f
    case None => []
    case Some(lines) =>
      match FrontMatterId(lines)
      case None => []
      case Some(id) => if StartsWith(id, prefix) then DigitRuns(id) else []
  }

  /** The largest run over all files, or 0. */
  function MaxNum(files: seq<MdFile>, prefix: string): (m: nat)
    ensures forall i, x :: 0 <= i < |files| && x in RunsOf(files[i], prefix) ==> x <= m
    ensures m == 0 || exists i :: 0 <= i < |files| && m in RunsOf(files[i], prefix)
  {
    MaxOfRows(AllRuns(files, prefix))
  }

  /** Each file's runs, in file order. */
  function AllRuns(files: seq<MdFile>, prefix: string): (rows: seq<seq<nat>>)
    ensures |rows| == |files|
    ensures forall i :: 0 <= i < |files| ==> rows[i] == RunsOf(files[i], prefix)
  {
    if |files| == 0 then [] else [RunsOf(files[0], prefix)] + AllRuns(files[1..], prefix)
  }

  /** The largest number in any row, or 0. */
  function MaxOfRows(rows: seq<seq<nat>>): (m: nat)
    ensures forall i, x :: 0 <= i < |rows| && x in rows[i] ==> x <= m
    ensures m == 0 || exists i :: 0 <= i < |rows| && m in rows[i]
  {
    if |rows| == 0 then 0
    else
      var init := MaxOfRows(rows[1..]);
      var here := MaxRun(rows[0]);
      assert forall i :: 1 <= i < |rows| ==> rows[1..][i - 1] == rows[i];
      if here >= init then here else init
  }

  /** The number the next id gets: one past the maximum, or 1 when the
      knowledge directory does not exist. */
  function NextNumber(tree: Option<seq<MdFile>>, prefix: string): (n: nat)
    ensures n >= 1
    ensures tree.Some? ==> forall i, x :: 0 <= i < |tree.value| && x in RunsOf(tree.value[i], prefix) ==> x < n
  {
    match tree
    case None => 1
    case Some(files) => MaxNum(files, prefix) + 1
  }

  /** `strftime("%Y%m")` of a calendar date. */
  function YearMonth(year: nat, month: nat): (ym: string)
    requires 1 <= year <= 9999 && 1 <= month <= 12
    ensures |ym| >= 6 && AllDigits(ym)
  {
    ZeroPad(year, 4) + ZeroPad(month, 2)
  }

  /** Whether the prefix's ids carry the year-month. */
  predicate Dated(prefix: string)
  {
    prefix != "QA" && prefix != "BK"
  }

  /** A run of digits followed by nothing or by a non-digit. */
  lemma {:induction false} RunThenTail(d: string, tail: string)
    requires AllDigits(d) && |d| > 0
    requires tail == [] || !IsDigit(tail[0])
    ensures DigitRuns(d + tail) == [ParseNat(d)] + DigitRuns(tail)
  {
    DigitRunsOfDigits(d);
    if tail == [] {
      assert d + tail == d;
    } else {
      var c := tail[0];
      var y := tail[1..];
      assert tail == [c] + y;
      assert d + tail == d + [c] + y;
      DigitRunsSep(d, c, y);
      assert DigitRuns(tail) == DigitRuns(y);
    }
  }

  /** An underscore, a digit run, then nothing or a non-digit. */
  lemma RunsAfter(x: string, d: string, tail: string)
    requires AllDigits(d) && |d| > 0
    requires tail == [] || !IsDigit(tail[0])
    ensures DigitRuns(x + "_" + d + tail) == DigitRuns(x) + [ParseNat(d)] + DigitRuns(tail)
  {
    var y := d + tail;
    assert x + "_" + d + tail == x + ['_'] + y;
    DigitRunsSep(x, '_', y);
    RunThenTail(d, tail);
  }

  lemma ParseZeroOne()
    ensures AllDigits("01") && ParseNat("01") == 1
  {
    assert "01"[..1] == "0";
    assert "0"[..0] == "";
  }

  /** "QA_nnn". */
  function QaId(n: nat): string
  {
    "QA_" + ZeroPad(n, 3)
  }

  /** "{prefix}_yyyymm_nn_01", the video and audio form. */
  function EpisodeId(prefix: string, ym: string, n: nat): string
  {
    prefix + "_" + ym + "_" + ZeroPad(n, 2) + "_01"
  }

  /** "BK_nnn_P001". */
  function BookId(n: nat): string
  {
    "BK_" + ZeroPad(n, 3) + "_P001"
  }

  /** "{prefix}_yyyymm_nnn". */
  function MonthlyId(prefix: string, ym: string, n: nat): string
  {
    prefix + "_" + ym + "_" + ZeroPad(n, 3)
  }

  /** An underscore and then a digit run is that one run. */
  lemma UnderscoreRun(d: string)
    requires AllDigits(d) && |d| > 0
    ensures DigitRuns("_" + d) == [ParseNat(d)]
  {
    var s := "_" + d;
    assert s[1..] == d;
    DigitRunsOfDigits(d);
  }

  /** A padded number after an underscore is the number's single run. */
  lemma PaddedRun(n: nat, width: nat)
    ensures DigitRuns("_" + ZeroPad(n, width)) == [n]
  {
    ParseZeroPad(n, width);
    UnderscoreRun(ZeroPad(n, width));
  }

  lemma UnderscoreOne()
    ensures DigitRuns("_01") == [1]
  {
    ParseZeroOne();
    UnderscoreRun("01");
    assert "_" + "01" == "_01";
  }

  lemma NoRunsQa()
    ensures DigitRuns("QA") == []
  {
    assert "QA"[1..] == "A" && "A"[1..] == "";
  }

  lemma NoRunsBk()
    ensures DigitRuns("BK") == []
  {
    assert "BK"[1..] == "K" && "K"[1..] == "";
  }

  lemma PageRuns()
    ensures DigitRuns("_P001") == [1]
  {
    assert "_P001"[1..] == "P001" && "P001"[1..] == "001";
    DigitRunsOfDigits("001");
    assert "001"[..2] == "00" && "00"[..1] == "0" && "0"[..0] == "";
  }

  lemma QaIdRuns(n: nat)
    ensures DigitRuns(QaId(n)) == [n]
  {
    var z := ZeroPad(n, 3);
    calc {
      DigitRuns(QaId(n));
      { assert QaId(n) == "QA" + "_" + z; }
      DigitRuns("QA" + "_" + z);
      { ParseZeroPad(n, 3); RunsAfter("QA", z, []); assert "QA" + "_" + z + [] == "QA" + "_" + z; }
      DigitRuns("QA") + [n] + DigitRuns([]);
      { NoRunsQa(); }
      [n];
    }
  }

  lemma EpisodeIdRuns(prefix: string, ym: string, n: nat)
    requires AllDigits(ym) && |ym| > 0
    ensures DigitRuns(EpisodeId(prefix, ym, n)) == DigitRuns(prefix) + [ParseNat(ym)] + [n] + [1]
  {
    var z := ZeroPad(n, 2);
    var t := "_" + z + "_01";
    calc {
      DigitRuns(EpisodeId(prefix, ym, n));
      { assert EpisodeId(prefix, ym, n) == prefix + "_" + ym + t; }
      DigitRuns(prefix + "_" + ym + t);
      { RunsAfter(prefix, ym, t); }
      DigitRuns(prefix) + [ParseNat(ym)] + DigitRuns(t);
      { EpisodeTailRuns(n); }
      DigitRuns(prefix) + [ParseNat(ym)] + [n] + [1];
    }
  }

  lemma EpisodeTailRuns(n: nat)
    ensures DigitRuns("_" + ZeroPad(n, 2) + "_01") == [n, 1]
  {
    var z := ZeroPad(n, 2);
    calc {
      DigitRuns("_" + z + "_01");
      { assert "_" + z + "_01" == "" + "_" + z + "_01"; }
      DigitRuns("" + "_" + z + "_01");
      { ParseZeroPad(n, 2); RunsAfter("", z, "_01"); }
      DigitRuns("") + [n] + DigitRuns("_01");
      { UnderscoreOne(); }
      [n, 1];
    }
  }

  lemma BookIdRuns(n: nat)
    ensures DigitRuns(BookId(n)) == [n, 1]
  {
    var z := ZeroPad(n, 3);
    calc {
      DigitRuns(BookId(n));
      { assert BookId(n) == "BK" + "_" + z + "_P001"; }
      DigitRuns("BK" + "_" + z + "_P001");
      { ParseZeroPad(n, 3); RunsAfter("BK", z, "_P001"); }
      DigitRuns("BK") + [n] + DigitRuns("_P001");
      { NoRunsBk(); PageRuns(); }
      [n, 1];
    }
  }

  lemma MonthlyIdRuns(prefix: string, ym: string, n: nat)
    requires AllDigits(ym) && |ym| > 0
    ensures DigitRuns(MonthlyId(prefix, ym, n)) == DigitRuns(prefix) + [ParseNat(ym)] + [n]
  {
    var t := "_" + ZeroPad(n, 3);
    calc {
      DigitRuns(MonthlyId(prefix, ym, n));
      { assert MonthlyId(prefix, ym, n) == prefix + "_" + ym + t; }
      DigitRuns(prefix + "_" + ym + t);
      { RunsAfter(prefix, ym, t); }
      DigitRuns(prefix) + [ParseNat(ym)] + DigitRuns(t);
      { PaddedRun(n, 3); }
      DigitRuns(prefix) + [ParseNat(ym)] + [n];
    }
  }

  /** `generate_entry_id`: "QA_nnn", "VID_yyyymm_nn_01" (also AUD),
      "BK_nnn_P001", or "{prefix}_yyyymm_nnn", where the number is at least
      two or three digits wide. */
  function GenerateEntryId(prefix: string, tree: Option<seq<MdFile>>, year: nat, month: nat): string
    requires 1 <= year <= 9999 && 1 <= month <= 12
  {
    FormatId(prefix, YearMonth(year, month), NextNumber(tree, prefix))
  }

  /** The id of number `n` for `prefix` in year-month `ym`. */
  function FormatId(prefix: string, ym: string, n: nat): string
  {
    if prefix == "QA" then QaId(n)
    else if prefix == "VID" || prefix == "AUD" then EpisodeId(prefix, ym, n)
    else if prefix == "BK" then BookId(n)
    else MonthlyId(prefix, ym, n)
  }

  lemma DatedShape(prefix: string, ym: string, z: string, tail: string)
    ensures var id := prefix + "_" + ym + "_" + z + tail;
            StartsWith(id, prefix + "_") && StartsWith(id, prefix + "_" + ym + "_")
            && EndsWith(id, tail)
  {
    var p1 := prefix + "_";
    var p2 := p1 + ym + "_";
    Affixes(p1, ym);
    PrefixAppend(p1 + ym, p1, "_");
    PrefixAppend(p2, p1, z);
    PrefixAppend(p2 + z, p1, tail);
    Affixes(p2, z);
    PrefixAppend(p2 + z, p2, tail);
    Affixes(p2 + z, tail);
  }

  lemma BookShape(n: nat)
    ensures StartsWith(BookId(n), "BK_") && EndsWith(BookId(n), "_P001")
  {
    var z := ZeroPad(n, 3);
    Affixes("BK_", z + "_P001");
    Affixes("BK_" + z, "_P001");
    assert BookId(n) == "BK_" + (z + "_P001");
  }

  /** The shape of an allocated id: the prefix and an underscore, then the
      year-month for every prefix but QA and BK, the "_01" episode tail for
      VID and AUD, and the "_P001" page tail for BK. */
  lemma GeneratedShape(prefix: string, tree: Option<seq<MdFile>>, year: nat, month: nat)
    requires 1 <= year <= 9999 && 1 <= month <= 12
    ensures var id := GenerateEntryId(prefix, tree, year, month);
            && StartsWith(id, prefix + "_")
            && (Dated(prefix) ==> StartsWith(id, prefix + "_" + YearMonth(year, month) + "_"))
            && (prefix in {"VID", "AUD"} ==> EndsWith(id, "_01"))
            && (prefix == "BK" ==> EndsWith(id, "_P001"))
  {
    IdShape(prefix, YearMonth(year, month), NextNumber(tree, prefix));
  }

  lemma IdShape(prefix: string, ym: string, n: nat)
    ensures var id := FormatId(prefix, ym, n);
            && StartsWith(id, prefix + "_")
            && (Dated(prefix) ==> StartsWith(id, prefix + "_" + ym + "_"))
            && (prefix in {"VID", "AUD"} ==> EndsWith(id, "_01"))
            && (prefix == "BK" ==> EndsWith(id, "_P001"))
  {
    if prefix == "QA" {
      Affixes("QA_", ZeroPad(n, 3));
    } else if prefix == "VID" || prefix == "AUD" {
      DatedShape(prefix, ym, ZeroPad(n, 2), "_01");
    } else if prefix == "BK" {
      BookShape(n);
    } else {
      DatedShape(prefix, ym, ZeroPad(n, 3), []);
      assert MonthlyId(prefix, ym, n) == prefix + "_" + ym + "_" + ZeroPad(n, 3) + [];
    }
  }

  /** The digit runs of an allocated id: the prefix's own, the year-month
      for dated prefixes, the allocated number, and the constant 1 of the
      "_01" and "_P001" tails. */
  lemma GeneratedRuns(prefix: string, tree: Option<seq<MdFile>>, year: nat, month: nat)
    requires 1 <= year <= 9999 && 1 <= month <= 12
    ensures var id := GenerateEntryId(prefix, tree, year, month);
            var n := NextNumber(tree, prefix);
            var ym := ParseNat(YearMonth(year, month));
            DigitRuns(id)
            == DigitRuns(prefix)
               + (if Dated(prefix) then [ym] else [])
               + [n]
               + (if prefix in {"VID", "AUD", "BK"} then [1] else [])
  {
    IdRuns(prefix, YearMonth(year, month), NextNumber(tree, prefix));
  }

  lemma IdRuns(prefix: string, ym: string, n: nat)
    requires AllDigits(ym) && |ym| > 0
    ensures DigitRuns(FormatId(prefix, ym, n))
            == DigitRuns(prefix)
               + (if Dated(prefix) then [ParseNat(ym)] else [])
               + [n]
               + (if prefix in {"VID", "AUD", "BK"} then [1] else [])
  {
    if prefix == "QA" {
      QaIdRuns(n);
      NoRunsQa();
    } else if prefix == "VID" || prefix == "AUD" {
      EpisodeIdRuns(prefix, ym, n);
    } else if prefix == "BK" {
      BookIdRuns(n);
      NoRunsBk();
    } else {
      MonthlyIdRuns(prefix, ym, n);
    }
  }

  /** The allocated id differs from every scanned id that starts with the
      prefix: its number exceeds every decimal run of those ids. */
  lemma GeneratedIdIsFresh(prefix: string, files: seq<MdFile>, year: nat, month: nat, i: nat)
    requires 1 <= year <= 9999 && 1 <= month <= 12
    requires i < |files| && files[i].Some? && FrontMatterId(files[i].value).Some?
    requires StartsWith(FrontMatterId(files[i].value).value, prefix)
    ensures GenerateEntryId(prefix, Some(files), year, month) != FrontMatterId(files[i].value).value
  {
    var id := GenerateEntryId(prefix, Some(files), year, month);
    var n := NextNumber(Some(files), prefix);
    GeneratedRuns(prefix, Some(files), year, month);
    assert n in DigitRuns(id);
    assert forall x :: x in RunsOf(files[i], prefix) ==> x < n;
  }

  /** The document the pipeline stores for an entry opens with a fence and
      the "id:" line, so the allocator reads that id back. */
  function StoredDocument(id: string, rest: seq<string>): seq<string>
  {
    ["---", "id: " + id] + rest
  }

  lemma StripSpacedId(id: string)
    requires |id| > 0 && !IsSpace(id[0]) && IsDigit(id[|id| - 1])
    ensures Strip(" " + id) == id
  {
    var s := " " + id;
    var a := SkipFrom(s, IsSpace, 0);
    assert a == 1 by {
      assert IsSpace(s[0]) && !IsSpace(s[1]);
      assert SkipFrom(s, IsSpace, 1) == 1;
    }
    var b := SkipBack(s, IsSpace, a, |s|);
    assert b == |s| by {
      assert !IsSpace(s[|s| - 1]);
    }
    assert s[1..] == id;
  }

  lemma EndsWithDigit(prefix: string, tree: Option<seq<MdFile>>, year: nat, month: nat)
    requires 1 <= year <= 9999 && 1 <= month <= 12
    ensures var id := GenerateEntryId(prefix, tree, year, month);
            |id| > 0 && IsDigit(id[|id| - 1])
  {
    IdEndsWithDigit(prefix, YearMonth(year, month), NextNumber(tree, prefix));
  }

  lemma IdEndsWithDigit(prefix: string, ym: string, n: nat)
    ensures var id := FormatId(prefix, ym, n);
            |id| > 0 && IsDigit(id[|id| - 1])
  {
    var z3 := ZeroPad(n, 3);
    if prefix == "QA" {
      assert QaId(n)[|QaId(n)| - 1] == z3[|z3| - 1];
    } else if prefix == "VID" || prefix == "AUD" || prefix == "BK" {
    } else {
      var id := MonthlyId(prefix, ym, n);
      assert id[|id| - 1] == z3[|z3| - 1];
    }
  }

  lemma FenceLine()
    ensures IsFence("---")
  {
    assert SkipFrom("---", IsSpace, 0) == 0;
    assert SkipBack("---", IsSpace, 0, 3) == 3;
  }

  /** The "id:" line of a stored document is not a fence and yields the id. */
  lemma StoredIdLine(id: string)
    requires |id| > 0 && !IsSpace(id[0]) && IsDigit(id[|id| - 1])
    ensures !IsFence("id: " + id) && IsIdLine("id: " + id)
    ensures IdValue("id: " + id) == id
  {
    var line := "id: " + id;
    assert line[|line| - 1] == id[|id| - 1];
    StripUnspaced(line);
    assert line[0] == 'i';
    assert line[..3] == "id:";
    assert line[3..] == " " + id;
    StripSpacedId(id);
  }

  /** Any id with no leading blank that ends in a digit is read back from
      the document the pipeline writes for it. */
  lemma StoredDocumentId(id: string, rest: seq<string>)
    requires |id| > 0 && !IsSpace(id[0]) && IsDigit(id[|id| - 1])
    ensures FrontMatterId(StoredDocument(id, rest)) == Some(id)
  {
    var doc := StoredDocument(id, rest);
    FenceLine();
    StoredIdLine(id);
    assert doc[0] == "---" && doc[1] == "id: " + id;
    assert ScanId(doc, 1, true) == Some(id);
  }

  lemma StoredIdIsRead(prefix: string, tree: Option<seq<MdFile>>, year: nat, month: nat, rest: seq<string>)
    requires 1 <= year <= 9999 && 1 <= month <= 12
    requires |prefix| > 0 ==> !IsSpace(prefix[0])
    ensures var id := GenerateEntryId(prefix, tree, year, month);
            FrontMatterId(StoredDocument(id, rest)) == Some(id)
  {
    var id := GenerateEntryId(prefix, tree, year, month);
    EndsWithDigit(prefix, tree, year, month);
    GeneratedShape(prefix, tree, year, month);
    assert id[0] == (prefix + "_")[0];
    StoredDocumentId(id, rest);
  }

  /** Once an entry carrying the allocated id is stored in the tree, the
      next allocation for the same prefix gets a strictly larger number. */
  lemma NextNumberGrowsAfterStore(prefix: string, tree: Option<seq<MdFile>>, year: nat, month: nat, rest: seq<string>)
    requires 1 <= year <= 9999 && 1 <= month <= 12
    requires |prefix| > 0 ==> !IsSpace(prefix[0])
    ensures var id := GenerateEntryId(prefix, tree, year, month);
            var files := (if tree.Some? then tree.value else []) + [Some(StoredDocument(id, rest))];
            NextNumber(Some(files), prefix) > NextNumber(tree, prefix)
  {
    var id := GenerateEntryId(prefix, tree, year, month);
    var files := (if tree.Some? then tree.value else []) + [Some(StoredDocument(id, rest))];
    var n := NextNumber(tree, prefix);
    assert n in RunsOf(files[|files| - 1], prefix) by {
      StoredIdIsRead(prefix, tree, year, month, rest);
      GeneratedShape(prefix, tree, year, month);
      PrefixShorten(id, prefix, "_");
      assert RunsOf(files[|files| - 1], prefix) == DigitRuns(id);
      GeneratedRuns(prefix, tree, year, month);
    }
  }
}

=== FILE: file_manager.dfy ===
/** Batch separation: finding the audio files of a directory, skipping
    those whose content hash the processed-files cache already holds, and
    recording each successful separation in the cache. Hashing and the
    separation itself are parameters. */
module FileManager {
  import opened Wrappers
  import opened Text
  import opened Lists

  // ---------------------------------------------------------------------
  // find_audio_files
  // ---------------------------------------------------------------------

  /** The supported extensions, each globbed as written and upper-cased.
      The source iterates a set, so the order here is one of many; it only
      decides the order of files whose lower-cased names tie. */
  const Patterns: seq<string> := [".mp3", ".MP3", ".wav", ".WAV", ".m4a", ".M4A", ".flac", ".FLAC", ".aiff", ".AIFF", ".ogg", ".OGG"]

  /** A directory entry: its full path, its name, and whether it lies in a
      subdirectory. */
  datatype AudioPath = AudioPath(path: string, name: string, nested: bool)

  /** The glob of `pattern` at the top level, or at any depth when recursive. */
  predicate Globbed(p: AudioPath, pattern: string, recursive: bool)
  {
    (recursive || !p.nested) && EndsWith(p.name, pattern)
  }

  function GlobFilter(recursive: bool): string -> (AudioPath -> bool)
  {
    pattern => (p: AudioPath) => Globbed(p, pattern, recursive)
  }

  /** The matches of every pattern in turn, as `files.extend` collects them. */
  function GlobAll(listing: seq<AudioPath>, patterns: seq<string>, recursive: bool): seq<AudioPath>
  {
    FlatMap(patterns, pattern => Filter(listing, GlobFilter(recursive)(pattern)))
  }

  /** Some pattern matches. */
  predicate AnyGlob(p: AudioPath, patterns: seq<string>, recursive: bool)
  {
    exists i :: 0 <= i < |patterns| && Globbed(p, patterns[i], recursive)
  }

  function LowerName(p: AudioPath): string
  {
    Lower(p.name)
  }

  /** `find_audio_files`: the globbed files sorted by lower-cased name. */
  function FindAudioFiles(listing: seq<AudioPath>, recursive: bool): seq<AudioPath>
  {
    SortBy(GlobAll(listing, Patterns, recursive), LowerName, StringLe())
  }

  /** A dot followed by dot-free characters. */
  predicate DotExt(p: string)
  {
    |p| >= 2 && p[0] == '.' && forall k :: 1 <= k < |p| ==> p[k] != '.'
  }

  /** Of two endings of one name, the longer one holds the shorter one's
      first character where the shorter one starts. */
  lemma SharedEnding(name: string, p: string, q: string)
    requires EndsWith(name, p) && EndsWith(name, q) && 1 <= |p| <= |q|
    ensures q[|q| - |p|] == p[0]
  {
    assert name[|name| - |p|..][0] == p[0];
    assert name[|name| - |q|..][|q| - |p|] == q[|q| - |p|];
  }

  /** A name ends with at most one dot-extension. */
  lemma OneExtension(name: string, p: string, q: string)
    requires DotExt(p) && DotExt(q) && EndsWith(name, p) && EndsWith(name, q)
    ensures p == q
  {
    if |p| <= |q| {
      SharedEnding(name, p, q);
    } else {
      SharedEnding(name, q, p);
    }
  }

  lemma PatternsAreExtensions()
    ensures forall i :: 0 <= i < |Patterns| ==> DotExt(Patterns[i])
    ensures Distinct(Patterns)
  {
  }

  /** The pattern lists of the glob are disjoint, so concatenating them
      loses and repeats nothing. */
  lemma {:induction false} GlobAllExact(listing: seq<AudioPath>, patterns: seq<string>, recursive: bool)
    requires Distinct(patterns)
    requires forall i :: 0 <= i < |patterns| ==> DotExt(patterns[i])
    ensures multiset(GlobAll(listing, patterns, recursive)) == multiset(Filter(listing, (p: AudioPath) => AnyGlob(p, patterns, recursive)))
  {
    var any := (p: AudioPath) => AnyGlob(p, patterns, recursive);
    if |patterns| == 0 {
      FilterNone(listing, any);
    } else {
      var rest := patterns[1..];
      GlobAllExact(listing, rest, recursive);
      var first := GlobFilter(recursive)(patterns[0]);
      var others := (p: AudioPath) => AnyGlob(p, rest, recursive);
      forall p: AudioPath ensures !(first(p) && others(p)) {
        if first(p) && others(p) {
          var i :| 0 <= i < |rest| && Globbed(p, rest[i], recursive);
          assert patterns[0] != patterns[i + 1] == rest[i];
          OneExtension(p.name, patterns[0], rest[i]);
        }
      }
      forall p: AudioPath ensures any(p) == (first(p) || others(p)) {
        if any(p) && !first(p) {
          var i :| 0 <= i < |patterns| && Globbed(p, patterns[i], recursive);
          assert i > 0 && Globbed(p, rest[i - 1], recursive);
        }
        if others(p) {
          var i :| 0 <= i < |rest| && Globbed(p, rest[i], recursive);
          assert Globbed(p, patterns[i + 1], recursive);
        }
      }
      FilterUnion(listing, first, others, any);
    }
  }

  /** `find_audio_files` lists every matching file of the listing exactly as
      often as the listing does, and in name order. */
  lemma FindAudioFilesExact(listing: seq<AudioPath>, recursive: bool)
    ensures multiset(FindAudioFiles(listing, recursive)) == multiset(Filter(listing, (p: AudioPath) => AnyGlob(p, Patterns, recursive)))
    ensures SortedBy(FindAudioFiles(listing, recursive), LowerName, StringLe())
  {
    PatternsAreExtensions();
    GlobAllExact(listing, Patterns, recursive);
    StringLePreorder();
    SortSorted(GlobAll(listing, Patterns, recursive), LowerName, StringLe());
  }

  /** A file in a subdirectory is found only by a recursive search. */
  lemma NestedNeedsRecursive(listing: seq<AudioPath>, p: AudioPath)
    requires p.nested
    ensures p !in FindAudioFiles(listing, false)
  {
    FindAudioFilesExact(listing, false);
    var only := (x: AudioPath) => AnyGlob(x, Patterns, false);
    assert !only(p);
    assert p !in Filter(listing, only);
    assert p !in multiset(Filter(listing, only));
  }

  // ---------------------------------------------------------------------
  // batch_process
  // ---------------------------------------------------------------------

  /** A cache record: the source path and the separation's output folder
      (the timestamp is left out). */
  datatype CacheEntry = CacheEntry(file: string, output: string)

  /** `cache["processed"]`, in insertion order. */
  type Cache = seq<(string, CacheEntry)>

  datatype Queued = Queued(file: AudioPath, hash: string)

  /** The files whose hash the cache does not hold, in order, with their
      hashes. */
  function Queue(files: seq<AudioPath>, hashOf: AudioPath -> string, known: Cache): seq<Queued>
  {
    FilterMap(files, (f: AudioPath) => if hashOf(f) in Keys(known) then None else Some(Queued(f, hashOf(f))))
  }

  function FilesOf(q: seq<Queued>): seq<AudioPath>
  {
    FilterMap(q, (x: Queued) => Some(x.file))
  }

  /** The queue keeps, in order, exactly the files whose hash is not cached,
      each with its own hash. */
  lemma QueueSkipsCached(files: seq<AudioPath>, hashOf: AudioPath -> string, known: Cache)
    ensures FilesOf(Queue(files, hashOf, known)) == Filter(files, (f: AudioPath) => hashOf(f) !in Keys(known))
    ensures forall x :: x in Queue(files, hashOf, known) ==> x.hash == hashOf(x.file) && x.hash !in Keys(known)
  {
    var g := (f: AudioPath) => if hashOf(f) in Keys(known) then None else Some(Queued(f, hashOf(f)));
    FilterMapInverse(files, g, (x: Queued) => Some(x.file), (f: AudioPath) => hashOf(f) !in Keys(known));
    FilterMapExact(files, g);
    forall x | x in Queue(files, hashOf, known) ensures x.hash == hashOf(x.file) && x.hash !in Keys(known) {
      var i :| 0 <= i < |Queue(files, hashOf, known)| && Queue(files, hashOf, known)[i] == x;
    }
  }

  /** The hashes of the queued files that separated, in order. */
  function Successes(q: seq<Queued>, separate: AudioPath -> Option<string>): seq<string>
  {
    if |q| == 0 then []
    else Successes(q[..|q| - 1], separate) + (if separate(q[|q| - 1].file).Some? then [q[|q| - 1].hash] else [])
  }

  /** The cache after recording each successful separation of the queue. */
  function Record(cache: Cache, q: seq<Queued>, separate: AudioPath -> Option<string>): Cache
  {
    if |q| == 0 then cache
    else
      var x := q[|q| - 1];
      var before := Record(cache, q[..|q| - 1], separate);
      match separate(x.file)
      case Some(out) => Assign(before, x.hash, CacheEntry(x.file.path, out))
      case None => before
  }

  /** Processing the queue: each success is recorded and counted. */
  method ProcessQueue(q: seq<Queued>, cache: Cache, separate: AudioPath -> Option<string>) returns (count: nat, cache': Cache)
    ensures count == |Successes(q, separate)| <= |q|
    ensures cache' == Record(cache, q, separate)
  {
    count := 0;
    cache' := cache;
    for i := 0 to |q|
      invariant count == |Successes(q[..i], separate)| <= i
      invariant cache' == Record(cache, q[..i], separate)
    {
      assert q[..i + 1][..i] == q[..i];
      var result := separate(q[i].file);
      if result.Some? {
        cache' := Assign(cache', q[i].hash, CacheEntry(q[i].file.path, result.value));
        count := count + 1;
      }
    }
    assert q[..|q|] == q;
  }

  /** A hash has an entry after recording exactly when it had one or a
      queued file with that hash separated; the entry is then that of the
      last such file. */
  lemma {:induction false} RecordLookup(cache: Cache, q: seq<Queued>, separate: AudioPath -> Option<string>, h: string)
    ensures Lookup(Record(cache, q, separate), h).Some? <==> Lookup(cache, h).Some? || h in Successes(q, separate)
    ensures h !in Successes(q, separate) ==> Lookup(Record(cache, q, separate), h) == Lookup(cache, h)
    ensures forall j :: 0 <= j < |q| && q[j].hash == h && separate(q[j].file).Some?
                        && (forall l :: j < l < |q| ==> q[l].hash != h || separate(q[l].file).None?)
                        ==> Lookup(Record(cache, q, separate), h) == Some(CacheEntry(q[j].file.path, separate(q[j].file).value))
  {
    if |q| > 0 {
      var init := q[..|q| - 1];
      RecordLookup(cache, init, separate, h);
      assert q == init + [q[|q| - 1]];
      RecordStep(cache, init, q[|q| - 1], separate, h);
    }
  }

  /** The inductive step: recording one more queued file. */
  lemma RecordStep(cache: Cache, init: seq<Queued>, x: Queued, separate: AudioPath -> Option<string>, h: string)
    requires Lookup(Record(cache, init, separate), h).Some? <==> Lookup(cache, h).Some? || h in Successes(init, separate)
    requires h !in Successes(init, separate) ==> Lookup(Record(cache, init, separate), h) == Lookup(cache, h)
    requires forall j :: 0 <= j < |init| && init[j].hash == h && separate(init[j].file).Some?
                        && (forall l :: j < l < |init| ==> init[l].hash != h || separate(init[l].file).None?)
                        ==> Lookup(Record(cache, init, separate), h) == Some(CacheEntry(init[j].file.path, separate(init[j].file).value))
    ensures Lookup(Record(cache, init + [x], separate), h).Some? <==> Lookup(cache, h).Some? || h in Successes((init + [x]), separate)
    ensures h !in Successes((init + [x]), separate) ==> Lookup(Record(cache, init + [x], separate), h) == Lookup(cache, h)
    ensures forall j :: 0 <= j < |init| + 1 && (init + [x])[j].hash == h && separate((init + [x])[j].file).Some?
                        && (forall l :: j < l < |init| + 1 ==> (init + [x])[l].hash != h || separate((init + [x])[l].file).None?)
                        ==> Lookup(Record(cache, init + [x], separate), h) == Some(CacheEntry((init + [x])[j].file.path, separate((init + [x])[j].file).value))
  {
    var q := init + [x];
    assert q[..|q| - 1] == init;
    var before := Record(cache, init, separate);
    if separate(x.file).Some? && x.hash != h {
      AssignOther(before, x.hash, CacheEntry(x.file.path, separate(x.file).value), h);
    }
    forall j | 0 <= j < |q| && q[j].hash == h && separate(q[j].file).Some?
               && (forall l :: j < l < |q| ==> q[l].hash != h || separate(q[l].file).None?)
      ensures Lookup(Record(cache, q, separate), h) == Some(CacheEntry(q[j].file.path, separate(q[j].file).value))
    {
      if j < |q| - 1 {
        assert init[j] == q[j];
      }
    }
  }

  /** The number of successes is at most the queue's length. */
  lemma {:induction false} SuccessesBounded(q: seq<Queued>, separate: AudioPath -> Option<string>)
    ensures |Successes(q, separate)| <= |q|
  {
    if |q| > 0 {
      SuccessesBounded(q[..|q| - 1], separate);
    }
  }

  /** Everything `batch_process` decides: how many files were processed,
      which were queued, and the cache as stored afterwards. */
  datatype BatchResult = BatchResult(count: nat, queued: seq<Queued>, stored: Cache)

  /** `batch_process`. `stored` is the cache on disk (empty when there is
      none); the working cache is that one, or an empty one when processed
      files are not skipped; it is written after each success, so it is
      stored exactly when something succeeded. */
  function BatchProcess(listing: seq<AudioPath>, recursive: bool, dryRun: bool, skipProcessed: bool, stored: Cache,
                        hashOf: AudioPath -> string, separate: AudioPath -> Option<string>): (r: BatchResult)
    ensures r.count == 0 ==> r.stored == stored
    ensures r.count <= |r.queued|
    ensures dryRun ==> r.count == 0
  {
    var files := FindAudioFiles(listing, recursive);
    if |files| == 0 then BatchResult(0, [], stored)
    else
      var working := if skipProcessed then stored else [];
      var q := Queue(files, hashOf, working);
      if |q| == 0 || dryRun then BatchResult(0, q, stored)
      else
        var n := |Successes(q, separate)|;
        SuccessesBounded(q, separate);
        BatchResult(n, q, if n > 0 then Record(working, q, separate) else stored)
  }

  /** Without skipping, every found file is queued, two files with equal
      content included. */
  lemma NoSkipQueuesAll(listing: seq<AudioPath>, recursive: bool, dryRun: bool, stored: Cache,
                        hashOf: AudioPath -> string, separate: AudioPath -> Option<string>)
    ensures FilesOf(BatchProcess(listing, recursive, dryRun, false, stored, hashOf, separate).queued) == FindAudioFiles(listing, recursive)
  {
    var files := FindAudioFiles(listing, recursive);
    if |files| > 0 {
      var empty: Cache := [];
      QueueSkipsCached(files, hashOf, empty);
      FilterAll(files, (f: AudioPath) => hashOf(f) !in Keys(empty));
    }
  }

  /** With skipping, the queue is the found files whose hash is not stored,
      in name order. */
  lemma SkipKeepsOrder(listing: seq<AudioPath>, recursive: bool, dryRun: bool, stored: Cache,
                       hashOf: AudioPath -> string, separate: AudioPath -> Option<string>)
    ensures var q := BatchProcess(listing, recursive, dryRun, true, stored, hashOf, separate).queued;
      && FilesOf(q) == Filter(FindAudioFiles(listing, recursive), (f: AudioPath) => hashOf(f) !in Keys(stored))
      && SortedBy(FilesOf(q), LowerName, StringLe())
  {
    var files := FindAudioFiles(listing, recursive);
    FindAudioFilesExact(listing, recursive);
    StringLePreorder();
    FilterKeepsOrder(files, (f: AudioPath) => hashOf(f) !in Keys(stored), LowerName, StringLe());
    if |files| > 0 {
      QueueSkipsCached(files, hashOf, stored);
    } else {
      FilterNone(files, (f: AudioPath) => hashOf(f) !in Keys(stored));
    }
  }

  /** After a run that separated something, the stored cache holds an entry
      for a hash exactly when the working cache did or a queued file with
      that hash separated; the count is the number of such separations.
      Without skipping, the working cache starts empty, so earlier entries
      are not kept. */
  lemma BatchAccounting(listing: seq<AudioPath>, recursive: bool, skipProcessed: bool, stored: Cache,
                        hashOf: AudioPath -> string, separate: AudioPath -> Option<string>, h: string)
    ensures var r := BatchProcess(listing, recursive, false, skipProcessed, stored, hashOf, separate);
      var working := if skipProcessed then stored else [];
      && r.count == |Successes(r.queued, separate)|
      && (r.count > 0 ==> (Lookup(r.stored, h).Some? <==> Lookup(working, h).Some? || h in Successes(r.queued, separate)))
  {
    var r := BatchProcess(listing, recursive, false, skipProcessed, stored, hashOf, separate);
    var working := if skipProcessed then stored else [];
    RecordLookup(working, r.queued, separate, h);
  }
}

=== FILE: labels.dfy ===
/** The label vocabulary of the content analyzer and the repairs it applies
    to the labels a classification returns: fuzzy category and
    sub-category correction, priority defaulting, tag filtering, the
    terminology normalization pass and the chunking of long transcripts. */
module Labels {
  import opened Wrappers
  import opened Text
  import opened Lists

  // ---------------------------------------------------------------------
  // Vocabulary
  // ---------------------------------------------------------------------

  const ValidCategories: seq<string> :=
    ["法人保険", "ドクターマーケット", "相続", "営業マインド", "営業スキル", "コンプライアンス"]

  const ValidPriorities: seq<string> := ["高", "中", "低"]

  const ValidEmotionTags: seq<string> :=
    ["励まし", "叱咤", "論理的解説", "共感", "雑談/アイスブレイク", "情熱"]

  const ValidExpressionTags: seq<string> :=
    ["断定", "比喩表現", "関西弁", "厳しい指摘", "問いかけ", "ユーモア"]

  /** The category the repair falls back to when nothing matches. */
  const FallbackCategory: string := "営業スキル"

  /** `SUBCATEGORY_MAP.get(category, [])`. */
  function SubcategoriesOf(category: string): (subs: seq<string>)
    ensures category in ValidCategories <==> |subs| > 0
  {
    if category == "法人保険" then
      ["決算書分析", "退職金設計", "事業承継", "節税対策", "資金繰り",
       "役員報酬", "福利厚生", "損害保険連携", "法人契約全般"]
    else if category == "ドクターマーケット" then
      ["医療法人設立", "個人開業医", "MS法人", "医師賠償",
       "医療法人の事業承継", "勤務医対策", "開業資金"]
    else if category == "相続" then
      ["相続税対策", "資産承継", "遺言・信託", "納税資金準備",
       "自社株対策", "不動産対策", "二次相続"]
    else if category == "営業マインド" then
      ["プロ意識", "モチベーション", "目標設定", "自己投資",
       "時間管理", "人間力", "成功哲学"]
    else if category == "営業スキル" then
      ["アプローチ", "クロージング", "紹介入手", "話法",
       "ヒアリング", "プレゼンテーション", "反対処理", "電話営業"]
    else if category == "コンプライアンス" then
      ["募集規制", "個人情報保護", "適合性原則", "比較説明",
       "意向把握", "クーリングオフ", "保険業法"]
    else []
  }

  // ---------------------------------------------------------------------
  // Fuzzy matching
  // ---------------------------------------------------------------------

  /** Either string contains the other. */
  predicate Near(value: string, c: string)
  {
    Contains(value, c) || Contains(c, value)
  }

  /** The first candidate from index `i` near `value`. */
  function FirstNear(value: string, cands: seq<string>, i: nat): (r: Option<nat>)
    requires i <= |cands|
    ensures r.Some? ==> i <= r.value < |cands| && Near(value, cands[r.value])
                        && forall j :: i <= j < r.value ==> !Near(value, cands[j])
    ensures r.None? ==> forall j :: i <= j < |cands| ==> !Near(value, cands[j])
    decreases |cands| - i
  {
    if i == |cands| then None
    else if Near(value, cands[i]) then Some(i)
    else FirstNear(value, cands, i + 1)
  }

  /** `_fuzzy_match`: nothing for an empty value, the value itself when it is
      a candidate, else the first candidate containing it or contained in
      it. */
  function FuzzyMatch(value: string, cands: seq<string>): (r: Option<string>)
    ensures value == [] ==> r.None?
    ensures value != [] && value in cands ==> r == Some(value)
    ensures value != [] && value !in cands && r.Some? ==>
              exists k :: 0 <= k < |cands| && cands[k] == r.value && Near(value, cands[k])
                          && forall j :: 0 <= j < k ==> !Near(value, cands[j])
    ensures value != [] && r.None? ==> forall j :: 0 <= j < |cands| ==> !Near(value, cands[j])
    ensures r.Some? ==> r.value in cands
  {
    if value == [] then None
    else if value in cands then Some(value)
    else
      match FirstNear(value, cands, 0)
      case None => None
      case Some(k) => Some(cands[k])
  }

  // ---------------------------------------------------------------------
  // Label repair
  // ---------------------------------------------------------------------

  /** The label fields of an analysis result; the confidence is kept as an
      exact real. */
  datatype Labels = Labels(
    category: string,
    subCategory: string,
    priority: string,
    emotionTags: seq<string>,
    expressionTags: seq<string>,
    confidence: real,
    needsManualReview: bool,
    reviewReasons: seq<string>)

  function MinReal(a: real, b: real): real
  {
    if a <= b then a else b
  }

  function InSeq(vocab: seq<string>): string -> bool
  {
    t => t in vocab
  }

  /** The category step: a known category stays; an unknown one is replaced
      by its fuzzy match, or by the fallback with a review flag, a reason
      and the confidence capped at 0.4. */
  function FixCategory(x: Labels): (r: Labels)
    ensures r.category in ValidCategories
    ensures x.category in ValidCategories ==> r == x
    ensures x.category !in ValidCategories && FuzzyMatch(x.category, ValidCategories).Some? ==>
              r == x.(category := FuzzyMatch(x.category, ValidCategories).value)
    ensures x.category !in ValidCategories && FuzzyMatch(x.category, ValidCategories).None? ==>
              && r.category == FallbackCategory
              && r.needsManualReview
              && r.reviewReasons == x.reviewReasons + ["カテゴリ不明: " + x.category]
              && r.confidence <= 0.4 && r.confidence <= x.confidence
              && (r.confidence == 0.4 || r.confidence == x.confidence)
              && r.(category := x.category, needsManualReview := x.needsManualReview,
                    reviewReasons := x.reviewReasons, confidence := x.confidence) == x
  {
    if x.category in ValidCategories then x
    else match FuzzyMatch(x.category, ValidCategories)
      case Some(best) => x.(category := best)
      case None =>
        x.(needsManualReview := true,
           reviewReasons := x.reviewReasons + ["カテゴリ不明: " + x.category],
           category := FallbackCategory,
           confidence := MinReal(x.confidence, 0.4))
  }

  /** The sub-category step: a sub-category outside a non-empty list is
      replaced by its fuzzy match when there is one. */
  function FixSubcategory(sub: string, subs: seq<string>): (r: string)
    ensures r in subs || r == sub
    ensures sub in subs ==> r == sub
  {
    if |subs| > 0 && sub !in subs then
      match FuzzyMatch(sub, subs)
      case Some(best) => best
      case None => sub
    else sub
  }

  /** `_validate_and_fix_labels`. The sub-category is corrected only when a
      fuzzy match exists, so an unmatched invalid one survives. */
  function ValidateAndFixLabels(x: Labels): (r: Labels)
    ensures r.category in ValidCategories
    ensures r.priority in ValidPriorities
    ensures x.priority in ValidPriorities ==> r.priority == x.priority
    ensures r.subCategory in SubcategoriesOf(r.category) || r.subCategory == x.subCategory
    ensures x.subCategory in SubcategoriesOf(r.category) ==> r.subCategory == x.subCategory
    ensures r.emotionTags == Filter(x.emotionTags, InSeq(ValidEmotionTags))
    ensures r.expressionTags == Filter(x.expressionTags, InSeq(ValidExpressionTags))
  {
    var c := FixCategory(x);
    c.(subCategory := FixSubcategory(c.subCategory, SubcategoriesOf(c.category)),
       priority := if c.priority in ValidPriorities then c.priority else "中",
       emotionTags := Filter(c.emotionTags, InSeq(ValidEmotionTags)),
       expressionTags := Filter(c.expressionTags, InSeq(ValidExpressionTags)))
  }

  /** The repaired tags are exactly the valid ones among the given tags. */
  lemma ValidTagsKept(x: Labels)
    ensures var r := ValidateAndFixLabels(x);
            && (forall t :: t in r.emotionTags <==> t in x.emotionTags && t in ValidEmotionTags)
            && (forall t :: t in r.expressionTags <==> t in x.expressionTags && t in ValidExpressionTags)
  {
    var r := ValidateAndFixLabels(x);
    forall t ensures t in r.emotionTags <==> t in x.emotionTags && t in ValidEmotionTags {
      assert InSeq(ValidEmotionTags)(t) == (t in ValidEmotionTags);
    }
    forall t ensures t in r.expressionTags <==> t in x.expressionTags && t in ValidExpressionTags {
      assert InSeq(ValidExpressionTags)(t) == (t in ValidExpressionTags);
    }
  }

  /** A label set that has been repaired once is left alone by a second
      repair. */
  lemma ValidateAndFixIdempotent(x: Labels)
    ensures ValidateAndFixLabels(ValidateAndFixLabels(x)) == ValidateAndFixLabels(x)
  {
    var r := ValidateAndFixLabels(x);
    assert FixCategory(r) == r;
    FilterIdempotent(x.emotionTags, InSeq(ValidEmotionTags));
    FilterIdempotent(x.expressionTags, InSeq(ValidExpressionTags));
    var c := FixCategory(x);
    var subs := SubcategoriesOf(c.category);
    if r.subCategory !in subs {
      assert c.subCategory !in subs;
      assert FuzzyMatch(c.subCategory, subs).None?;
    }
  }

  // ---------------------------------------------------------------------
  // Terminology normalization
  // ---------------------------------------------------------------------

  /** The spelling variants and their canonical forms, in the order the
      normalization applies them. */
  const Terminology: seq<(string, string)> := [
    ("けっさんしょ", "決算書"),
    ("たいしょくきん", "退職金"),
    ("じぎょうしょうけい", "事業承継"),
    ("そうぞく", "相続"),
    ("ほうじんほけん", "法人保険"),
    ("いりょうほうじん", "医療法人"),
    ("ドクターマーケット", "ドクターマーケット"),
    ("ドクター・マーケット", "ドクターマーケット"),
    ("Doctor Market", "ドクターマーケット"),
    ("Ｐ／Ｌ", "P/L"),
    ("Ｂ／Ｓ", "B/S"),
    ("P&L", "P/L"),
    ("PL", "P/L"),
    ("BS", "B/S"),
    ("損益計算書", "P/L（損益計算書）"),
    ("貸借対照表", "B/S（貸借対照表）"),
    ("クロージング", "クロージング"),
    ("クロウジング", "クロージング"),
    ("アポ", "アポイント"),
    ("アポイントメント", "アポイント"),
    ("プレゼン", "プレゼンテーション"),
    ("コンプラ", "コンプライアンス"),
    ("MS法人", "MS法人（メディカルサービス法人）"),
    ("エムエス法人", "MS法人（メディカルサービス法人）")
  ]

  predicate NonEmptyKeys(pairs: seq<(string, string)>)
  {
    forall i :: 0 <= i < |pairs| ==> |pairs[i].0| > 0
  }

  /** Every replacement of `pairs` applied to the whole text in turn, each
      one seeing the output of the previous ones. */
  function ReplaceInTurn(text: string, pairs: seq<(string, string)>): string
    requires NonEmptyKeys(pairs)
    decreases |pairs|
  {
    if |pairs| == 0 then text
    else ReplaceInTurn(Replace(text, pairs[0].0, pairs[0].1), pairs[1..])
  }

  /** `_normalize_terminology`. */
  function NormalizeTerminology(text: string): string
  {
    ReplaceInTurn(text, Terminology)
  }

  /** A text in which no variant occurs comes back unchanged. */
  lemma {:induction false} NoVariantUnchanged(text: string, pairs: seq<(string, string)>)
    requires NonEmptyKeys(pairs)
    requires forall i :: 0 <= i < |pairs| ==> !Contains(text, pairs[i].0)
    ensures ReplaceInTurn(text, pairs) == text
  {
    if |pairs| > 0 {
      NoVariantUnchanged(text, pairs[1..]);
    }
  }

  lemma {:induction false} ReplaceInTurnAppend(text: string, a: seq<(string, string)>, b: seq<(string, string)>)
    requires NonEmptyKeys(a) && NonEmptyKeys(b)
    ensures NonEmptyKeys(a + b)
    ensures ReplaceInTurn(text, a + b) == ReplaceInTurn(ReplaceInTurn(text, a), b)
    decreases |a|
  {
    if |a| > 0 {
      assert (a + b)[1..] == a[1..] + b;
      ReplaceInTurnAppend(Replace(text, a[0].0, a[0].1), a[1..], b);
    } else {
      assert a + b == b;
    }
  }

  /** A needle whose first character is absent does not occur. */
  lemma AbsentHead(text: string, pat: string)
    requires |pat| > 0 && pat[0] !in text
    ensures !Contains(text, pat)
  {
    forall i | 0 <= i <= |text| - |pat|
      ensures !OccursAt(text, pat, i)
    {
      assert text[i] in text;
    }
  }

  /** No variant of `pairs` starts with a character of `text`. */
  lemma AbsentHeads(text: string, pairs: seq<(string, string)>)
    requires NonEmptyKeys(pairs)
    requires forall i :: 0 <= i < |pairs| ==> pairs[i].0[0] !in text
    ensures ReplaceInTurn(text, pairs) == text
  {
    forall i | 0 <= i < |pairs|
      ensures !Contains(text, pairs[i].0)
    {
      AbsentHead(text, pairs[i].0);
    }
    NoVariantUnchanged(text, pairs);
  }

  lemma RulesBeforeApo()
    ensures ReplaceInTurn("アポイントメント", Terminology[..18]) == "アポイントメント"
  {
    var text := "アポイントメント";
    var before := Terminology[..18];
    forall i | 0 <= i < |before|
      ensures before[i].0[0] !in text
    {
    }
    AbsentHeads(text, before);
  }

  lemma ApoRule()
    ensures Replace("アポイントメント", "アポ", "アポイント") == "アポイントイントメント"
  {
    assert Replace("イントメント", "アポ", "アポイント") == "イントメント" by {
      AbsentHead("イントメント", "アポ");
    }
    assert Find("アポイントメント", "アポ") == 0 by {
      assert OccursAt("アポイントメント", "アポ", 0);
    }
    assert "アポイントメント"[2..] == "イントメント";
    ReplaceFirst("アポイントメント", "アポ", "アポイント");
    assert "アポイントメント"[..0] + "アポイント" == "アポイント";
    ApoJoin();
  }

  lemma ApoJoin()
    ensures "アポイント" + "イントメント" == "アポイントイントメント"
  {
  }

  /** `Replace` rewrites the first occurrence and carries on after it. */
  lemma ReplaceFirst(s: string, pat: string, repl: string)
    requires |pat| > 0 && Find(s, pat) >= 0
    ensures var i := Find(s, pat);
            Replace(s, pat, repl) == s[..i] + repl + Replace(s[i + |pat|..], pat, repl)
  {
  }

  lemma AppointmentRule()
    ensures Replace("アポイントイントメント", "アポイントメント", "アポイント") == "アポイントイントメント"
  {
    ApoAbsent();
  }

  /** "アポイントメント" does not occur in "アポイントイントメント". */
  lemma ApoAbsent()
    ensures !Contains("アポイントイントメント", "アポイントメント")
  {
    var s1 := "アポイントイントメント";
    var pat := "アポイントメント";
    forall j | 0 <= j <= |s1| - |pat|
      ensures !OccursAt(s1, pat, j)
    {
      assert s1[j..j + |pat|][0] == s1[j];
      assert s1[j..j + |pat|][5] == s1[j + 5];
      assert j == 0 || j == 1 || j == 2 || j == 3;
    }
  }

  lemma RulesAfterAppointment()
    ensures ReplaceInTurn("アポイントイントメント", Terminology[20..]) == "アポイントイントメント"
  {
    var text := "アポイントイントメント";
    var after := Terminology[20..];
    forall i | 0 <= i < |after|
      ensures after[i].0[0] !in text
    {
    }
    AbsentHeads(text, after);
  }

  lemma SkipToApo()
    ensures NormalizeTerminology("アポイントメント") == ReplaceInTurn("アポイントメント", Terminology[18..])
  {
    assert Terminology == Terminology[..18] + Terminology[18..];
    ReplaceInTurnAppend("アポイントメント", Terminology[..18], Terminology[18..]);
    RulesBeforeApo();
  }

  lemma ApplyApo()
    ensures ReplaceInTurn("アポイントメント", Terminology[18..])
         == ReplaceInTurn("アポイントイントメント", Terminology[19..])
  {
    var tail := Terminology[18..];
    assert tail[0] == ("アポ", "アポイント") && tail[1..] == Terminology[19..];
    ApoRule();
  }

  lemma ApplyAppointment()
    ensures ReplaceInTurn("アポイントイントメント", Terminology[19..])
         == ReplaceInTurn("アポイントイントメント", Terminology[20..])
  {
    var tail := Terminology[19..];
    assert tail[0] == ("アポイントメント", "アポイント") && tail[1..] == Terminology[20..];
    AppointmentRule();
  }

  /** "アポイントメント" is listed as a variant of "アポイント", but the earlier
      "アポ" rule has already rewritten it to "アポイントイントメント", which
      the later rules leave alone. */
  lemma AppointmentVariantMissed()
    ensures NormalizeTerminology("アポイントメント") == "アポイントイントメント"
  {
    SkipToApo();
    ApplyApo();
    ApplyAppointment();
    RulesAfterAppointment();
  }

  /** The index of the longest variant occurring at position `i` among
      `pairs[j..]`, the earlier one on a tie, given the best so far. */
  function LongestAt(text: string, i: nat, pairs: seq<(string, string)>, j: nat, best: Option<nat>): (r: Option<nat>)
    requires j <= |pairs|
    requires best.Some? ==> best.value < j && OccursAt(text, pairs[best.value].0, i)
    requires best.Some? ==> forall k :: 0 <= k < j && OccursAt(text, pairs[k].0, i) ==>
                              |pairs[k].0| <= |pairs[best.value].0|
    requires best.Some? ==> forall k :: 0 <= k < best.value && OccursAt(text, pairs[k].0, i) ==>
                              |pairs[k].0| < |pairs[best.value].0|
    requires best.None? ==> forall k :: 0 <= k < j ==> !OccursAt(text, pairs[k].0, i)
    ensures r.Some? ==> r.value < |pairs| && OccursAt(text, pairs[r.value].0, i)
    ensures r.Some? ==> forall k :: 0 <= k < |pairs| && OccursAt(text, pairs[k].0, i) ==>
                          |pairs[k].0| <= |pairs[r.value].0|
    ensures r.Some? ==> forall k :: 0 <= k < r.value && OccursAt(text, pairs[k].0, i) ==>
                          |pairs[k].0| < |pairs[r.value].0|
    ensures r.None? ==> forall k :: 0 <= k < |pairs| ==> !OccursAt(text, pairs[k].0, i)
    decreases |pairs| - j
  {
    if j == |pairs| then best
    else if OccursAt(text, pairs[j].0, i) && (best.None? || |pairs[j].0| > |pairs[best.value].0|) then
      LongestAt(text, i, pairs, j + 1, Some(j))
    else LongestAt(text, i, pairs, j + 1, best)
  }

  /** The normalization the dictionary evidently intends: one left-to-right
      scan that replaces the longest variant starting at each position and
      never rescans a canonical form it has written. */
  function ScanReplace(text: string, pairs: seq<(string, string)>, i: nat): string
    requires NonEmptyKeys(pairs) && i <= |text|
    decreases |text| - i
  {
    if i == |text| then []
    else match LongestAt(text, i, pairs, 0, None)
      case None => [text[i]] + ScanReplace(text, pairs, i + 1)
      case Some(j) => pairs[j].1 + ScanReplace(text, pairs, i + |pairs[j].0|)
  }

  /** Each canonical form of `pairs` as a replacement of itself. */
  function FixedPoints(pairs: seq<(string, string)>): (r: seq<(string, string)>)
    ensures |r| == |pairs|
    ensures forall i :: 0 <= i < |pairs| ==> r[i] == (pairs[i].1, pairs[i].1)
  {
    seq(|pairs|, i requires 0 <= i < |pairs| => (pairs[i].1, pairs[i].1))
  }

  /** The candidates of the corrected scan: every canonical form standing
      for itself, then the variants. A canonical form already in the text
      is the longest match at its start, and on a tie with a variant of the
      same spelling the earlier, fixed, candidate wins, so it is kept whole. */
  const Candidates: seq<(string, string)> := FixedPoints(Terminology) + Terminology

  lemma CandidateKeys()
    ensures NonEmptyKeys(Candidates)
  {
  }

  /** The corrected normalization. */
  function NormalizeTerminologyOnce(text: string): string
  {
    CandidateKeys();
    ScanReplace(text, Candidates, 0)
  }

  /** A text that is itself the key of pair `k`, where every pair up to `k`
      with that key maps it to itself, comes back unchanged from the scan. */
  lemma WholeKeyFixed(c: string, pairs: seq<(string, string)>, k: nat)
    requires NonEmptyKeys(pairs) && k < |pairs| && pairs[k].0 == c
    requires forall i :: 0 <= i <= k && pairs[i].0 == c ==> pairs[i].1 == c
    ensures ScanReplace(c, pairs, 0) == c
  {
    assert c[0..|c|] == c;
    assert OccursAt(c, pairs[k].0, 0);
    var j := LongestAt(c, 0, pairs, 0, None).value;
    assert pairs[j].0 == c;
    assert j <= k;
    assert ScanReplace(c, pairs, |c|) == [];
  }

  /** Every canonical form of the dictionary comes back unchanged from the
      corrected normalization. */
  lemma CanonicalFixed(k: nat)
    requires k < |Terminology|
    ensures NormalizeTerminologyOnce(Terminology[k].1) == Terminology[k].1
  {
    var c := Terminology[k].1;
    CandidateKeys();
    forall i | 0 <= i <= k && Candidates[i].0 == c
      ensures Candidates[i].1 == c
    {
      assert Candidates[i] == FixedPoints(Terminology)[i];
    }
    WholeKeyFixed(c, Candidates, k);
  }

  /** Under the single scan a text in which no variant occurs is unchanged. */
  lemma {:induction false} ScanNoVariant(text: string, pairs: seq<(string, string)>, i: nat)
    requires NonEmptyKeys(pairs) && i <= |text|
    requires forall k :: 0 <= k < |pairs| ==> !Contains(text, pairs[k].0)
    ensures ScanReplace(text, pairs, i) == text[i..]
    decreases |text| - i
  {
    if i < |text| {
      forall k | 0 <= k < |pairs|
        ensures !OccursAt(text, pairs[k].0, i)
      {
      }
      assert LongestAt(text, i, pairs, 0, None).None?;
      ScanNoVariant(text, pairs, i + 1);
      assert text[i..] == [text[i]] + text[i + 1..];
    }
  }

  /** Only the "アポ" rules have a variant or a canonical form starting "ア". */
  lemma ApoHeads()
    ensures forall k :: 0 <= k < |Terminology| && k != 18 && k != 19 ==>
      Terminology[k].0[0] != 'ア' && Terminology[k].1[0] != 'ア'
  {
  }

  /** Only the rule for "損益計算書" has a variant or a canonical form
      starting "損". */
  lemma PlHeads()
    ensures forall k :: 0 <= k < |Terminology| ==> Terminology[k].1[0] != '損'
    ensures forall k :: 0 <= k < |Terminology| && k != 14 ==> Terminology[k].0[0] != '損'
  {
  }

  /** Only the two "アポ" variants and the canonical "アポイント" occur at the
      start of "アポイントメント". */
  lemma ApoVariantsAtStart(k: nat)
    requires k < |Candidates| && k != 18 && k != 19 && k != 42 && k != 43
    ensures !OccursAt("アポイントメント", Candidates[k].0, 0)
  {
    ApoHeads();
    if k < |Terminology| {
      assert Candidates[k].0 == Terminology[k].1;
    } else {
      assert Candidates[k].0 == Terminology[k - |Terminology|].0;
    }
  }

  /** Under the single scan "アポイントメント" becomes "アポイント", as the
      dictionary lists. */
  lemma AppointmentVariantOnce()
    ensures NormalizeTerminologyOnce("アポイントメント") == "アポイント"
  {
    var text := "アポイントメント";
    CandidateKeys();
    assert Candidates[43] == ("アポイントメント", "アポイント");
    assert |Candidates[42].0| == 2 && |Candidates[18].0| == 5 && |Candidates[19].0| == 5;
    assert OccursAt(text, Candidates[43].0, 0);
    forall k | 0 <= k < |Candidates| && k != 18 && k != 19 && k != 42 && k != 43
      ensures !OccursAt(text, Candidates[k].0, 0)
    {
      ApoVariantsAtStart(k);
    }
    var r := LongestAt(text, 0, Candidates, 0, None);
    assert r.value == 43;
    assert ScanReplace(text, Candidates, 8) == [];
  }

  /** Only the variant "損益計算書" occurs at the start of "損益計算書". */
  lemma PlVariantsAtStart(k: nat)
    requires k < |Candidates| && k != 38
    ensures !OccursAt("損益計算書", Candidates[k].0, 0)
  {
    PlHeads();
    if k < |Terminology| {
      assert Candidates[k].0 == Terminology[k].1;
    } else {
      assert Candidates[k].0 == Terminology[k - |Terminology|].0;
    }
  }

  /** Under the single scan "損益計算書" becomes "P/L（損益計算書）", which
      the scan then keeps: normalizing twice is normalizing once. */
  lemma PlOnceIdempotent()
    ensures NormalizeTerminologyOnce("損益計算書") == "P/L（損益計算書）"
    ensures NormalizeTerminologyOnce(NormalizeTerminologyOnce("損益計算書")) == NormalizeTerminologyOnce("損益計算書")
  {
    var text := "損益計算書";
    CandidateKeys();
    assert Candidates[38] == ("損益計算書", "P/L（損益計算書）");
    assert text[0..5] == text;
    assert OccursAt(text, Candidates[38].0, 0);
    forall k | 0 <= k < |Candidates| && k != 38
      ensures !OccursAt(text, Candidates[k].0, 0)
    {
      PlVariantsAtStart(k);
    }
    var r := LongestAt(text, 0, Candidates, 0, None);
    assert r.value == 38;
    assert ScanReplace(text, Candidates, 5) == [];
    CanonicalFixed(14);
  }

  // As written, a canonical form that holds a shorter variant is rewritten
  // again, both on its own and on a second pass.

  lemma TerminologyKeys()
    ensures NonEmptyKeys(Terminology)
  {
  }

  /** The three rules the examples below apply. */
  lemma RuleEntries()
    ensures Terminology[14] == ("損益計算書", "P/L（損益計算書）")
    ensures Terminology[20] == ("プレゼン", "プレゼンテーション")
    ensures Terminology[21] == ("コンプラ", "コンプライアンス")
  {
  }

  /** The rules before `m` leave the text alone and those after it leave
      the `m`-th rule's output alone: the normalization is that one rule. */
  lemma OneRuleApplies(text: string, pairs: seq<(string, string)>, m: nat, out: string)
    requires NonEmptyKeys(pairs) && m < |pairs|
    requires ReplaceInTurn(text, pairs[..m]) == text
    requires Replace(text, pairs[m].0, pairs[m].1) == out
    requires ReplaceInTurn(out, pairs[m + 1..]) == out
    ensures ReplaceInTurn(text, pairs) == out
  {
    assert pairs == pairs[..m] + pairs[m..];
    ReplaceInTurnAppend(text, pairs[..m], pairs[m..]);
    assert pairs[m..][0] == pairs[m] && pairs[m..][1..] == pairs[m + 1..];
  }

  /** A pattern occurring first at `i` and not after that occurrence is
      replaced there only. */
  lemma ReplaceSingle(s: string, pat: string, repl: string, i: nat)
    requires |pat| > 0 && OccursAt(s, pat, i)
    requires forall j :: 0 <= j < i ==> !OccursAt(s, pat, j)
    requires !Contains(s[i + |pat|..], pat)
    ensures Replace(s, pat, repl) == s[..i] + repl + s[i + |pat|..]
  {
    assert Find(s, pat) == i;
  }

  /** A pattern whose first character occurs in `t` only at `j0`, where
      its second character does not follow, does not occur. */
  lemma OnlyHeadAt(t: string, pat: string, j0: nat)
    requires |pat| >= 2
    requires forall j :: 0 <= j < |t| && t[j] == pat[0] ==> j == j0
    requires j0 + 1 < |t| ==> t[j0 + 1] != pat[1]
    ensures !Contains(t, pat)
  {
    forall j | 0 <= j <= |t| - |pat| ensures !OccursAt(t, pat, j) {
      assert t[j..j + |pat|][0] == t[j];
      assert t[j..j + |pat|][1] == t[j + 1];
    }
  }

  lemma ComplianceHeads()
    ensures forall i :: 0 <= i < 18 ==> |Terminology[i].0| > 0 && Terminology[i].0[0] !in "コンプライアンス"
    ensures forall i :: 22 <= i < |Terminology| ==> Terminology[i].0[0] !in "コンプライアンスイアンス"
  {
  }

  lemma CompliancePrefix()
    ensures ReplaceInTurn("コンプライアンス", Terminology[..21]) == "コンプライアンス"
  {
    var t := "コンプライアンス";
    var before := Terminology[..21];
    ComplianceHeads();
    assert before[18].0 == "アポ" && before[19].0 == "アポイントメント" && before[20].0 == "プレゼン";
    forall i | 0 <= i < 21 ensures !Contains(t, before[i].0) {
      if i == 20 {
        OnlyHeadAt(t, before[i].0, 2);
      } else if i == 18 || i == 19 {
        OnlyHeadAt(t, before[i].0, 5);
      } else {
        assert before[i] == Terminology[i];
        NoContains(t, Terminology[i].0);
      }
    }
    NoVariantUnchanged(t, before);
  }

  lemma ComplianceRule()
    ensures Replace("コンプライアンス", "コンプラ", "コンプライアンス") == "コンプライアンスイアンス"
  {
    var t := "コンプライアンス";
    assert t[4..] == "イアンス";
    NoContains(t[4..], "コンプラ");
    assert t[0..4] == "コンプラ";
    ReplaceSingle(t, "コンプラ", "コンプライアンス", 0);
    assert t[..0] == [];
    ComplianceJoin();
  }

  lemma ComplianceJoin()
    ensures [] + "コンプライアンス" + "イアンス" == "コンプライアンスイアンス"
  {
  }

  lemma ComplianceSuffix()
    ensures ReplaceInTurn("コンプライアンスイアンス", Terminology[22..]) == "コンプライアンスイアンス"
  {
    ComplianceHeads();
    AbsentHeads("コンプライアンスイアンス", Terminology[22..]);
  }

  /** As written, "コンプラ" also rewrites the inside of the canonical
      "コンプライアンス", a valid category. */
  lemma ComplianceMangled()
    ensures NormalizeTerminology("コンプライアンス") == "コンプライアンスイアンス"
  {
    CompliancePrefix();
    ComplianceRule();
    ComplianceSuffix();
    RuleEntries();
    TerminologyKeys();
    OneRuleApplies("コンプライアンス", Terminology, 21, "コンプライアンスイアンス");
  }

  lemma PresentationHeads()
    ensures forall i :: 0 <= i < 20 ==> Terminology[i].0[0] !in "プレゼンテーション"
    ensures forall i :: 21 <= i < |Terminology| ==> Terminology[i].0[0] !in "プレゼンテーションテーション"
  {
  }

  lemma PresentationPrefix()
    ensures ReplaceInTurn("プレゼンテーション", Terminology[..20]) == "プレゼンテーション"
  {
    PresentationHeads();
    AbsentHeads("プレゼンテーション", Terminology[..20]);
  }

  lemma PresentationRule()
    ensures Replace("プレゼンテーション", "プレゼン", "プレゼンテーション") == "プレゼンテーションテーション"
  {
    var t := "プレゼンテーション";
    assert t[4..] == "テーション";
    NoContains(t[4..], "プレゼン");
    assert t[0..4] == "プレゼン";
    ReplaceSingle(t, "プレゼン", "プレゼンテーション", 0);
    assert t[..0] == [];
    PresentationJoin();
  }

  lemma PresentationJoin()
    ensures [] + "プレゼンテーション" + "テーション" == "プレゼンテーションテーション"
  {
  }

  lemma PresentationSuffix()
    ensures ReplaceInTurn("プレゼンテーションテーション", Terminology[21..]) == "プレゼンテーションテーション"
  {
    PresentationHeads();
    AbsentHeads("プレゼンテーションテーション", Terminology[21..]);
  }

  /** As written, "プレゼン" also rewrites the inside of the canonical
      "プレゼンテーション". */
  lemma PresentationMangled()
    ensures NormalizeTerminology("プレゼンテーション") == "プレゼンテーションテーション"
  {
    PresentationPrefix();
    PresentationRule();
    PresentationSuffix();
    RuleEntries();
    TerminologyKeys();
    OneRuleApplies("プレゼンテーション", Terminology, 20, "プレゼンテーションテーション");
  }

  lemma PlTextHeads()
    ensures forall i :: 0 <= i < 14 ==> Terminology[i].0[0] !in "損益計算書"
    ensures forall i :: 0 <= i < 11 ==> |Terminology[i].0| > 0 && Terminology[i].0[0] !in "P/L（損益計算書）"
    ensures |Terminology[13].0| > 0 && Terminology[13].0[0] !in "P/L（損益計算書）"
  {
  }

  lemma PlOutHeads()
    ensures forall i :: 15 <= i < |Terminology| ==> Terminology[i].0[0] !in "P/L（損益計算書）"
    ensures forall i :: 15 <= i < |Terminology| ==> Terminology[i].0[0] !in "P/L（P/L（損益計算書））"
  {
  }

  lemma PlPrefix()
    ensures ReplaceInTurn("損益計算書", Terminology[..14]) == "損益計算書"
  {
    PlTextHeads();
    AbsentHeads("損益計算書", Terminology[..14]);
  }

  lemma PlRule()
    ensures Replace("損益計算書", "損益計算書", "P/L（損益計算書）") == "P/L（損益計算書）"
  {
    var t := "損益計算書";
    assert t[0..5] == t && t[5..] == [];
    ReplaceSingle(t, t, "P/L（損益計算書）", 0);
  }

  /** The rules after "損益計算書" find nothing in its canonical form, nor
      in that form rewritten once more. */
  lemma PlSuffix(out: string)
    requires out == "P/L（損益計算書）" || out == "P/L（P/L（損益計算書））"
    ensures ReplaceInTurn(out, Terminology[15..]) == out
  {
    PlOutHeads();
    AbsentHeads(out, Terminology[15..]);
  }

  /** As written "損益計算書" becomes "P/L（損益計算書）". */
  lemma PlFirstPass()
    ensures NormalizeTerminology("損益計算書") == "P/L（損益計算書）"
  {
    PlPrefix();
    PlRule();
    PlSuffix("P/L（損益計算書）");
    RuleEntries();
    TerminologyKeys();
    OneRuleApplies("損益計算書", Terminology, 14, "P/L（損益計算書）");
  }

  lemma PlAgainPrefix()
    ensures ReplaceInTurn("P/L（損益計算書）", Terminology[..14]) == "P/L（損益計算書）"
  {
    var t := "P/L（損益計算書）";
    var before := Terminology[..14];
    PlTextHeads();
    assert before[11].0 == "P&L" && before[12].0 == "PL";
    forall i | 0 <= i < 14 ensures !Contains(t, before[i].0) {
      if i == 11 || i == 12 {
        OnlyHeadAt(t, before[i].0, 0);
      } else {
        assert before[i] == Terminology[i];
        NoContains(t, Terminology[i].0);
      }
    }
    NoVariantUnchanged(t, before);
  }

  lemma PlJoin()
    ensures "P/L（" + "P/L（損益計算書）" + "）" == "P/L（P/L（損益計算書））"
  {
  }

  lemma PlAgainRule()
    ensures Replace("P/L（損益計算書）", "損益計算書", "P/L（損益計算書）") == "P/L（P/L（損益計算書））"
  {
    var t := "P/L（損益計算書）";
    assert t[..4] == "P/L（" && t[4..9] == "損益計算書" && t[9..] == "）";
    NoContains(t[9..], "損益計算書");
    assert OccursAt(t, "損益計算書", 4);
    forall j | 0 <= j < 4 ensures !OccursAt(t, "損益計算書", j) {
      assert t[j..j + 5][0] == t[j] != '損';
    }
    ReplaceSingle(t, "損益計算書", "P/L（損益計算書）", 4);
    PlJoin();
  }

  /** A second pass over "P/L（損益計算書）" rewrites the "損益計算書" inside it. */
  lemma PlSecondPass()
    ensures NormalizeTerminology("P/L（損益計算書）") == "P/L（P/L（損益計算書））"
  {
    PlAgainPrefix();
    PlAgainRule();
    PlSuffix("P/L（P/L（損益計算書））");
    RuleEntries();
    TerminologyKeys();
    OneRuleApplies("P/L（損益計算書）", Terminology, 14, "P/L（P/L（損益計算書））");
  }

  /** As written the normalization is not idempotent: a second pass over
      "損益計算書" changes it again. */
  lemma PlNotIdempotent()
    ensures NormalizeTerminology(NormalizeTerminology("損益計算書")) != NormalizeTerminology("損益計算書")
  {
    PlFirstPass();
    PlSecondPass();
  }

  // ---------------------------------------------------------------------
  // Transcript chunking
  // ---------------------------------------------------------------------

  /** The window size of the transcript clean-up. */
  const MaxChunk: nat := 10000

  /** The chunks `_cleanup_transcript` hands to the clean-up call for the
      text from `i` on: fixed windows of `maxChunk` characters starting at
      multiples of the window size; a window that does not reach the end
      of the text is cut just after its last "。" when that lies past the
      window's first character. The rest of the window is never handed
      on. */
  function WindowChunks(text: string, maxChunk: nat, i: nat): (r: seq<string>)
    requires maxChunk > 0 && i <= |text|
    ensures |r| == 0 <==> i == |text|
    ensures forall k :: 0 <= k < |r| ==> 0 < |r[k]| <= maxChunk
    ensures |Concat(r)| <= |text| - i
    ensures |r| > 0 ==> StartsWith(text[i..], r[0])
    decreases |text| - i
  {
    if i == |text| then []
    else if i + maxChunk >= |text| then
      assert Concat([text[i..]]) == text[i..] + Concat([]);
      [text[i..]]
    else
      var window := text[i..i + maxChunk];
      var lp := RFindChar(window, '。', 0, |window|);
      var chunk := if lp > 0 then window[..lp + 1] else window;
      var rest := WindowChunks(text, maxChunk, i + maxChunk);
      assert ([chunk] + rest)[1..] == rest;
      assert text[i..][..|chunk|] == chunk;
      [chunk] + rest
  }

  /** The chunks as written: the whole text when it fits one window. */
  function TranscriptChunks(text: string): (r: seq<string>)
    ensures |text| <= MaxChunk ==> r == [text]
    ensures |Concat(r)| <= |text|
  {
    if |text| <= MaxChunk then
      assert Concat([text]) == text + Concat([]);
      [text]
    else WindowChunks(text, MaxChunk, 0)
  }

  /** A transcript whose first window holds a "。" early on loses the rest
      of that window: 10 001 characters go in, 3 come out. */
  lemma TranscriptChunksDropText()
    ensures var text := "あ。" + seq(9998, _ => 'い') + "う";
            |Concat(TranscriptChunks(text))| < |text|
  {
    var text := "あ。" + seq(9998, _ => 'い') + "う";
    var window := text[0..MaxChunk];
    assert window[1] == '。';
    var lp := RFindChar(window, '。', 0, |window|);
    assert forall j :: 1 < j < |window| ==> window[j] == 'い';
    assert lp == 1;
    var rest := WindowChunks(text, MaxChunk, MaxChunk);
    assert rest == [text[MaxChunk..]];
    assert TranscriptChunks(text) == [window[..2]] + rest;
    assert Concat([window[..2]] + rest) == window[..2] + Concat(rest);
    assert Concat(rest) == text[MaxChunk..] + Concat([]);
  }

  /** The chunking the sentence-boundary cut evidently intends: the next
      chunk starts where the previous one was cut, so nothing is lost. */
  function SentenceChunks(text: string, maxChunk: nat, i: nat): (r: seq<string>)
    requires maxChunk > 0 && i <= |text|
    ensures |r| == 0 <==> i == |text|
    ensures forall k :: 0 <= k < |r| ==> 0 < |r[k]| <= maxChunk
    ensures Concat(r) == text[i..]
    ensures forall k :: 0 <= k < |r| - 1 ==> CutEnd(r[k], maxChunk)
    decreases |text| - i
  {
    if i == |text| then []
    else if i + maxChunk >= |text| then
      ConcatCons(text[i..], []);
      [text[i..]]
    else
      var cut := SentenceCut(text, maxChunk, i);
      var rest := SentenceChunks(text, maxChunk, i + cut);
      ConsEnds(text[i..i + cut], rest, maxChunk);
      ConcatPiece(text, i, i + cut, rest);
      [text[i..i + cut]] + rest
  }

  /** A chunk that ends a sentence or fills the whole window. */
  predicate CutEnd(chunk: string, maxChunk: nat)
  {
    |chunk| == maxChunk || (|chunk| > 0 && chunk[|chunk| - 1] == '。')
  }

  /** Where the full window from `i` is cut: just after its last "。" when
      that lies past the window's first character, else at the window's
      end. */
  function SentenceCut(text: string, maxChunk: nat, i: nat): (cut: nat)
    requires 0 < maxChunk && i + maxChunk <= |text|
    ensures 0 < cut <= maxChunk
    ensures CutEnd(text[i..i + cut], maxChunk)
  {
    var window := text[i..i + maxChunk];
    var lp := RFindChar(window, '。', 0, |window|);
    if lp > 0 then
      assert text[i..i + lp + 1][lp] == window[lp];
      lp + 1
    else maxChunk
  }

  /** A chunk cut at a sentence end or at full width, put in front of
      chunks that all are, gives chunks that all are. */
  lemma ConsEnds(head: string, rest: seq<string>, maxChunk: nat)
    requires 0 < |head| <= maxChunk && CutEnd(head, maxChunk)
    requires forall k :: 0 <= k < |rest| ==> 0 < |rest[k]| <= maxChunk
    requires forall k :: 0 <= k < |rest| - 1 ==> CutEnd(rest[k], maxChunk)
    ensures forall k :: 0 <= k < |[head] + rest| ==> 0 < |([head] + rest)[k]| <= maxChunk
    ensures forall k :: 0 <= k < |[head] + rest| - 1 ==> CutEnd(([head] + rest)[k], maxChunk)
  {
  }

  /** The clean-up call applied to each chunk, in order. */
  function Cleaned(chunks: seq<string>, clean: string -> string): (r: seq<string>)
    ensures |r| == |chunks| && forall k :: 0 <= k < |chunks| ==> r[k] == clean(chunks[k])
  {
    seq(|chunks|, k requires 0 <= k < |chunks| => clean(chunks[k]))
  }

  /** `_cleanup_transcript` as written, with the clean-up call as the
      oracle `clean`: a text that fits one window is cleaned whole, a
      longer one window by window, the cleaned windows joined by a blank
      line. */
  function CleanupTranscriptAsWritten(text: string, clean: string -> string): (r: string)
    ensures |text| <= MaxChunk ==> r == clean(text)
  {
    Join(Cleaned(TranscriptChunks(text), clean), "\n\n")
  }

  /** The chunks the corrected clean-up cleans: the whole text when it
      fits one window, else the sentence-cut chunks. */
  function CleanupChunks(text: string): (r: seq<string>)
    ensures Concat(r) == text
    ensures forall k :: 0 <= k < |r| ==> |r[k]| <= MaxChunk
    ensures |text| <= MaxChunk ==> r == [text]
  {
    if |text| <= MaxChunk then
      assert Concat([text]) == text + Concat([]);
      [text]
    else SentenceChunks(text, MaxChunk, 0)
  }

  /** The corrected clean-up: every character of the transcript is handed
      to the clean-up call once, in order. */
  function CleanupTranscript(text: string, clean: string -> string): (r: string)
    ensures |text| <= MaxChunk ==> r == clean(text)
  {
    Join(Cleaned(CleanupChunks(text), clean), "\n\n")
  }

  /** The transcript of `TranscriptChunksDropText`, cleaned by a call that
      returns its input: as written only "あ。" and "う" come back, the
      corrected clean-up returns every character, with a blank line after
      the first sentence. */
  lemma CleanupAsWrittenDrops()
    ensures var text := "あ。" + seq(9998, _ => 'い') + "う";
            && CleanupTranscriptAsWritten(text, s => s) == "あ。" + "\n\n" + "う"
            && CleanupTranscript(text, s => s) == "あ。" + "\n\n" + (seq(9998, _ => 'い') + "う")
  {
    DropExampleChunks();
    CleanedPair("あ。", "う", s => s);
    CleanedPair("あ。", seq(9998, _ => 'い') + "う", s => s);
  }

  /** Two chunks are cleaned and joined by a blank line. */
  lemma CleanedPair(a: string, b: string, clean: string -> string)
    ensures Join(Cleaned([a, b], clean), "\n\n") == clean(a) + "\n\n" + clean(b)
  {
    var c := Cleaned([a, b], clean);
    assert c == [clean(a), clean(b)];
    assert c[1..] == [clean(b)];
  }

  /** The two chunkings of that transcript. */
  lemma DropExampleChunks()
    ensures var text := "あ。" + seq(9998, _ => 'い') + "う";
            && TranscriptChunks(text) == ["あ。", "う"]
            && CleanupChunks(text) == ["あ。", seq(9998, _ => 'い') + "う"]
  {
    var text := "あ。" + seq(9998, _ => 'い') + "う";
    ExampleCut(text);
    ExampleWindowChunks(text);
    ExampleSentenceChunks(text);
  }

  /** The first window of that transcript has its last "。" at index 1. */
  lemma ExampleCut(text: string)
    requires text == "あ。" + seq(9998, _ => 'い') + "う"
    ensures |text| == 10001
    ensures RFindChar(text[0..MaxChunk], '。', 0, MaxChunk) == 1
    ensures text[0..2] == "あ。" && text[MaxChunk..] == "う"
    ensures text[2..] == seq(9998, _ => 'い') + "う"
  {
    var window := text[0..MaxChunk];
    assert window[1] == '。';
    assert forall j :: 1 < j < |window| ==> window[j] == 'い';
  }

  lemma ExampleWindowChunks(text: string)
    requires |text| == 10001
    requires RFindChar(text[0..MaxChunk], '。', 0, MaxChunk) == 1
    requires text[0..2] == "あ。" && text[MaxChunk..] == "う"
    ensures TranscriptChunks(text) == ["あ。", "う"]
  {
    var window := text[0..MaxChunk];
    assert window[..2] == text[0..2];
    assert WindowChunks(text, MaxChunk, MaxChunk) == [text[MaxChunk..]];
  }

  lemma ExampleSentenceChunks(text: string)
    requires |text| == 10001
    requires RFindChar(text[0..MaxChunk], '。', 0, MaxChunk) == 1
    requires text[0..2] == "あ。"
    ensures CleanupChunks(text) == [text[0..2], text[2..]]
  {
    assert SentenceCut(text, MaxChunk, 0) == 2;
    assert SentenceChunks(text, MaxChunk, 2) == [text[2..]];
  }
}

=== FILE: lists.dfy ===
/** Order-preserving filtering and Python's stable `sort(key=…)` over
    sequences, for any total preorder on the keys. */
module Lists {
  import opened Wrappers


  /** The order-preserving sub-list of the elements satisfying `f`
      (a Python list comprehension with an `if`). */
  function Filter<T>(s: seq<T>, f: T -> bool): (r: seq<T>)
    ensures |r| <= |s|
    ensures forall x :: x in r ==> x in s && f(x)
    ensures forall x :: x in s && f(x) ==> x in r
  {
    if |s| == 0 then []
    else (if f(s[0]) then [s[0]] else []) + Filter(s[1..], f)
  }

  /** Filtering by a predicate every element meets changes nothing. */
  lemma {:induction false} FilterAll<T>(s: seq<T>, f: T -> bool)
    requires forall x :: x in s ==> f(x)
    ensures Filter(s, f) == s
  {
    if |s| > 0 {
      assert s[0] in s;
      assert forall x :: x in s[1..] ==> x in s;
      FilterAll(s[1..], f);
      assert s == [s[0]] + s[1..];
    }
  }

  /** Filtering keeps a sorted list sorted. */
  lemma {:induction false} FilterKeepsOrder<T, K(!new)>(s: seq<T>, f: T -> bool, key: T -> K, le: (K, K) -> bool)
    requires SortedBy(s, key, le)
    requires TotalPreorder(le)
    ensures SortedBy(Filter(s, f), key, le)
  {
    if |s| > 0 {
      FilterKeepsOrder(s[1..], f, key, le);
      var rest := Filter(s[1..], f);
      assert forall x :: x in rest ==> x in s[1..];
      if f(s[0]) {
        var r := [s[0]] + rest;
        forall i, j | 0 <= i < j < |r| ensures le(key(r[i]), key(r[j])) {
          if i > 0 {
            assert r[i] == rest[i - 1] && r[j] == rest[j - 1];
          } else {
            assert r[j] in s[1..];
            var k :| 0 <= k < |s[1..]| && s[1..][k] == r[j];
            assert s[k + 1] == r[j];
          }
        }
      }
    }
  }

  lemma {:induction false} FilterAppend<T>(a: seq<T>, b: seq<T>, f: T -> bool)
    ensures Filter(a + b, f) == Filter(a, f) + Filter(b, f)
  {
    if |a| > 0 {
      FilterAppend(a[1..], b, f);
      var head := if f(a[0]) then [a[0]] else [];
      assert (a + b)[1..] == a[1..] + b && (a + b)[0] == a[0];
      FilterHead(a + b, f);
      FilterHead(a, f);
      ConcatAssoc(head, Filter(a[1..], f), Filter(b, f));
    } else {
      assert a + b == b;
    }
  }

  lemma FilterHead<T>(s: seq<T>, f: T -> bool)
    requires |s| > 0
    ensures Filter(s, f) == (if f(s[0]) then [s[0]] else []) + Filter(s[1..], f)
  {
  }

  /** Filtering by two predicates that agree on every element gives the
      same result. */
  lemma {:induction false} FilterAgree<T>(s: seq<T>, f: T -> bool, g: T -> bool)
    requires forall i :: 0 <= i < |s| ==> f(s[i]) == g(s[i])
    ensures Filter(s, f) == Filter(s, g)
  {
    if |s| > 0 {
      assert f(s[0]) == g(s[0]);
      FilterAgree(s[1..], f, g);
    }
  }

  /** Nothing in `s` satisfies `f`, so the filter is empty. */
  lemma {:induction false} FilterNone<T>(s: seq<T>, f: T -> bool)
    requires forall i :: 0 <= i < |s| ==> !f(s[i])
    ensures Filter(s, f) == []
  {
    if |s| > 0 {
      FilterNone(s[1..], f);
    }
  }

  lemma {:induction false} FilterIdempotent<T>(s: seq<T>, f: T -> bool)
    ensures Filter(Filter(s, f), f) == Filter(s, f)
  {
    if |s| > 0 {
      FilterIdempotent(s[1..], f);
      if f(s[0]) {
        assert Filter(s, f) == [s[0]] + Filter(s[1..], f);
        assert Filter(s, f)[1..] == Filter(s[1..], f);
      } else {
        assert Filter(s, f) == [] + Filter(s[1..], f);
        assert [] + Filter(s[1..], f) == Filter(s[1..], f);
      }
    }
  }

  function Not<T>(f: T -> bool): T -> bool
  {
    x => !f(x)
  }

  /** An element is kept by exactly one of `f` and its negation. */
  lemma {:induction false} FilterSplit<T>(s: seq<T>, f: T -> bool)
    ensures |Filter(s, f)| + |Filter(s, Not(f))| == |s|
  {
    if |s| > 0 {
      FilterSplit(s[1..], f);
    }
  }

  /** Filtering by two disjoint predicates keeps, between the two results,
      exactly what filtering by their disjunction keeps. */
  lemma {:induction false} FilterUnion<T>(s: seq<T>, f: T -> bool, g: T -> bool, h: T -> bool)
    requires forall x :: !(f(x) && g(x))
    requires forall x :: h(x) == (f(x) || g(x))
    ensures multiset(Filter(s, f) + Filter(s, g)) == multiset(Filter(s, h))
  {
    if |s| > 0 {
      FilterUnion(s[1..], f, g, h);
      var x := s[0];
      assert !(f(x) && g(x));
      assert h(x) == (f(x) || g(x));
      var hf, hg, hh := if f(x) then [x] else [], if g(x) then [x] else [], if h(x) then [x] else [];
      assert multiset(hf) + multiset(hg) == multiset(hh);
      assert Filter(s, f) == hf + Filter(s[1..], f);
      assert Filter(s, g) == hg + Filter(s[1..], g);
      assert Filter(s, h) == hh + Filter(s[1..], h);
      MultisetMerge(hf, Filter(s[1..], f), hg, Filter(s[1..], g), hh, Filter(s[1..], h));
    }
  }

  lemma MultisetMerge<T>(hf: seq<T>, rf: seq<T>, hg: seq<T>, rg: seq<T>, hh: seq<T>, rh: seq<T>)
    requires multiset(hf) + multiset(hg) == multiset(hh)
    requires multiset(rf + rg) == multiset(rh)
    ensures multiset((hf + rf) + (hg + rg)) == multiset(hh + rh)
  {
  }

  /** The concatenation of the pieces, in order. */
  function Concat<T>(xs: seq<seq<T>>): seq<T>
  {
    if |xs| == 0 then [] else xs[0] + Concat(xs[1..])
  }

  lemma ConcatCons<T>(x: seq<T>, xs: seq<seq<T>>)
    ensures Concat([x] + xs) == x + Concat(xs)
  {
    assert ([x] + xs)[1..] == xs;
  }

  /** A first piece cut from `s` followed by pieces spelling the rest of `s`
      spell `s` from the cut's start. */
  lemma ConcatPiece<T>(s: seq<T>, a: nat, b: nat, rest: seq<seq<T>>)
    requires a <= b <= |s| && Concat(rest) == s[b..]
    ensures Concat([s[a..b]] + rest) == s[a..]
  {
    ConcatCons(s[a..b], rest);
    assert s[a..] == s[a..b] + s[b..];
  }

  /** The results of `f` on each element, concatenated in order. */
  function FlatMap<A, B>(s: seq<A>, f: A -> seq<B>): seq<B>
  {
    if |s| == 0 then [] else f(s[0]) + FlatMap(s[1..], f)
  }

  /** Whatever `f` yields for an element is in the concatenation, and
      everything in it came from some element. */
  lemma {:induction false} FlatMapMembers<A, B>(s: seq<A>, f: A -> seq<B>)
    ensures forall k, y :: 0 <= k < |s| && y in f(s[k]) ==> y in FlatMap(s, f)
    ensures forall y :: y in FlatMap(s, f) ==> exists k :: 0 <= k < |s| && y in f(s[k])
  {
    if |s| > 0 {
      FlatMapMembers(s[1..], f);
      forall y | y in FlatMap(s, f) ensures exists k :: 0 <= k < |s| && y in f(s[k]) {
        if y !in f(s[0]) {
          assert y in FlatMap(s[1..], f);
          var k :| 0 <= k < |s[1..]| && y in f(s[1..][k]);
          assert y in f(s[k + 1]);
        }
      }
    }
  }

  // ---------------------------------------------------------------------
  // Key orders
  // ---------------------------------------------------------------------

  /** `le` is total and transitive: the orders Python's `sort` relies on. */
  ghost predicate TotalPreorder<K(!new)>(le: (K, K) -> bool)
  {
    (forall a, b :: le(a, b) || le(b, a))
    && (forall a, b, c :: le(a, b) && le(b, c) ==> le(a, c))
  }

  /** The reversed order, for `reverse=True`. */
  function Flip<K>(le: (K, K) -> bool): (K, K) -> bool
  {
    (a, b) => le(b, a)
  }

  lemma FlipPreorder<K(!new)>(le: (K, K) -> bool)
    requires TotalPreorder(le)
    ensures TotalPreorder(Flip(le))
  {
  }

  function IntLe(): (int, int) -> bool
  {
    (a: int, b: int) => a <= b
  }

  lemma IntLePreorder()
    ensures TotalPreorder(IntLe())
  {
  }

  /** Python's `<=` on strings: code-point lexicographic order. */
  predicate LexLe(a: string, b: string)
  {
    |a| == 0 || (|b| > 0 && (a[0] < b[0] || (a[0] == b[0] && LexLe(a[1..], b[1..]))))
  }

  lemma {:induction false} LexLeTotal(a: string, b: string)
    ensures LexLe(a, b) || LexLe(b, a)
  {
    if |a| > 0 && |b| > 0 && a[0] == b[0] {
      LexLeTotal(a[1..], b[1..]);
    }
  }

  lemma {:induction false} LexLeTrans(a: string, b: string, c: string)
    requires LexLe(a, b) && LexLe(b, c)
    ensures LexLe(a, c)
  {
    if |a| > 0 && |b| > 0 && |c| > 0 && a[0] == b[0] && b[0] == c[0] {
      LexLeTrans(a[1..], b[1..], c[1..]);
    }
  }

  function StringLe(): (string, string) -> bool
  {
    (a: string, b: string) => LexLe(a, b)
  }

  lemma StringLePreorder()
    ensures TotalPreorder(StringLe())
  {
    forall a: string, b: string
      ensures StringLe()(a, b) || StringLe()(b, a)
    {
      LexLeTotal(a, b);
    }
    forall a: string, b: string, c: string | StringLe()(a, b) && StringLe()(b, c)
      ensures StringLe()(a, c)
    {
      LexLeTrans(a, b, c);
    }
  }

  // ---------------------------------------------------------------------
  // Stable sort
  // ---------------------------------------------------------------------

  predicate SortedBy<T, K>(s: seq<T>, key: T -> K, le: (K, K) -> bool)
  {
    forall i, j :: 0 <= i < j < |s| ==> le(key(s[i]), key(s[j]))
  }

  /** Keys equivalent under `le` (equal keys, for a total order). */
  predicate Equiv<K>(le: (K, K) -> bool, a: K, b: K)
  {
    le(a, b) && le(b, a)
  }

  /** The elements whose key is equivalent to `k`, in order. */
  function ClassOf<T, K>(s: seq<T>, key: T -> K, le: (K, K) -> bool, k: K): seq<T>
  {
    if |s| == 0 then []
    else (if Equiv(le, key(s[0]), k) then [s[0]] else []) + ClassOf(s[1..], key, le, k)
  }

  lemma {:induction false} ClassAppend<T, K>(a: seq<T>, b: seq<T>, key: T -> K, le: (K, K) -> bool, k: K)
    ensures ClassOf(a + b, key, le, k) == ClassOf(a, key, le, k) + ClassOf(b, key, le, k)
  {
    if |a| > 0 {
      ClassAppend(a[1..], b, key, le, k);
      assert (a + b)[1..] == a[1..] + b;
    } else {
      assert a + b == b;
    }
  }

  lemma {:induction false} ClassNone<T, K>(s: seq<T>, key: T -> K, le: (K, K) -> bool, k: K)
    requires forall i :: 0 <= i < |s| ==> !Equiv(le, key(s[i]), k)
    ensures ClassOf(s, key, le, k) == []
  {
    if |s| > 0 {
      ClassNone(s[1..], key, le, k);
    }
  }

  /** Inserts `x` after every element whose key is at most its own. */
  function Insert<T, K>(x: T, r: seq<T>, key: T -> K, le: (K, K) -> bool): (r': seq<T>)
    ensures multiset(r') == multiset(r) + multiset{x}
  {
    if |r| == 0 || !le(key(r[0]), key(x)) then [x] + r
    else
      assert r == [r[0]] + r[1..];
      [r[0]] + Insert(x, r[1..], key, le)
  }

  /** Python's `sorted(s, key=key)` under the order `le`: insertion sort,
      each element placed after the equal ones already there. */
  function SortBy<T, K>(s: seq<T>, key: T -> K, le: (K, K) -> bool): (r: seq<T>)
    ensures multiset(r) == multiset(s)
    ensures |r| == |s|
  {
    if |s| == 0 then []
    else
      assert s == s[..|s| - 1] + [s[|s| - 1]];
      var r := Insert(s[|s| - 1], SortBy(s[..|s| - 1], key, le), key, le);
      assert |r| == |multiset(r)|;
      r
  }

  lemma {:induction false} InsertSorted<T, K(!new)>(x: T, r: seq<T>, key: T -> K, le: (K, K) -> bool)
    requires TotalPreorder(le)
    requires SortedBy(r, key, le)
    ensures SortedBy(Insert(x, r, key, le), key, le)
  {
    if |r| > 0 && le(key(r[0]), key(x)) {
      InsertSorted(x, r[1..], key, le);
      var t := Insert(x, r[1..], key, le);
      forall j | 0 <= j < |t|
        ensures le(key(r[0]), key(t[j]))
      {
        assert t[j] in multiset(t);
        assert t[j] == x || t[j] in r[1..];
      }
    }
  }

  /** Sorting keeps exactly the same elements. */
  lemma SortByMembers<T, K>(s: seq<T>, key: T -> K, le: (K, K) -> bool)
    ensures forall x :: x in SortBy(s, key, le) <==> x in s
  {
    var r := SortBy(s, key, le);
    forall x ensures x in r <==> x in s {
      assert x in r <==> x in multiset(r);
      assert x in s <==> x in multiset(s);
    }
  }

  /** No two elements share a key. */
  predicate DistinctBy<T, K(==)>(s: seq<T>, key: T -> K)
  {
    forall i, j :: 0 <= i < j < |s| ==> key(s[i]) != key(s[j])
  }

  lemma {:induction false} DistinctOnce<T>(s: seq<T>, x: T)
    requires forall i, j :: 0 <= i < j < |s| ==> s[i] != s[j]
    ensures multiset(s)[x] <= 1
  {
    if |s| > 0 {
      var t := s[..|s| - 1];
      assert s == t + [s[|s| - 1]];
      DistinctOnce(t, x);
      forall k | 0 <= k < |t| ensures t[k] != s[|s| - 1] {
        assert t[k] == s[k];
      }
      assert s[|s| - 1] !in t;
    }
  }

  /** Two positions of a sequence holding the same value count twice. */
  lemma TwoPositions<T>(s: seq<T>, i: nat, j: nat)
    requires i < j < |s|
    ensures multiset(s)[s[i]] >= 1 + (if s[j] == s[i] then 1 else 0)
  {
    assert s == s[..j] + [s[j]] + s[j + 1..];
    assert s[i] in s[..j];
  }

  /** A permutation of a list with distinct keys has distinct keys. */
  lemma DistinctByPerm<T, K>(a: seq<T>, b: seq<T>, key: T -> K)
    requires multiset(a) == multiset(b) && DistinctBy(a, key)
    ensures DistinctBy(b, key)
  {
    forall i, j | 0 <= i < j < |b| ensures key(b[i]) != key(b[j]) {
      DistinctOnce(a, b[i]);
      TwoPositions(b, i, j);
      assert b[i] != b[j];
      assert b[i] in multiset(a) && b[j] in multiset(a);
      var p :| 0 <= p < |a| && a[p] == b[i];
      var q :| 0 <= q < |a| && a[q] == b[j];
      assert p != q;
    }
  }

  /** Filtering keeps keys distinct. */
  lemma {:induction false} FilterDistinctBy<T, K>(s: seq<T>, f: T -> bool, key: T -> K)
    requires DistinctBy(s, key)
    ensures DistinctBy(Filter(s, f), key)
  {
    if |s| > 0 {
      var rest := Filter(s[1..], f);
      FilterDistinctBy(s[1..], f, key);
      if f(s[0]) {
        var r := [s[0]] + rest;
        forall i, j | 0 <= i < j < |r| ensures key(r[i]) != key(r[j]) {
          assert r[j] == rest[j - 1] && r[j] in s[1..];
          var q :| 0 <= q < |s[1..]| && s[1..][q] == r[j];
          assert s[q + 1] == r[j];
        }
      }
    }
  }

  lemma {:induction false} SortSorted<T, K(!new)>(s: seq<T>, key: T -> K, le: (K, K) -> bool)
    requires TotalPreorder(le)
    ensures SortedBy(SortBy(s, key, le), key, le)
  {
    if |s| > 0 {
      SortSorted(s[..|s| - 1], key, le);
      InsertSorted(s[|s| - 1], SortBy(s[..|s| - 1], key, le), key, le);
    }
  }

  lemma {:induction false} InsertClass<T, K(!new)>(x: T, r: seq<T>, key: T -> K, le: (K, K) -> bool, k: K)
    requires TotalPreorder(le)
    requires SortedBy(r, key, le)
    ensures ClassOf(Insert(x, r, key, le), key, le, k)
         == ClassOf(r, key, le, k) + (if Equiv(le, key(x), k) then [x] else [])
  {
    if |r| == 0 {
    } else if !le(key(r[0]), key(x)) {
      InsertClassFront(x, r, key, le, k);
    } else {
      SortedTail(r, key, le);
      InsertClass(x, r[1..], key, le, k);
      InsertClassSkip(x, r, key, le, k);
    }
  }

  lemma SortedTail<T, K>(r: seq<T>, key: T -> K, le: (K, K) -> bool)
    requires |r| > 0 && SortedBy(r, key, le)
    ensures SortedBy(r[1..], key, le)
  {
  }

  /** `x` goes in front of `r`: it is the only candidate for the class of `k`
      when its key is equivalent to `k`, since every key in `r` is above it. */
  lemma {:induction false} InsertClassFront<T, K(!new)>(x: T, r: seq<T>, key: T -> K, le: (K, K) -> bool, k: K)
    requires TotalPreorder(le)
    requires SortedBy(r, key, le)
    requires |r| > 0 && !le(key(r[0]), key(x))
    ensures ClassOf([x] + r, key, le, k)
         == ClassOf(r, key, le, k) + (if Equiv(le, key(x), k) then [x] else [])
  {
    ClassAppend([x], r, key, le, k);
    if Equiv(le, key(x), k) {
      forall i | 0 <= i < |r|
        ensures !Equiv(le, key(r[i]), k)
      {
        assert le(key(r[0]), key(r[i]));
      }
      ClassNone(r, key, le, k);
    }
  }

  /** `x` goes after `r[0]`: the class of `k` keeps `r[0]`'s contribution first. */
  lemma {:induction false} InsertClassSkip<T, K>(x: T, r: seq<T>, key: T -> K, le: (K, K) -> bool, k: K)
    requires |r| > 0 && le(key(r[0]), key(x))
    requires ClassOf(Insert(x, r[1..], key, le), key, le, k)
          == ClassOf(r[1..], key, le, k) + (if Equiv(le, key(x), k) then [x] else [])
    ensures ClassOf(Insert(x, r, key, le), key, le, k)
         == ClassOf(r, key, le, k) + (if Equiv(le, key(x), k) then [x] else [])
  {
    var tail := Insert(x, r[1..], key, le);
    var head := ClassOf([r[0]], key, le, k);
    var extra := if Equiv(le, key(x), k) then [x] else [];
    assert Insert(x, r, key, le) == [r[0]] + tail;
    ClassAppend([r[0]], tail, key, le, k);
    ClassAppend([r[0]], r[1..], key, le, k);
    assert r == [r[0]] + r[1..];
    ConcatAssoc(head, ClassOf(r[1..], key, le, k), extra);
  }

  lemma ConcatAssoc<T>(a: seq<T>, b: seq<T>, c: seq<T>)
    ensures a + (b + c) == (a + b) + c
  {
  }

  /** Stability: among equivalent keys the sort keeps the input order. */
  lemma {:induction false} SortStable<T, K(!new)>(s: seq<T>, key: T -> K, le: (K, K) -> bool, k: K)
    requires TotalPreorder(le)
    ensures ClassOf(SortBy(s, key, le), key, le, k) == ClassOf(s, key, le, k)
  {
    if |s| > 0 {
      var init := s[..|s| - 1];
      var x := s[|s| - 1];
      SortStable(init, key, le, k);
      SortStableStep(s, key, le, k);
    }
  }

  /** Appending one element keeps the sort stable for the class of `k`. */
  lemma {:induction false} SortStableStep<T, K(!new)>(s: seq<T>, key: T -> K, le: (K, K) -> bool, k: K)
    requires TotalPreorder(le)
    requires |s| > 0
    requires ClassOf(SortBy(s[..|s| - 1], key, le), key, le, k) == ClassOf(s[..|s| - 1], key, le, k)
    ensures ClassOf(SortBy(s, key, le), key, le, k) == ClassOf(s, key, le, k)
  {
    var init := s[..|s| - 1];
    var x := s[|s| - 1];
    SortSorted(init, key, le);
    InsertClass(x, SortBy(init, key, le), key, le, k);
    SortSnoc(s, key, le);
    SnocSplit(s);
    ClassAppend(init, [x], key, le, k);
    ClassSingle(x, key, le, k);
  }

  lemma SnocSplit<T>(s: seq<T>)
    requires |s| > 0
    ensures s == s[..|s| - 1] + [s[|s| - 1]]
  {
  }

  lemma SortSnoc<T, K>(s: seq<T>, key: T -> K, le: (K, K) -> bool)
    requires |s| > 0
    ensures SortBy(s, key, le) == Insert(s[|s| - 1], SortBy(s[..|s| - 1], key, le), key, le)
  {
  }

  lemma ClassSingle<T, K>(x: T, key: T -> K, le: (K, K) -> bool, k: K)
    ensures ClassOf([x], key, le, k) == (if Equiv(le, key(x), k) then [x] else [])
  {
    assert [x][1..] == [];
  }

  // ---------------------------------------------------------------------
  // Counting (an insertion-ordered dict of counts)
  // ---------------------------------------------------------------------

  /** How often `k` occurs in `keys`. */
  function Occurrences<K(==)>(keys: seq<K>, k: K): nat
  {
    if |keys| == 0 then 0
    else Occurrences(keys[..|keys| - 1], k) + (if keys[|keys| - 1] == k then 1 else 0)
  }

  /** The sum of the counts. */
  function Total<K>(t: seq<(K, nat)>): nat
  {
    if |t| == 0 then 0 else t[0].1 + Total(t[1..])
  }

  /** The keys of an insertion-ordered dict. */
  function Keys<K, V>(t: seq<(K, V)>): (ks: seq<K>)
    ensures |ks| == |t|
  {
    if |t| == 0 then [] else [t[0].0] + Keys(t[1..])
  }

  predicate Distinct<K(==)>(s: seq<K>)
  {
    forall i, j :: 0 <= i < j < |s| ==> s[i] != s[j]
  }

  /** `d[k] = d.get(k, 0) + 1` on an insertion-ordered dict: a new key goes last. */
  function Bump<K(==)>(t: seq<(K, nat)>, k: K): seq<(K, nat)>
  {
    if |t| == 0 then [(k, 1)]
    else if t[0].0 == k then [(k, t[0].1 + 1)] + t[1..]
    else [t[0]] + Bump(t[1..], k)
  }

  /** The counts of `keys`, keyed in order of first occurrence. */
  function Tally<K(==)>(keys: seq<K>): seq<(K, nat)>
  {
    if |keys| == 0 then []
    else Bump(Tally(keys[..|keys| - 1]), keys[|keys| - 1])
  }

  /** Bumping a key keeps the keys, adding it last when it is new, and adds
      one to the total. */
  lemma {:induction false} BumpKeys<K>(t: seq<(K, nat)>, k: K)
    ensures k in Keys(t) ==> Keys(Bump(t, k)) == Keys(t)
    ensures k !in Keys(t) ==> Keys(Bump(t, k)) == Keys(t) + [k]
    ensures Total(Bump(t, k)) == Total(t) + 1
  {
    if |t| > 0 {
      if t[0].0 == k {
        assert ([(k, t[0].1 + 1)] + t[1..])[1..] == t[1..];
      } else {
        BumpKeys(t[1..], k);
        assert ([t[0]] + Bump(t[1..], k))[1..] == Bump(t[1..], k);
      }
    }
  }

  /** The counts of a tally add up to the number of keys, and its keys are
      distinct. */
  lemma {:induction false} TallyShape<K>(keys: seq<K>)
    ensures Total(Tally(keys)) == |keys|
    ensures Distinct(Keys(Tally(keys)))
  {
    if |keys| > 0 {
      var init := keys[..|keys| - 1];
      TallyShape(init);
      BumpKeys(Tally(init), keys[|keys| - 1]);
    }
  }

  /** The tally has an entry for every key and for nothing else. */
  lemma {:induction false} TallyKeys<K>(keys: seq<K>)
    ensures forall i :: 0 <= i < |keys| ==> keys[i] in Keys(Tally(keys))
    ensures forall i :: 0 <= i < |Tally(keys)| ==> Keys(Tally(keys))[i] in keys
  {
    if |keys| > 0 {
      var init := keys[..|keys| - 1];
      TallyKeys(init);
      BumpKeys(Tally(init), keys[|keys| - 1]);
      assert keys == init + [keys[|keys| - 1]];
    }
  }

  /** The count stored for `k`, or 0 when `k` has no entry. */
  function CountOf<K(==)>(t: seq<(K, nat)>, k: K): nat
  {
    if |t| == 0 then 0 else if t[0].0 == k then t[0].1 else CountOf(t[1..], k)
  }

  /** Python's `max(d, key=d.get)`: the position of the first largest count. */
  function ArgMax<K>(t: seq<(K, nat)>): (i: nat)
    requires |t| > 0
    ensures i < |t|
    ensures forall j :: 0 <= j < |t| ==> t[j].1 <= t[i].1
    ensures forall j :: 0 <= j < i ==> t[j].1 < t[i].1
  {
    if |t| == 1 then 0
    else
      var i := ArgMax(t[..|t| - 1]);
      if t[|t| - 1].1 > t[i].1 then |t| - 1 else i
  }

  /** With distinct keys, the count stored at a position is its key's count. */
  lemma {:induction false} CountOfAt<K>(t: seq<(K, nat)>, j: nat)
    requires Distinct(Keys(t)) && j < |t|
    ensures CountOf(t, t[j].0) == t[j].1
  {
    if j > 0 {
      KeysAt(t, j);
      assert Keys(t)[0] == t[0].0;
      assert Keys(t[1..]) == Keys(t)[1..];
      CountOfAt(t[1..], j - 1);
    }
  }

  lemma {:induction false} KeysAt<K, V>(t: seq<(K, V)>, j: nat)
    requires j < |t|
    ensures Keys(t)[j] == t[j].0
  {
    if j > 0 {
      KeysAt(t[1..], j - 1);
    }
  }

  lemma {:induction false} BumpCount<K>(t: seq<(K, nat)>, k: K, x: K)
    ensures CountOf(Bump(t, k), x) == CountOf(t, x) + (if x == k then 1 else 0)
  {
    if |t| > 0 && t[0].0 != k {
      BumpCount(t[1..], k, x);
    }
  }

  /** Every key's count is its number of occurrences. */
  lemma {:induction false} TallyCounts<K>(keys: seq<K>, x: K)
    ensures CountOf(Tally(keys), x) == Occurrences(keys, x)
  {
    if |keys| > 0 {
      TallyCounts(keys[..|keys| - 1], x);
      BumpCount(Tally(keys[..|keys| - 1]), keys[|keys| - 1], x);
    }
  }

  /** A key that is not listed counts 0. */
  lemma {:induction false} CountOfAbsent<K>(t: seq<(K, nat)>, k: K)
    requires k !in Keys(t)
    ensures CountOf(t, k) == 0
  {
    if |t| > 0 {
      assert Keys(t) == [t[0].0] + Keys(t[1..]);
      CountOfAbsent(t[1..], k);
    }
  }

  /** A key that does not occur occurs 0 times. */
  lemma {:induction false} OccurrencesAbsent<K>(s: seq<K>, k: K)
    requires k !in s
    ensures Occurrences(s, k) == 0
  {
    if |s| > 0 {
      OccurrencesAbsent(s[..|s| - 1], k);
    }
  }

  // ---------------------------------------------------------------------
  // Insertion-ordered dicts
  // ---------------------------------------------------------------------

  /** `d.get(k)`. */
  function Lookup<K(==), V>(d: seq<(K, V)>, k: K): Option<V>
  {
    if |d| == 0 then None else if d[0].0 == k then Some(d[0].1) else Lookup(d[1..], k)
  }

  /** `d[k] = v`: an existing key keeps its place, a new one goes last. */
  function Assign<K(==), V>(d: seq<(K, V)>, k: K, v: V): (r: seq<(K, V)>)
    ensures Lookup(r, k) == Some(v)
    ensures k in Keys(d) ==> Keys(r) == Keys(d)
    ensures k !in Keys(d) ==> Keys(r) == Keys(d) + [k]
  {
    if |d| == 0 then [(k, v)]
    else if d[0].0 == k then
      assert ([(k, v)] + d[1..])[1..] == d[1..];
      [(k, v)] + d[1..]
    else
      var rest := Assign(d[1..], k, v);
      assert ([d[0]] + rest)[1..] == rest;
      [d[0]] + rest
  }

  /** Assigning one key leaves every other key's value alone. */
  lemma {:induction false} AssignOther<K, V>(d: seq<(K, V)>, k: K, v: V, x: K)
    requires x != k
    ensures Lookup(Assign(d, k, v), x) == Lookup(d, x)
  {
    if |d| > 0 && d[0].0 != k {
      AssignOther(d[1..], k, v, x);
    }
  }

  lemma {:induction false} LookupKeys<K, V>(d: seq<(K, V)>, k: K)
    ensures Lookup(d, k).Some? <==> k in Keys(d)
  {
    if |d| > 0 {
      LookupKeys(d[1..], k);
    }
  }

  /** `d[ks[i]] = vs[i]` for each `i` in order, starting from an empty dict. */
  function AssignAll<K(==), V>(ks: seq<K>, vs: seq<V>): seq<(K, V)>
    requires |ks| == |vs|
  {
    if |ks| == 0 then []
    else Assign(AssignAll(ks[..|ks| - 1], vs[..|vs| - 1]), ks[|ks| - 1], vs[|vs| - 1])
  }

  /** The keys are the assigned keys in first-seen order. */
  lemma {:induction false} AssignAllKeys<K, V>(ks: seq<K>, vs: seq<V>)
    requires |ks| == |vs|
    ensures Keys(AssignAll(ks, vs)) == Dedup(ks)
  {
    if |ks| > 0 {
      var n := |ks| - 1;
      AssignAllKeys(ks[..n], vs[..n]);
    }
  }

  /** A key never assigned is absent. */
  lemma {:induction false} AssignAllAbsent<K, V>(ks: seq<K>, vs: seq<V>, key: K)
    requires |ks| == |vs| && key !in ks
    ensures Lookup(AssignAll(ks, vs), key) == None
  {
    if |ks| > 0 {
      var n := |ks| - 1;
      assert key !in ks[..n];
      AssignAllAbsent(ks[..n], vs[..n], key);
      AssignOther(AssignAll(ks[..n], vs[..n]), ks[n], vs[n], key);
    }
  }

  /** A key holds the value of its last assignment. */
  lemma {:induction false} AssignAllLast<K, V>(ks: seq<K>, vs: seq<V>, j: nat)
    requires |ks| == |vs| && j < |ks|
    requires forall l :: j < l < |ks| ==> ks[l] != ks[j]
    ensures Lookup(AssignAll(ks, vs), ks[j]) == Some(vs[j])
  {
    var n := |ks| - 1;
    AssignAllSnoc(ks, vs);
    if j < n {
      LaterDiffer(ks, j, n);
      AssignAllLast(ks[..n], vs[..n], j);
      assert ks[..n][j] == ks[j] && vs[..n][j] == vs[j];
      LookupChain(AssignAll(ks, vs), AssignAll(ks[..n], vs[..n]), ks[n], vs[n], ks[j], vs[j]);
    }
  }

  lemma LaterDiffer<K>(ks: seq<K>, j: nat, n: nat)
    requires j < n <= |ks|
    requires forall l :: j < l < |ks| ==> ks[l] != ks[j]
    ensures forall l :: j < l < n ==> ks[..n][l] != ks[..n][j]
  {
  }

  /** A dict that is `d` with another key assigned keeps `d`'s value for `x`. */
  lemma LookupChain<K, V>(r: seq<(K, V)>, d: seq<(K, V)>, k: K, v: V, x: K, w: V)
    requires r == Assign(d, k, v) && x != k && Lookup(d, x) == Some(w)
    ensures Lookup(r, x) == Some(w)
  {
    AssignOther(d, k, v, x);
  }

  lemma AssignAllSnoc<K, V>(ks: seq<K>, vs: seq<V>)
    requires |ks| == |vs| && |ks| > 0
    ensures AssignAll(ks, vs) == Assign(AssignAll(ks[..|ks| - 1], vs[..|ks| - 1]), ks[|ks| - 1], vs[|ks| - 1])
  {
  }

  /** One more element: kept when new, dropped when already seen. */
  lemma DedupSnoc<T>(s: seq<T>, x: T)
    ensures Dedup(s + [x]) == if x in Dedup(s) then Dedup(s) else Dedup(s) + [x]
  {
    assert (s + [x])[..|s|] == s;
  }

  lemma DedupMember<T>(s: seq<T>, x: T)
    ensures x in Dedup(s) <==> x in s
  {
    if x in s {
      var k :| 0 <= k < |s| && s[k] == x;
    }
  }

  // ---------------------------------------------------------------------
  // De-duplication
  // ---------------------------------------------------------------------

  /** The distinct elements in order of first occurrence, collected with a
      "seen" set as the source's loops do. */
  function Dedup<T(==)>(s: seq<T>): (r: seq<T>)
    ensures Distinct(r)
    ensures forall i :: 0 <= i < |s| ==> s[i] in r
    ensures forall i :: 0 <= i < |r| ==> r[i] in s
  {
    if |s| == 0 then []
    else
      var d := Dedup(s[..|s| - 1]);
      var x := s[|s| - 1];
      assert s == s[..|s| - 1] + [x];
      if x in d then d else d + [x]
  }

  /** The elements of `s[..n]` not seen earlier in the input, in order. */
  function FirstOccurrences<T(==)>(s: seq<T>, n: nat): seq<T>
    requires n <= |s|
  {
    if n == 0 then []
    else FirstOccurrences(s, n - 1) + (if s[n - 1] in s[..n - 1] then [] else [s[n - 1]])
  }

  /** De-duplication keeps exactly the first occurrence of each element. */
  lemma {:induction false} DedupFirstOccurrences<T>(s: seq<T>)
    ensures Dedup(s) == FirstOccurrences(s, |s|)
  {
    if |s| > 0 {
      var init := s[..|s| - 1];
      DedupFirstOccurrences(init);
      assert s[..|s| - 1] == init;
      var x := s[|s| - 1];
      assert x in Dedup(init) <==> x in init by {
        if x in init {
          var k :| 0 <= k < |init| && init[k] == x;
          assert init[k] in Dedup(init);
        }
      }
      FirstOccurrencesAgree(s, init, |s| - 1);
    }
  }

  /** `FirstOccurrences(s, n)` depends only on the first `n` elements. */
  lemma {:induction false} FirstOccurrencesAgree<T>(s: seq<T>, t: seq<T>, n: nat)
    requires n <= |s| && n <= |t| && s[..n] == t[..n]
    ensures FirstOccurrences(s, n) == FirstOccurrences(t, n)
  {
    if n > 0 {
      assert s[..n - 1] == s[..n][..n - 1] == t[..n][..n - 1] == t[..n - 1];
      assert s[n - 1] == s[..n][n - 1] == t[..n][n - 1] == t[n - 1];
      FirstOccurrencesAgree(s, t, n - 1);
    }
  }

  // ---------------------------------------------------------------------
  // Partial maps
  // ---------------------------------------------------------------------

  /** The defined images of `f` over `s`, in order (a comprehension with a
      skipping `if`). */
  function FilterMap<A, B>(s: seq<A>, f: A -> Option<B>): (r: seq<B>)
    ensures |r| <= |s|
  {
    if |s| == 0 then []
    else
      match f(s[0])
      case None => FilterMap(s[1..], f)
      case Some(b) => [b] + FilterMap(s[1..], f)
  }

  /** A property every defined image has holds of every result. */
  lemma {:induction false} FilterMapAll<A, B>(s: seq<A>, f: A -> Option<B>, p: B -> bool)
    requires forall x :: f(x).Some? ==> p(f(x).value)
    ensures forall k :: 0 <= k < |FilterMap(s, f)| ==> p(FilterMap(s, f)[k])
  {
    if |s| > 0 {
      FilterMapAll(s[1..], f, p);
    }
  }

  /** When `h` reads back the element each defined image of `g` came from,
      mapping through both keeps exactly the elements `g` is defined on. */
  lemma {:induction false} FilterMapInverse<A, B>(s: seq<A>, g: A -> Option<B>, h: B -> Option<A>, p: A -> bool)
    requires forall x :: g(x).Some? <==> p(x)
    requires forall x :: g(x).Some? ==> h(g(x).value) == Some(x)
    ensures FilterMap(FilterMap(s, g), h) == Filter(s, p)
  {
    if |s| > 0 {
      FilterMapInverse(s[1..], g, h, p);
    }
  }

  /** Every result comes from some element, and every defined image is a
      result: exactly the defined images are kept. */
  lemma {:induction false} FilterMapExact<A, B>(s: seq<A>, f: A -> Option<B>)
    ensures forall i :: 0 <= i < |FilterMap(s, f)| ==>
      exists j :: 0 <= j < |s| && f(s[j]) == Some(FilterMap(s, f)[i])
    ensures forall j :: 0 <= j < |s| && f(s[j]).Some? ==> f(s[j]).value in FilterMap(s, f)
  {
    if |s| > 0 {
      FilterMapExact(s[1..], f);
      var rest := FilterMap(s[1..], f);
      if f(s[0]).Some? {
        assert FilterMap(s, f) == [f(s[0]).value] + rest;
      } else {
        assert FilterMap(s, f) == rest;
      }
      forall i | 0 <= i < |FilterMap(s, f)|
        ensures exists j :: 0 <= j < |s| && f(s[j]) == Some(FilterMap(s, f)[i])
      {
        if f(s[0]).Some? && i == 0 {
          assert f(s[0]) == Some(FilterMap(s, f)[0]);
        } else {
          var i' := if f(s[0]).Some? then i - 1 else i;
          assert FilterMap(s, f)[i] == rest[i'];
          var j :| 0 <= j < |s[1..]| && f(s[1..][j]) == Some(rest[i']);
          assert s[1..][j] == s[j + 1];
        }
      }
      forall j | 0 <= j < |s| && f(s[j]).Some?
        ensures f(s[j]).value in FilterMap(s, f)
      {
        if j > 0 {
          assert s[j] == s[1..][j - 1];
        }
      }
    } else {
      assert FilterMap(s, f) == [];
    }
  }

  /** As many results as elements with a defined image. */
  lemma {:induction false} FilterMapLength<A, B>(s: seq<A>, f: A -> Option<B>, defined: A -> bool)
    requires forall x :: defined(x) == f(x).Some?
    ensures |FilterMap(s, f)| == |Filter(s, defined)|
  {
    if |s| > 0 {
      FilterMapLength(s[1..], f, defined);
    }
  }
}

=== FILE: log_summary.dfy ===
/** Log helpers: the confidence threshold test, the mandatory-escalation
    categories and the six-line operations summary. */
module LogSummary {
  import opened Wrappers
  import opened Text
  import opened Lists
  import Engine

  const DefaultThreshold: real := 0.5

  const MandatoryCategories: seq<string> := ["コンプライアンス関連", "個別顧客の契約内容", "具体的な保険料試算", "税務の最終判断"]

  /** Escalate when the confidence is strictly below the threshold. */
  function ShouldEscalate(confidence: real, threshold: real := DefaultThreshold): (r: bool)
    ensures r ==> confidence != threshold
  {
    confidence < threshold
  }

  /** The test is monotone: anything less confident than an escalated
      answer escalates too, and reaching the threshold never does. */
  lemma ShouldEscalateMonotone(a: real, b: real, threshold: real)
    requires a <= b
    ensures ShouldEscalate(b, threshold) ==> ShouldEscalate(a, threshold)
    ensures !ShouldEscalate(threshold, threshold)
    ensures ShouldEscalate(0.49) && !ShouldEscalate(0.5)
  {
  }

  /** Exact membership in the four listed categories. */
  function RequiresMandatoryEscalation(category: string): (r: bool)
    ensures r <==> category in Engine.EscalationCategories
  {
    category in MandatoryCategories
  }

  /** Membership is exact: the shorter compliance category the chat
      engine matches inside questions is not itself mandatory. */
  lemma MandatoryIsExact()
    ensures !RequiresMandatoryEscalation("コンプライアンス")
    ensures Contains("コンプライアンス関連", "コンプライアンス")
  {
    assert "コンプライアンス関連"[..|"コンプライアンス"|] == "コンプライアンス";
    assert OccursAt("コンプライアンス関連", "コンプライアンス", 0);
  }

  /** Metric values by key; the renderers of a count, a percentage with
      one decimal and a fixed two-decimal number are parameters. */
  datatype Renderers = Renderers(count: real -> string, percent: real -> string, fixed2: real -> string)

  const SummaryTitle := "=== 運用サマリー ==="

  function Metric(metrics: seq<(string, real)>, key: string): real
  {
    Lookup(metrics, key).GetOr(0.0)
  }

  function SummaryLines(metrics: seq<(string, real)>, show: Renderers): (lines: seq<string>)
    ensures |lines| == 6 && lines[0] == SummaryTitle
  {
    [SummaryTitle,
     "総質問数:       " + show.count(Metric(metrics, "total_questions")),
     "回答成功率:     " + show.percent(Metric(metrics, "answer_success_rate")),
     "ユーザー満足度: " + show.percent(Metric(metrics, "user_satisfaction")),
     "平均確信度:     " + show.fixed2(Metric(metrics, "average_confidence")),
     "エスカレーション: " + show.count(Metric(metrics, "escalation_count")) + "件"]
  }

  /** The summary: a title and five labelled metric lines. */
  function FormatLogSummary(metrics: seq<(string, real)>, show: Renderers): (text: string)
  {
    Join(SummaryLines(metrics, show), "\n")
  }

  /** When the renderers produce single-line text the summary splits into
      exactly six lines, and a missing metric is rendered as zero. */
  lemma SummaryHasSixLines(metrics: seq<(string, real)>, show: Renderers)
    requires forall x: real :: '\n' !in show.count(x) && '\n' !in show.percent(x) && '\n' !in show.fixed2(x)
    ensures Split(FormatLogSummary(metrics, show), '\n') == SummaryLines(metrics, show)
    ensures |Split(FormatLogSummary(metrics, show), '\n')| == 6
    ensures Lookup(metrics, "total_questions").None? ==>
      Split(FormatLogSummary(metrics, show), '\n')[1] == "総質問数:       " + show.count(0.0)
  {
    var lines := SummaryLines(metrics, show);
    forall k | 0 <= k < |lines| ensures '\n' !in lines[k] {
    }
    SplitJoin(lines, '\n');
  }
}

=== FILE: matcher.dfy ===
/** The list logic of the sound matcher: which catalogue sounds are
    compared, how matches are ranked and cut, the category guessed from a
    stem name, the keyword-first drum matching and the kit suggestion.
    The similarity of a sound to the input is an oracle giving both the
    raw value, which decides whether the sound is kept, and the value
    rounded to four places, in ten-thousandths, which the match records. */
module Matcher {
  import opened Wrappers
  import opened Text
  import opened Lists

  /** An analysed feature record: only whether it carries an error matters. */
  datatype Features = Features(hasError: bool)

  /** A catalogue sound; a missing category reads as "". */
  datatype Sound = Sound(name: string, path: string, category: string, subcategory: string, features: Option<Features>)

  /** `_calculate_similarity` and its `round(similarity, 4)`, the latter
      in ten-thousandths. */
  datatype Sim = Sim(raw: real, rounded: int)

  datatype Match = Match(name: string, path: string, category: string, subcategory: string, similarity: int)

  // ---------------------------------------------------------------------
  // match
  // ---------------------------------------------------------------------

  /** A sound with features that carry no error. */
  predicate Analyzed(s: Sound)
  {
    s.features.Some? && !s.features.value.hasError
  }

  /** `if category_filter:` — None and "" both mean no filter. */
  predicate Filtering(filter: Option<string>)
  {
    filter.Some? && filter.value != ""
  }

  /** The sounds compared: analysed ones, of the filter's category
      (case-insensitively) when a filter is set. */
  function Candidates(catalog: seq<Sound>, filter: Option<string>): (c: seq<Sound>)
    ensures forall s :: s in c <==> s in catalog && Analyzed(s) && (Filtering(filter) ==> Lower(s.category) == Lower(filter.value))
  {
    var analyzed := Filter(catalog, Analyzed);
    if Filtering(filter) then Filter(analyzed, (s: Sound) => Lower(s.category) == Lower(filter.value)) else analyzed
  }

  function MatchOf(s: Sound, similarity: int): Match
  {
    Match(s.name, s.path, s.category, s.subcategory, similarity)
  }

  /** The candidates with a positive raw similarity, in catalogue order,
      each recorded with its rounded similarity. */
  function Scored(c: seq<Sound>, sim: Sound -> Sim): (ms: seq<Match>)
  {
    FilterMap(c, (s: Sound) => if sim(s).raw > 0.0 then Some(MatchOf(s, sim(s).rounded)) else None)
  }

  function Similarity(m: Match): int
  {
    m.similarity
  }

  /** Highest similarity first; Python's `reverse=True` sort is stable. */
  function Descending(): (int, int) -> bool
  {
    Flip(IntLe())
  }

  /** `match`: the `topK` most similar candidates with positive similarity,
      best first, ties in catalogue order. */
  function MatchSounds(catalog: seq<Sound>, sim: Sound -> Sim, topK: int, filter: Option<string>): (r: seq<Match>)
    ensures Candidates(catalog, filter) == [] ==> r == []
    ensures topK >= 0 ==> |r| <= topK
  {
    var c := Candidates(catalog, filter);
    if c == [] then [] else Take(SortBy(Scored(c, sim), Similarity, Descending()), topK)
  }

  /** Each result is the match of a candidate with a positive raw
      similarity, recorded with its rounded similarity, and the results
      never rise in similarity. */
  lemma MatchSound(catalog: seq<Sound>, sim: Sound -> Sim, topK: int, filter: Option<string>)
    ensures var r := MatchSounds(catalog, sim, topK, filter);
      && (forall i :: 0 <= i < |r| ==>
            exists s :: s in Candidates(catalog, filter) && sim(s).raw > 0.0 && r[i] == MatchOf(s, sim(s).rounded))
      && (forall i, j :: 0 <= i < j < |r| ==> r[i].similarity >= r[j].similarity)
  {
    var c := Candidates(catalog, filter);
    if c != [] {
      TopScored(c, sim, topK, MatchSounds(catalog, sim, topK, filter));
    }
  }

  /** The first `topK` of the sorted scored candidates: each the match of a
      candidate with positive raw similarity, in non-increasing similarity. */
  lemma TopScored(c: seq<Sound>, sim: Sound -> Sim, topK: int, r: seq<Match>)
    requires r == Take(SortBy(Scored(c, sim), Similarity, Descending()), topK)
    ensures forall i :: 0 <= i < |r| ==> exists s :: s in c && sim(s).raw > 0.0 && r[i] == MatchOf(s, sim(s).rounded)
    ensures forall i, j :: 0 <= i < j < |r| ==> r[i].similarity >= r[j].similarity
  {
    var f := (s: Sound) => if sim(s).raw > 0.0 then Some(MatchOf(s, sim(s).rounded)) else None;
    TopSorted(Scored(c, sim), topK);
    FilterMapExact(c, f);
    forall i | 0 <= i < |r|
      ensures exists s :: s in c && sim(s).raw > 0.0 && r[i] == MatchOf(s, sim(s).rounded)
    {
      assert r[i] in Scored(c, sim);
      var j :| 0 <= j < |c| && f(c[j]) == Some(r[i]);
      ScoredAt(c[j], sim, r[i]);
    }
  }

  /** The first `topK` of the sorted matches come from the input, in
      non-increasing similarity. */
  lemma TopSorted(scored: seq<Match>, topK: int)
    ensures var r := Take(SortBy(scored, Similarity, Descending()), topK);
      && (forall i :: 0 <= i < |r| ==> r[i] in scored)
      && (forall i, j :: 0 <= i < j < |r| ==> r[i].similarity >= r[j].similarity)
  {
    var sorted := SortBy(scored, Similarity, Descending());
    var r := Take(sorted, topK);
    IntLePreorder();
    FlipPreorder(IntLe());
    SortSorted(scored, Similarity, Descending());
    SortByMembers(scored, Similarity, Descending());
    forall i | 0 <= i < |r| ensures r[i] in scored {
      assert r[i] == sorted[i];
    }
    forall i, j | 0 <= i < j < |r| ensures r[i].similarity >= r[j].similarity {
      assert r[i] == sorted[i] && r[j] == sorted[j];
    }
  }

  /** The cut to `top_k` keeps the best matches: when a sound with positive
      similarity is left out, the cut is full and every kept match is at
      least as similar as that sound. */
  lemma MatchTopK(catalog: seq<Sound>, sim: Sound -> Sim, topK: int, filter: Option<string>, s: Sound)
    requires s in Candidates(catalog, filter) && sim(s).raw > 0.0 && topK >= 0
    requires MatchOf(s, sim(s).rounded) !in MatchSounds(catalog, sim, topK, filter)
    ensures var r := MatchSounds(catalog, sim, topK, filter);
      && |r| == topK
      && forall m :: m in r ==> m.similarity >= sim(s).rounded
  {
    var c := Candidates(catalog, filter);
    var f := (s: Sound) => if sim(s).raw > 0.0 then Some(MatchOf(s, sim(s).rounded)) else None;
    var sorted := SortBy(Scored(c, sim), Similarity, Descending());
    var j :| 0 <= j < |c| && c[j] == s;
    FilterMapExact(c, f);
    SortByMembers(Scored(c, sim), Similarity, Descending());
    IntLePreorder();
    FlipPreorder(IntLe());
    SortSorted(Scored(c, sim), Similarity, Descending());
    TakeKeepsBest(sorted, Similarity, Descending(), topK, MatchOf(s, sim(s).rounded));
  }

  lemma ScoredAt(s: Sound, sim: Sound -> Sim, m: Match)
    requires (if sim(s).raw > 0.0 then Some(MatchOf(s, sim(s).rounded)) else None) == Some(m)
    ensures sim(s).raw > 0.0 && m == MatchOf(s, sim(s).rounded)
  {
  }

  /** With room for all, every candidate with positive raw similarity is
      returned, and sounds of equal similarity keep their catalogue order. */
  lemma MatchComplete(catalog: seq<Sound>, sim: Sound -> Sim, topK: int, filter: Option<string>, s: Sound, k: int)
    requires s in Candidates(catalog, filter) && sim(s).raw > 0.0
    requires topK >= |Candidates(catalog, filter)|
    ensures var r := MatchSounds(catalog, sim, topK, filter);
      && MatchOf(s, sim(s).rounded) in r
      && ClassOf(r, Similarity, Descending(), k) == ClassOf(Scored(Candidates(catalog, filter), sim), Similarity, Descending(), k)
  {
    var c := Candidates(catalog, filter);
    var f := (s: Sound) => if sim(s).raw > 0.0 then Some(MatchOf(s, sim(s).rounded)) else None;
    var sorted := SortBy(Scored(c, sim), Similarity, Descending());
    assert |sorted| <= |c|;
    assert MatchSounds(catalog, sim, topK, filter) == sorted;
    var j :| 0 <= j < |c| && c[j] == s;
    FilterMapExact(c, f);
    SortByMembers(Scored(c, sim), Similarity, Descending());
    IntLePreorder();
    FlipPreorder(IntLe());
    SortStable(Scored(c, sim), Similarity, Descending(), k);
  }

  /** A sound whose raw similarity is positive but rounds to 0.0 is still
      matched, with similarity 0. */
  lemma TinySimilarityKept(s: Sound)
    requires Analyzed(s)
    ensures MatchSounds([s], _ => Sim(0.00001, 0), 5, None) == [MatchOf(s, 0)]
  {
    var sim: Sound -> Sim := _ => Sim(0.00001, 0);
    var f := (x: Sound) => if sim(x).raw > 0.0 then Some(MatchOf(x, sim(x).rounded)) else None;
    assert Candidates([s], None) == [s];
    assert Scored([s], sim) == [MatchOf(s, 0)] by {
      assert [s][1..] == [];
      assert FilterMap([s], f) == [MatchOf(s, 0)] + FilterMap([s][1..], f);
    }
    var r := SortBy([MatchOf(s, 0)], Similarity, Descending());
    assert r[0] in multiset(r);
    assert r == [MatchOf(s, 0)];
  }

  // ---------------------------------------------------------------------
  // match_stem
  // ---------------------------------------------------------------------

  const StemKeys: seq<string> := ["drums", "bass", "piano", "guitar", "vocals", "other"]

  /** The first category listed for each key; "other" has none. */
  const StemCategories: seq<Option<string>> := [Some("Drums"), Some("Bass"), Some("Piano"), Some("Guitar"), Some("Vocals"), None]

  /** The category guessed from a lower-cased stem: the first listed
      category of the first key it contains; none for "other" or no key. */
  function GuessCategory(stem: string): (c: Option<string>)
    ensures c.Some? ==> exists j :: (0 <= j < 5 && Contains(Lower(stem), StemKeys[j])
      && c == StemCategories[j] && forall i :: 0 <= i < j ==> !Contains(Lower(stem), StemKeys[i]))
    ensures c.None? <==> forall j :: 0 <= j < 5 ==> !Contains(Lower(stem), StemKeys[j])
  {
    var r := FirstContained(Lower(stem), StemKeys);
    if r.None? then None else StemCategories[r.value]
  }

  datatype StemMatch = StemMatch(stem: string, guessedCategory: Option<string>, matches: seq<Match>)

  /** `match_stem`: the matches within the guessed category. */
  function MatchStem(fileName: string, catalog: seq<Sound>, sim: Sound -> Sim, topK: int): (r: StemMatch)
    ensures r.stem == fileName && r.guessedCategory == GuessCategory(Stem(fileName))
    ensures forall m :: m in r.matches && r.guessedCategory.Some? ==> Lower(m.category) == Lower(r.guessedCategory.value)
  {
    var category := GuessCategory(Stem(fileName));
    var ms := MatchSounds(catalog, sim, topK, category);
    GuessedFilters(Stem(fileName));
    if category.Some? then MatchesInFilter(catalog, sim, topK, category); StemMatch(fileName, category, ms)
    else StemMatch(fileName, category, ms)
  }

  /** A guessed category is a non-empty name, so it filters. */
  lemma GuessedFilters(stem: string)
    ensures GuessCategory(stem).Some? ==> Filtering(GuessCategory(stem))
  {
    assert forall j :: 0 <= j < 5 && StemCategories[j].Some? ==> StemCategories[j].value != "";
  }

  /** Every match lies in the category of a filter that filters. */
  lemma MatchesInFilter(catalog: seq<Sound>, sim: Sound -> Sim, topK: int, filter: Option<string>)
    requires Filtering(filter)
    ensures forall m :: m in MatchSounds(catalog, sim, topK, filter) ==> Lower(m.category) == Lower(filter.value)
  {
    var r := MatchSounds(catalog, sim, topK, filter);
    MatchSound(catalog, sim, topK, filter);
    forall m | m in r ensures Lower(m.category) == Lower(filter.value) {
      var i :| 0 <= i < |r| && r[i] == m;
      var s :| s in Candidates(catalog, filter) && sim(s).raw > 0.0 && r[i] == MatchOf(s, sim(s).rounded);
    }
  }

  lemma BassStem()
    ensures GuessCategory("song_bass") == Some("Bass")
  {
    var s := Lower("song_bass");
    assert s == "song_bass";
    assert OccursAt(s, "bass", 5);
    assert !Contains(s, "drums") by {
      forall i | 0 <= i <= |s| - 5 ensures !OccursAt(s, "drums", i) {
        assert s[i] != 'd';
      }
    }
  }

  // ---------------------------------------------------------------------
  // match_drum_stem
  // ---------------------------------------------------------------------

  const DrumCategories: seq<(string, seq<string>)> := [
    ("kick", ["Kick", "Bass Drum", "808", "909", "BD"]),
    ("snare", ["Snare", "Clap", "Rim", "SD"]),
    ("hihat", ["Hi-Hat", "HH", "Hat", "Open Hat", "Closed Hat"]),
    ("toms", ["Tom", "Floor Tom", "Rack Tom"]),
    ("ride", ["Ride", "Bell"]),
    ("crash", ["Crash", "Cymbal"])
  ]

  /** The keywords of a drum part, none for an unknown part. */
  function Keywords(stemType: string): seq<string>
  {
    match Lookup(DrumCategories, Lower(stemType))
    case Some(kws) => kws
    case None => []
  }

  /** Some keyword occurs, case-insensitively, in the name or category. */
  function HasKeyword(kws: seq<string>): Match -> bool
  {
    (m: Match) => exists k :: 0 <= k < |kws| && (Contains(Lower(m.name), Lower(kws[k])) || Contains(Lower(m.category), Lower(kws[k])))
  }

  datatype DrumMatch = DrumMatch(m: Match, keywordMatch: bool)

  function Mark(ms: seq<Match>, keyword: bool): (r: seq<DrumMatch>)
    ensures |r| == |ms| && forall i :: 0 <= i < |ms| ==> r[i] == DrumMatch(ms[i], keyword)
  {
    seq(|ms|, i requires 0 <= i < |ms| => DrumMatch(ms[i], keyword))
  }

  /** Keyword matches first, in order, topped up with the other matches in
      order only when there are fewer than `topK` keyword matches. */
  function KeywordFirst(all: seq<Match>, isKeyword: Match -> bool, topK: int): seq<DrumMatch>
  {
    var hits := Filter(all, isKeyword);
    var picked := if |hits| < topK then Mark(hits, true) + Mark(Take(Filter(all, Not(isKeyword)), topK - |hits|), false) else Mark(hits, true);
    Take(picked, topK)
  }

  /** `match_drum_stem` on `match`'s result for three times as many. */
  function MatchDrumStem(catalog: seq<Sound>, sim: Sound -> Sim, stemType: string, topK: int): seq<DrumMatch>
  {
    KeywordFirst(MatchSounds(catalog, sim, topK * 3, None), HasKeyword(Keywords(stemType)), topK)
  }

  /** The keyword matches, then as many others as fit, flagged. */
  lemma {:induction false} KeywordFirstAt(all: seq<Match>, isKeyword: Match -> bool, topK: nat)
    ensures var r := KeywordFirst(all, isKeyword, topK);
      var hits := Filter(all, isKeyword);
      var rest := Filter(all, Not(isKeyword));
      && |r| == (if topK <= |all| then topK else |all|)
      && (forall i :: 0 <= i < |r| && i < |hits| ==> r[i] == DrumMatch(hits[i], true))
      && (forall i :: |hits| <= i < |r| ==> r[i] == DrumMatch(rest[i - |hits|], false))
  {
    var hits := Filter(all, isKeyword);
    var rest := Filter(all, Not(isKeyword));
    var r := KeywordFirst(all, isKeyword, topK);
    FilterSplit(all, isKeyword);
    if |hits| >= topK {
      assert r == Mark(hits, true)[..topK];
    } else {
      var extra := Take(rest, topK - |hits|);
      var picked := Mark(hits, true) + Mark(extra, false);
      assert |picked| <= topK;
      assert r == picked;
    }
  }

  /** At most `topK` results, as many as there are matches up to that; each
      is flagged exactly when it matches a keyword; keyword matches come
      first, in their order; others appear only when keyword matches are
      fewer than `topK`. */
  lemma KeywordFirstShape(all: seq<Match>, isKeyword: Match -> bool, topK: nat)
    ensures var r := KeywordFirst(all, isKeyword, topK);
      var hits := Filter(all, isKeyword);
      && |r| == (if topK <= |all| then topK else |all|)
      && (forall i :: 0 <= i < |r| ==> r[i].keywordMatch == isKeyword(r[i].m) && r[i].m in all)
      && (forall i, j :: 0 <= i < j < |r| && r[j].keywordMatch ==> r[i].keywordMatch)
      && (forall i :: 0 <= i < |r| && r[i].keywordMatch ==> r[i].m == hits[i])
      && (|hits| >= topK ==> forall i :: 0 <= i < |r| ==> r[i].keywordMatch)
  {
    var hits := Filter(all, isKeyword);
    var rest := Filter(all, Not(isKeyword));
    var r := KeywordFirst(all, isKeyword, topK);
    KeywordFirstAt(all, isKeyword, topK);
    forall i | 0 <= i < |r| ensures r[i].keywordMatch == isKeyword(r[i].m) && r[i].m in all {
      if i < |hits| {
        assert hits[i] in hits;
      } else {
        assert rest[i - |hits|] in rest;
      }
    }
  }

  /** An unknown part has no keywords: the first `topK` matches, none
      flagged. */
  lemma UnknownPart(all: seq<Match>, topK: nat)
    ensures KeywordFirst(all, HasKeyword([]), topK) == Mark(Take(all, topK), false)
  {
    assert forall m :: !HasKeyword([])(m);
    KeywordFirstNone(all, HasKeyword([]), topK);
  }

  lemma KeywordFirstNone(all: seq<Match>, isKeyword: Match -> bool, topK: nat)
    requires forall m :: !isKeyword(m)
    ensures KeywordFirst(all, isKeyword, topK) == Mark(Take(all, topK), false)
  {
    var hits := Filter(all, isKeyword);
    var rest := Filter(all, Not(isKeyword));
    FilterNone(all, isKeyword);
    FilterAll(all, Not(isKeyword));
    assert hits == [] && rest == all;
    if 0 < topK {
      var picked := Mark(hits, true) + Mark(Take(rest, topK), false);
      assert picked == Mark(Take(all, topK), false);
      assert Take(picked, topK) == picked;
    } else {
      assert Take(all, topK) == [];
    }
  }

  /** A drum part outside the table gets the first `topK` plain matches. */
  lemma UnknownDrumStem(catalog: seq<Sound>, sim: Sound -> Sim, stemType: string, topK: nat)
    requires Lower(stemType) !in Keys(DrumCategories)
    ensures MatchDrumStem(catalog, sim, stemType, topK) == Mark(Take(MatchSounds(catalog, sim, topK * 3, None), topK), false)
  {
    LookupKeys(DrumCategories, Lower(stemType));
    UnknownPart(MatchSounds(catalog, sim, topK * 3, None), topK);
  }

  // ---------------------------------------------------------------------
  // generate_kit_suggestion
  // ---------------------------------------------------------------------

  datatype Pick = Pick(preset: string, category: string, similarity: int)

  datatype Suggestion = Suggestion(recommendedKit: Option<string>, parts: seq<(string, Pick)>)

  /** Each part with matches and the pick from its first match. */
  function Picks(results: seq<(string, seq<Match>)>): (ps: seq<(string, Pick)>)
  {
    FilterMap(results, (r: (string, seq<Match>)) =>
      if |r.1| > 0 then Some((r.0, Pick(r.1[0].name, r.1[0].category, r.1[0].similarity))) else None)
  }

  function PickCategories(ps: seq<(string, Pick)>): (cs: seq<string>)
    ensures |cs| == |ps| && forall i :: 0 <= i < |ps| ==> cs[i] == ps[i].1.category
  {
    seq(|ps|, i requires 0 <= i < |ps| => ps[i].1.category)
  }

  /** `generate_kit_suggestion`: the picks, and the category used most by
      them, the earliest counted on a tie, or none without picks. */
  function KitSuggestion(results: seq<(string, seq<Match>)>): (s: Suggestion)
    ensures s.parts == Picks(results)
    ensures s.recommendedKit.None? <==> Picks(results) == []
  {
    var ps := Picks(results);
    var t := Tally(PickCategories(ps));
    if |t| == 0 then Suggestion(None, ps) else Suggestion(Some(t[ArgMax(t)].0), ps)
  }

  /** The recommended kit is a picked category used at least as often as
      any other, and strictly more often than any counted before it. */
  lemma KitIsMostFrequent(results: seq<(string, seq<Match>)>)
    requires Picks(results) != []
    ensures var s := KitSuggestion(results);
      var cats := PickCategories(Picks(results));
      var t := Tally(cats);
      && s.recommendedKit.Some? && s.recommendedKit.value in cats
      && (forall c :: Occurrences(cats, c) <= Occurrences(cats, s.recommendedKit.value))
      && (forall j :: 0 <= j < |t| && Occurrences(cats, t[j].0) == Occurrences(cats, s.recommendedKit.value) ==> ArgMax(t) <= j)
  {
    var cats := PickCategories(Picks(results));
    var t := Tally(cats);
    var i := ArgMax(t);
    var best := t[i].0;
    TallyKeys(cats);
    TallyShape(cats);
    assert cats[0] in Keys(t);
    KeysAt(t, i);
    CountOfAt(t, i);
    TallyCounts(cats, best);
    forall c ensures Occurrences(cats, c) <= Occurrences(cats, best) {
      TallyCounts(cats, c);
      if c in Keys(t) {
        var j :| 0 <= j < |Keys(t)| && Keys(t)[j] == c;
        KeysAt(t, j);
        CountOfAt(t, j);
      } else {
        CountOfAbsent(t, c);
        OccurrencesAbsent(cats, c);
      }
    }
    forall j | 0 <= j < |t| && Occurrences(cats, t[j].0) == Occurrences(cats, best) ensures i <= j {
      KeysAt(t, j);
      CountOfAt(t, j);
      TallyCounts(cats, t[j].0);
    }
  }
}

=== FILE: media.dfy ===
/** File classification and extraction dispatch of the knowledge base's
    media processor. Extraction back-ends are an oracle: the outcome the
    extractor for the file's type would produce. */
module Media {
  import opened Wrappers
  import opened Text

  /** The six content types a file can be classified as. */
  datatype FileType = TextDoc | Pdf | Docx | Video | Audio | Image

  /** The name the source uses for each type. */
  function TypeName(t: FileType): string
  {
    match t
    case TextDoc => "text"
    case Pdf => "pdf"
    case Docx => "docx"
    case Video => "video"
    case Audio => "audio"
    case Image => "image"
  }

  const TextExtensions: set<string> := {".txt", ".md", ".csv"}
  const PdfExtensions: set<string> := {".pdf"}
  const DocxExtensions: set<string> := {".docx"}
  const VideoExtensions: set<string> := {".mp4", ".mov", ".avi", ".mkv", ".wmv"}
  const AudioExtensions: set<string> := {".mp3", ".wav", ".m4a", ".aac", ".ogg", ".flac"}
  const ImageExtensions: set<string> := {".png", ".jpg", ".jpeg", ".gif", ".webp", ".bmp"}

  const AllExtensions: set<string> :=
    TextExtensions + PdfExtensions + DocxExtensions
    + VideoExtensions + AudioExtensions + ImageExtensions

  /** The extension set of each type. */
  function ExtensionsOf(t: FileType): set<string>
  {
    match t
    case TextDoc => TextExtensions
    case Pdf => PdfExtensions
    case Docx => DocxExtensions
    case Video => VideoExtensions
    case Audio => AudioExtensions
    case Image => ImageExtensions
  }

  /** The lower-cased pathlib suffix the classification looks at. */
  function LowerSuffix(name: string): string
  {
    Lower(Suffix(name))
  }

  /** `classify_file`: the sets are tried in the order text, pdf, docx,
      video, audio, image. Because they are disjoint, the answer is the one
      type whose set holds the suffix, and there is an answer exactly when
      the suffix is supported. */
  function ClassifyFile(name: string): (r: Option<FileType>)
    ensures r.Some? <==> LowerSuffix(name) in AllExtensions
    ensures forall t :: r == Some(t) <==> LowerSuffix(name) in ExtensionsOf(t)
  {
    var suffix := LowerSuffix(name);
    ClassifyAll(suffix);
    ClassifySuffix(suffix)
  }

  /** The first type, in the order tried, whose set holds `x`. */
  function ClassifySuffix(x: string): Option<FileType>
  {
    if x in TextExtensions then Some(TextDoc)
    else if x in PdfExtensions then Some(Pdf)
    else if x in DocxExtensions then Some(Docx)
    else if x in VideoExtensions then Some(Video)
    else if x in AudioExtensions then Some(Audio)
    else if x in ImageExtensions then Some(Image)
    else None
  }

  lemma ClassifyAll(x: string)
    ensures ClassifySuffix(x).Some? <==> x in AllExtensions
    ensures forall t :: ClassifySuffix(x) == Some(t) <==> x in ExtensionsOf(t)
  {
    forall t ensures ClassifySuffix(x) == Some(t) <==> x in ExtensionsOf(t) {
      ClassifiedAs(x, t);
    }
  }

  lemma ClassifiedAs(x: string, t: FileType)
    ensures ClassifySuffix(x) == Some(t) <==> x in ExtensionsOf(t)
  {
    match t
    case TextDoc =>
    case Pdf => TextApart(x);
    case Docx => TextApart(x); PdfApart(x);
    case Video => TextApart(x); PdfApart(x); DocxApart(x);
    case Audio => TextApart(x); PdfApart(x); DocxApart(x); VideoApart(x);
    case Image => TextApart(x); PdfApart(x); DocxApart(x); VideoApart(x); AudioApart(x);
  }

  lemma TextApart(x: string)
    ensures x in TextExtensions ==> x !in PdfExtensions + DocxExtensions + VideoExtensions + AudioExtensions + ImageExtensions
  {
  }

  lemma PdfApart(x: string)
    ensures x in PdfExtensions ==> x !in DocxExtensions + VideoExtensions + AudioExtensions + ImageExtensions
  {
  }

  lemma DocxApart(x: string)
    ensures x in DocxExtensions ==> x !in VideoExtensions + AudioExtensions + ImageExtensions
  {
  }

  lemma VideoApart(x: string)
    ensures x in VideoExtensions ==> x !in AudioExtensions + ImageExtensions
  {
  }

  lemma AudioApart(x: string)
    ensures x in AudioExtensions ==> x !in ImageExtensions
  {
  }

  /** `get_image_media_type`: the MIME type of an image suffix, with PNG as
      the fallback for anything else. */
  function ImageMediaType(name: string): (r: string)
    ensures r in {"image/png", "image/jpeg", "image/gif", "image/webp", "image/bmp"}
    ensures ClassifyFile(name) != Some(Image) ==> r == "image/png"
    ensures r == "image/jpeg" <==> LowerSuffix(name) in {".jpg", ".jpeg"}
    ensures LowerSuffix(name) in {".png", ".gif", ".webp", ".bmp"} ==>
              r == "image/" + LowerSuffix(name)[1..]
  {
    var suffix := LowerSuffix(name);
    MediaTypeKnown(suffix);
    MediaTypeFallback(suffix);
    MediaTypeJpeg(suffix);
    MediaTypeNamed(suffix);
    MediaTypeOf(suffix)
  }

  function MediaTypeOf(suffix: string): string
  {
    if suffix == ".png" then "image/png"
    else if suffix == ".jpg" || suffix == ".jpeg" then "image/jpeg"
    else if suffix == ".gif" then "image/gif"
    else if suffix == ".webp" then "image/webp"
    else if suffix == ".bmp" then "image/bmp"
    else "image/png"
  }

  lemma MediaTypeKnown(x: string)
    ensures MediaTypeOf(x) in {"image/png", "image/jpeg", "image/gif", "image/webp", "image/bmp"}
  {
  }

  lemma MediaTypeFallback(x: string)
    ensures x !in ImageExtensions ==> MediaTypeOf(x) == "image/png"
  {
  }

  lemma MediaTypeJpeg(x: string)
    ensures MediaTypeOf(x) == "image/jpeg" <==> x in {".jpg", ".jpeg"}
  {
  }

  lemma MediaTypeNamed(x: string)
    ensures x in {".png", ".gif", ".webp", ".bmp"} ==> MediaTypeOf(x) == "image/" + x[1..]
  {
    if x == ".png" {
      assert x[1..] == "png";
    } else if x == ".gif" {
      assert x[1..] == "gif";
    } else if x == ".webp" {
      assert x[1..] == "webp";
    } else if x == ".bmp" {
      assert x[1..] == "bmp";
    }
  }

  // ---------------------------------------------------------------------
  // Timestamps
  // ---------------------------------------------------------------------

  lemma PadTwo(n: nat)
    requires n < 100
    ensures |ZeroPad(n, 2)| == 2
  {
    if n >= 10 {
      assert NatToString(n) == NatToString(n / 10) + [DigitChar(n % 10)];
    }
  }

  /** `_format_timestamp` of a duration already truncated to whole seconds
      (`int(seconds)`). Python's `divmod` by a positive divisor floors, as
      Dafny's `/` and `%` do. */
  function FormatTimestamp(t: int): (r: string)
    ensures t >= 3600 ==> |r| >= 8 && r[|r| - 6] == ':' && r[|r| - 3] == ':'
    ensures t < 3600 ==> |r| == 5 && r[2] == ':'
  {
    var m0 := t / 60;
    var s := t % 60;
    var h := m0 / 60;
    var m := m0 % 60;
    PadTwo(m);
    PadTwo(s);
    if h > 0 then ZeroPad(h, 2) + ":" + ZeroPad(m, 2) + ":" + ZeroPad(s, 2)
    else ZeroPad(m, 2) + ":" + ZeroPad(s, 2)
  }

  /** Reads a "HH:MM:SS" or "MM:SS" timestamp back as seconds. */
  function ParseTimestamp(r: string): Option<int>
  {
    FieldsSeconds(Split(r, ':'))
  }

  /** Three or two all-digit fields as hours, minutes and seconds or as
      minutes and seconds; anything else is not a timestamp. */
  function FieldsSeconds(parts: seq<string>): Option<int>
  {
    if (forall k :: 0 <= k < |parts| ==> AllDigits(parts[k])) then
      if |parts| == 3 then Some(ParseNat(parts[0]) * 3600 + ParseNat(parts[1]) * 60 + ParseNat(parts[2]))
      else if |parts| == 2 then Some(ParseNat(parts[0]) * 60 + ParseNat(parts[1]))
      else None
    else None
  }

  lemma SplitDigitFields(fields: seq<string>)
    requires |fields| >= 1
    requires forall k :: 0 <= k < |fields| ==> AllDigits(fields[k])
    ensures Split(Join(fields, ":"), ':') == fields
  {
    forall k | 0 <= k < |fields|
      ensures ':' !in fields[k]
    {
      forall i | 0 <= i < |fields[k]|
        ensures fields[k][i] != ':'
      {
        assert IsDigit(fields[k][i]);
      }
    }
    SplitJoin(fields, ':');
  }

  lemma ParseHms(h: nat, m: nat, s: nat)
    ensures ParseTimestamp(ZeroPad(h, 2) + ":" + ZeroPad(m, 2) + ":" + ZeroPad(s, 2))
         == Some(h * 3600 + m * 60 + s)
  {
    ParseZeroPad(h, 2);
    ParseZeroPad(m, 2);
    ParseZeroPad(s, 2);
    ParseThree(ZeroPad(h, 2), ZeroPad(m, 2), ZeroPad(s, 2));
  }

  lemma ParseMs(m: nat, s: nat)
    ensures ParseTimestamp(ZeroPad(m, 2) + ":" + ZeroPad(s, 2)) == Some(m * 60 + s)
  {
    ParseZeroPad(m, 2);
    ParseZeroPad(s, 2);
    ParseTwo(ZeroPad(m, 2), ZeroPad(s, 2));
  }

  lemma ParseThree(a: string, b: string, c: string)
    requires AllDigits(a) && AllDigits(b) && AllDigits(c)
    ensures ParseTimestamp(a + ":" + b + ":" + c) == Some(ParseNat(a) * 3600 + ParseNat(b) * 60 + ParseNat(c))
  {
    JoinThree(a, b, c);
    SplitDigitFields([a, b, c]);
    FieldsThree(a, b, c);
  }

  lemma FieldsThree(a: string, b: string, c: string)
    requires AllDigits(a) && AllDigits(b) && AllDigits(c)
    ensures FieldsSeconds([a, b, c]) == Some(ParseNat(a) * 3600 + ParseNat(b) * 60 + ParseNat(c))
  {
    var parts := [a, b, c];
    assert forall k :: 0 <= k < |parts| ==> AllDigits(parts[k]);
  }

  lemma JoinThree(a: string, b: string, c: string)
    ensures Join([a, b, c], ":") == a + ":" + b + ":" + c
  {
    assert [a, b, c][1..] == [b, c];
    assert [b, c][1..] == [c];
    calc {
      Join([a, b, c], ":");
      a + ":" + Join([b, c], ":");
      a + ":" + (b + ":" + c);
      a + ":" + b + ":" + c;
    }
  }

  lemma ParseTwo(a: string, b: string)
    requires AllDigits(a) && AllDigits(b)
    ensures ParseTimestamp(a + ":" + b) == Some(ParseNat(a) * 60 + ParseNat(b))
  {
    assert [a, b][1..] == [b];
    SplitDigitFields([a, b]);
    FieldsTwo(a, b);
  }

  lemma FieldsTwo(a: string, b: string)
    requires AllDigits(a) && AllDigits(b)
    ensures FieldsSeconds([a, b]) == Some(ParseNat(a) * 60 + ParseNat(b))
  {
    var parts := [a, b];
    assert forall k :: 0 <= k < |parts| ==> AllDigits(parts[k]);
  }

  lemma HourDivision(t: int)
    ensures t == (t / 60 / 60) * 3600 + (t / 60 % 60) * 60 + t % 60
    ensures 0 <= (t / 60 % 60) * 60 + t % 60 < 3600
    ensures t / 60 / 60 == t / 3600
  {
    var m0 := t / 60;
    assert t == m0 * 60 + t % 60;
    assert m0 == (m0 / 60) * 60 + m0 % 60;
  }

  /** The formatted timestamp reads back as the number of seconds for any
      non-negative duration, and as the duration modulo one hour (the
      minutes and seconds of the floored division) for a negative one. */
  lemma FormatTimestampRoundTrip(t: int)
    ensures ParseTimestamp(FormatTimestamp(t)) == Some(if t >= 0 then t else t % 3600)
  {
    HourDivision(t);
    if t / 60 / 60 > 0 {
      RoundTripHours(t);
    } else {
      RoundTripMinutes(t);
    }
  }

  lemma RoundTripHours(t: int)
    requires t / 60 / 60 > 0
    ensures ParseTimestamp(FormatTimestamp(t)) == Some(t)
  {
    var h := t / 60 / 60;
    var m := t / 60 % 60;
    var s := t % 60;
    HourDivision(t);
    assert FormatTimestamp(t) == ZeroPad(h, 2) + ":" + ZeroPad(m, 2) + ":" + ZeroPad(s, 2);
    ParseHms(h, m, s);
  }

  lemma RoundTripMinutes(t: int)
    requires t / 60 / 60 <= 0
    ensures ParseTimestamp(FormatTimestamp(t)) == Some(if t >= 0 then t else t % 3600)
  {
    var m := t / 60 % 60;
    var s := t % 60;
    HourDivision(t);
    assert FormatTimestamp(t) == ZeroPad(m, 2) + ":" + ZeroPad(s, 2);
    ParseMs(m, s);
  }

  // ---------------------------------------------------------------------
  // Extraction dispatch
  // ---------------------------------------------------------------------

  /** What the type's extractor does with the file: returns its text (an
      extractor may itself return a bracketed error text), or raises. */
  datatype Extraction = Extracted(text: string) | Raised(message: string)

  datatype ExtractedContent = ExtractedContent(text: string, sourcePath: string, fileType: FileType)

  /** `process_file`: `None` for an unsupported suffix, an empty text for an
      image (left to the vision pass), the extractor's text otherwise, and a
      "[処理エラー: …]" record when the extractor raises. */
  function ProcessFile(name: string, extractor: Extraction): (r: Option<ExtractedContent>)
    ensures r.None? <==> ClassifyFile(name).None?
    ensures r.Some? ==> r.value.fileType == ClassifyFile(name).value && r.value.sourcePath == name
    ensures r.Some? && r.value.fileType == Image ==> r.value.text == ""
    ensures r.Some? && r.value.fileType != Image && extractor.Extracted? ==>
              r.value.text == extractor.text
    ensures r.Some? && r.value.fileType != Image && extractor.Raised? ==>
              r.value.text == "[処理エラー: " + extractor.message + "]"
  {
    match ClassifyFile(name)
    case None => None
    case Some(t) =>
      if t == Image then Some(ExtractedContent("", name, Image))
      else match extractor
        case Extracted(text) => Some(ExtractedContent(text, name, t))
        case Raised(msg) => Some(ExtractedContent("[処理エラー: " + msg + "]", name, t))
  }

  /** The marker the ingestion pipeline looks for in an extracted text. */
  predicate IsErrorText(text: string)
  {
    StartsWith(text, "[") && Contains(text, "エラー")
  }

  /** Every extractor failure that `process_file` absorbs produces a text
      the pipeline recognises as an error. */
  lemma RaisedExtractionIsErrorText(name: string, msg: string)
    requires ClassifyFile(name).Some? && ClassifyFile(name) != Some(Image)
    ensures IsErrorText(ProcessFile(name, Raised(msg)).value.text)
  {
    ErrorTextMarked(msg);
  }

  lemma ErrorTextMarked(msg: string)
    ensures IsErrorText("[処理エラー: " + msg + "]")
  {
    var head := "[処理エラー: ";
    var text := head + msg + "]";
    assert text[..|head|] == head;
    assert head[..1] == "[" && head[3..6] == "エラー";
    assert text[..1] == "[";
    assert text[3..6] == "エラー";
    assert OccursAt(text, "エラー", 3);
  }
}

=== FILE: note_detector.dfy ===
/** The list logic of the note detector: note names, instrument guessing
    from a stem name, the segmentation of a pitch track into notes, drum-hit
    classification and counting, and the MIDI track a result becomes.
    Audio features (the pitch track, onsets, spectral centroids) are inputs;
    times are whole milliseconds, the three-decimal rounding of seconds. */
module NoteDetector {
  import opened Wrappers
  import opened Text
  import opened Lists

  // ---------------------------------------------------------------------
  // Note names
  // ---------------------------------------------------------------------

  const NoteNames: seq<string> := ["C", "C#", "D", "D#", "E", "F", "F#", "G", "G#", "A", "A#", "B"]

  /** The pitch class followed by the octave, with C4 the MIDI note 60.
      Python's `//` and `%` by 12 floor, as Dafny's do for a positive divisor. */
  function NoteName(midi: int): (name: string)
  {
    NoteNames[midi % 12] + IntToString(midi / 12 - 1)
  }

  /** Every note number is an octave and a pitch class, named accordingly. */
  lemma NoteNameParts(octave: int, pc: nat)
    requires pc < 12
    ensures NoteName(12 * (octave + 1) + pc) == NoteNames[pc] + IntToString(octave)
  {
    var n := 12 * (octave + 1) + pc;
    OctaveSplit(n, octave, pc);
    assert NoteName(n) == NoteNames[n % 12] + IntToString(n / 12 - 1);
  }

  lemma OctaveSplit(n: int, octave: int, pc: nat)
    requires pc < 12 && n == 12 * (octave + 1) + pc
    ensures n % 12 == pc && n / 12 - 1 == octave
  {
  }

  lemma MiddleC()
    ensures NoteName(60) == "C4"
  {
    NoteNameParts(4, 0);
    assert IntToString(4) == "4";
  }

  // ---------------------------------------------------------------------
  // Instrument guessing
  // ---------------------------------------------------------------------

  const Instruments: seq<string> := ["vocals", "drums", "bass", "guitar", "piano"]

  /** The first instrument named in the lower-cased stem, else "other". */
  function GuessInstrument(stem: string): (inst: string)
    ensures inst == "other" <==> forall j :: 0 <= j < |Instruments| ==> !Contains(Lower(stem), Instruments[j])
    ensures inst != "other" ==>
      exists j :: (0 <= j < |Instruments| && inst == Instruments[j]
        && Contains(Lower(stem), inst) && forall i :: 0 <= i < j ==> !Contains(Lower(stem), Instruments[i]))
  {
    var r := FirstContained(Lower(stem), Instruments);
    if r.None? then "other" else Instruments[r.value]
  }

  /** `detect_notes`: "auto" is replaced by the guess from the stem. */
  function ResolveInstrument(requested: string, stem: string): (inst: string)
    ensures requested != "auto" ==> inst == requested
    ensures requested == "auto" ==> inst in Instruments + ["other"]
  {
    if requested == "auto" then GuessInstrument(stem) else requested
  }

  lemma VocalsBeforeDrums()
    ensures GuessInstrument("drums_and_vocals") == "vocals"
  {
    var s := Lower("drums_and_vocals");
    assert s == "drums_and_vocals";
    assert OccursAt(s, "vocals", 10);
  }

  // ---------------------------------------------------------------------
  // Segmenting a pitch track
  // ---------------------------------------------------------------------

  /** One analysis frame: the rounded MIDI pitch when voiced, and its time. */
  datatype Frame = Frame(pitch: Option<int>, time: int)

  datatype Note = Note(pitch: int, start: int, end: int, velocity: nat, name: string)

  /** Frame `i` closes a run: the frame before was voiced and this one is
      unvoiced or of another pitch. */
  predicate Closes(fs: seq<Frame>, i: int)
  {
    0 < i < |fs| && fs[i - 1].pitch.Some? && fs[i].pitch != fs[i - 1].pitch
  }

  /** The first frame of the run of equal voiced pitches ending at `j`. */
  function RunStart(fs: seq<Frame>, j: nat): (s: nat)
    requires j < |fs|
    ensures s <= j
    ensures forall k :: s <= k <= j ==> fs[k].pitch == fs[j].pitch
    ensures s > 0 ==> fs[s - 1].pitch != fs[j].pitch
  {
    if j > 0 && fs[j - 1].pitch == fs[j].pitch then RunStart(fs, j - 1) else j
  }

  /** The note a closing frame emits. */
  function NoteAt(fs: seq<Frame>, i: nat): (n: Note)
    requires Closes(fs, i)
    ensures n.pitch == fs[i - 1].pitch.value && n.end == fs[i].time && n.velocity == 80
    ensures n.start == fs[RunStart(fs, i - 1)].time
  {
    var p := fs[i - 1].pitch.value;
    Note(p, fs[RunStart(fs, i - 1)].time, fs[i].time, 80, NoteName(p))
  }

  /** The closing frames before `n`, in order. */
  function Closers(fs: seq<Frame>, n: nat): (cs: seq<nat>)
    requires n <= |fs|
    ensures forall k :: 0 <= k < |cs| ==> Closes(fs, cs[k]) && cs[k] < n
    ensures forall k, l :: 0 <= k < l < |cs| ==> cs[k] < cs[l]
    ensures forall i :: 0 <= i < n && Closes(fs, i) ==> i in cs
  {
    if n == 0 then []
    else
      var prev := Closers(fs, n - 1);
      if Closes(fs, n - 1) then
        assert forall k :: 0 <= k < |prev| ==> (prev + [n - 1])[k] == prev[k];
        prev + [n - 1]
      else prev
  }

  /** Reference: the note of each closing frame, in order. */
  function Notes(fs: seq<Frame>, n: nat): (ns: seq<Note>)
    requires n <= |fs|
  {
    if n == 0 then [] else Notes(fs, n - 1) + (if Closes(fs, n - 1) then [NoteAt(fs, n - 1)] else [])
  }

  lemma {:induction false} NotesAt(fs: seq<Frame>, n: nat)
    requires n <= |fs|
    ensures |Notes(fs, n)| == |Closers(fs, n)|
    ensures forall k :: 0 <= k < |Notes(fs, n)| ==> Notes(fs, n)[k] == NoteAt(fs, Closers(fs, n)[k])
  {
    if n > 0 {
      NotesAt(fs, n - 1);
    }
  }

  /** The open run after the frames before `i`: the last pitch when voiced,
      with the time its run started. */
  function OpenRun(fs: seq<Frame>, i: nat): Option<(int, int)>
    requires i <= |fs|
  {
    if i == 0 || fs[i - 1].pitch.None? then None
    else Some((fs[i - 1].pitch.value, fs[RunStart(fs, i - 1)].time))
  }

  /** `_detect_with_pyin`'s loop: a note is emitted when a voiced run ends at
      a pitch change or an unvoiced frame; a run still open at the end is
      dropped. */
  method DetectWithPyin(fs: seq<Frame>) returns (notes: seq<Note>)
    ensures notes == Notes(fs, |fs|)
  {
    notes := [];
    var current: Option<int> := None;
    var start := 0;
    for i := 0 to |fs|
      invariant notes == Notes(fs, i)
      invariant current.Some? <==> OpenRun(fs, i).Some?
      invariant current.Some? ==> (current.value, start) == OpenRun(fs, i).value
    {
      var f := fs[i];
      if f.pitch.Some? {
        if current != f.pitch {
          if current.Some? {
            notes := notes + [Note(current.value, start, f.time, 80, NoteName(current.value))];
          }
          current := f.pitch;
          start := f.time;
        }
      } else {
        if current.Some? {
          notes := notes + [Note(current.value, start, f.time, 80, NoteName(current.value))];
          current := None;
        }
      }
    }
  }

  predicate Increasing(fs: seq<Frame>)
  {
    forall i, j :: 0 <= i < j < |fs| ==> fs[i].time < fs[j].time
  }

  /** A run ending at or after a closing frame starts no earlier than it. */
  lemma {:induction false} RunStartAfterCloser(fs: seq<Frame>, c: nat, j: nat)
    requires Closes(fs, c) && c <= j < |fs|
    ensures c <= RunStart(fs, j)
  {
    if j > c && fs[j - 1].pitch == fs[j].pitch {
      RunStartAfterCloser(fs, c, j - 1);
    }
  }

  /** With increasing frame times every note lasts a positive time, and no
      note starts before the previous one ends. */
  lemma NotesOrdered(fs: seq<Frame>)
    requires Increasing(fs)
    ensures var ns := Notes(fs, |fs|);
      && (forall k :: 0 <= k < |ns| ==> ns[k].start < ns[k].end)
      && (forall k :: 0 <= k < |ns| - 1 ==> ns[k].end <= ns[k + 1].start)
  {
    var ns := Notes(fs, |fs|);
    var cs := Closers(fs, |fs|);
    NotesAt(fs, |fs|);
    forall k | 0 <= k < |ns| ensures ns[k].start < ns[k].end {
      assert RunStart(fs, cs[k] - 1) < cs[k];
    }
    forall k | 0 <= k < |ns| - 1 ensures ns[k].end <= ns[k + 1].start {
      RunStartAfterCloser(fs, cs[k], cs[k + 1] - 1);
      var s := RunStart(fs, cs[k + 1] - 1);
      assert cs[k] == s || fs[cs[k]].time < fs[s].time;
    }
  }

  // ---------------------------------------------------------------------
  // Drum hits
  // ---------------------------------------------------------------------

  /** One detected onset: its sample position, time, and the mean spectral
      centroid of the segment around it. */
  datatype Onset = Onset(sample: int, time: int, centroid: real)

  datatype Hit = Hit(time: int, kind: string, midiNote: int, velocity: nat)

  /** The length of `y[start:start + 4096]` with `start = max(0, sample - 512)`. */
  function SegmentLength(sample: int, samples: nat): (len: nat)
    ensures len <= 4096
    ensures sample - 512 + 4096 <= samples && sample >= 512 ==> len == 4096
  {
    var start := if sample - 512 > 0 then sample - 512 else 0;
    var end := if samples < start + 4096 then samples else start + 4096;
    if end > start then end - start else 0
  }

  /** The drum a centroid stands for, with its General MIDI note. */
  function Classify(centroid: real): (r: (string, int))
    ensures r.0 == "kick" <==> centroid < 200.0
    ensures r.0 == "snare" <==> 200.0 <= centroid < 2000.0
    ensures r.0 == "hihat" <==> 2000.0 <= centroid
    ensures r == ("kick", 36) || r == ("snare", 38) || r == ("hihat", 42)
  {
    if centroid < 200.0 then ("kick", 36)
    else if centroid < 2000.0 then ("snare", 38)
    else ("hihat", 42)
  }

  /** The hit an onset gives, or none when its segment is too short. */
  function HitOf(samples: nat): Onset -> Option<Hit>
  {
    (o: Onset) =>
      if SegmentLength(o.sample, samples) < 1024 then None
      else Some(Hit(o.time, Classify(o.centroid).0, Classify(o.centroid).1, 100))
  }

  function HitKinds(hits: seq<Hit>): (ks: seq<string>)
    ensures |ks| == |hits| && forall i :: 0 <= i < |hits| ==> ks[i] == hits[i].kind
  {
    seq(|hits|, i requires 0 <= i < |hits| => hits[i].kind)
  }

  datatype DrumAnalysis = DrumAnalysis(hits: seq<Hit>, pattern: seq<(string, nat)>)

  /** `_analyze_drums` without the fills: one hit per onset with a long
      enough segment, in order, and the count of each kind of hit. */
  function AnalyzeDrums(samples: nat, onsets: seq<Onset>): (r: DrumAnalysis)
    ensures Total(r.pattern) == |r.hits| <= |onsets|
    ensures Distinct(Keys(r.pattern))
    ensures forall k :: CountOf(r.pattern, k) == Occurrences(HitKinds(r.hits), k)
  {
    var hits := FilterMap(onsets, HitOf(samples));
    assert forall k :: CountOf(Tally(HitKinds(hits)), k) == Occurrences(HitKinds(hits), k) by {
      forall k ensures CountOf(Tally(HitKinds(hits)), k) == Occurrences(HitKinds(hits), k) {
        TallyCounts(HitKinds(hits), k);
      }
    }
    TallyShape(HitKinds(hits));
    DrumAnalysis(hits, Tally(HitKinds(hits)))
  }

  /** Every hit is the classified hit of an onset whose segment holds at
      least 1024 samples, and every such onset gives its hit. */
  lemma DrumHits(samples: nat, onsets: seq<Onset>)
    ensures var hits := AnalyzeDrums(samples, onsets).hits;
      && (forall i :: 0 <= i < |hits| ==>
            exists j :: (0 <= j < |onsets|
              && SegmentLength(onsets[j].sample, samples) >= 1024
              && hits[i] == Hit(onsets[j].time, Classify(onsets[j].centroid).0, Classify(onsets[j].centroid).1, 100)))
      && (forall j :: 0 <= j < |onsets| && SegmentLength(onsets[j].sample, samples) >= 1024 ==>
            Hit(onsets[j].time, Classify(onsets[j].centroid).0, Classify(onsets[j].centroid).1, 100) in hits)
  {
    FilterMapExact(onsets, HitOf(samples));
  }

  // ---------------------------------------------------------------------
  // MIDI tracks
  // ---------------------------------------------------------------------

  /** A detection result: pitched notes for an instrument, or drum hits. */
  datatype Analysis = Pitched(instrument: string, notes: seq<Note>) | Drums(drums: DrumAnalysis)

  datatype MidiNote = MidiNote(velocity: nat, pitch: int, start: int, end: int)

  datatype Track = Track(program: nat, isDrum: bool, notes: seq<MidiNote>)

  /** The General MIDI program of each melodic instrument; 0 otherwise. */
  function Program(instrument: string): (p: nat)
    ensures instrument == "bass" ==> p == 33
    ensures instrument == "guitar" ==> p == 25
    ensures instrument == "vocals" ==> p == 52
    ensures instrument !in {"bass", "guitar", "vocals"} ==> p == 0
  {
    match instrument
    case "piano" => 0
    case "bass" => 33
    case "guitar" => 25
    case "vocals" => 52
    case "other" => 0
    case _ => 0
  }

  function DrumNote(h: Hit): MidiNote
  {
    MidiNote(h.velocity, h.midiNote, h.time, h.time + 100)
  }

  function MelodicNote(n: Note): MidiNote
  {
    MidiNote(n.velocity, n.pitch, n.start, n.end)
  }

  /** `to_midi`'s single track: a drum track of 100 ms hits, or a melodic
      track of the notes under the instrument's program. */
  function ToMidi(a: Analysis): (t: Track)
    ensures t.isDrum <==> a.Drums?
    ensures a.Drums? ==> t.program == 0 && |t.notes| == |a.drums.hits|
    ensures a.Drums? ==> forall i :: 0 <= i < |t.notes| ==>
      (t.notes[i].end == t.notes[i].start + 100
       && t.notes[i].start == a.drums.hits[i].time && t.notes[i].pitch == a.drums.hits[i].midiNote)
    ensures a.Pitched? ==> t.program == Program(a.instrument) && |t.notes| == |a.notes|
    ensures a.Pitched? ==> forall i :: 0 <= i < |t.notes| ==>
      (t.notes[i].pitch == a.notes[i].pitch
       && t.notes[i].start == a.notes[i].start && t.notes[i].end == a.notes[i].end)
  {
    match a
    case Drums(d) => Track(0, true, seq(|d.hits|, i requires 0 <= i < |d.hits| => DrumNote(d.hits[i])))
    case Pitched(inst, ns) => Track(Program(inst), false, seq(|ns|, i requires 0 <= i < |ns| => MelodicNote(ns[i])))
  }

  /** A pitch track turned into a track keeps every note's timing, so the
      track's notes never overlap when the frame times increase. */
  lemma TrackOrdered(instrument: string, fs: seq<Frame>)
    requires Increasing(fs) && instrument != "drums"
    ensures var t := ToMidi(Pitched(instrument, Notes(fs, |fs|)));
      && !t.isDrum && t.program == Program(instrument)
      && (forall k :: 0 <= k < |t.notes| ==> t.notes[k].start < t.notes[k].end)
      && (forall k :: 0 <= k < |t.notes| - 1 ==> t.notes[k].end <= t.notes[k + 1].start)
  {
    NotesOrdered(fs);
  }
}

=== FILE: notifier.dfy ===
/** Escalation notification: the backends built from the notification
    settings, the send decision of each of the three backends, and the
    fan-out that collects one outcome per backend. */
module Notifier {
  import opened Wrappers
  import opened Text
  import opened Lists

  datatype Event = Event(
    conversationId: int, sessionId: string, userId: string, question: string,
    reason: string, confidence: real, category: string, timestamp: string)

  datatype Backend =
    | Email(host: string, port: int, user: string, password: string, from: string, recipients: seq<string>)
    | Slack(webhookUrl: string)
    | Line(channelToken: string, adminIds: seq<string>)

  /** The backend's class name, as reported by the fan-out. */
  function Name(b: Backend): string
  {
    match b
    case Email(_, _, _, _, _, _) => "EmailNotifier"
    case Slack(_) => "SlackNotifier"
    case Line(_, _) => "LineNotifier"
  }

  // ---------------------------------------------------------------------
  // Settings
  // ---------------------------------------------------------------------

  /** The `notification` settings; absent text keys are "", an absent
      method or port is `None`. */
  datatype Settings = Settings(
    methods: Option<string>,
    recipients: seq<string>,
    smtpHost: string, smtpPort: Option<int>, smtpUser: string, smtpPassword: string, fromAddress: string,
    slackWebhookUrl: string,
    lineChannelToken: string, lineAdminIds: seq<string>)

  const DefaultPort: int := 587

  /** A configured value, or the environment variable when it is empty;
      `env` gives "" for an unset variable. */
  function OrEnv(value: string, env: string -> string, variable: string): string
  {
    if value != "" then value else env(variable)
  }

  function MakeBackend(token: string, s: Settings, env: string -> string): Option<Backend>
  {
    if token == "email" then
      var user := OrEnv(s.smtpUser, env, "SMTP_USER");
      Some(Email(OrEnv(s.smtpHost, env, "SMTP_HOST"), s.smtpPort.GetOr(DefaultPort), user,
                 OrEnv(s.smtpPassword, env, "SMTP_PASSWORD"),
                 if s.fromAddress != "" then s.fromAddress else user, s.recipients))
    else if token == "slack" then Some(Slack(OrEnv(s.slackWebhookUrl, env, "SLACK_WEBHOOK_URL")))
    else if token == "line" then Some(Line(OrEnv(s.lineChannelToken, env, "LINE_CHANNEL_TOKEN"), s.lineAdminIds))
    else None
  }

  /** The stripped comma-separated method tokens; the method defaults to
      "email". */
  function MethodTokens(s: Settings): (ts: seq<string>)
    ensures |ts| >= 1
  {
    StripAll(Split(s.methods.GetOr("email"), ','))
  }

  function StripAll(parts: seq<string>): (ts: seq<string>)
    ensures |ts| == |parts|
    ensures forall i :: 0 <= i < |parts| ==> ts[i] == Strip(parts[i])
  {
    if |parts| == 0 then [] else [Strip(parts[0])] + StripAll(parts[1..])
  }

  predicate Known(token: string)
  {
    token == "email" || token == "slack" || token == "line"
  }

  /** The name a known token selects. */
  function TokenName(token: string): string
  {
    if token == "email" then "EmailNotifier" else if token == "slack" then "SlackNotifier" else "LineNotifier"
  }

  /** One backend per known token, in token order; unknown tokens are
      skipped. */
  function SetupBackends(s: Settings, env: string -> string): (bs: seq<Backend>)
    ensures |bs| <= |MethodTokens(s)|
  {
    FilterMap(MethodTokens(s), (t: string) => MakeBackend(t, s, env))
  }

  function Names(bs: seq<Backend>): (ns: seq<string>)
    ensures |ns| == |bs|
    ensures forall i :: 0 <= i < |bs| ==> ns[i] == Name(bs[i])
  {
    if |bs| == 0 then [] else [Name(bs[0])] + Names(bs[1..])
  }

  function TokenNames(ts: seq<string>): (ns: seq<string>)
    ensures |ns| == |ts|
  {
    if |ts| == 0 then [] else [TokenName(ts[0])] + TokenNames(ts[1..])
  }

  /** The backends are exactly the known tokens' kinds, in token order. */
  lemma {:induction false} BackendsFollowTokens(ts: seq<string>, s: Settings, env: string -> string)
    ensures Names(FilterMap(ts, (t: string) => MakeBackend(t, s, env))) == TokenNames(Filter(ts, Known))
  {
    if |ts| > 0 {
      BackendsFollowTokens(ts[1..], s, env);
      var f := (t: string) => MakeBackend(t, s, env);
      if Known(ts[0]) {
        assert FilterMap(ts, f) == [f(ts[0]).value] + FilterMap(ts[1..], f);
        assert Filter(ts, Known) == [ts[0]] + Filter(ts[1..], Known);
      } else {
        assert FilterMap(ts, f) == FilterMap(ts[1..], f);
        assert Filter(ts, Known) == Filter(ts[1..], Known);
      }
    }
  }

  /** Without settings there is exactly one backend, the e-mail one. */
  lemma DefaultIsEmail(env: string -> string)
    ensures Names(SetupBackends(Settings(None, [], "", None, "", "", "", "", "", []), env)) == ["EmailNotifier"]
  {
    var none := Settings(None, [], "", None, "", "", "", "", "", []);
    assert Split("email", ',') == ["email"];
    StripUnspaced("email");
    assert MethodTokens(none) == ["email"];
    BackendsFollowTokens(["email"], none, env);
    assert Filter(["email"], Known) == ["email"];
  }

  /** The "email, slack" method gives an e-mail and a Slack backend, in
      that order. */
  lemma EmailAndSlack(env: string -> string)
    ensures Names(SetupBackends(Settings(Some("email, slack"), [], "", None, "", "", "", "", "", []), env)) ==
      ["EmailNotifier", "SlackNotifier"]
  {
    var both := Settings(Some("email, slack"), [], "", None, "", "", "", "", "", []);
    EmailSlackTokens(both);
    BackendsFollowTokens(["email", "slack"], both, env);
    EmailSlackKnown();
  }

  lemma EmailSlackTokens(s: Settings)
    requires s.methods == Some("email, slack")
    ensures MethodTokens(s) == ["email", "slack"]
  {
    calc {
      MethodTokens(s);
      StripAll(Split("email, slack", ','));
      { SplitEmailSlack(); }
      StripAll(["email", " slack"]);
      { StripPair("email", " slack"); }
      [Strip("email"), Strip(" slack")];
      { StripUnspaced("email"); StripLeading(); }
      ["email", "slack"];
    }
  }

  lemma StripPair(a: string, b: string)
    ensures StripAll([a, b]) == [Strip(a), Strip(b)]
  {
    assert [a, b][1..] == [b];
  }

  lemma EmailSlackKnown()
    ensures TokenNames(Filter(["email", "slack"], Known)) == ["EmailNotifier", "SlackNotifier"]
  {
    assert Filter(["email", "slack"], Known) == ["email", "slack"];
  }

  lemma SplitEmailSlack()
    ensures Split("email, slack", ',') == ["email", " slack"]
  {
    var s := "email, slack";
    assert s[..5] == "email";
    assert s[6..] == " slack";
    SplitOnce(s, ',', 5);
  }

  lemma StripLeading()
    ensures Strip(" slack") == "slack"
  {
    StripOneLeading(" slack");
  }

  // ---------------------------------------------------------------------
  // Sending
  // ---------------------------------------------------------------------

  /** What a send puts on the wire. */
  datatype Post =
    | SmtpMessage(host: string, port: int, login: bool, recipients: seq<string>)
    | WebhookPost(url: string, questionBlock: string)
    | LinePush(user: string, text: string)

  /** The outcomes of the network: whether the SMTP exchange completes,
      whether the Slack post is accepted, and whether the k-th LINE push
      is accepted. */
  datatype Network = Network(smtpOk: bool, slackOk: bool, lineOk: seq<bool>)

  /** Whether the i-th LINE push is accepted; pushes beyond the given
      outcomes are not. */
  predicate PushOk(oks: seq<bool>, i: nat)
  {
    i < |oks| && oks[i]
  }

  datatype Sent = Sent(ok: bool, posts: seq<Post>)

  const SlackLimit: nat := 500
  const LineLimit: nat := 300

  function SlackQuestion(e: Event): string
  {
    "*質問内容:*\n> " + Take(e.question, SlackLimit)
  }

  function LineText(e: Event, fmt: real -> string): string
  {
    "[エスカレーション]\nカテゴリ: " + e.category + "\n理由: " + e.reason + "\n確信度: " + fmt(e.confidence) +
    "\nユーザー: " + e.userId + "\n\n質問: " + Take(e.question, LineLimit)
  }

  /** The question reaches Slack cut to 500 characters and LINE cut to 300:
      the message ends with the whole question when it is short enough,
      and with its first characters otherwise. */
  lemma QuestionsTruncated(e: Event, fmt: real -> string)
    ensures EndsWith(SlackQuestion(e), Take(e.question, SlackLimit))
    ensures EndsWith(LineText(e, fmt), Take(e.question, LineLimit))
    ensures |e.question| <= SlackLimit ==> EndsWith(SlackQuestion(e), e.question)
    ensures |e.question| > LineLimit ==> EndsWith(LineText(e, fmt), e.question[..LineLimit])
  {
    var head := "[エスカレーション]\nカテゴリ: " + e.category + "\n理由: " + e.reason + "\n確信度: " + fmt(e.confidence) +
      "\nユーザー: " + e.userId + "\n\n質問: ";
    Affixes("*質問内容:*\n> ", Take(e.question, SlackLimit));
    Affixes(head, Take(e.question, LineLimit));
  }

  /** One push per admin id, in order, each with its own outcome. */
  function LinePushes(ids: seq<string>, text: string, oks: seq<bool>): (r: (bool, seq<Post>))
    ensures |r.1| == |ids|
    ensures forall i :: 0 <= i < |ids| ==> r.1[i] == LinePush(ids[i], text)
    ensures r.0 <==> forall i :: 0 <= i < |ids| ==> PushOk(oks, i)
  {
    if |ids| == 0 then (true, [])
    else
      var later := if |oks| == 0 then [] else oks[1..];
      var rest := LinePushes(ids[1..], text, later);
      PushShift(oks, later, |ids|);
      (PushOk(oks, 0) && rest.0, [LinePush(ids[0], text)] + rest.1)
  }

  lemma PushShift(oks: seq<bool>, later: seq<bool>, n: nat)
    requires n > 0 && later == if |oks| == 0 then [] else oks[1..]
    ensures (forall i :: 0 <= i < n ==> PushOk(oks, i)) <==>
      (PushOk(oks, 0) && forall j :: 0 <= j < n - 1 ==> PushOk(later, j))
  {
    if PushOk(oks, 0) && forall j :: 0 <= j < n - 1 ==> PushOk(later, j) {
      forall i | 0 <= i < n ensures PushOk(oks, i) {
        if i > 0 { assert PushOk(later, i - 1); }
      }
    }
    if forall i :: 0 <= i < n ==> PushOk(oks, i) {
      forall j | 0 <= j < n - 1 ensures PushOk(later, j) {
        assert PushOk(oks, j + 1);
      }
    }
  }

  /** A backend's send: an incomplete configuration fails without any
      traffic; otherwise the e-mail and Slack backends make one delivery
      and the LINE backend one push per admin id, carrying on after a
      failed push, and succeed exactly when every delivery does. */
  function Send(b: Backend, e: Event, net: Network, fmt: real -> string): (r: Sent)
    ensures b.Email? ==> (r.ok <==> b.host != "" && b.recipients != [] && net.smtpOk)
    ensures b.Email? && (b.host == "" || b.recipients == []) ==> r.posts == []
    ensures b.Slack? ==> (r.ok <==> b.webhookUrl != "" && net.slackOk)
    ensures b.Slack? ==> |r.posts| == if b.webhookUrl == "" then 0 else 1
    ensures b.Line? && (b.channelToken == "" || b.adminIds == []) ==> !r.ok && r.posts == []
    ensures b.Line? && b.channelToken != "" && b.adminIds != [] ==>
      |r.posts| == |b.adminIds| && (forall i :: 0 <= i < |b.adminIds| ==> r.posts[i].LinePush? && r.posts[i].user == b.adminIds[i]) &&
      (r.ok <==> forall i :: 0 <= i < |b.adminIds| ==> PushOk(net.lineOk, i))
  {
    match b
    case Email(host, port, user, password, _, recipients) =>
      if host == "" || recipients == [] then Sent(false, [])
      else Sent(net.smtpOk, [SmtpMessage(host, port, user != "" && password != "", recipients)])
    case Slack(url) =>
      if url == "" then Sent(false, [])
      else Sent(net.slackOk, [WebhookPost(url, SlackQuestion(e))])
    case Line(token, ids) =>
      if token == "" || ids == [] then Sent(false, [])
      else
        var (ok, posts) := LinePushes(ids, LineText(e, fmt), net.lineOk);
        Sent(ok, posts)
  }

  // ---------------------------------------------------------------------
  // Fan-out
  // ---------------------------------------------------------------------

  /** A backend's send as the fan-out observes it. */
  datatype Outcome = Returned(ok: bool) | Raised

  /** One (name, success) pair per backend, in order, given each
      backend's outcome; a backend that raised counts as a failure and the
      rest are still called. */
  function Notify(bs: seq<Backend>, outcomes: seq<Outcome>): (r: seq<(string, bool)>)
    requires |outcomes| == |bs|
    ensures |r| == |bs|
    ensures forall i :: 0 <= i < |bs| ==> r[i].0 == Name(bs[i])
    ensures forall i :: 0 <= i < |bs| ==> (r[i].1 <==> outcomes[i] == Returned(true))
  {
    if |bs| == 0 then []
    else [(Name(bs[0]), outcomes[0] == Returned(true))] + Notify(bs[1..], outcomes[1..])
  }

  function Sends(bs: seq<Backend>, e: Event, net: Network, fmt: real -> string): (os: seq<Outcome>)
    ensures |os| == |bs|
    ensures forall i :: 0 <= i < |bs| ==> os[i] == Returned(Send(bs[i], e, net, fmt).ok)
  {
    if |bs| == 0 then [] else [Returned(Send(bs[0], e, net, fmt).ok)] + Sends(bs[1..], e, net, fmt)
  }

  /** The fan-out over the modelled backends, which never raise, reports
      exactly their own results. */
  lemma NotifyReportsSends(bs: seq<Backend>, e: Event, net: Network, fmt: real -> string)
    ensures forall i :: 0 <= i < |bs| ==>
      Notify(bs, Sends(bs, e, net, fmt))[i] == (Name(bs[i]), Send(bs[i], e, net, fmt).ok)
  {
  }
}

=== FILE: organizer.dfy ===
/** The desktop organiser: recognising screenshot files by glob patterns,
    reading the date out of their names, planning where each one goes,
    and carrying the plan out against a set of existing paths. */
module Organizer {
  import opened Wrappers
  import opened Text
  import opened Lists

  // ---------------------------------------------------------------------
  // Calendar dates
  // ---------------------------------------------------------------------

  datatype Date = Date(year: int, month: int, day: int)

  predicate Leap(y: int)
  {
    y % 4 == 0 && (y % 100 != 0 || y % 400 == 0)
  }

  function DaysIn(y: int, m: int): (n: int)
    requires 1 <= m <= 12
    ensures 28 <= n <= 31
  {
    if m == 2 then (if Leap(y) then 29 else 28)
    else if m == 4 || m == 6 || m == 9 || m == 11 then 30
    else 31
  }

  /** A date `datetime` accepts: years 1 to 9999 and a real day of the month. */
  predicate ValidDate(d: Date)
  {
    1 <= d.year <= 9999 && 1 <= d.month <= 12 && 1 <= d.day <= DaysIn(d.year, d.month)
  }

  /** `datetime.min`, the earliest date. */
  const MinDate := Date(1, 1, 1)

  /** A number that orders valid dates chronologically. */
  function Ordinal(d: Date): int
  {
    (d.year * 13 + d.month) * 32 + d.day
  }

  /** On valid dates the ordinal is chronological order: by year, then
      month, then day. */
  lemma OrdinalChronological(a: Date, b: Date)
    requires ValidDate(a) && ValidDate(b)
    ensures Ordinal(a) <= Ordinal(b) <==>
      (a.year < b.year || (a.year == b.year && (a.month < b.month || (a.month == b.month && a.day <= b.day))))
    ensures Ordinal(a) == Ordinal(b) <==> a == b
  {
  }

  /** Every valid date is at or after `datetime.min`, and only that date
      has its ordinal. */
  lemma MinDateFirst(d: Date)
    requires ValidDate(d)
    ensures Ordinal(MinDate) <= Ordinal(d)
    ensures Ordinal(d) == Ordinal(MinDate) <==> d == MinDate
  {
  }

  // ---------------------------------------------------------------------
  // Dates in file names
  // ---------------------------------------------------------------------

  /** `\d{4}-\d{2}-\d{2}` matches at `i`. */
  predicate DateShapeAt(s: string, i: int)
  {
    0 <= i && i + 10 <= |s|
    && AllDigits(s[i..i + 4]) && s[i + 4] == '-' && AllDigits(s[i + 5..i + 7]) && s[i + 7] == '-'
    && AllDigits(s[i + 8..i + 10])
  }

  /** The leftmost match at or after `from`, or -1. */
  function FirstDateShape(s: string, from: nat): (r: int)
    ensures r == -1 || (from <= r && DateShapeAt(s, r))
    ensures r >= 0 ==> forall j :: from <= j < r ==> !DateShapeAt(s, j)
    ensures r == -1 ==> forall j :: from <= j ==> !DateShapeAt(s, j)
    decreases |s| - from
  {
    if from + 10 > |s| then -1
    else if DateShapeAt(s, from) then from
    else FirstDateShape(s, from + 1)
  }

  /** The year, month and day written at a match. */
  function DateAt(s: string, i: int): Date
    requires DateShapeAt(s, i)
  {
    Date(ParseNat(s[i..i + 4]), ParseNat(s[i + 5..i + 7]), ParseNat(s[i + 8..i + 10]))
  }

  /** The date in a file name: the leftmost `YYYY-MM-DD`, when it is a real
      date. A leftmost match that is not a real date gives None even when a
      later one is. (The three date patterns are the same regular
      expression, so trying each in turn gives the first one's answer.) */
  function ExtractDate(name: string): (r: Option<Date>)
    ensures r.Some? ==> ValidDate(r.value)
    ensures r.Some? ==> exists i ::
      DateShapeAt(name, i) && DateAt(name, i) == r.value
      && forall j :: 0 <= j < i ==> !DateShapeAt(name, j)
    ensures r.None? <==> forall i :: DateShapeAt(name, i) ==>
      !ValidDate(DateAt(name, i)) || exists j :: 0 <= j < i && DateShapeAt(name, j)
  {
    var i := FirstDateShape(name, 0);
    if i < 0 then None
    else
      var d := DateAt(name, i);
      if ValidDate(d) then Some(d) else None
  }

  /** `YYYY-MM-DD` for a date. */
  function IsoDate(d: Date): (s: string)
    requires ValidDate(d)
    ensures |s| == 10
  {
    var y := ZeroPad(d.year, 4);
    assert |NatToString(d.year)| <= 4 by { NatToStringShort(d.year, 4); }
    var m := ZeroPad(d.month, 2);
    assert |NatToString(d.month)| <= 2 by { NatToStringShort(d.month, 2); }
    var dd := ZeroPad(d.day, 2);
    assert |NatToString(d.day)| <= 2 by { NatToStringShort(d.day, 2); }
    y + "-" + m + "-" + dd
  }

  function Pow10(k: nat): (p: nat)
    ensures p >= 1
  {
    if k == 0 then 1 else 10 * Pow10(k - 1)
  }

  lemma {:induction false} NatToStringShort(n: nat, k: nat)
    requires k >= 1 && n < Pow10(k)
    ensures |NatToString(n)| <= k
  {
    if n >= 10 {
      NatToStringShort(n / 10, k - 1);
    }
  }

  /** A date written after digit-free text is the date read back. */
  lemma ExtractDateAfter(prefix: string, d: Date, rest: string)
    requires ValidDate(d)
    requires forall k :: 0 <= k < |prefix| ==> !IsDigit(prefix[k])
    ensures ExtractDate(prefix + IsoDate(d) + rest) == Some(d)
  {
    var s := prefix + IsoDate(d) + rest;
    var p := |prefix|;
    assert |NatToString(d.year)| <= 4 by { NatToStringShort(d.year, 4); }
    assert |NatToString(d.month)| <= 2 by { NatToStringShort(d.month, 2); }
    assert |NatToString(d.day)| <= 2 by { NatToStringShort(d.day, 2); }
    var y := ZeroPad(d.year, 4);
    var m := ZeroPad(d.month, 2);
    var dd := ZeroPad(d.day, 2);
    assert |y| == 4 && |m| == 2 && |dd| == 2;
    assert s[p..p + 4] == y && s[p + 5..p + 7] == m && s[p + 8..p + 10] == dd;
    assert s[p + 4] == '-' && s[p + 7] == '-';
    ParseZeroPad(d.year, 4);
    ParseZeroPad(d.month, 2);
    ParseZeroPad(d.day, 2);
    assert DateShapeAt(s, p) && DateAt(s, p) == d;
    forall j | 0 <= j < p ensures !DateShapeAt(s, j) {
      assert s[j] == prefix[j] && s[j..j + 4][0] == s[j];
    }
    assert FirstDateShape(s, 0) == p;
  }

  /** Only the leftmost match counts: an impossible month first hides a
      real date later in the name. */
  lemma FirstMatchOnly()
    ensures ExtractDate("2026-13-01 2026-01-17") == None
  {
    var s := "2026-13-01 2026-01-17";
    var month := s[5..7];
    assert AllDigits(s[0..4]) && AllDigits(month) && AllDigits(s[8..10]);
    assert DateShapeAt(s, 0);
    assert FirstDateShape(s, 0) == 0;
    ParseTwoDigits(month);
    assert month[0] == '1' && month[1] == '3';
    assert DateAt(s, 0).month == 13;
  }

  lemma ParseTwoDigits(s: string)
    requires |s| == 2 && AllDigits(s)
    ensures ParseNat(s) == 10 * DigitValue(s[0]) + DigitValue(s[1])
  {
    var head := s[..1];
    assert head[..0] == [] && head[0] == s[0];
    assert ParseNat(head) == DigitValue(s[0]);
    assert s[..|s| - 1] == head;
  }

  // ---------------------------------------------------------------------
  // Glob patterns
  // ---------------------------------------------------------------------

  /** `fnmatch` on a case-sensitive system for patterns built from `*`
      (any run), `?` (any one character) and literal characters. */
  predicate Glob(name: string, pat: string)
    decreases |name| + |pat|
  {
    if |pat| == 0 then |name| == 0
    else if pat[0] == '*' then Glob(name, pat[1..]) || (|name| > 0 && Glob(name[1..], pat))
    else |name| > 0 && (pat[0] == '?' || pat[0] == name[0]) && Glob(name[1..], pat[1..])
  }

  /** A pattern without `*` matches exactly the names of its length that
      agree with it wherever it is not `?`. */
  lemma {:induction false} GlobFixed(name: string, pat: string)
    requires '*' !in pat
    ensures Glob(name, pat) <==>
      |name| == |pat| && forall k :: 0 <= k < |pat| ==> pat[k] == '?' || pat[k] == name[k]
  {
    if |pat| > 0 && |name| > 0 {
      GlobFixed(name[1..], pat[1..]);
      if Glob(name, pat) {
        forall k | 0 <= k < |pat| ensures pat[k] == '?' || pat[k] == name[k] {
          if k > 0 {
            assert pat[k] == pat[1..][k - 1] && name[k] == name[1..][k - 1];
          }
        }
      }
      if |name| == |pat| && forall k :: 0 <= k < |pat| ==> pat[k] == '?' || pat[k] == name[k] {
        assert pat[0] == '?' || pat[0] == name[0];
        forall k | 0 <= k < |pat| - 1 ensures pat[1..][k] == '?' || pat[1..][k] == name[1..][k] {
          assert pat[1..][k] == pat[k + 1];
        }
      }
    }
  }

  /** A leading `*` matches when the rest of the pattern matches some
      suffix of the name. */
  lemma {:induction false} GlobStar(name: string, pat: string)
    ensures Glob(name, "*" + pat) <==> exists k :: 0 <= k <= |name| && Glob(name[k..], pat)
    decreases |name|
  {
    var p := "*" + pat;
    assert p[1..] == pat;
    if |name| > 0 {
      GlobStar(name[1..], pat);
      if Glob(name, p) {
        if !Glob(name, pat) {
          var k :| 0 <= k <= |name[1..]| && Glob(name[1..][k..], pat);
          assert name[1..][k..] == name[k + 1..];
        } else {
          assert name[0..] == name;
        }
      }
      if exists k :: 0 <= k <= |name| && Glob(name[k..], pat) {
        var k :| 0 <= k <= |name| && Glob(name[k..], pat);
        if k == 0 {
          assert name[0..] == name;
        } else {
          assert name[1..][k - 1..] == name[k..];
        }
      }
    } else {
      if exists k :: 0 <= k <= |name| && Glob(name[k..], pat) {
        var k :| 0 <= k <= |name| && Glob(name[k..], pat);
        assert name[k..] == name;
      }
    }
  }

  /** `*` alone matches every name. */
  lemma StarMatchesAll(name: string)
    ensures Glob(name, "*")
  {
    GlobStar(name, "");
    assert "*" + "" == "*";
    assert Glob(name[|name|..], "");
  }

  /** `any(fnmatch(name, p) for p in patterns)`, used both for screenshot
      patterns and for exclusion patterns. */
  function MatchesAny(name: string, patterns: seq<string>): (r: bool)
    ensures r <==> exists i :: 0 <= i < |patterns| && Glob(name, patterns[i])
  {
    if |patterns| == 0 then false
    else if Glob(name, patterns[0]) then true
    else
      var r := MatchesAny(name, patterns[1..]);
      assert r ==> exists i :: 0 <= i < |patterns| && Glob(name, patterns[i]) by {
        if r {
          var i :| 0 <= i < |patterns[1..]| && Glob(name, patterns[1..][i]);
          assert patterns[1..][i] == patterns[i + 1];
        }
      }
      assert (exists i :: 0 <= i < |patterns| && Glob(name, patterns[i])) ==> r by {
        if exists i :: 0 <= i < |patterns| && Glob(name, patterns[i]) {
          var i :| 0 <= i < |patterns| && Glob(name, patterns[i]);
          assert i > 0;
          assert patterns[1..][i - 1] == patterns[i];
        }
      }
      r
  }

  // ---------------------------------------------------------------------
  // Planning
  // ---------------------------------------------------------------------

  /** The settings the scan reads; `dateFolder` stands for formatting a
      date with the configured `strftime` format. */
  datatype Config = Config(
    desktopPath: string,
    organizedFolder: string,
    screenshotPatterns: seq<string>,
    targetExtensions: seq<string>,
    excludePatterns: seq<string>,
    groupByDate: bool,
    dateFolder: Date -> string)

  /** The default folder format `%Y-%m`. */
  function MonthFolder(d: Date): (s: string)
    requires ValidDate(d)
    ensures |s| == 7 && s[4] == '-'
  {
    assert |NatToString(d.year)| <= 4 by { NatToStringShort(d.year, 4); }
    assert |NatToString(d.month)| <= 2 by { NatToStringShort(d.month, 2); }
    ZeroPad(d.year, 4) + "-" + ZeroPad(d.month, 2)
  }

  /** A desktop entry: its name and whether it is a directory. */
  datatype Item = Item(name: string, isDir: bool)

  datatype PlanEntry = PlanEntry(source: string, destination: string, date: Option<Date>, filename: string)

  function PathJoin(dir: string, name: string): string
  {
    dir + "/" + name
  }

  function OrganizedPath(cfg: Config): string
  {
    PathJoin(cfg.desktopPath, cfg.organizedFolder)
  }

  /** The screenshots folder for the date when grouping is on and the
      name held a date, else the "other" folder. */
  function Destination(cfg: Config, filename: string, date: Option<Date>): (dest: string)
    ensures cfg.groupByDate && date.Some? ==> dest == PathJoin(PathJoin(OrganizedPath(cfg), cfg.dateFolder(date.value)), filename)
    ensures !cfg.groupByDate || date.None? ==> dest == PathJoin(PathJoin(OrganizedPath(cfg), "other"), filename)
  {
    var folder := if cfg.groupByDate && date.Some? then cfg.dateFolder(date.value) else "other";
    PathJoin(PathJoin(OrganizedPath(cfg), folder), filename)
  }

  /** An item is planned when it is not a directory, matches no exclusion
      pattern, has a target extension (compared lower-cased) and matches a
      screenshot pattern. */
  predicate Eligible(cfg: Config, item: Item)
  {
    !item.isDir
    && !MatchesAny(item.name, cfg.excludePatterns)
    && Lower(Suffix(item.name)) in cfg.targetExtensions
    && MatchesAny(item.name, cfg.screenshotPatterns)
  }

  function PlanItem(cfg: Config, item: Item): (r: Option<PlanEntry>)
    ensures r.Some? <==> Eligible(cfg, item)
    ensures r.Some? ==>
      r.value.filename == item.name
      && r.value.source == PathJoin(cfg.desktopPath, item.name)
      && r.value.date == ExtractDate(item.name)
      && r.value.destination == Destination(cfg, item.name, ExtractDate(item.name))
  {
    if !Eligible(cfg, item) then None
    else
      var date := ExtractDate(item.name);
      Some(PlanEntry(PathJoin(cfg.desktopPath, item.name), Destination(cfg, item.name, date), date, item.name))
  }

  function Planner(cfg: Config): Item -> Option<PlanEntry>
  {
    (item: Item) => PlanItem(cfg, item)
  }

  /** The sort key of the source: the date, or `datetime.min` for none. */
  function KeyAsWritten(e: PlanEntry): int
  {
    if e.date.Some? then Ordinal(e.date.value) else Ordinal(MinDate)
  }

  /** A key later than every valid date. */
  const Undated := Ordinal(Date(10000, 1, 1))

  /** The sort key the comment on the sort describes: undated entries last. */
  function KeyUndatedLast(e: PlanEntry): int
  {
    if e.date.Some? then Ordinal(e.date.value) else Undated
  }

  /** The planned entries in directory order, before sorting. */
  function Candidates(cfg: Config, items: seq<Item>): seq<PlanEntry>
  {
    FilterMap(items, Planner(cfg))
  }

  /** The scan as written: a missing desktop is an error; otherwise the
      eligible items, stably sorted by date with undated entries keyed as
      `datetime.min`. `listing` is None when the desktop does not exist. */
  function ScanDesktopAsWritten(cfg: Config, listing: Option<seq<Item>>): (r: Result<seq<PlanEntry>, string>)
    ensures listing.None? <==> r.Failure?
  {
    if listing.None? then Failure("デスクトップが見つかりません: " + cfg.desktopPath)
    else Success(SortBy(Candidates(cfg, listing.value), KeyAsWritten, IntLe()))
  }

  /** The scan with undated entries sorted last. */
  function ScanDesktop(cfg: Config, listing: Option<seq<Item>>): (r: Result<seq<PlanEntry>, string>)
    ensures listing.None? <==> r.Failure?
  {
    if listing.None? then Failure("デスクトップが見つかりません: " + cfg.desktopPath)
    else Success(SortBy(Candidates(cfg, listing.value), KeyUndatedLast, IntLe()))
  }

  /** The plan holds exactly one entry for each eligible item, and each
      entry's date, if any, is valid. */
  lemma CandidatesExact(cfg: Config, items: seq<Item>)
    ensures forall e :: e in Candidates(cfg, items) ==>
      exists i :: 0 <= i < |items| && Eligible(cfg, items[i]) && PlanItem(cfg, items[i]) == Some(e)
    ensures forall i :: 0 <= i < |items| && Eligible(cfg, items[i]) ==>
      PlanItem(cfg, items[i]).value in Candidates(cfg, items)
    ensures forall e :: e in Candidates(cfg, items) && e.date.Some? ==> ValidDate(e.date.value)
  {
    var f := Planner(cfg);
    FilterMapExact(items, f);
    var c := Candidates(cfg, items);
    forall e | e in c
      ensures exists i :: 0 <= i < |items| && Eligible(cfg, items[i]) && PlanItem(cfg, items[i]) == Some(e)
    {
      var k :| 0 <= k < |c| && c[k] == e;
      var i :| 0 <= i < |items| && f(items[i]) == Some(c[k]);
      assert PlanItem(cfg, items[i]) == Some(e);
    }
  }

  /** The scan plans exactly the eligible items, sorted by date, with
      undated entries after all dated ones, and entries with equal keys
      in directory order. */
  lemma ScanDesktopPlan(cfg: Config, items: seq<Item>)
    ensures var plan := ScanDesktop(cfg, Some(items)).value;
      (forall e :: e in plan <==> e in Candidates(cfg, items))
      && SortedBy(plan, KeyUndatedLast, IntLe())
      && (forall i, j :: 0 <= i < j < |plan| && plan[i].date.None? ==> plan[j].date.None?)
      && forall k :: ClassOf(plan, KeyUndatedLast, IntLe(), k) == ClassOf(Candidates(cfg, items), KeyUndatedLast, IntLe(), k)
  {
    var c := Candidates(cfg, items);
    var plan := SortBy(c, KeyUndatedLast, IntLe());
    SortByMembers(c, KeyUndatedLast, IntLe());
    IntLePreorder();
    SortSorted(c, KeyUndatedLast, IntLe());
    CandidatesExact(cfg, items);
    forall i, j | 0 <= i < j < |plan| && plan[i].date.None? ensures plan[j].date.None? {
      assert plan[j] in c;
      assert KeyUndatedLast(plan[i]) <= KeyUndatedLast(plan[j]);
    }
    forall k ensures ClassOf(plan, KeyUndatedLast, IntLe(), k) == ClassOf(c, KeyUndatedLast, IntLe(), k) {
      SortStable(c, KeyUndatedLast, IntLe(), k);
    }
  }

  /** As written, an undated entry is preceded only by undated entries and
      entries dated `datetime.min` itself: undated screenshots come first. */
  lemma UndatedFirst(cfg: Config, items: seq<Item>)
    ensures var plan := ScanDesktopAsWritten(cfg, Some(items)).value;
      forall i, j :: 0 <= i < j < |plan| && plan[j].date.None? ==> plan[i].date.None? || plan[i].date == Some(MinDate)
  {
    var c := Candidates(cfg, items);
    var plan := SortBy(c, KeyAsWritten, IntLe());
    SortByMembers(c, KeyAsWritten, IntLe());
    IntLePreorder();
    SortSorted(c, KeyAsWritten, IntLe());
    CandidatesExact(cfg, items);
    forall i, j | 0 <= i < j < |plan| && plan[j].date.None?
      ensures plan[i].date.None? || plan[i].date == Some(MinDate)
    {
      assert plan[i] in c;
      assert KeyAsWritten(plan[i]) <= KeyAsWritten(plan[j]);
      if plan[i].date.Some? {
        MinDateFirst(plan[i].date.value);
      }
    }
  }

  /** A dated entry listed before an undated one ends up after it. */
  lemma UndatedFirstExample()
    ensures var dated := PlanEntry("d/a", "d/o/2026-01/a", Some(Date(2026, 1, 17)), "a");
      var undated := PlanEntry("d/b", "d/o/other/b", None, "b");
      SortBy([dated, undated], KeyAsWritten, IntLe()) == [undated, dated]
      && SortBy([dated, undated], KeyUndatedLast, IntLe()) == [dated, undated]
  {
    var dated := PlanEntry("d/a", "d/o/2026-01/a", Some(Date(2026, 1, 17)), "a");
    var undated := PlanEntry("d/b", "d/o/other/b", None, "b");
    assert [dated, undated][..1] == [dated];
    assert SortBy([dated], KeyAsWritten, IntLe()) == [dated];
    assert SortBy([dated], KeyUndatedLast, IntLe()) == [dated];
  }

  // ---------------------------------------------------------------------
  // Execution
  // ---------------------------------------------------------------------

  datatype Stats = Stats(moved: nat, skipped: nat, errors: nat)

  function Present(fs: set<string>): PlanEntry -> bool
  {
    (e: PlanEntry) => e.destination in fs
  }

  /** No entry's source is any entry's destination, so a move never takes
      away a file an earlier move put in place. */
  predicate NoSourceIsDestination(plan: seq<PlanEntry>)
  {
    forall i, j :: 0 <= i < |plan| && 0 <= j < |plan| ==> plan[i].source != plan[j].destination
  }

  /** Every one of the first `n` entries that did not raise has its
      destination in `fs`. */
  predicate Placed(plan: seq<PlanEntry>, n: nat, fails: nat -> bool, fs: set<string>)
    requires n <= |plan|
  {
    forall k :: 0 <= k < n && !fails(k) ==> plan[k].destination in fs
  }

  /** A real move of entry `i` keeps every earlier destination in place. */
  lemma MoveKeepsPlaced(plan: seq<PlanEntry>, i: nat, fails: nat -> bool, fs: set<string>)
    requires i < |plan| && NoSourceIsDestination(plan) && Placed(plan, i, fails, fs)
    ensures Placed(plan, i + 1, fails, fs - {plan[i].source} + {plan[i].destination})
  {
    forall k | 0 <= k < i + 1 && !fails(k)
      ensures plan[k].destination in fs - {plan[i].source} + {plan[i].destination}
    {
      assert plan[i].source != plan[k].destination;
    }
  }

  /** One more entry counts as present exactly when its destination exists. */
  lemma PresentStep(plan: seq<PlanEntry>, i: nat, fs: set<string>)
    requires i < |plan|
    ensures |Filter(plan[..i + 1], Present(fs))|
         == |Filter(plan[..i], Present(fs))| + (if plan[i].destination in fs then 1 else 0)
  {
    assert plan[..i + 1] == plan[..i] + [plan[i]];
    FilterAppend(plan[..i], [plan[i]], Present(fs));
  }

  /** Carries out the plan against the set `fs` of existing paths. An
      entry whose destination exists is skipped. Otherwise, in a dry run
      it is only counted as moved; in a real run the move either raises
      (`fails(i)` for entry `i`: counted as an error, nothing changes) or
      moves the file. */
  method ExecutePlan(plan: seq<PlanEntry>, dryRun: bool, fs: set<string>, fails: nat -> bool)
    returns (stats: Stats, fs': set<string>)
    ensures stats.moved + stats.skipped + stats.errors == |plan|
    ensures dryRun ==>
      (fs' == fs && stats.errors == 0
      && stats.skipped == |Filter(plan, Present(fs))|
      && stats.moved == |plan| - |Filter(plan, Present(fs))|)
    ensures (forall i :: 0 <= i < |plan| ==> !fails(i)) ==> stats.errors == 0
    ensures !dryRun && NoSourceIsDestination(plan) ==> Placed(plan, |plan|, fails, fs')
  {
    stats := Stats(0, 0, 0);
    fs' := fs;
    var i := 0;
    while i < |plan|
      invariant 0 <= i <= |plan|
      invariant stats.moved + stats.skipped + stats.errors == i
      invariant dryRun ==>
        (fs' == fs && stats.errors == 0
        && stats.skipped == |Filter(plan[..i], Present(fs))|
        && stats.moved == i - |Filter(plan[..i], Present(fs))|)
      invariant (forall k :: 0 <= k < i ==> !fails(k)) ==> stats.errors == 0
      invariant !dryRun && NoSourceIsDestination(plan) ==> Placed(plan, i, fails, fs')
    {
      var e := plan[i];
      if dryRun {
        PresentStep(plan, i, fs);
      }
      if e.destination in fs' {
        stats := stats.(skipped := stats.skipped + 1);
      } else if dryRun {
        stats := stats.(moved := stats.moved + 1);
      } else if fails(i) {
        stats := stats.(errors := stats.errors + 1);
      } else {
        if NoSourceIsDestination(plan) {
          MoveKeepsPlaced(plan, i, fails, fs');
        }
        fs' := fs' - {e.source} + {e.destination};
        stats := stats.(moved := stats.moved + 1);
      }
      i := i + 1;
    }
    assert plan[..|plan|] == plan;
  }
}

=== FILE: pdf.dfy ===
/** The PDF processor: opening a document, extracting pages by number or
    range, concatenating all text, case-insensitive search with context
    snippets, and conversion to Markdown. The PDF library is replaced by
    the document it would yield: the per-page texts and image counts and
    the metadata dictionary. */
module Pdf {
  import opened Wrappers
  import opened Text

  /** One page as the library sees it. */
  datatype Page = Page(text: string, imageCount: nat)

  /** The metadata dictionary: each entry may be absent or None. */
  datatype Metadata = Metadata(title: Option<string>, author: Option<string>, subject: Option<string>, keywords: Option<string>)

  /** An open document, with its absolute path. */
  datatype Doc = Doc(path: string, pages: seq<Page>, metadata: Metadata)
  {
    function PageCount(): nat { |pages| }
  }

  datatype PageContent = PageContent(pageNumber: int, text: string, imageCount: nat)

  datatype PdfInfo = PdfInfo(path: string, pageCount: nat, title: string, author: string, subject: string, fileSizeBytes: nat, keywords: string)

  datatype SearchResult = SearchResult(pageNumber: int, snippet: string, matchCount: nat)

  datatype OpenError = NotFound(path: string) | NotAPdf(path: string)

  /** Opening a file: `absPath` is the absolute form of the given path,
      `present` whether it exists, and `parsed` what the PDF library makes
      of it (None when it raises). */
  function Open(absPath: string, present: bool, parsed: Option<(seq<Page>, Metadata)>): (r: Result<Doc, OpenError>)
    ensures !present ==> r == Failure(NotFound(absPath))
    ensures present && parsed.None? ==> r == Failure(NotAPdf(absPath))
    ensures r.Success? <==> present && parsed.Some?
    ensures r.Success? ==> r.value.path == absPath && r.value.pages == parsed.value.0 && r.value.metadata == parsed.value.1
  {
    if !present then Failure(NotFound(absPath))
    else if parsed.None? then Failure(NotAPdf(absPath))
    else Success(Doc(absPath, parsed.value.0, parsed.value.1))
  }

  /** `metadata.get(key, "") or ""`. */
  function OrEmpty(v: Option<string>): (s: string)
    ensures v.Some? ==> s == v.value
    ensures v.None? ==> s == ""
  {
    if v.Some? then v.value else ""
  }

  /** The document information; the file size comes from the filesystem. */
  function GetInfo(doc: Doc, fileSize: nat): (info: PdfInfo)
    ensures info.path == doc.path && info.pageCount == |doc.pages| && info.fileSizeBytes == fileSize
    ensures info.title == OrEmpty(doc.metadata.title) && info.author == OrEmpty(doc.metadata.author)
    ensures info.subject == OrEmpty(doc.metadata.subject) && info.keywords == OrEmpty(doc.metadata.keywords)
  {
    PdfInfo(doc.path, |doc.pages|, OrEmpty(doc.metadata.title), OrEmpty(doc.metadata.author),
      OrEmpty(doc.metadata.subject), fileSize, OrEmpty(doc.metadata.keywords))
  }

  // ---------------------------------------------------------------------
  // Page extraction
  // ---------------------------------------------------------------------

  /** A 1-based page, or an index error outside `1..page count`. */
  function ExtractPage(doc: Doc, pageNumber: int): (r: Result<PageContent, string>)
    ensures r.Success? <==> 1 <= pageNumber <= |doc.pages|
    ensures r.Success? ==>
      r.value.pageNumber == pageNumber
      && r.value.text == doc.pages[pageNumber - 1].text
      && r.value.imageCount == doc.pages[pageNumber - 1].imageCount
  {
    if pageNumber < 1 || pageNumber > |doc.pages| then
      Failure("Page " + IntToString(pageNumber) + " out of range (1-" + NatToString(|doc.pages|) + ")")
    else
      var p := doc.pages[pageNumber - 1];
      Success(PageContent(pageNumber, p.text, p.imageCount))
  }

  /** The pages `lo..hi` in order (none when `lo > hi`). */
  function PageRange(doc: Doc, lo: int, hi: int): (r: seq<PageContent>)
    requires 1 <= lo && hi <= |doc.pages|
    ensures |r| == if lo <= hi then hi - lo + 1 else 0
    ensures forall i :: 0 <= i < |r| ==> ExtractPage(doc, lo + i) == Success(r[i])
    decreases hi - lo
  {
    if lo > hi then []
    else
      var p := doc.pages[lo - 1];
      [PageContent(lo, p.text, p.imageCount)] + PageRange(doc, lo + 1, hi)
  }

  /** The pages from `start` to `end` inclusive (the last page when `end`
      is None), after clamping `start` up to 1 and `end` down to the page
      count. Clamping means no page in the range can be out of bounds. */
  function ExtractPages(doc: Doc, start: int, end: Option<int>): (r: seq<PageContent>)
    ensures var lo := if start < 1 then 1 else start;
      var e := if end.Some? then end.value else |doc.pages|;
      var hi := if e < |doc.pages| then e else |doc.pages|;
      |r| == (if lo <= hi then hi - lo + 1 else 0)
      && forall i :: 0 <= i < |r| ==> ExtractPage(doc, lo + i) == Success(r[i])
  {
    var e := if end.Some? then end.value else |doc.pages|;
    PageRange(doc, if start < 1 then 1 else start, if e < |doc.pages| then e else |doc.pages|)
  }

  /** With no arguments every page comes back, numbered from 1. */
  lemma ExtractPagesAll(doc: Doc)
    ensures var r := ExtractPages(doc, 1, None);
      |r| == |doc.pages|
      && forall i :: 0 <= i < |r| ==> r[i].pageNumber == i + 1 && r[i].text == doc.pages[i].text
  {
    var r := ExtractPages(doc, 1, None);
    forall i | 0 <= i < |r| ensures r[i].pageNumber == i + 1 && r[i].text == doc.pages[i].text {
      assert ExtractPage(doc, 1 + i) == Success(r[i]);
    }
  }

  function PageMarker(n: nat): (line: string)
    ensures StartsWith(line, "--- Page ") && EndsWith(line, " ---")
  {
    "--- Page " + NatToString(n) + " ---"
  }

  /** For each page in order, its marker line followed by its text. */
  function MarkedParts(pages: seq<PageContent>): (parts: seq<string>)
    requires forall i :: 0 <= i < |pages| ==> pages[i].pageNumber >= 1
    ensures |parts| == 2 * |pages|
    ensures forall i :: 0 <= i < |pages| ==> parts[2 * i] == PageMarker(pages[i].pageNumber) && parts[2 * i + 1] == pages[i].text
  {
    if |pages| == 0 then []
    else [PageMarker(pages[0].pageNumber), pages[0].text] + MarkedParts(pages[1..])
  }

  /** All pages' text, each introduced by its marker line, joined by newlines. */
  function ExtractAllText(doc: Doc): (r: string)
    ensures |doc.pages| == 0 ==> r == ""
    ensures forall n :: 1 <= n <= |doc.pages| ==> Contains(r, PageMarker(n)) && Contains(r, doc.pages[n - 1].text)
  {
    var pages := ExtractPages(doc, 1, None);
    ExtractPagesAll(doc);
    var parts := MarkedParts(pages);
    forall n | 1 <= n <= |doc.pages| ensures Contains(Join(parts, "\n"), PageMarker(n)) && Contains(Join(parts, "\n"), doc.pages[n - 1].text) {
      JoinContains(parts, "\n", 2 * (n - 1));
      JoinContains(parts, "\n", 2 * (n - 1) + 1);
    }
    Join(parts, "\n")
  }

  /** A single page's text comes out as its marker line, a newline and the text. */
  lemma ExtractAllTextOnePage(doc: Doc)
    requires |doc.pages| == 1
    ensures ExtractAllText(doc) == "--- Page 1 ---\n" + doc.pages[0].text
  {
    OnePageParts(doc);
    JoinPair(PageMarker(1), doc.pages[0].text, "\n");
    FirstMarker();
  }

  lemma OnePageParts(doc: Doc)
    requires |doc.pages| == 1
    ensures MarkedParts(ExtractPages(doc, 1, None)) == [PageMarker(1), doc.pages[0].text]
  {
    ExtractPagesAll(doc);
  }

  lemma JoinPair(a: string, b: string, sep: string)
    ensures Join([a, b], sep) == a + sep + b
  {
    assert [a, b][1..] == [b];
  }

  lemma FirstMarker()
    ensures PageMarker(1) == "--- Page 1 ---"
  {
    assert NatToString(1) == "1";
  }

  // ---------------------------------------------------------------------
  // Search
  // ---------------------------------------------------------------------

  /** Context around a match: up to 80 characters either side of the
      first match at `pos`, stripped, with "..." marking a cut at either
      end; with nothing cut it is the whole page text, stripped. */
  function Snippet(text: string, pos: nat, queryLength: nat): (r: string)
    requires pos + queryLength <= |text|
    ensures pos > 80 ==> StartsWith(r, "...")
    ensures pos + queryLength + 80 < |text| ==> EndsWith(r, "...")
    ensures pos <= 80 && pos + queryLength + 80 >= |text| ==> r == Strip(text)
    ensures |r| <= queryLength + 166
  {
    var start := if pos >= 80 then pos - 80 else 0;
    var end := if pos + queryLength + 80 <= |text| then pos + queryLength + 80 else |text|;
    assert start == 0 && end == |text| ==> text[start..end] == text;
    var core := Strip(text[start..end]);
    (if start > 0 then "..." else "") + core + (if end < |text| then "..." else "")
  }

  /** The search result for one page (numbered `number`), when the page
      contains the query ignoring case. Lower-casing keeps the length, so
      the match position found in the lower-cased text indexes the page text. */
  function PageHit(text: string, query: string, number: int): (r: Option<SearchResult>)
    ensures r.Some? <==> Contains(Lower(text), Lower(query))
    ensures r.Some? ==>
      r.value.pageNumber == number
      && r.value.matchCount == Count(Lower(text), Lower(query))
      && r.value.matchCount >= 1
  {
    var t := Lower(text);
    var q := Lower(query);
    if !Contains(t, q) then None
    else
      var pos := Find(t, q);
      assert OccursAt(t, q, pos);
      Some(SearchResult(number, Snippet(text, pos, |query|), Count(t, q)))
  }

  /** Per-page hits, indexed from 0: a hit at index `j` carries the 1-based
      page number `j + 1`. */
  ghost predicate Numbered(hs: seq<Option<SearchResult>>)
  {
    forall j :: 0 <= j < |hs| && hs[j].Some? ==> hs[j].value.pageNumber == j + 1
  }

  /** The hits of the pages from index `i` on, in page order. */
  function Collect(hs: seq<Option<SearchResult>>, i: nat): seq<SearchResult>
    requires i <= |hs|
    decreases |hs| - i
  {
    if i == |hs| then []
    else
      var rest := Collect(hs, i + 1);
      if hs[i].None? then rest else [hs[i].value] + rest
  }

  /** The collected hits lie after page `i`, in strictly increasing page order. */
  lemma {:induction false} CollectOrdered(hs: seq<Option<SearchResult>>, i: nat)
    requires Numbered(hs) && i <= |hs|
    ensures forall k :: 0 <= k < |Collect(hs, i)| ==> i < Collect(hs, i)[k].pageNumber <= |hs|
    ensures forall k, l :: 0 <= k < l < |Collect(hs, i)| ==> Collect(hs, i)[k].pageNumber < Collect(hs, i)[l].pageNumber
    decreases |hs| - i
  {
    if i < |hs| {
      CollectOrdered(hs, i + 1);
      var rest := Collect(hs, i + 1);
      var r := Collect(hs, i);
      if hs[i].Some? {
        assert hs[i].value.pageNumber == i + 1;
        assert r == [hs[i].value] + rest;
        forall k | 0 < k < |r| ensures r[k] == rest[k - 1] && i + 1 < r[k].pageNumber {
          assert rest[k - 1].pageNumber > i + 1;
        }
      } else {
        assert r == rest;
      }
    }
  }

  /** Each collected hit is the one its page gives. */
  lemma {:induction false} CollectSound(hs: seq<Option<SearchResult>>, i: nat)
    requires Numbered(hs) && i <= |hs|
    ensures forall k :: 0 <= k < |Collect(hs, i)| ==>
      1 <= Collect(hs, i)[k].pageNumber <= |hs| && hs[Collect(hs, i)[k].pageNumber - 1] == Some(Collect(hs, i)[k])
    decreases |hs| - i
  {
    CollectOrdered(hs, i);
    if i < |hs| {
      CollectSound(hs, i + 1);
      var rest := Collect(hs, i + 1);
      var r := Collect(hs, i);
      if hs[i].None? {
        assert r == rest;
      } else {
        assert r == [hs[i].value] + rest;
        assert hs[i].value.pageNumber == i + 1;
        forall k | 0 < k < |r| ensures r[k] == rest[k - 1] {
        }
      }
    }
  }

  /** Every page with a hit has its hit collected. */
  lemma {:induction false} CollectComplete(hs: seq<Option<SearchResult>>, i: nat)
    requires Numbered(hs) && i <= |hs|
    ensures forall j :: i <= j < |hs| && hs[j].Some? ==> hs[j].value in Collect(hs, i)
    decreases |hs| - i
  {
    if i < |hs| {
      CollectComplete(hs, i + 1);
      if hs[i].None? {
        assert Collect(hs, i) == Collect(hs, i + 1);
      } else {
        assert Collect(hs, i) == [hs[i].value] + Collect(hs, i + 1);
      }
    }
  }

  /** `g` applied to each element and its number, the first numbered `first`. */
  function MapNumbered<A, B>(xs: seq<A>, g: (A, int) -> B, first: int): (ys: seq<B>)
    ensures |ys| == |xs|
  {
    if |xs| == 0 then [] else [g(xs[0], first)] + MapNumbered(xs[1..], g, first + 1)
  }

  lemma {:induction false} MapNumberedAt<A, B>(xs: seq<A>, g: (A, int) -> B, first: int, j: nat)
    requires j < |xs|
    ensures MapNumbered(xs, g, first)[j] == g(xs[j], first + j)
  {
    if j > 0 {
      MapNumberedAt(xs[1..], g, first + 1, j - 1);
    }
  }

  /** Each page's hit, in page order. */
  function PageHits(doc: Doc, query: string): (hs: seq<Option<SearchResult>>)
    ensures |hs| == |doc.pages|
  {
    MapNumbered(doc.pages, (p: Page, n: int) => PageHit(p.text, query, n), 1)
  }

  /** Page index `j` holds the hit of page `j + 1`. */
  lemma PageHitsAt(doc: Doc, query: string, j: nat)
    requires j < |doc.pages|
    ensures PageHits(doc, query)[j] == PageHit(doc.pages[j].text, query, j + 1)
  {
    MapNumberedAt(doc.pages, (p: Page, n: int) => PageHit(p.text, query, n), 1, j);
  }

  lemma PageHitsNumbered(doc: Doc, query: string)
    ensures Numbered(PageHits(doc, query))
  {
    var hs := PageHits(doc, query);
    forall j | 0 <= j < |hs| && hs[j].Some? ensures hs[j].value.pageNumber == j + 1 {
      PageHitsAt(doc, query, j);
    }
  }

  /** Reference: every page's hit, in page order. */
  function Hits(doc: Doc, query: string): seq<SearchResult>
  {
    Collect(PageHits(doc, query), 0)
  }

  /** Each reference result is the hit of the page it names. */
  lemma HitsSound(doc: Doc, query: string)
    ensures forall k :: 0 <= k < |Hits(doc, query)| ==>
      var h := Hits(doc, query)[k];
      1 <= h.pageNumber <= |doc.pages| && PageHit(doc.pages[h.pageNumber - 1].text, query, h.pageNumber) == Some(h)
  {
    var hs := PageHits(doc, query);
    PageHitsNumbered(doc, query);
    forall k | 0 <= k < |Hits(doc, query)|
      ensures var h := Hits(doc, query)[k];
        1 <= h.pageNumber <= |doc.pages| && PageHit(doc.pages[h.pageNumber - 1].text, query, h.pageNumber) == Some(h)
    {
      HitIndex(hs, k);
      PageHitsAt(doc, query, Hits(doc, query)[k].pageNumber - 1);
    }
  }

  /** A hit is for a page containing the query, ignoring case, and
      carries the page's match count. */
  lemma HitFacts(text: string, query: string, number: int, h: SearchResult)
    requires PageHit(text, query, number) == Some(h)
    ensures Contains(Lower(text), Lower(query)) && h.matchCount == Count(Lower(text), Lower(query)) && h.pageNumber == number
  {
  }

  /** Each reference result is for a page containing the query, ignoring
      case, and carries that page's match count. */
  lemma HitsMatch(doc: Doc, query: string)
    ensures forall k :: 0 <= k < |Hits(doc, query)| ==>
      var h := Hits(doc, query)[k];
      1 <= h.pageNumber <= |doc.pages|
      && Contains(Lower(doc.pages[h.pageNumber - 1].text), Lower(query))
      && h.matchCount == Count(Lower(doc.pages[h.pageNumber - 1].text), Lower(query))
  {
    forall k | 0 <= k < |Hits(doc, query)|
      ensures var h := Hits(doc, query)[k];
        1 <= h.pageNumber <= |doc.pages|
        && Contains(Lower(doc.pages[h.pageNumber - 1].text), Lower(query))
        && h.matchCount == Count(Lower(doc.pages[h.pageNumber - 1].text), Lower(query))
    {
      HitMatchAt(doc, query, k);
    }
  }

  lemma HitMatchAt(doc: Doc, query: string, k: nat)
    requires k < |Hits(doc, query)|
    ensures var h := Hits(doc, query)[k];
      1 <= h.pageNumber <= |doc.pages|
      && Contains(Lower(doc.pages[h.pageNumber - 1].text), Lower(query))
      && h.matchCount == Count(Lower(doc.pages[h.pageNumber - 1].text), Lower(query))
  {
    var hs := PageHits(doc, query);
    PageHitsNumbered(doc, query);
    HitIndex(hs, k);
    var h := Collect(hs, 0)[k];
    PageHitAt(doc, query, h.pageNumber - 1, h);
  }

  /** The `k`-th collected hit is the hit at its page's index. */
  lemma HitIndex(hs: seq<Option<SearchResult>>, k: nat)
    requires Numbered(hs) && k < |Collect(hs, 0)|
    ensures 1 <= Collect(hs, 0)[k].pageNumber <= |hs| && hs[Collect(hs, 0)[k].pageNumber - 1] == Some(Collect(hs, 0)[k])
  {
    CollectSound(hs, 0);
  }

  lemma PageHitAt(doc: Doc, query: string, j: nat, h: SearchResult)
    requires j < |doc.pages| && PageHits(doc, query)[j] == Some(h)
    ensures Contains(Lower(doc.pages[j].text), Lower(query)) && h.matchCount == Count(Lower(doc.pages[j].text), Lower(query))
  {
    PageHitsAt(doc, query, j);
  }

  function PageNumbers(r: seq<SearchResult>): set<int>
  {
    set h | h in r :: h.pageNumber
  }

  /** Every page containing the query, ignoring case, has a reference result. */
  lemma HitsComplete(doc: Doc, query: string)
    ensures forall j :: 0 <= j < |doc.pages| && Contains(Lower(doc.pages[j].text), Lower(query)) ==>
      j + 1 in PageNumbers(Hits(doc, query))
  {
    forall j | 0 <= j < |doc.pages| && Contains(Lower(doc.pages[j].text), Lower(query))
      ensures j + 1 in PageNumbers(Hits(doc, query))
    {
      PageHitSome(doc, query, j);
      PageHitsNumbered(doc, query);
      PageCollected(PageHits(doc, query), j);
    }
  }

  lemma PageCollected(hs: seq<Option<SearchResult>>, j: nat)
    requires Numbered(hs) && j < |hs| && hs[j].Some?
    ensures j + 1 in PageNumbers(Collect(hs, 0))
  {
    CollectHas(hs, j);
    InPageNumbers(Collect(hs, 0), hs[j].value);
  }

  lemma PageHitSome(doc: Doc, query: string, j: nat)
    requires j < |doc.pages| && Contains(Lower(doc.pages[j].text), Lower(query))
    ensures PageHits(doc, query)[j].Some?
  {
    PageHitsAt(doc, query, j);
  }

  lemma CollectHas(hs: seq<Option<SearchResult>>, j: nat)
    requires Numbered(hs) && j < |hs| && hs[j].Some?
    ensures hs[j].value in Collect(hs, 0) && hs[j].value.pageNumber == j + 1
  {
    CollectComplete(hs, 0);
  }

  lemma InPageNumbers(r: seq<SearchResult>, h: SearchResult)
    requires h in r
    ensures h.pageNumber in PageNumbers(r)
  {
  }

  /** Pages are scanned in order; each page containing the query (ignoring
      case) contributes one result, and the scan stops as soon as the
      number of results reaches `maxResults`. */
  method Search(doc: Doc, query: string, maxResults: int) returns (results: seq<SearchResult>)
    ensures results == Take(Hits(doc, query), Cap(maxResults))
    ensures |results| <= Cap(maxResults)
  {
    PageHitsNumbered(doc, query);
    results := Scan(PageHits(doc, query), maxResults);
  }

  /** The search loop over any per-page hits. */
  method Scan(hs: seq<Option<SearchResult>>, maxResults: int) returns (results: seq<SearchResult>)
    requires Numbered(hs)
    ensures results == Take(Collect(hs, 0), Cap(maxResults))
  {
    results := [];
    var i := 0;
    while i < |hs|
      invariant 0 <= i <= |hs|
      invariant Collect(hs, 0) == results + Collect(hs, i)
      invariant |results| < Cap(maxResults)
    {
      var hit := hs[i];
      ScanStep(hs, i, results);
      if hit.Some? {
        results := results + [hit.value];
        if |results| >= maxResults {
          TakeFront(results, Collect(hs, i + 1), Cap(maxResults));
          return;
        }
      }
      i := i + 1;
    }
    TakeFront(results, [], Cap(maxResults));
  }

  /** One loop step: page `i`'s hit, if any, moves from the rest to the results. */
  lemma ScanStep(hs: seq<Option<SearchResult>>, i: nat, results: seq<SearchResult>)
    requires i < |hs|
    ensures results + Collect(hs, i) == (results + (if hs[i].Some? then [hs[i].value] else [])) + Collect(hs, i + 1)
  {
  }

  lemma TakeFront<T>(front: seq<T>, back: seq<T>, k: nat)
    requires |front| == k || (back == [] && |front| <= k)
    ensures Take(front + back, k) == front
  {
    assert (front + back)[..|front|] == front;
  }

  /** Search results come in strictly increasing page order. */
  lemma SearchOrdered(doc: Doc, query: string, maxResults: int)
    ensures var r := Take(Hits(doc, query), Cap(maxResults));
      forall k, l :: 0 <= k < l < |r| ==> r[k].pageNumber < r[l].pageNumber
  {
    var all := Hits(doc, query);
    PageHitsNumbered(doc, query);
    CollectOrdered(PageHits(doc, query), 0);
    var r := Take(all, Cap(maxResults));
    assert forall k :: 0 <= k < |r| ==> r[k] == all[k];
  }

  /** There are no reference results exactly when no page contains the
      query, ignoring case. */
  lemma HitsNone(doc: Doc, query: string)
    ensures Hits(doc, query) == [] <==> forall j :: 0 <= j < |doc.pages| ==> !Contains(Lower(doc.pages[j].text), Lower(query))
  {
    var all := Hits(doc, query);
    HitsComplete(doc, query);
    if |all| == 0 {
      assert PageNumbers(all) == {};
    } else {
      HitsMatch(doc, query);
      var j := all[0].pageNumber - 1;
      assert 0 <= j < |doc.pages| && Contains(Lower(doc.pages[j].text), Lower(query));
    }
  }

  /** The limit only ever cuts: a search returns nothing exactly when there
      is no hit at all, every hit when there are at most `Cap(maxResults)`,
      and exactly `Cap(maxResults)` otherwise. */
  lemma SearchComplete(doc: Doc, query: string, maxResults: int)
    ensures var r := Take(Hits(doc, query), Cap(maxResults));
      (r == [] <==> Hits(doc, query) == [])
      && (|Hits(doc, query)| <= Cap(maxResults) ==> r == Hits(doc, query))
      && (|Hits(doc, query)| > Cap(maxResults) ==> |r| == Cap(maxResults))
  {
  }

  // ---------------------------------------------------------------------
  // Markdown
  // ---------------------------------------------------------------------

  /** The four lines of one page's section. */
  function PageSection(number: nat, text: string): (lines: seq<string>)
    ensures |lines| == 4 && lines[1] == "" && lines[3] == ""
  {
    ["## Page " + NatToString(number), "", Strip(text), ""]
  }

  /** Page sections from page index `i` on. */
  function PageSections(pages: seq<Page>, i: nat): (lines: seq<string>)
    requires i <= |pages|
    ensures |lines| == 4 * (|pages| - i)
    decreases |pages| - i
  {
    if i == |pages| then [] else PageSection(i + 1, pages[i].text) + PageSections(pages, i + 1)
  }

  /** Page `k` (0-based) owns four lines: a heading naming its 1-based
      number, a blank, its stripped text and a blank. */
  lemma {:induction false} PageSectionsAt(pages: seq<Page>, i: nat, k: nat)
    requires i <= k < |pages|
    ensures var lines := PageSections(pages, i);
      lines[4 * (k - i)] == "## Page " + NatToString(k + 1)
      && lines[4 * (k - i) + 1] == ""
      && lines[4 * (k - i) + 2] == Strip(pages[k].text)
      && lines[4 * (k - i) + 3] == ""
    decreases k - i
  {
    var sec := PageSection(i + 1, pages[i].text);
    var rest := PageSections(pages, i + 1);
    assert PageSections(pages, i) == sec + rest;
    var o := 4 * (k - i);
    if k > i {
      PageSectionsAt(pages, i + 1, k);
      SkipFront(sec, rest, o);
    } else {
      assert sec[0] == "## Page " + NatToString(k + 1) && sec[2] == Strip(pages[k].text);
      KeepFront(sec, rest);
    }
  }

  lemma SkipFront(sec: seq<string>, rest: seq<string>, o: nat)
    requires |sec| == 4 && 4 <= o && o + 3 < 4 + |rest|
    ensures (sec + rest)[o] == rest[o - 4] && (sec + rest)[o + 1] == rest[o - 3]
    ensures (sec + rest)[o + 2] == rest[o - 2] && (sec + rest)[o + 3] == rest[o - 1]
  {
  }

  lemma KeepFront(sec: seq<string>, rest: seq<string>)
    requires |sec| == 4
    ensures forall m :: 0 <= m < 4 ==> (sec + rest)[m] == sec[m]
  {
  }

  /** The heading of the Markdown: the metadata title, or the file stem. */
  function MarkdownTitle(doc: Doc, fileStem: string): (title: string)
    ensures OrEmpty(doc.metadata.title) != "" ==> title == OrEmpty(doc.metadata.title)
    ensures OrEmpty(doc.metadata.title) == "" ==> title == fileStem
  {
    var info := GetInfo(doc, 0);
    if info.title != "" then info.title else fileStem
  }

  /** The header lines: title, blank, the author and subject lines when
      those are set, the page count, blank, a rule and a blank. */
  function MarkdownHeader(doc: Doc, fileStem: string): (lines: seq<string>)
    ensures var a := OrEmpty(doc.metadata.author);
      var s := OrEmpty(doc.metadata.subject);
      |lines| == 6 + (if a != "" then 1 else 0) + (if s != "" then 1 else 0)
      && lines[0] == "# " + MarkdownTitle(doc, fileStem) && lines[1] == ""
      && (a != "" ==> lines[2] == "**Author**: " + a)
      && lines[|lines| - 4] == "**Pages**: " + NatToString(|doc.pages|)
      && lines[|lines| - 3] == "" && lines[|lines| - 2] == "---" && lines[|lines| - 1] == ""
  {
    var info := GetInfo(doc, 0);
    ["# " + MarkdownTitle(doc, fileStem), ""]
      + (if info.author != "" then ["**Author**: " + info.author] else [])
      + (if info.subject != "" then ["**Subject**: " + info.subject] else [])
      + ["**Pages**: " + NatToString(info.pageCount), "", "---", ""]
  }

  /** The document as Markdown: the header lines, then one section per
      page in order, joined by newlines. `fileStem` is the stem of the
      document's path. */
  function ToMarkdown(doc: Doc, fileStem: string): (md: string)
  {
    Join(MarkdownHeader(doc, fileStem) + PageSections(doc.pages, 0), "\n")
  }

  /** The Markdown holds a "## Page n" heading for page `n`. */
  lemma MarkdownPage(doc: Doc, fileStem: string, n: nat)
    requires 1 <= n <= |doc.pages|
    ensures Contains(ToMarkdown(doc, fileStem), "## Page " + NatToString(n))
  {
    SectionHeading(MarkdownHeader(doc, fileStem), doc.pages, n);
  }

  /** Whatever lines come first, the joined text holds each page's heading. */
  lemma SectionHeading(head: seq<string>, pages: seq<Page>, n: nat)
    requires 1 <= n <= |pages|
    ensures Contains(Join(head + PageSections(pages, 0), "\n"), "## Page " + NatToString(n))
  {
    var body := PageSections(pages, 0);
    PageSectionsAt(pages, 0, n - 1);
    assert (head + body)[|head| + 4 * (n - 1)] == body[4 * (n - 1)];
    JoinContains(head + body, "\n", |head| + 4 * (n - 1));
  }

  /** The Markdown holds a "## Page n" heading for every page. */
  lemma MarkdownPages(doc: Doc, fileStem: string)
    ensures forall n :: 1 <= n <= |doc.pages| ==> Contains(ToMarkdown(doc, fileStem), "## Page " + NatToString(n))
  {
    forall n | 1 <= n <= |doc.pages| ensures Contains(ToMarkdown(doc, fileStem), "## Page " + NatToString(n)) {
      MarkdownPage(doc, fileStem, n);
    }
  }

  /** No header line holds a line break when the title, author and
      subject hold none. */
  lemma HeaderUnbroken(doc: Doc, fileStem: string)
    requires '\n' !in MarkdownTitle(doc, fileStem)
    requires '\n' !in OrEmpty(doc.metadata.author) && '\n' !in OrEmpty(doc.metadata.subject)
    ensures forall j :: 0 <= j < |MarkdownHeader(doc, fileStem)| ==> '\n' !in MarkdownHeader(doc, fileStem)[j]
  {
    var info := GetInfo(doc, 0);
    var a := ["# " + MarkdownTitle(doc, fileStem), ""];
    var b := if info.author != "" then ["**Author**: " + info.author] else [];
    var c := if info.subject != "" then ["**Subject**: " + info.subject] else [];
    NumberUnbroken(info.pageCount);
    var d := ["**Pages**: " + NatToString(info.pageCount), "", "---", ""];
    assert MarkdownHeader(doc, fileStem) == a + b + c + d;
    LabelledUnbroken("# ", MarkdownTitle(doc, fileStem));
    LabelledUnbroken("**Author**: ", info.author);
    LabelledUnbroken("**Subject**: ", info.subject);
    LabelledUnbroken("**Pages**: ", NatToString(info.pageCount));
    assert '\n' !in "---";
    LinesUnbrokenConcat(a, b);
    LinesUnbrokenConcat(a + b, c);
    LinesUnbrokenConcat(a + b + c, d);
  }

  /** No page-section line holds a line break when no stripped page text does. */
  lemma {:induction false} SectionsUnbroken(pages: seq<Page>, i: nat)
    requires i <= |pages|
    requires forall k :: 0 <= k < |pages| ==> '\n' !in Strip(pages[k].text)
    ensures forall j :: 0 <= j < |PageSections(pages, i)| ==> '\n' !in PageSections(pages, i)[j]
    decreases |pages| - i
  {
    if i < |pages| {
      SectionsUnbroken(pages, i + 1);
      var sec := PageSection(i + 1, pages[i].text);
      SectionUnbroken(i + 1, pages[i].text);
      assert PageSections(pages, i) == sec + PageSections(pages, i + 1);
      LinesUnbrokenConcat(sec, PageSections(pages, i + 1));
    }
  }

  lemma SectionUnbroken(number: nat, text: string)
    requires '\n' !in Strip(text)
    ensures forall j :: 0 <= j < 4 ==> '\n' !in PageSection(number, text)[j]
  {
    NumberUnbroken(number);
    LabelledUnbroken("## Page ", NatToString(number));
  }

  lemma LabelledUnbroken(lab: string, value: string)
    requires '\n' !in lab && '\n' !in value
    ensures '\n' !in lab + value
  {
  }

  lemma LinesUnbrokenConcat(a: seq<string>, b: seq<string>)
    requires forall j :: 0 <= j < |a| ==> '\n' !in a[j]
    requires forall j :: 0 <= j < |b| ==> '\n' !in b[j]
    ensures forall j :: 0 <= j < |a + b| ==> '\n' !in (a + b)[j]
  {
  }

  /** Splitting the Markdown at line breaks recovers its lines, as long as
      no line holds a break of its own. */
  lemma MarkdownLines(doc: Doc, fileStem: string)
    requires '\n' !in MarkdownTitle(doc, fileStem)
    requires '\n' !in OrEmpty(doc.metadata.author) && '\n' !in OrEmpty(doc.metadata.subject)
    requires forall k :: 0 <= k < |doc.pages| ==> '\n' !in Strip(doc.pages[k].text)
    ensures Split(ToMarkdown(doc, fileStem), '\n') == MarkdownHeader(doc, fileStem) + PageSections(doc.pages, 0)
  {
    var head := MarkdownHeader(doc, fileStem);
    var body := PageSections(doc.pages, 0);
    HeaderUnbroken(doc, fileStem);
    SectionsUnbroken(doc.pages, 0);
    assert forall j :: 0 <= j < |head + body| ==> (head + body)[j] == if j < |head| then head[j] else body[j - |head|];
    SplitJoin(head + body, '\n');
  }

  lemma NumberUnbroken(n: nat)
    ensures '\n' !in NatToString(n)
  {
    var s := NatToString(n);
    forall i | 0 <= i < |s| ensures s[i] != '\n' {
      assert IsDigit(s[i]);
    }
  }
}

=== FILE: persona.dfy ===
/** The persona settings: their defaults, loading from a settings
    document, and the prompt fragments listing forbidden words and
    signature phrases. */
module Persona {
  import opened Wrappers
  import opened Text

  datatype PersonaConfig = PersonaConfig(
    name: string,
    role: string,
    warmth: real,
    strictness: real,
    professionalism: real,
    empathy: real,
    signaturePhrases: seq<string>,
    ngWords: seq<string>,
    endingPatterns: seq<string>)

  const DefaultName := "牧野 克彦"
  const DefaultRole := "生命保険営業のカリスマ"

  const Default := PersonaConfig(
    DefaultName, DefaultRole, 0.7, 0.6, 0.9, 0.8,
    ["誰にでもできることを、だれにも負けないほどやる", "過去と他人は変えられないが、未来と自分は変えられる"],
    ["ネットスラング全般", "他社批判", "不確実な断定表現", "コンプライアンス違反となる発言"],
    ["〜だね", "〜ですよ", "〜なのかな"])

  /** The bullet lines of the forbidden words. */
  function FormatNgWords(c: PersonaConfig): (text: string)
    ensures forall i :: 0 <= i < |c.ngWords| ==> Contains(text, "- " + c.ngWords[i])
  {
    var lines := Enclose(c.ngWords, "- ", "");
    forall i | 0 <= i < |c.ngWords| ensures Contains(Join(lines, "\n"), "- " + c.ngWords[i]) {
      assert lines[i] == "- " + c.ngWords[i] + "";
      assert "- " + c.ngWords[i] + "" == "- " + c.ngWords[i];
      JoinContains(lines, "\n", i);
    }
    Join(lines, "\n")
  }

  /** The bullet lines of the signature phrases, each in 「」. */
  function FormatSignaturePhrases(c: PersonaConfig): (text: string)
    ensures forall i :: 0 <= i < |c.signaturePhrases| ==> Contains(text, "- 「" + c.signaturePhrases[i] + "」")
  {
    var lines := Enclose(c.signaturePhrases, "- 「", "」");
    forall i | 0 <= i < |c.signaturePhrases| ensures Contains(Join(lines, "\n"), "- 「" + c.signaturePhrases[i] + "」") {
      JoinContains(lines, "\n", i);
    }
    Join(lines, "\n")
  }

  predicate SingleLine(s: string)
  {
    '\n' !in s
  }

  /** For single-line words, the forbidden-word text splits back into
      exactly one bullet line per word, in order. */
  lemma NgWordsLines(c: PersonaConfig)
    requires |c.ngWords| >= 1
    requires forall i :: 0 <= i < |c.ngWords| ==> SingleLine(c.ngWords[i])
    ensures |Split(FormatNgWords(c), '\n')| == |c.ngWords|
    ensures forall i :: 0 <= i < |c.ngWords| ==> Split(FormatNgWords(c), '\n')[i] == "- " + c.ngWords[i]
  {
    var lines := Enclose(c.ngWords, "- ", "");
    forall k | 0 <= k < |lines| ensures '\n' !in lines[k] {
      assert lines[k] == "- " + c.ngWords[k] + "";
    }
    SplitJoin(lines, '\n');
  }

  /** For single-line phrases, the signature text splits back into one
      bracketed bullet line per phrase, in order. */
  lemma SignatureLines(c: PersonaConfig)
    requires |c.signaturePhrases| >= 1
    requires forall i :: 0 <= i < |c.signaturePhrases| ==> SingleLine(c.signaturePhrases[i])
    ensures |Split(FormatSignaturePhrases(c), '\n')| == |c.signaturePhrases|
    ensures forall i :: 0 <= i < |c.signaturePhrases| ==>
      Split(FormatSignaturePhrases(c), '\n')[i] == "- 「" + c.signaturePhrases[i] + "」"
  {
    var lines := Enclose(c.signaturePhrases, "- 「", "」");
    forall k | 0 <= k < |lines| ensures '\n' !in lines[k] {
      assert lines[k] == "- 「" + c.signaturePhrases[k] + "」";
    }
    SplitJoin(lines, '\n');
  }

  /** The `traits` table of a settings document; absent keys are `None`. */
  datatype Traits = Traits(warmth: Option<real>, strictness: Option<real>, professionalism: Option<real>, empathy: Option<real>)

  /** A table-valued key of a settings document: absent, present with a
      value that is not a mapping (null, a list, a scalar), or a mapping. */
  datatype Entry<+T> = Absent | NonMapping | Mapping(value: T)

  /** The table an entry holds, if it holds one. */
  function TableOf<T>(e: Entry<T>): Option<T>
  {
    if e.Mapping? then Some(e.value) else None
  }

  /** The `persona` table of a settings document; absent keys are `None`. */
  datatype PersonaDoc = PersonaDoc(
    name: Option<string>,
    role: Option<string>,
    traits: Entry<Traits>,
    signaturePhrases: Option<seq<string>>,
    ngWords: Option<seq<string>>)

  /** Where the settings come from: no path, a path with no file, a file
      whose document is not a mapping (an empty file parses to null), or a
      mapping whose `persona` key is an entry. */
  datatype Source = NoPath | Missing | NonMappingDocument | Document(persona: Entry<PersonaDoc>)

  /** The `persona` table of a source, when it has one. */
  function PersonaOf(src: Source): Option<PersonaDoc>
  {
    if src.Document? then TableOf(src.persona) else None
  }

  /** The `traits` table of a source, when it has one. */
  function TraitsOf(src: Source): Option<Traits>
  {
    var p := PersonaOf(src);
    if p.Some? then TableOf(p.value.traits) else None
  }

  /** The settings: the defaults without a file. From a file, each absent
      name, role or trait takes its default, an absent phrase or word list
      becomes empty, and the ending patterns always keep their defaults.
      Looking a key up in a document, a `persona` value or a `traits` value
      that is not a mapping fails. */
  function LoadPersonaConfig(src: Source): (r: Result<PersonaConfig, string>)
    ensures src.NoPath? || src.Missing? ==> r == Success(Default)
    ensures r.Failure? <==>
      || src.NonMappingDocument?
      || (src.Document? && src.persona.NonMapping?)
      || (PersonaOf(src).Some? && PersonaOf(src).value.traits.NonMapping?)
    ensures r.Success? && src.Document? ==>
      var p := PersonaOf(src);
      var t := TraitsOf(src);
      && r.value.endingPatterns == Default.endingPatterns
      && (p.Some? && p.value.name.Some? ==> r.value.name == p.value.name.value)
      && (p.None? || p.value.name.None? ==> r.value.name == DefaultName)
      && (p.Some? && p.value.role.Some? ==> r.value.role == p.value.role.value)
      && (p.None? || p.value.role.None? ==> r.value.role == DefaultRole)
      && (t.Some? && t.value.warmth.Some? ==> r.value.warmth == t.value.warmth.value)
      && (t.None? || t.value.warmth.None? ==> r.value.warmth == Default.warmth)
      && (t.Some? && t.value.strictness.Some? ==> r.value.strictness == t.value.strictness.value)
      && (t.None? || t.value.strictness.None? ==> r.value.strictness == Default.strictness)
      && (t.Some? && t.value.professionalism.Some? ==> r.value.professionalism == t.value.professionalism.value)
      && (t.None? || t.value.professionalism.None? ==> r.value.professionalism == Default.professionalism)
      && (t.Some? && t.value.empathy.Some? ==> r.value.empathy == t.value.empathy.value)
      && (t.None? || t.value.empathy.None? ==> r.value.empathy == Default.empathy)
      && (p.Some? && p.value.signaturePhrases.Some? ==> r.value.signaturePhrases == p.value.signaturePhrases.value)
      && (p.None? || p.value.signaturePhrases.None? ==> r.value.signaturePhrases == [])
      && (p.Some? && p.value.ngWords.Some? ==> r.value.ngWords == p.value.ngWords.value)
      && (p.None? || p.value.ngWords.None? ==> r.value.ngWords == [])
  {
    match src
    case NoPath => Success(Default)
    case Missing => Success(Default)
    case NonMappingDocument => Failure("the settings document is not a mapping")
    case Document(persona) =>
      if persona.NonMapping? then Failure("persona is not a mapping")
      else
        var doc := if persona.Mapping? then persona.value else PersonaDoc(None, None, Absent, None, None);
        if doc.traits.NonMapping? then Failure("traits is not a mapping")
        else
          var traits := if doc.traits.Mapping? then doc.traits.value else Traits(None, None, None, None);
          Success(PersonaConfig(
            doc.name.GetOr(DefaultName), doc.role.GetOr(DefaultRole),
            traits.warmth.GetOr(Default.warmth), traits.strictness.GetOr(Default.strictness),
            traits.professionalism.GetOr(Default.professionalism), traits.empathy.GetOr(Default.empathy),
            doc.signaturePhrases.GetOr([]), doc.ngWords.GetOr([]), Default.endingPatterns))
  }

  /** The document that spells out every setting of `c` except the ending
      patterns, which a document cannot set. */
  function ToDocument(c: PersonaConfig): Source
  {
    Document(Mapping(PersonaDoc(
      Some(c.name), Some(c.role),
      Mapping(Traits(Some(c.warmth), Some(c.strictness), Some(c.professionalism), Some(c.empathy))),
      Some(c.signaturePhrases), Some(c.ngWords))))
  }

  /** Loading a document that spells out a persona gives that persona
      back, with the default ending patterns. */
  lemma DocumentRoundTrip(c: PersonaConfig)
    ensures LoadPersonaConfig(ToDocument(c)) == Success(c.(endingPatterns := Default.endingPatterns))
  {
  }

  /** A document without a `persona` table is not the default: it differs
      exactly in the two lists, which become empty. */
  lemma EmptyDocumentDropsLists()
    ensures LoadPersonaConfig(Document(Absent)) == Success(Default.(signaturePhrases := [], ngWords := []))
    ensures LoadPersonaConfig(Document(Absent)) != LoadPersonaConfig(NoPath)
  {
    assert |Default.ngWords| == 4;
  }
}

=== FILE: pipeline.dfy ===
/** The batch ingestion pipeline (`scripts/knowledge_pipeline.py`): files
    are discovered in the intake directory, each one is moved through
    processing/ to completed/ or failed/, and the analysed ones are written
    into the knowledge tree as front-matter Markdown. The file system is a
    set of names per intake directory plus the list of stored Markdown
    files; what the extractors, the analyser and the clock return, and
    whether each move or write succeeds, come from a per-file oracle. */
module Pipeline {
  import opened Wrappers
  import opened Text
  import opened Lists
  import opened Media
  import opened EntryIds

  // ---------------------------------------------------------------------
  // Discovery
  // ---------------------------------------------------------------------

  /** `_matches_filter`: no filter or an unclassified file always matches;
      "text" and "media" stand for groups of types, any other filter value
      names one type. */
  function MatchesFilter(filter: Option<string>, t: Option<FileType>): (b: bool)
    ensures filter.None? || filter == Some("") || t.None? ==> b
    ensures filter == Some("text") && t.Some? ==> (b <==> t.value in {TextDoc, Pdf, Docx})
    ensures filter == Some("media") && t.Some? ==> (b <==> t.value in {Video, Audio, Image})
    ensures filter.Some? && filter.value !in {"", "text", "media"} && t.Some? ==>
              (b <==> TypeName(t.value) == filter.value)
  {
    if filter.None? || filter.value == "" || t.None? then true
    else
      var allowed :=
        if filter.value == "text" then ["text", "pdf", "docx"]
        else if filter.value == "video" then ["video"]
        else if filter.value == "audio" then ["audio"]
        else if filter.value == "image" then ["image"]
        else if filter.value == "media" then ["video", "audio", "image"]
        else [filter.value];
      TypeName(t.value) in allowed
  }

  /** One entry of a directory listing. */
  datatype DirEntry = DirEntry(name: string, isFile: bool)

  function Names(entries: seq<DirEntry>): (ns: seq<string>)
    ensures |ns| == |entries|
    ensures forall i :: 0 <= i < |entries| ==> ns[i] == entries[i].name
  {
    if |entries| == 0 then [] else [entries[0].name] + Names(entries[1..])
  }

  /** Whether discovery picks the entry up. */
  predicate Wanted(filter: Option<string>, e: DirEntry)
  {
    e.isFile && LowerSuffix(e.name) in AllExtensions && MatchesFilter(filter, ClassifyFile(e.name))
  }

  function EntryName(e: DirEntry): string { e.name }

  function WantedBy(filter: Option<string>): DirEntry -> bool
  {
    e => Wanted(filter, e)
  }

  /** The wanted entries of a listing, sorted by name. */
  function Kept(listing: seq<DirEntry>, filter: Option<string>): seq<DirEntry>
  {
    Filter(SortBy(listing, EntryName, StringLe()), WantedBy(filter))
  }

  /** `_discover_files`: nothing when the input directory is missing;
      otherwise the wanted entries of the listing in name order. */
  function DiscoverFiles(listing: Option<seq<DirEntry>>, filter: Option<string>): (files: seq<string>)
    ensures listing.None? ==> files == []
    ensures listing.Some? ==>
              (forall i :: 0 <= i < |files| ==> exists e :: e in listing.value && Wanted(filter, e) && e.name == files[i])
    ensures listing.Some? ==>
              (forall e :: e in listing.value && Wanted(filter, e) ==> e.name in files)
    ensures forall i, j :: 0 <= i < j < |files| ==> StringLe()(files[i], files[j])
    ensures listing.Some? && DistinctBy(listing.value, EntryName) ==> Distinct(files)
  {
    if listing.None? then []
    else
      var files := Names(Kept(listing.value, filter));
      DiscoverDistinct(listing.value, filter);
      DiscoverMembers(listing.value, filter, files);
      DiscoverSorted(listing.value, filter, files);
      files
  }

  lemma DiscoverMembers(listing: seq<DirEntry>, filter: Option<string>, files: seq<string>)
    requires files == Names(Kept(listing, filter))
    ensures forall i :: 0 <= i < |files| ==> exists e :: e in listing && Wanted(filter, e) && e.name == files[i]
    ensures forall e :: e in listing && Wanted(filter, e) ==> e.name in files
  {
    var sorted := SortBy(listing, EntryName, StringLe());
    SortByMembers(listing, EntryName, StringLe());
    var kept := Kept(listing, filter);
    forall e | e in listing && Wanted(filter, e) ensures e.name in files {
      assert e in kept;
      var k :| 0 <= k < |kept| && kept[k] == e;
      assert files[k] == e.name;
    }
    forall i | 0 <= i < |files|
      ensures exists e :: e in listing && Wanted(filter, e) && e.name == files[i]
    {
      assert kept[i] in kept;
    }
  }

  lemma DiscoverSorted(listing: seq<DirEntry>, filter: Option<string>, files: seq<string>)
    requires files == Names(Kept(listing, filter))
    ensures forall i, j :: 0 <= i < j < |files| ==> StringLe()(files[i], files[j])
  {
    var sorted := SortBy(listing, EntryName, StringLe());
    StringLePreorder();
    SortSorted(listing, EntryName, StringLe());
    var kept := Kept(listing, filter);
    FilterKeepsOrder(sorted, WantedBy(filter), EntryName, StringLe());
    forall i, j | 0 <= i < j < |files| ensures StringLe()(files[i], files[j]) {
      assert StringLe()(EntryName(kept[i]), EntryName(kept[j]));
    }
  }

  lemma DiscoverDistinct(listing: seq<DirEntry>, filter: Option<string>)
    ensures DistinctBy(listing, EntryName) ==> Distinct(Names(Kept(listing, filter)))
  {
    if DistinctBy(listing, EntryName) {
      var sorted := SortBy(listing, EntryName, StringLe());
      var kept := Kept(listing, filter);
      DistinctByPerm(listing, sorted, EntryName);
      FilterDistinctBy(sorted, WantedBy(filter), EntryName);
      var files := Names(kept);
      forall i, j | 0 <= i < j < |files| ensures files[i] != files[j] {
        assert EntryName(kept[i]) != EntryName(kept[j]);
      }
    }
  }

  // ---------------------------------------------------------------------
  // File names
  // ---------------------------------------------------------------------

  /** Characters a file name may not contain. */
  const Forbidden: set<char> := {'\\', '/', ':', '*', '?', '"', '<', '>', '|'}

  predicate Allowed(c: char) { c !in Forbidden }

  /** `_sanitize_filename`: drop the forbidden characters, keep the first
      50 characters, strip, and fall back to "untitled". */
  function SanitizeFilename(name: string): (r: string)
    ensures 0 < |r| <= 50
    ensures forall c :: c in r ==> Allowed(c)
    ensures !IsSpace(r[0]) && !IsSpace(r[|r| - 1])
    ensures r != "untitled" ==> forall c :: c in r ==> c in name
  {
    var kept := Take(Filter(name, Allowed), 50);
    TakeMembers(Filter(name, Allowed), 50);
    var s := Strip(kept);
    if s == "" then UntitledAllowed(); "untitled" else s
  }

  lemma UntitledAllowed()
    ensures forall c :: c in "untitled" ==> Allowed(c)
  {
  }

  /** A name that is already safe, short and unpadded is kept as it is. */
  lemma {:induction false} SanitizeKeepsSafeName(name: string)
    requires 0 < |name| <= 50
    requires forall c :: c in name ==> Allowed(c)
    requires !IsSpace(name[0]) && !IsSpace(name[|name| - 1])
    ensures SanitizeFilename(name) == name
  {
    FilterAll(name, Allowed);
    assert Take(name, 50) == name;
    StripUnspaced(name);
  }

  /** Sanitising is idempotent. */
  lemma SanitizeIdempotent(name: string)
    ensures SanitizeFilename(SanitizeFilename(name)) == SanitizeFilename(name)
  {
    SanitizeKeepsSafeName(SanitizeFilename(name));
  }

  // ---------------------------------------------------------------------
  // The intake directories
  // ---------------------------------------------------------------------

  /** The names present in each intake directory. */
  datatype Dirs = Dirs(input: set<string>, processing: set<string>, completed: set<string>, failed: set<string>)

  datatype Loc = InInput | InProcessing | InCompleted | InFailed

  function Holds(d: Dirs, l: Loc): set<string>
  {
    match l
    case InInput => d.input
    case InProcessing => d.processing
    case InCompleted => d.completed
    case InFailed => d.failed
  }

  function Put(d: Dirs, l: Loc, s: set<string>): Dirs
  {
    match l
    case InInput => d.(input := s)
    case InProcessing => d.(processing := s)
    case InCompleted => d.(completed := s)
    case InFailed => d.(failed := s)
  }

  /** Name `g` sits in the same directories in both states. */
  predicate SameFor(d: Dirs, e: Dirs, g: string)
  {
    (g in d.input <==> g in e.input) && (g in d.processing <==> g in e.processing)
    && (g in d.completed <==> g in e.completed) && (g in d.failed <==> g in e.failed)
  }

  /** `shutil.move` of one name between two intake directories: `None`
      (an OS error) when the source is missing or the move fails; an
      existing target of that name is replaced. */
  function Move(d: Dirs, src: Loc, dst: Loc, name: string, ok: bool): (r: Option<Dirs>)
    requires src != dst
    ensures r.Some? <==> ok && name in Holds(d, src)
    ensures r.Some? ==> name !in Holds(r.value, src) && name in Holds(r.value, dst)
    ensures r.Some? ==> forall l :: l != src && l != dst ==> Holds(r.value, l) == Holds(d, l)
    ensures r.Some? ==> forall g :: g != name ==> SameFor(d, r.value, g)
  {
    if !ok || name !in Holds(d, src) then None
    else Some(Put(Put(d, src, Holds(d, src) - {name}), dst, Holds(d, dst) + {name}))
  }

  // ---------------------------------------------------------------------
  // The report
  // ---------------------------------------------------------------------

  datatype SuccessRecord = SuccessRecord(
    source: string, output: string, category: string, subCategory: string,
    priority: string, confidence: real, qualityScore: real, entryId: string)

  /** A manual-review entry: the success record plus the joined reasons. */
  datatype ReviewRecord = ReviewRecord(record: SuccessRecord, reason: string)

  datatype SkipRecord = SkipRecord(source: string, output: string, reason: string)

  datatype FailedRecord = FailedRecord(source: string, error: string, movedTo: string)

  datatype Stats = Stats(byCategory: seq<(string, nat)>, byType: seq<(string, nat)>)

  datatype Report = Report(
    inputFiles: nat, success: seq<SuccessRecord>, failed: seq<FailedRecord>,
    skipped: seq<SkipRecord>, manualReview: seq<ReviewRecord>, stats: Stats)

  const EmptyReport := Report(0, [], [], [], [], Stats([], []))

  const DuplicateReason := "同名ファイルが既に存在"

  /** The number of files the report accounts for. */
  function Recorded(r: Report): nat
  {
    |r.success| + |r.skipped| + |r.failed|
  }

  /** The "results" block of `to_dict`. */
  datatype Results = Results(success: nat, failed: nat, skippedDuplicate: nat, manualReview: nat)

  /** `to_dict`, restricted to what the model keeps (no run id and no
      timestamps): the counts and the record lists. */
  datatype ReportDict = ReportDict(
    inputFiles: nat, results: Results, filesCreated: seq<SuccessRecord>,
    errors: seq<FailedRecord>, manualReview: seq<ReviewRecord>, stats: Stats)

  function ToDict(r: Report): (d: ReportDict)
    ensures d.results.success == |d.filesCreated| && d.filesCreated == r.success
    ensures d.results.failed == |d.errors| && d.errors == r.failed
    ensures d.results.skippedDuplicate == |r.skipped|
    ensures d.results.manualReview == |d.manualReview| && d.manualReview == r.manualReview
    ensures d.inputFiles == r.inputFiles && d.stats == r.stats
  {
    ReportDict(r.inputFiles, Results(|r.success|, |r.failed|, |r.skipped|, |r.manualReview|),
               r.success, r.failed, r.manualReview, r.stats)
  }

  // ---------------------------------------------------------------------
  // Statistics
  // ---------------------------------------------------------------------

  /** The id-type key of `_compute_stats`: the text before the first "_",
      or "OTHER" for an id without one. */
  function TypeKey(entryId: string): (k: string)
    ensures '_' in entryId ==> '_' !in k && StartsWith(entryId, k + "_")
    ensures '_' !in entryId ==> k == "OTHER"
  {
    if '_' in entryId then
      var i := IndexOfChar(entryId, '_');
      assert entryId[..i + 1] == entryId[..i] + "_";
      entryId[..i]
    else "OTHER"
  }

  /** An id of the form prefix + "_" + … is counted under its prefix. */
  lemma TypeKeyOfPrefixed(id: string, prefix: string)
    requires '_' !in prefix && StartsWith(id, prefix + "_")
    ensures TypeKey(id) == prefix
  {
    assert id[|prefix|] == '_';
    var k := TypeKey(id);
    assert id[|k|] == '_';
    assert |k| >= |prefix| by {
      forall j | 0 <= j < |prefix| ensures id[j] != '_' {
        assert id[j] == prefix[j] && prefix[j] in prefix;
      }
    }
    assert |k| <= |prefix| by {
      forall j | 0 <= j < |k| ensures id[j] != '_' {
        assert id[j] == k[j] && k[j] in k;
      }
    }
  }

  /** An allocated id is counted under the prefix it was allocated for. */
  lemma GeneratedIdType(prefix: string, tree: Option<seq<MdFile>>, year: Year, month: Month)
    requires '_' !in prefix
    ensures TypeKey(GenerateEntryId(prefix, tree, year, month)) == prefix
  {
    GeneratedShape(prefix, tree, year, month);
    TypeKeyOfPrefixed(GenerateEntryId(prefix, tree, year, month), prefix);
  }

  function Categories(s: seq<SuccessRecord>): (cs: seq<string>)
    ensures |cs| == |s| && forall i :: 0 <= i < |s| ==> cs[i] == s[i].category
  {
    if |s| == 0 then [] else Categories(s[..|s| - 1]) + [s[|s| - 1].category]
  }

  function TypeKeys(s: seq<SuccessRecord>): (ks: seq<string>)
    ensures |ks| == |s| && forall i :: 0 <= i < |s| ==> ks[i] == TypeKey(s[i].entryId)
  {
    if |s| == 0 then [] else TypeKeys(s[..|s| - 1]) + [TypeKey(s[|s| - 1].entryId)]
  }

  /** `_compute_stats`: the successful records counted per category and per
      id type, each key listed once in order of first appearance. */
  function ComputeStats(success: seq<SuccessRecord>): (st: Stats)
    ensures Total(st.byCategory) == |success| && Total(st.byType) == |success|
    ensures Distinct(Keys(st.byCategory)) && Distinct(Keys(st.byType))
    ensures forall i :: 0 <= i < |success| ==> success[i].category in Keys(st.byCategory)
    ensures forall i :: 0 <= i < |success| ==> TypeKey(success[i].entryId) in Keys(st.byType)
  {
    TallyShape(Categories(success));
    TallyShape(TypeKeys(success));
    TallyKeys(Categories(success));
    TallyKeys(TypeKeys(success));
    Stats(Tally(Categories(success)), Tally(TypeKeys(success)))
  }

  /** Each category's count is the number of successful records in it. */
  lemma CategoryCount(success: seq<SuccessRecord>, c: string)
    ensures CountOf(ComputeStats(success).byCategory, c) == Occurrences(Categories(success), c)
  {
    TallyCounts(Categories(success), c);
  }

  // ---------------------------------------------------------------------
  // One file
  // ---------------------------------------------------------------------

  type Year = y: nat | 1 <= y <= 9999 witness 2024
  type Month = m: nat | 1 <= m <= 12 witness 1

  /** What Pass 1-3 of the analyser returned for the file. */
  datatype Analysis = Analysis(
    error: string, idPrefix: string, knowledgeDir: string, title: string,
    category: string, subCategory: string, priority: string,
    confidence: real, qualityScore: real,
    needsManualReview: bool, reviewReasons: seq<string>)

  datatype AnalyzeOutcome = Analyzed(result: Analysis) | AnalyzeRaised(message: string)

  /** Everything outside the pipeline that one file's processing consults:
      the extractor, the analyser, the clock, the rendered Markdown after
      its "id:" line, whether each file-system operation succeeds, and the
      message of the OS error when one fails. */
  datatype FileOracle = FileOracle(
    extractor: Extraction, analysis: AnalyzeOutcome, year: Year, month: Month,
    body: seq<string>,
    toProcessingOk: bool, writeOk: bool, toCompletedOk: bool, toFailedOk: bool,
    osError: string)

  /** A stored Markdown file of the knowledge tree. */
  datatype StoredFile = StoredFile(path: string, content: MdFile)

  function Paths(files: seq<StoredFile>): (ps: seq<string>)
    ensures |ps| == |files| && forall i :: 0 <= i < |files| ==> ps[i] == files[i].path
  {
    if |files| == 0 then [] else Paths(files[..|files| - 1]) + [files[|files| - 1].path]
  }

  function Contents(files: seq<StoredFile>): (cs: seq<MdFile>)
    ensures |cs| == |files| && forall i :: 0 <= i < |files| ==> cs[i] == files[i].content
  {
    if |files| == 0 then [] else Contents(files[..|files| - 1]) + [files[|files| - 1].content]
  }

  /** The tree `generate_entry_id` scans: absent until the first mkdir. */
  function Tree(knowledge: Option<seq<StoredFile>>): Option<seq<MdFile>>
  {
    if knowledge.None? then None else Some(Contents(knowledge.value))
  }

  datatype PState = PState(dirs: Dirs, knowledge: Option<seq<StoredFile>>, report: Report)

  /** How the `try` block ended: normally, or raising with a message. */
  datatype Attempt = TryOk(st: PState) | TryRaised(st: PState, message: string)

  /** How `_process_single_file` ended: normally, or with an exception
      escaping its handler (a failed move to failed/). */
  datatype Step = Done(st: PState) | Escaped(st: PState, message: string)

  function OutputPath(dir: string, id: string, safe: string): string
  {
    "knowledge/" + dir + "/" + id + "_" + safe + ".md"
  }

  function Unsupported(fname: string): string
  {
    "未対応フォーマット: " + Suffix(fname)
  }

  /** The path and id the entry would be stored under. */
  function Target(s1: PState, fname: string, a: Analysis, o: FileOracle): (string, string)
  {
    var id := GenerateEntryId(a.idPrefix, Tree(s1.knowledge), o.year, o.month);
    var safe := SanitizeFilename(if a.title != "" then a.title else Stem(fname));
    (id, OutputPath(a.knowledgeDir, id, safe))
  }

  /** The files already stored, once the output directory exists. */
  function Stored(k: Option<seq<StoredFile>>): seq<StoredFile>
  {
    if k.Some? then k.value else []
  }

  /** The part of the `try` block after analysis: create the output
      directory, then either skip a duplicate path or write the entry, and
      finally move the source to completed/. */
  function Place(s1: PState, fname: string, a: Analysis, o: FileOracle, id: string, path: string): Attempt
  {
    var files := Stored(s1.knowledge);
    var s2 := s1.(knowledge := Some(files));
    if path in Paths(files) then
      var s3 := s2.(report := s2.report.(skipped := s2.report.skipped + [SkipRecord(fname, path, DuplicateReason)]));
      match Move(s3.dirs, InProcessing, InCompleted, fname, o.toCompletedOk)
      case None => TryRaised(s3, o.osError)
      case Some(d) => TryOk(s3.(dirs := d))
    else if !o.writeOk then TryRaised(s2, o.osError)
    else
      var s3 := s2.(knowledge := Some(files + [StoredFile(path, Some(StoredDocument(id, o.body)))]));
      match Move(s3.dirs, InProcessing, InCompleted, fname, o.toCompletedOk)
      case None => TryRaised(s3, o.osError)
      case Some(d) =>
        var rec := SuccessRecord(fname, path, a.category, a.subCategory, a.priority,
                                 a.confidence, a.qualityScore, id);
        var review := if a.needsManualReview then [ReviewRecord(rec, Join(a.reviewReasons, "; "))] else [];
        TryOk(s3.(dirs := d, report := s3.report.(success := s3.report.success + [rec],
                                                   manualReview := s3.report.manualReview + review)))
  }

  /** Allocate the id, then place the entry. */
  function Store(s1: PState, fname: string, a: Analysis, o: FileOracle): Attempt
  {
    var t := Target(s1, fname, a, o);
    Place(s1, fname, a, o, t.0, t.1)
  }

  /** Stages 2 and 3 of the `try` block: extraction and analysis, raising
      on an unsupported suffix, an extractor error text, an analyser
      exception or an analysis that reports an error. */
  function Prepare(fname: string, o: FileOracle): Result<Analysis, string>
  {
    match ProcessFile(fname, o.extractor)
    case None => Failure(Unsupported(fname))
    case Some(ext) =>
      if IsErrorText(ext.text) then Failure(ext.text)
      else match o.analysis
        case AnalyzeRaised(m) => Failure(m)
        case Analyzed(a) => if a.error != "" then Failure(a.error) else Success(a)
  }

  /** The `try` block of `_process_single_file`. */
  function TryBody(st: PState, fname: string, o: FileOracle): Attempt
  {
    match Move(st.dirs, InInput, InProcessing, fname, o.toProcessingOk)
    case None => TryRaised(st, o.osError)
    case Some(d1) =>
      var s1 := st.(dirs := d1);
      match Prepare(fname, o)
      case Failure(m) => TryRaised(s1, m)
      case Success(a) => Store(s1, fname, a, o)
  }

  function AppendFailed(s: PState, fname: string, msg: string): PState
  {
    s.(report := s.report.(failed := s.report.failed + [FailedRecord(fname, msg, "intake/failed/" + fname)]))
  }

  /** The `except` block: park the file in failed/ (from processing/ if it
      is there, else from the input directory) and record the failure. */
  function HandleFailure(s: PState, fname: string, msg: string, o: FileOracle): Step
  {
    if fname in s.dirs.processing then
      match Move(s.dirs, InProcessing, InFailed, fname, o.toFailedOk)
      case None => Escaped(s, o.osError)
      case Some(d) => Done(AppendFailed(s.(dirs := d), fname, msg))
    else if fname in s.dirs.input then
      match Move(s.dirs, InInput, InFailed, fname, o.toFailedOk)
      case None => Escaped(s, o.osError)
      case Some(d) => Done(AppendFailed(s.(dirs := d), fname, msg))
    else Done(AppendFailed(s, fname, msg))
  }

  /** `_process_single_file`. */
  function ProcessSingleFile(st: PState, fname: string, o: FileOracle): Step
  {
    match TryBody(st, fname, o)
    case TryOk(s) => Done(s)
    case TryRaised(s, m) => HandleFailure(s, fname, m, o)
  }

  // ---------------------------------------------------------------------
  // Properties of one file
  // ---------------------------------------------------------------------

  /** Every file-system operation succeeds. */
  predicate Smooth(o: FileOracle)
  {
    o.toProcessingOk && o.writeOk && o.toCompletedOk && o.toFailedOk
  }

  /** The file sits in the input directory and nowhere else. */
  predicate Fresh(d: Dirs, fname: string)
  {
    fname in d.input && fname !in d.processing && fname !in d.completed && fname !in d.failed
  }

  /** The file sits in processing/ and nowhere else. */
  predicate Locked(d: Dirs, fname: string)
  {
    fname !in d.input && fname in d.processing && fname !in d.completed && fname !in d.failed
  }

  /** The file ended in completed/ or in failed/, and only there. */
  predicate Settled(d: Dirs, fname: string)
  {
    fname !in d.input && fname !in d.processing && (fname in d.completed <==> fname !in d.failed)
  }

  /** Each report list only grows, and nothing else in the report changes. */
  predicate Extends(r: Report, r': Report)
  {
    r.success <= r'.success && r.failed <= r'.failed && r.skipped <= r'.skipped
    && r.manualReview <= r'.manualReview && r'.inputFiles == r.inputFiles && r'.stats == r.stats
  }

  /** The knowledge tree keeps its files, gaining at most one. */
  predicate Grows(k: Option<seq<StoredFile>>, k': Option<seq<StoredFile>>)
  {
    k' == k || (k'.Some? && Stored(k) <= k'.value && |k'.value| <= |Stored(k)| + 1)
  }

  /** Only `fname` may change directory, the report only grows (a review
      entry only together with its success record) and the tree grows. */
  ghost predicate Framed(st: PState, s: PState, fname: string)
  {
    && (forall g :: g != fname ==> SameFor(st.dirs, s.dirs, g))
    && Extends(st.report, s.report)
    && |s.report.manualReview| - |st.report.manualReview| <= |s.report.success| - |st.report.success| <= 1
    && Grows(st.knowledge, s.knowledge)
  }

  /** Placing an entry: it succeeds exactly when the source can be moved
      to completed/ and, for a new path, the write succeeds; a success adds
      one record, a duplicate adds a skip record even when the move fails,
      and a failure leaves the directories alone. */
  lemma PlaceSpec(s1: PState, fname: string, a: Analysis, o: FileOracle, id: string, path: string)
    ensures var r := Place(s1, fname, a, o, id, path);
            && Framed(s1, r.st, fname)
            && (r.TryOk? <==> fname in s1.dirs.processing && o.toCompletedOk
                               && (path in Paths(Stored(s1.knowledge)) || o.writeOk))
            && (r.TryOk? ==> Recorded(r.st.report) == Recorded(s1.report) + 1
                             && fname in r.st.dirs.completed && fname !in r.st.dirs.processing
                             && (fname in r.st.dirs.input <==> fname in s1.dirs.input)
                             && (fname in r.st.dirs.failed <==> fname in s1.dirs.failed))
            && (r.TryRaised? ==> r.st.dirs == s1.dirs && r.st.report.success == s1.report.success
                                 && Recorded(r.st.report) == Recorded(s1.report) + (if path in Paths(Stored(s1.knowledge)) then 1 else 0))
  {
  }

  lemma StoreIsPlace(s1: PState, fname: string, a: Analysis, o: FileOracle)
    ensures var t := Target(s1, fname, a, o);
            Store(s1, fname, a, o) == Place(s1, fname, a, o, t.0, t.1)
  {
  }

  /** The three ways the `try` block can go. */
  lemma TryShape(st: PState, fname: string, o: FileOracle)
    ensures var t := TryBody(st, fname, o);
            var m := Move(st.dirs, InInput, InProcessing, fname, o.toProcessingOk);
            && (m.None? ==> t == TryRaised(st, o.osError))
            && (m.Some? && Prepare(fname, o).Failure? ==>
                  t == TryRaised(st.(dirs := m.value), Prepare(fname, o).error))
            && (m.Some? && Prepare(fname, o).Success? ==>
                  t == Store(st.(dirs := m.value), fname, Prepare(fname, o).value, o))
  {
  }

  /** A move of `fname` alone, followed by a framed change, is framed. */
  lemma MovedThenFramed(st: PState, s1: PState, s: PState, fname: string)
    requires s1.report == st.report && s1.knowledge == st.knowledge
    requires forall g :: g != fname ==> SameFor(st.dirs, s1.dirs, g)
    requires Framed(s1, s, fname)
    ensures Framed(st, s, fname)
  {
    forall g | g != fname ensures SameFor(st.dirs, s.dirs, g) {
      assert SameFor(st.dirs, s1.dirs, g) && SameFor(s1.dirs, s.dirs, g);
    }
  }

  /** A framed change followed by one that only records a failure is framed. */
  lemma FramedThenFailed(st: PState, t: PState, s: PState, fname: string)
    requires Framed(st, t, fname)
    requires s.knowledge == t.knowledge && Extends(t.report, s.report)
    requires s.report.success == t.report.success && s.report.manualReview == t.report.manualReview
    requires forall g :: g != fname ==> SameFor(t.dirs, s.dirs, g)
    ensures Framed(st, s, fname)
  {
    forall g | g != fname ensures SameFor(st.dirs, s.dirs, g) {
      assert SameFor(st.dirs, t.dirs, g) && SameFor(t.dirs, s.dirs, g);
    }
  }

  /** The `try` block on a file that is in the input directory only, when
      every file-system operation succeeds: it either completes the file
      with one record, or raises with the file locked in processing/ and
      nothing recorded. */
  lemma TrySmooth(st: PState, fname: string, o: FileOracle)
    requires Smooth(o) && Fresh(st.dirs, fname)
    ensures var t := TryBody(st, fname, o);
            && Framed(st, t.st, fname)
            && (t.TryOk? ==> Recorded(t.st.report) == Recorded(st.report) + 1
                             && Settled(t.st.dirs, fname) && fname in t.st.dirs.completed)
            && (t.TryRaised? ==> Recorded(t.st.report) == Recorded(st.report) && Locked(t.st.dirs, fname))
  {
    TryShape(st, fname, o);
    var s1 := st.(dirs := Move(st.dirs, InInput, InProcessing, fname, true).value);
    assert Locked(s1.dirs, fname);
    var t := TryBody(st, fname, o);
    if Prepare(fname, o).Success? {
      var a := Prepare(fname, o).value;
      var tg := Target(s1, fname, a, o);
      StoreIsPlace(s1, fname, a, o);
      PlaceSpec(s1, fname, a, o, tg.0, tg.1);
      assert t == Place(s1, fname, a, o, tg.0, tg.1);
      MovedThenFramed(st, s1, t.st, fname);
    } else {
      assert t.st == s1;
    }
  }

  /** The `try` block in general: only its own file changes directory. */
  lemma TryFrame(st: PState, fname: string, o: FileOracle)
    ensures Framed(st, TryBody(st, fname, o).st, fname)
  {
    TryShape(st, fname, o);
    var m := Move(st.dirs, InInput, InProcessing, fname, o.toProcessingOk);
    if m.Some? {
      var s1 := st.(dirs := m.value);
      var t := TryBody(st, fname, o);
      if Prepare(fname, o).Success? {
        var a := Prepare(fname, o).value;
        var tg := Target(s1, fname, a, o);
        StoreIsPlace(s1, fname, a, o);
        PlaceSpec(s1, fname, a, o, tg.0, tg.1);
        assert t == Place(s1, fname, a, o, tg.0, tg.1);
        MovedThenFramed(st, s1, t.st, fname);
      } else {
        assert t.st == s1;
      }
    }
  }

  /** The `except` block adds exactly one failed record unless it escapes,
      and then it changes nothing. */
  lemma HandleSpec(s: PState, fname: string, msg: string, o: FileOracle)
    ensures var r := HandleFailure(s, fname, msg, o);
            && (r.Done? ==> r.st.report == AppendFailed(s, fname, msg).report)
            && (r.Escaped? ==> r.st == s && !o.toFailedOk)
            && (forall g :: g != fname ==> SameFor(s.dirs, r.st.dirs, g))
            && r.st.knowledge == s.knowledge
            && (r.Done? && o.toFailedOk && Locked(s.dirs, fname) ==> Settled(r.st.dirs, fname) && fname in r.st.dirs.failed)
  {
  }

  /** When every file-system operation succeeds, one file is accounted for
      exactly once, ends in exactly one of completed/ and failed/, and no
      other name changes directory. */
  lemma StepSettles(st: PState, fname: string, o: FileOracle)
    requires Smooth(o) && Fresh(st.dirs, fname)
    ensures var r := ProcessSingleFile(st, fname, o);
            && r.Done?
            && Recorded(r.st.report) == Recorded(st.report) + 1
            && Framed(st, r.st, fname)
            && Settled(r.st.dirs, fname)
  {
    TrySmooth(st, fname, o);
    var t := TryBody(st, fname, o);
    if t.TryRaised? {
      RaisedSettles(st, t.st, fname, t.message, o);
    }
  }

  /** A `try` block that raised with the file locked in processing/ and
      nothing recorded: the handler parks it in failed/ with one record. */
  lemma RaisedSettles(st: PState, t: PState, fname: string, msg: string, o: FileOracle)
    requires Smooth(o) && Locked(t.dirs, fname)
    requires Framed(st, t, fname) && Recorded(t.report) == Recorded(st.report)
    ensures var r := HandleFailure(t, fname, msg, o);
            && r.Done?
            && Recorded(r.st.report) == Recorded(st.report) + 1
            && Framed(st, r.st, fname)
            && Settled(r.st.dirs, fname)
  {
    HandleSpec(t, fname, msg, o);
    var r := HandleFailure(t, fname, msg, o);
    FramedThenFailed(st, t, r.st, fname);
  }

  /** Whatever fails, a step moves no name but its own, only grows the
      report and the tree, and records a review only with a success. */
  lemma StepFrame(st: PState, fname: string, o: FileOracle)
    ensures Framed(st, ProcessSingleFile(st, fname, o).st, fname)
  {
    TryFrame(st, fname, o);
    var t := TryBody(st, fname, o);
    if t.TryRaised? {
      HandleSpec(t.st, fname, t.message, o);
      FramedThenFailed(st, t.st, HandleFailure(t.st, fname, t.message, o).st, fname);
    }
  }

  /** A file of an unsupported type is recorded as failed with the suffix
      in the message and parked in failed/. */
  lemma UnsupportedFails(st: PState, fname: string, o: FileOracle)
    requires Smooth(o) && Fresh(st.dirs, fname) && ClassifyFile(fname).None?
    ensures var r := ProcessSingleFile(st, fname, o);
            && r.Done? && r.st.report.success == st.report.success && r.st.knowledge == st.knowledge
            && r.st.report.failed == st.report.failed + [FailedRecord(fname, Unsupported(fname), "intake/failed/" + fname)]
            && fname in r.st.dirs.failed
  {
  }

  /** An extractor failure becomes a failed record carrying the
      extractor's error text. */
  lemma ExtractorErrorFails(st: PState, fname: string, o: FileOracle)
    requires Smooth(o) && Fresh(st.dirs, fname) && o.extractor.Raised?
    requires ClassifyFile(fname).Some? && ClassifyFile(fname) != Some(Image)
    ensures var r := ProcessSingleFile(st, fname, o);
            && r.Done? && r.st.report.success == st.report.success && r.st.knowledge == st.knowledge
            && r.st.report.failed == st.report.failed
                 + [FailedRecord(fname, "[処理エラー: " + o.extractor.message + "]", "intake/failed/" + fname)]
  {
    RaisedExtractionIsErrorText(fname, o.extractor.message);
  }

  /** An entry whose output path exists is skipped: the knowledge tree
      keeps its files, the source still goes to completed/, and the skip
      is recorded with the path. */
  lemma DuplicateIsSkipped(s1: PState, fname: string, a: Analysis, o: FileOracle, id: string, path: string)
    requires fname in s1.dirs.processing && o.toCompletedOk
    requires s1.knowledge.Some? && path in Paths(s1.knowledge.value)
    ensures var r := Place(s1, fname, a, o, id, path);
            && r.TryOk? && r.st.knowledge == s1.knowledge
            && r.st.report.success == s1.report.success
            && r.st.report.skipped == s1.report.skipped + [SkipRecord(fname, path, DuplicateReason)]
            && fname in r.st.dirs.completed && fname !in r.st.dirs.processing
  {
  }

  /** When the move to completed/ fails after a duplicate was recorded,
      the file is both skipped and failed: the report counts it twice. */
  lemma SkippedThenFailed(s1: PState, fname: string, a: Analysis, o: FileOracle, id: string, path: string)
    requires Locked(s1.dirs, fname) && !o.toCompletedOk && o.toFailedOk
    requires s1.knowledge.Some? && path in Paths(s1.knowledge.value)
    ensures var t := Place(s1, fname, a, o, id, path);
            && t.TryRaised?
            && var r := HandleFailure(t.st, fname, t.message, o);
            && r.Done? && Recorded(r.st.report) == Recorded(s1.report) + 2
            && |r.st.report.skipped| == |s1.report.skipped| + 1
            && |r.st.report.failed| == |s1.report.failed| + 1
            && fname in r.st.dirs.failed
  {
    PlaceSpec(s1, fname, a, o, id, path);
  }

  /** A new entry is appended to the tree under its path and the record
      names that path and id; the review list grows exactly when the
      analysis asked for a review. */
  lemma WrittenEntryRecorded(s1: PState, fname: string, a: Analysis, o: FileOracle, id: string, path: string)
    requires fname in s1.dirs.processing && o.writeOk && o.toCompletedOk
    requires path !in Paths(Stored(s1.knowledge))
    ensures var r := Place(s1, fname, a, o, id, path);
            && r.TryOk?
            && r.st.knowledge == Some(Stored(s1.knowledge) + [StoredFile(path, Some(StoredDocument(id, o.body)))])
            && |r.st.report.success| == |s1.report.success| + 1
            && var rec := r.st.report.success[|s1.report.success|];
            && rec.source == fname && rec.output == path && rec.entryId == id
            && (a.needsManualReview <==> |r.st.report.manualReview| == |s1.report.manualReview| + 1)
  {
  }

  /** The stored entry's front matter reads back the id its record names. */
  lemma WrittenEntryCarriesId(s1: PState, fname: string, a: Analysis, o: FileOracle)
    requires fname in s1.dirs.processing && o.writeOk && o.toCompletedOk
    requires |a.idPrefix| > 0 ==> !IsSpace(a.idPrefix[0])
    requires Target(s1, fname, a, o).1 !in Paths(Stored(s1.knowledge))
    ensures var r := Store(s1, fname, a, o);
            && r.TryOk?
            && var rec := r.st.report.success[|s1.report.success|];
            && var k := r.st.knowledge.value;
            && |k| > 0 && k[|k| - 1].path == rec.output
            && k[|k| - 1].content == Some(StoredDocument(rec.entryId, o.body))
            && FrontMatterId(StoredDocument(rec.entryId, o.body)) == Some(rec.entryId)
  {
    var t := Target(s1, fname, a, o);
    WrittenEntryRecorded(s1, fname, a, o, t.0, t.1);
    StoredIdIsRead(a.idPrefix, Tree(s1.knowledge), o.year, o.month, o.body);
  }

  // ---------------------------------------------------------------------
  // The run
  // ---------------------------------------------------------------------

  /** The files processed one after another until one escapes. */
  function RunFiles(st: PState, files: seq<string>, oracle: string -> FileOracle): Step
    decreases |files|
  {
    if |files| == 0 then Done(st)
    else match ProcessSingleFile(st, files[0], oracle(files[0]))
      case Escaped(s, m) => Escaped(s, m)
      case Done(s) => RunFiles(s, files[1..], oracle)
  }

  /** The error `_compute_stats` raises: it iterates `self.success`, and
      the pipeline object has no such attribute (only its report does). */
  const NoSuccessAttribute := "AttributeError: 'KnowledgePipeline' object has no attribute 'success'"

  /** `run` as written: after every file is processed the statistics step
      raises, so the report is neither saved nor printed and the image
      temp directory is not removed. */
  function RunPipelineAsWritten(dirs: Dirs, knowledge: Option<seq<StoredFile>>, listing: seq<DirEntry>,
                                filter: Option<string>, dryRun: bool, oracle: string -> FileOracle): (r: Step)
    ensures r.st.report.inputFiles == |DiscoverFiles(Some(listing), filter)|
    ensures r.Done? <==> |DiscoverFiles(Some(listing), filter)| == 0 || dryRun
  {
    RunDiscoveredAsWritten(dirs, knowledge, DiscoverFiles(Some(listing), filter), dryRun, oracle)
  }

  /** `run` as written, from the discovered files on. */
  function RunDiscoveredAsWritten(dirs: Dirs, knowledge: Option<seq<StoredFile>>, files: seq<string>,
                                  dryRun: bool, oracle: string -> FileOracle): (r: Step)
    ensures r.st.report.inputFiles == |files|
    ensures r.Done? <==> |files| == 0 || dryRun
  {
    var st := PState(dirs, knowledge, EmptyReport.(inputFiles := |files|));
    if |files| == 0 || dryRun then Done(st)
    else
      StepGrowth(st, files, oracle);
      match RunFiles(st, files, oracle)
      case Escaped(s, m) => Escaped(s, m)
      case Done(s) => Escaped(s, NoSuccessAttribute)
  }

  /** `run` with the statistics read from the report (`self.report.success`),
      as the report's own counters are: discover, stop early on no files
      or a dry run, otherwise process every file and compute the stats. */
  function RunPipeline(dirs: Dirs, knowledge: Option<seq<StoredFile>>, listing: seq<DirEntry>,
                       filter: Option<string>, dryRun: bool, oracle: string -> FileOracle): (r: Step)
    ensures r.st.report.inputFiles == |DiscoverFiles(Some(listing), filter)|
    ensures dryRun ==> r.Done? && r.st.dirs == dirs && r.st.knowledge == knowledge && Recorded(r.st.report) == 0
  {
    RunDiscovered(dirs, knowledge, DiscoverFiles(Some(listing), filter), dryRun, oracle)
  }

  /** The corrected `run`, from the discovered files on. */
  function RunDiscovered(dirs: Dirs, knowledge: Option<seq<StoredFile>>, files: seq<string>,
                         dryRun: bool, oracle: string -> FileOracle): (r: Step)
    ensures r.st.report.inputFiles == |files|
    ensures dryRun ==> r.Done? && r.st.dirs == dirs && r.st.knowledge == knowledge && Recorded(r.st.report) == 0
  {
    var st := PState(dirs, knowledge, EmptyReport.(inputFiles := |files|));
    if |files| == 0 || dryRun then Done(st)
    else
      StepGrowth(st, files, oracle);
      match RunFiles(st, files, oracle)
      case Escaped(s, m) => Escaped(s, m)
      case Done(s) => Done(s.(report := s.report.(stats := ComputeStats(s.report.success))))
  }

  /** With every file-system operation succeeding, each of a list of
      distinct fresh files is accounted for once and settles. */
  lemma {:induction false} RunSettles(st: PState, files: seq<string>, oracle: string -> FileOracle)
    requires Distinct(files)
    requires forall i :: 0 <= i < |files| ==> Smooth(oracle(files[i])) && Fresh(st.dirs, files[i])
    ensures var r := RunFiles(st, files, oracle);
            && r.Done?
            && Recorded(r.st.report) == Recorded(st.report) + |files|
            && Extends(st.report, r.st.report)
            && (forall i :: 0 <= i < |files| ==> Settled(r.st.dirs, files[i]))
    decreases |files|
  {
    if |files| > 0 {
      var f := files[0];
      StepSettles(st, f, oracle(f));
      var s := ProcessSingleFile(st, f, oracle(f)).st;
      var rest := files[1..];
      RestReady(st.dirs, s.dirs, files, oracle);
      RunSettles(s, rest, oracle);
      RunFirst(st, files, oracle);
      var r := RunFiles(s, rest, oracle);
      RunFrame(s, rest, oracle, f);
      AllSettled(s.dirs, r.st.dirs, files);
    }
  }

  /** After the first file's step, the remaining files are still distinct,
      fresh and smooth. */
  lemma RestReady(d: Dirs, e: Dirs, files: seq<string>, oracle: string -> FileOracle)
    requires |files| > 0 && Distinct(files)
    requires forall i :: 0 <= i < |files| ==> Smooth(oracle(files[i])) && Fresh(d, files[i])
    requires forall g :: g != files[0] ==> SameFor(d, e, g)
    ensures Distinct(files[1..])
    ensures forall i :: 0 <= i < |files| - 1 ==> Smooth(oracle(files[1..][i])) && Fresh(e, files[1..][i])
  {
    var rest := files[1..];
    forall i | 0 <= i < |rest| ensures Smooth(oracle(rest[i])) && Fresh(e, rest[i]) {
      assert rest[i] == files[i + 1];
      assert SameFor(d, e, rest[i]);
    }
    forall i, j | 0 <= i < j < |rest| ensures rest[i] != rest[j] {
      assert rest[i] == files[i + 1] && rest[j] == files[j + 1];
    }
  }

  /** A first step that does not escape hands its state to the rest of the run. */
  lemma RunFirst(st: PState, files: seq<string>, oracle: string -> FileOracle)
    requires |files| > 0 && ProcessSingleFile(st, files[0], oracle(files[0])).Done?
    ensures RunFiles(st, files, oracle) == RunFiles(ProcessSingleFile(st, files[0], oracle(files[0])).st, files[1..], oracle)
  {
  }

  /** The first file settled and kept its place; the rest settled. */
  lemma AllSettled(d: Dirs, e: Dirs, files: seq<string>)
    requires |files| > 0 && Settled(d, files[0]) && SameFor(d, e, files[0])
    requires forall i :: 0 <= i < |files| - 1 ==> Settled(e, files[1..][i])
    ensures forall i :: 0 <= i < |files| ==> Settled(e, files[i])
  {
    forall i | 0 <= i < |files| ensures Settled(e, files[i]) {
      if i > 0 {
        assert files[i] == files[1..][i - 1];
      }
    }
  }

  /** A run leaves alone every name it is not given. */
  lemma {:induction false} RunFrame(st: PState, files: seq<string>, oracle: string -> FileOracle, g: string)
    requires g !in files
    ensures SameFor(st.dirs, RunFiles(st, files, oracle).st.dirs, g)
    decreases |files|
  {
    if |files| > 0 {
      var step := ProcessSingleFile(st, files[0], oracle(files[0]));
      StepFrameFor(st, files[0], oracle(files[0]), g);
      if step.Done? {
        assert g !in files[1..];
        RunFrame(step.st, files[1..], oracle, g);
        assert RunFiles(st, files, oracle) == RunFiles(step.st, files[1..], oracle);
      } else {
        assert RunFiles(st, files, oracle) == step;
      }
    }
  }

  lemma StepFrameFor(st: PState, fname: string, o: FileOracle, g: string)
    requires g != fname
    ensures SameFor(st.dirs, ProcessSingleFile(st, fname, o).st.dirs, g)
  {
    StepFrame(st, fname, o);
  }

  /** A run in which every file-system operation succeeds, over an input
      directory whose wanted entries are distinct files found nowhere else,
      accounts for every discovered file exactly once in the report's
      counts, leaves each one in exactly one of completed/ and failed/,
      and its statistics count every successful entry. */
  lemma RunAccountsForEveryFile(dirs: Dirs, knowledge: Option<seq<StoredFile>>, listing: seq<DirEntry>,
                                filter: Option<string>, oracle: string -> FileOracle)
    requires DistinctBy(listing, EntryName)
    requires forall e :: e in listing && Wanted(filter, e) ==> Fresh(dirs, e.name)
    requires forall e :: e in listing && Wanted(filter, e) ==> Smooth(oracle(e.name))
    ensures var files := DiscoverFiles(Some(listing), filter);
            var r := RunPipeline(dirs, knowledge, listing, filter, false, oracle);
            var d := ToDict(r.st.report);
            && r.Done?
            && d.inputFiles == |files|
            && d.results.success + d.results.failed + d.results.skippedDuplicate == |files|
            && d.results.manualReview <= d.results.success
            && Total(d.stats.byCategory) == d.results.success
            && (forall i :: 0 <= i < |files| ==> Settled(r.st.dirs, files[i]))
  {
    DiscoveredReady(dirs, listing, filter, oracle);
    DiscoveredAccounts(dirs, knowledge, DiscoverFiles(Some(listing), filter), oracle);
  }

  /** The discovered files of such a directory are distinct, fresh and smooth. */
  lemma DiscoveredReady(dirs: Dirs, listing: seq<DirEntry>, filter: Option<string>, oracle: string -> FileOracle)
    requires DistinctBy(listing, EntryName)
    requires forall e :: e in listing && Wanted(filter, e) ==> Fresh(dirs, e.name)
    requires forall e :: e in listing && Wanted(filter, e) ==> Smooth(oracle(e.name))
    ensures var files := DiscoverFiles(Some(listing), filter);
            Distinct(files) && forall i :: 0 <= i < |files| ==> Smooth(oracle(files[i])) && Fresh(dirs, files[i])
  {
    var files := DiscoverFiles(Some(listing), filter);
    forall i | 0 <= i < |files| ensures Smooth(oracle(files[i])) && Fresh(dirs, files[i]) {
      var e :| e in listing && Wanted(filter, e) && e.name == files[i];
    }
  }

  /** The corrected run over distinct fresh smooth files accounts for each. */
  lemma DiscoveredAccounts(dirs: Dirs, knowledge: Option<seq<StoredFile>>, files: seq<string>, oracle: string -> FileOracle)
    requires Distinct(files) && forall i :: 0 <= i < |files| ==> Smooth(oracle(files[i])) && Fresh(dirs, files[i])
    ensures var r := RunDiscovered(dirs, knowledge, files, false, oracle);
            var d := ToDict(r.st.report);
            && r.Done?
            && d.inputFiles == |files|
            && d.results.success + d.results.failed + d.results.skippedDuplicate == |files|
            && d.results.manualReview <= d.results.success
            && Total(d.stats.byCategory) == d.results.success
            && (forall i :: 0 <= i < |files| ==> Settled(r.st.dirs, files[i]))
  {
    var st := PState(dirs, knowledge, EmptyReport.(inputFiles := |files|));
    if |files| > 0 {
      RunSettles(st, files, oracle);
      RunReviews(st, files, oracle);
    }
  }

  /** As written, the same smooth run processes and settles every file and
      then raises from the statistics step, leaving the statistics empty;
      the corrected run ends with the same directories and report apart
      from the statistics. */
  lemma AsWrittenRunRaises(dirs: Dirs, knowledge: Option<seq<StoredFile>>, listing: seq<DirEntry>,
                           filter: Option<string>, oracle: string -> FileOracle)
    requires DistinctBy(listing, EntryName)
    requires forall e :: e in listing && Wanted(filter, e) ==> Fresh(dirs, e.name)
    requires forall e :: e in listing && Wanted(filter, e) ==> Smooth(oracle(e.name))
    requires |DiscoverFiles(Some(listing), filter)| > 0
    ensures var files := DiscoverFiles(Some(listing), filter);
            var w := RunPipelineAsWritten(dirs, knowledge, listing, filter, false, oracle);
            var r := RunPipeline(dirs, knowledge, listing, filter, false, oracle);
            && w.Escaped? && w.message == NoSuccessAttribute
            && w.st.report.stats == Stats([], [])
            && (forall i :: 0 <= i < |files| ==> Settled(w.st.dirs, files[i]))
            && r.Done? && r.st.dirs == w.st.dirs && r.st.knowledge == w.st.knowledge
            && r.st.report == w.st.report.(stats := ComputeStats(w.st.report.success))
  {
    DiscoveredReady(dirs, listing, filter, oracle);
    DiscoveredRaises(dirs, knowledge, DiscoverFiles(Some(listing), filter), oracle);
  }

  lemma DiscoveredRaises(dirs: Dirs, knowledge: Option<seq<StoredFile>>, files: seq<string>, oracle: string -> FileOracle)
    requires |files| > 0
    requires Distinct(files) && forall i :: 0 <= i < |files| ==> Smooth(oracle(files[i])) && Fresh(dirs, files[i])
    ensures var w := RunDiscoveredAsWritten(dirs, knowledge, files, false, oracle);
            var r := RunDiscovered(dirs, knowledge, files, false, oracle);
            && w.Escaped? && w.message == NoSuccessAttribute
            && w.st.report.stats == Stats([], [])
            && (forall i :: 0 <= i < |files| ==> Settled(w.st.dirs, files[i]))
            && r.Done? && r.st.dirs == w.st.dirs && r.st.knowledge == w.st.knowledge
            && r.st.report == w.st.report.(stats := ComputeStats(w.st.report.success))
  {
    var st := PState(dirs, knowledge, EmptyReport.(inputFiles := |files|));
    RunSettles(st, files, oracle);
  }

  /** Across a run, review entries never outnumber new successes. */
  lemma {:induction false} RunReviews(st: PState, files: seq<string>, oracle: string -> FileOracle)
    ensures var r := RunFiles(st, files, oracle);
            |r.st.report.manualReview| - |st.report.manualReview| <= |r.st.report.success| - |st.report.success|
    decreases |files|
  {
    if |files| > 0 {
      StepFrame(st, files[0], oracle(files[0]));
      var step := ProcessSingleFile(st, files[0], oracle(files[0]));
      if step.Done? {
        RunReviews(step.st, files[1..], oracle);
        StepGrowth(step.st, files[1..], oracle);
      }
    }
  }

  /** A run's report extends the report it started from. */
  lemma {:induction false} StepGrowth(st: PState, files: seq<string>, oracle: string -> FileOracle)
    ensures Extends(st.report, RunFiles(st, files, oracle).st.report)
    decreases |files|
  {
    if |files| > 0 {
      StepFrame(st, files[0], oracle(files[0]));
      var step := ProcessSingleFile(st, files[0], oracle(files[0]));
      if step.Done? {
        StepGrowth(step.st, files[1..], oracle);
      }
    }
  }
}

=== FILE: processor.dfy ===
/** The tabular knowledge base: reading the table through a dictionary
    reader, mapping rows to entries, validation of entries, filtering by
    category and priority, and per-priority and per-category statistics. */
module Processor {
  import opened Wrappers
  import opened Text
  import opened Lists

  const Categories: seq<string> := ["法人保険", "ドクターマーケット", "相続", "営業マインド", "営業スキル", "コンプライアンス"]
  const Priorities: seq<string> := ["高", "中", "低"]

  /** The columns every entry needs; a row without one is skipped. */
  const Required: seq<string> := ["ID", "カテゴリ", "サブカテゴリ", "質問/トピック", "回答/内容", "出典"]
  const TagsColumn := "言い回しタグ"

  /** What splitting a `None` tag cell raises; nothing catches it. */
  const NoneSplit := "AttributeError: 'NoneType' object has no attribute 'split'"

  /** A cell as the dictionary reader yields it: the line's text, or `None`
      for a header column the line is too short to reach. */
  datatype Value = Text(text: string) | Null

  /** Python truthiness: `None` and the empty string are false. */
  predicate Blank(v: Value)
  {
    v.Null? || |v.text| == 0
  }

  /** The cell as an f-string renders it. */
  function Show(v: Value): string
  {
    if v.Null? then "None" else v.text
  }

  /** The cell is one of the given strings; `None` never is. */
  predicate OneOf(v: Value, allowed: seq<string>)
  {
    v.Text? && v.text in allowed
  }

  /** An entry. The fields read from cells keep the reader's `None`, which
      the entry class does not reject. */
  datatype Entry = Entry(
    id: Value,
    category: Value,
    subCategory: Value,
    topic: Value,
    answer: Value,
    source: Value,
    expressionTags: seq<string>,
    emotionTag: Value,
    priority: Value)

  // ---------------------------------------------------------------------
  // Reading the table
  // ---------------------------------------------------------------------

  /** A row as the dictionary reader yields it, keyed by header column. */
  type Row = seq<(string, Value)>

  function Cell(row: Row, column: string): Option<Value>
  {
    Lookup(row, column)
  }

  /** The value each header column receives from a line. */
  function LineValues(header: seq<string>, line: seq<string>): (vs: seq<Value>)
    ensures |vs| == |header|
  {
    seq(|header|, i requires 0 <= i < |header| => if i < |line| then Text(line[i]) else Null)
  }

  /** One data line read against the header: the header zipped with the
      line, then every column past the line's end set to `None`, as one
      dictionary assignment per column in header order. Cells past the
      header go under a key that is not a string and are not kept. */
  function ReadRow(header: seq<string>, line: seq<string>): Row
  {
    AssignAll(header, LineValues(header, line))
  }

  /** A row has exactly the header's columns. */
  lemma ReadRowHas(header: seq<string>, line: seq<string>, c: string)
    ensures Cell(ReadRow(header, line), c).Some? <==> c in header
  {
    AssignAllKeys(header, LineValues(header, line));
    LookupKeys(ReadRow(header, line), c);
    DedupMember(header, c);
  }

  /** A column takes the cell at its last position in the header, or
      `None` when the line stops before that position. */
  lemma ReadRowCell(header: seq<string>, line: seq<string>, j: nat)
    requires j < |header|
    requires forall l :: j < l < |header| ==> header[l] != header[j]
    ensures Cell(ReadRow(header, line), header[j]) == Some(if j < |line| then Text(line[j]) else Null)
  {
    AssignAllLast(header, LineValues(header, line), j);
  }

  /** The comma-separated pieces of a tag cell, stripped, blanks dropped. */
  function SplitTags(cell: string): (tags: seq<string>)
    ensures forall i :: 0 <= i < |tags| ==> |tags[i]| > 0 && ',' !in tags[i]
    ensures forall i :: 0 <= i < |tags| ==> !IsSpace(tags[i][0]) && !IsSpace(tags[i][|tags[i]| - 1])
  {
    StrippedPieces(Split(cell, ','))
  }

  function StrippedPieces(pieces: seq<string>): (tags: seq<string>)
    requires forall i :: 0 <= i < |pieces| ==> ',' !in pieces[i]
    ensures |tags| <= |pieces|
    ensures forall i :: 0 <= i < |tags| ==> |tags[i]| > 0 && ',' !in tags[i]
    ensures forall i :: 0 <= i < |tags| ==> !IsSpace(tags[i][0]) && !IsSpace(tags[i][|tags[i]| - 1])
  {
    if |pieces| == 0 then []
    else
      var t := Strip(pieces[0]);
      (if |t| > 0 then [t] else []) + StrippedPieces(pieces[1..])
  }

  /** A row that has every required column, whatever its cells hold. */
  predicate Complete(row: Row)
  {
    Cell(row, "ID").Some? && Cell(row, "カテゴリ").Some? && Cell(row, "サブカテゴリ").Some? &&
    Cell(row, "質問/トピック").Some? && Cell(row, "回答/内容").Some? && Cell(row, "出典").Some?
  }

  /** A header naming every required column. */
  predicate HeaderComplete(header: seq<string>)
  {
    forall c :: c in Required ==> c in header
  }

  /** Every row of a table is complete exactly when its header is: a
      missing column skips every row, never just some. */
  lemma CompleteByHeader(header: seq<string>, line: seq<string>)
    ensures Complete(ReadRow(header, line)) <==> HeaderComplete(header)
  {
    ReadRowHas(header, line, "ID");
    ReadRowHas(header, line, "カテゴリ");
    ReadRowHas(header, line, "サブカテゴリ");
    ReadRowHas(header, line, "質問/トピック");
    ReadRowHas(header, line, "回答/内容");
    ReadRowHas(header, line, "出典");
  }

  /** What happens to one row: an entry, skipped with a warning for a
      missing required column, or an exception that ends the load. */
  datatype Outcome = Made(entry: Entry) | Skipped | Raised(error: string)

  /** One row as an entry. The required columns are read first, so a
      missing one skips the row before the tag cell is looked at; an absent
      tag column means no tags, a `None` tag cell raises. The emotion tag
      defaults to empty and the priority to "中" only when their columns
      are absent; a `None` cell is kept. */
  function MapRow(row: Row): (r: Outcome)
    ensures r.Skipped? <==> !Complete(row)
    ensures r.Raised? <==> Complete(row) && Cell(row, TagsColumn) == Some(Null)
    ensures r.Raised? ==> r.error == NoneSplit
    ensures r.Made? ==> Cell(row, "ID") == Some(r.entry.id) && Cell(row, "カテゴリ") == Some(r.entry.category)
    ensures r.Made? ==> Cell(row, "サブカテゴリ") == Some(r.entry.subCategory) && Cell(row, "出典") == Some(r.entry.source)
    ensures r.Made? ==> Cell(row, "質問/トピック") == Some(r.entry.topic) && Cell(row, "回答/内容") == Some(r.entry.answer)
    ensures r.Made? ==> r.entry.priority == Cell(row, "優先度").GetOr(Text("中"))
    ensures r.Made? ==> r.entry.emotionTag == Cell(row, "感情タグ").GetOr(Text(""))
    ensures r.Made? && Cell(row, TagsColumn).None? ==> r.entry.expressionTags == []
    ensures r.Made? && Cell(row, TagsColumn).Some? ==>
      Cell(row, TagsColumn).value.Text? && r.entry.expressionTags == SplitTags(Cell(row, TagsColumn).value.text)
  {
    var id := Cell(row, "ID");
    var cat := Cell(row, "カテゴリ");
    var sub := Cell(row, "サブカテゴリ");
    var topic := Cell(row, "質問/トピック");
    var answer := Cell(row, "回答/内容");
    var source := Cell(row, "出典");
    if id.None? || cat.None? || sub.None? || topic.None? || answer.None? || source.None? then Skipped
    else
      match Cell(row, TagsColumn).GetOr(Text(""))
      case Null => Raised(NoneSplit)
      case Text(tags) =>
        assert Cell(row, TagsColumn).None? ==> Split(tags, ',') == [""];
        Made(Entry(id.value, cat.value, sub.value, topic.value, answer.value, source.value,
                   SplitTags(tags),
                   Cell(row, "感情タグ").GetOr(Text("")),
                   Cell(row, "優先度").GetOr(Text("中"))))
  }

  /** The data lines in order: a blank line is passed over, a row missing a
      required column is skipped, and the first `None` tag cell ends the
      load with no entries at all. */
  function LoadLines(header: seq<string>, lines: seq<seq<string>>): (r: Result<seq<Entry>, string>)
    ensures r.Success? ==> |r.value| <= |lines|
    ensures r.Failure? ==> r.error == NoneSplit
  {
    if |lines| == 0 then Success([])
    else if |lines[0]| == 0 then LoadLines(header, lines[1..])
    else
      match MapRow(ReadRow(header, lines[0]))
      case Raised(error) => Failure(error)
      case Skipped => LoadLines(header, lines[1..])
      case Made(e) =>
        match LoadLines(header, lines[1..])
        case Failure(error) => Failure(error)
        case Success(es) => Success([e] + es)
  }

  /** Loading a table: a missing file raises; the first line is the
      header, and an empty file has no rows. */
  function LoadKnowledgeCsv(path: string, present: bool, table: seq<seq<string>>): (r: Result<seq<Entry>, string>)
    ensures !present ==> r == Failure("ナレッジベースファイルが見つかりません: " + path)
    ensures present && |table| <= 1 ==> r == Success([])
  {
    if !present then Failure("ナレッジベースファイルが見つかりません: " + path)
    else if |table| == 0 then Success([])
    else LoadLines(table[0], table[1..])
  }

  /** What one non-blank line turns into. */
  function RowOutcome(header: seq<string>, line: seq<string>): Outcome
  {
    MapRow(ReadRow(header, line))
  }

  /** Reference: some non-blank line raises. */
  predicate Aborts(header: seq<string>, lines: seq<seq<string>>)
  {
    exists i :: 0 <= i < |lines| && |lines[i]| > 0 && RowOutcome(header, lines[i]).Raised?
  }

  /** Reference: the entry a line contributes, if any. */
  function MadeEntry(header: seq<string>): seq<string> -> Option<Entry>
  {
    (line: seq<string>) =>
      if |line| > 0 && RowOutcome(header, line).Made? then Some(RowOutcome(header, line).entry) else None
  }

  /** The load fails exactly when some non-blank line raises, and otherwise
      yields the entries of the lines that make one, in order. */
  lemma {:induction false} LoadLinesExact(header: seq<string>, lines: seq<seq<string>>)
    ensures LoadLines(header, lines) ==
      if Aborts(header, lines) then Failure(NoneSplit) else Success(FilterMap(lines, MadeEntry(header)))
  {
    if |lines| > 0 {
      LoadLinesExact(header, lines[1..]);
      AbortsCons(header, lines);
    }
  }

  lemma AbortsCons(header: seq<string>, lines: seq<seq<string>>)
    requires |lines| > 0
    ensures Aborts(header, lines) <==>
      (|lines[0]| > 0 && RowOutcome(header, lines[0]).Raised?) || Aborts(header, lines[1..])
  {
    if Aborts(header, lines) {
      var i :| 0 <= i < |lines| && |lines[i]| > 0 && RowOutcome(header, lines[i]).Raised?;
      if i > 0 { assert lines[1..][i - 1] == lines[i]; }
    }
    if Aborts(header, lines[1..]) {
      var i :| 0 <= i < |lines[1..]| && |lines[1..][i]| > 0 && RowOutcome(header, lines[1..][i]).Raised?;
      assert lines[i + 1] == lines[1..][i];
    }
  }

  /** A header without some required column loads no entries and never
      raises: every row is skipped. */
  lemma {:induction false} HeaderLacksColumn(header: seq<string>, lines: seq<seq<string>>)
    requires !HeaderComplete(header)
    ensures LoadLines(header, lines) == Success([])
  {
    if |lines| > 0 {
      CompleteByHeader(header, lines[0]);
      HeaderLacksColumn(header, lines[1..]);
    }
  }

  /** With a complete header, a non-blank line too short to reach the
      (last) tag column makes the whole load fail. */
  lemma ShortLineAborts(header: seq<string>, lines: seq<seq<string>>, i: nat, k: nat)
    requires HeaderComplete(header)
    requires i < |lines| && 0 < |lines[i]| <= k < |header|
    requires header[k] == TagsColumn && forall l :: k < l < |header| ==> header[l] != TagsColumn
    ensures LoadLines(header, lines) == Failure(NoneSplit)
  {
    CompleteByHeader(header, lines[i]);
    ReadRowCell(header, lines[i], k);
    LoadLinesExact(header, lines);
  }

  /** With a complete header and a load that succeeds, every non-blank line
      gives exactly one entry, in order. */
  lemma LoadKeepsEveryLine(header: seq<string>, lines: seq<seq<string>>)
    requires HeaderComplete(header) && LoadLines(header, lines).Success?
    ensures |LoadLines(header, lines).value| == |Filter(lines, NonBlank)|
    ensures forall j :: 0 <= j < |lines| && |lines[j]| > 0 ==>
      RowOutcome(header, lines[j]).Made? && RowOutcome(header, lines[j]).entry in LoadLines(header, lines).value
  {
    LoadLinesExact(header, lines);
    forall j | 0 <= j < |lines|
      ensures NonBlank(lines[j]) == Makes(header)(lines[j])
    {
      CompleteByHeader(header, lines[j]);
    }
    FilterAgree(lines, NonBlank, Makes(header));
    FilterMapLength(lines, MadeEntry(header), Makes(header));
    FilterMapExact(lines, MadeEntry(header));
  }

  function NonBlank(line: seq<string>): bool
  {
    |line| > 0
  }

  function Makes(header: seq<string>): seq<string> -> bool
  {
    (line: seq<string>) => MadeEntry(header)(line).Some?
  }

  // ---------------------------------------------------------------------
  // Validation
  // ---------------------------------------------------------------------

  /** Reference: an entry the validator accepts. */
  predicate Valid(e: Entry)
  {
    !Blank(e.id) && OneOf(e.category, Categories) && OneOf(e.priority, Priorities) &&
    !Blank(e.topic) && !Blank(e.answer) && !Blank(e.source)
  }

  function Check(fails: bool, message: string): seq<string>
  {
    if fails then [message] else []
  }

  /** The validation messages of an entry, one per violated rule, in the
      fixed rule order. */
  function ValidateEntry(e: Entry): (errors: seq<string>)
    ensures errors == [] <==> Valid(e)
    ensures |errors| == Violations(e)
  {
    Check(Blank(e.id), "IDが空です") +
    Check(!OneOf(e.category, Categories), "無効なカテゴリ: " + Show(e.category)) +
    Check(!OneOf(e.priority, Priorities), "無効な優先度: " + Show(e.priority)) +
    Check(Blank(e.topic), "質問/トピックが空です") +
    Check(Blank(e.answer), "回答/内容が空です") +
    Check(Blank(e.source), "出典が空です")
  }

  /** Reference: the number of rules an entry breaks. */
  function Violations(e: Entry): nat
  {
    (if Blank(e.id) then 1 else 0) + (if !OneOf(e.category, Categories) then 1 else 0) +
    (if !OneOf(e.priority, Priorities) then 1 else 0) + (if Blank(e.topic) then 1 else 0) +
    (if Blank(e.answer) then 1 else 0) + (if Blank(e.source) then 1 else 0)
  }

  /** The messages for the failing entries, keyed by entry id in order of
      first appearance; a later failing entry with the same id replaces
      the earlier messages. */
  function ValidateKnowledgeBase(entries: seq<Entry>): (d: seq<(Value, seq<string>)>)
    ensures Distinct(Keys(d))
    ensures forall i :: 0 <= i < |d| ==> |d[i].1| > 0
  {
    FailuresBy(entries, ValidateEntry)
  }

  /** The dictionary of `check`'s non-empty outcomes by entry id. */
  function FailuresBy(entries: seq<Entry>, check: Entry -> seq<string>): (d: seq<(Value, seq<string>)>)
    ensures Distinct(Keys(d))
    ensures forall i :: 0 <= i < |d| ==> |d[i].1| > 0
  {
    if |entries| == 0 then []
    else
      var d := FailuresBy(entries[..|entries| - 1], check);
      var e := entries[|entries| - 1];
      var errors := check(e);
      if |errors| > 0 then AssignKeeps(d, e.id, errors) else d
  }

  /** `Assign` keeping a property every value already has. */
  function AssignKeeps(d: seq<(Value, seq<string>)>, k: Value, v: seq<string>): (r: seq<(Value, seq<string>)>)
    requires |v| > 0 && Distinct(Keys(d)) && forall i :: 0 <= i < |d| ==> |d[i].1| > 0
    ensures r == Assign(d, k, v)
    ensures Distinct(Keys(r)) && forall i :: 0 <= i < |r| ==> |r[i].1| > 0
  {
    AssignValues(d, k, v);
    Assign(d, k, v)
  }

  lemma {:induction false} AssignValues(d: seq<(Value, seq<string>)>, k: Value, v: seq<string>)
    requires |v| > 0 && forall i :: 0 <= i < |d| ==> |d[i].1| > 0
    ensures forall i :: 0 <= i < |Assign(d, k, v)| ==> |Assign(d, k, v)[i].1| > 0
  {
    if |d| > 0 && d[0].0 != k {
      AssignValues(d[1..], k, v);
    }
  }

  /** Reference: the outcome of the last entry with id `k` that `check`
      rejects. */
  function LastFailure(entries: seq<Entry>, check: Entry -> seq<string>, k: Value): Option<seq<string>>
  {
    if |entries| == 0 then None
    else
      var e := entries[|entries| - 1];
      if e.id == k && check(e) != [] then Some(check(e))
      else LastFailure(entries[..|entries| - 1], check, k)
  }

  lemma {:induction false} FailuresByExact(entries: seq<Entry>, check: Entry -> seq<string>, k: Value)
    ensures Lookup(FailuresBy(entries, check), k) == LastFailure(entries, check, k)
    ensures FailuresBy(entries, check) == [] <==> forall i :: 0 <= i < |entries| ==> check(entries[i]) == []
  {
    if |entries| > 0 {
      var init := entries[..|entries| - 1];
      var e := entries[|entries| - 1];
      FailuresByExact(init, check, k);
      if check(e) != [] && e.id != k {
        AssignOther(FailuresBy(init, check), e.id, check(e), k);
      }
      if check(e) != [] {
        assert Lookup(FailuresBy(entries, check), e.id).Some?;
      }
      if forall i :: 0 <= i < |entries| ==> check(entries[i]) == [] {
        forall i | 0 <= i < |init| ensures check(init[i]) == [] { assert init[i] == entries[i]; }
      }
      if FailuresBy(entries, check) == [] {
        forall i | 0 <= i < |entries| ensures check(entries[i]) == [] {
          if i < |init| { assert entries[i] == init[i]; }
        }
      }
    }
  }

  /** Reference: the messages of the last invalid entry with id `k`. */
  function LastErrors(entries: seq<Entry>, k: Value): Option<seq<string>>
  {
    if |entries| == 0 then None
    else
      var e := entries[|entries| - 1];
      if e.id == k && !Valid(e) then Some(ValidateEntry(e))
      else LastErrors(entries[..|entries| - 1], k)
  }

  lemma {:induction false} LastErrorsAgree(entries: seq<Entry>, k: Value)
    ensures LastFailure(entries, ValidateEntry, k) == LastErrors(entries, k)
  {
    if |entries| > 0 {
      LastErrorsAgree(entries[..|entries| - 1], k);
    }
  }

  /** Each id maps to the messages of the last invalid entry carrying it,
      and the result is empty exactly when every entry is valid. */
  lemma ValidateKnowledgeBaseExact(entries: seq<Entry>, k: Value)
    ensures Lookup(ValidateKnowledgeBase(entries), k) == LastErrors(entries, k)
    ensures ValidateKnowledgeBase(entries) == [] <==> forall i :: 0 <= i < |entries| ==> Valid(entries[i])
  {
    FailuresByExact(entries, ValidateEntry, k);
    LastErrorsAgree(entries, k);
  }

  // ---------------------------------------------------------------------
  // Filtering and statistics
  // ---------------------------------------------------------------------

  /** The entries of a category, and of a priority when a non-empty one is
      given, in their original order. */
  function EntriesByCategory(entries: seq<Entry>, category: string, priority: Option<string>): (r: seq<Entry>)
    ensures |r| <= |entries|
    ensures forall e :: e in r <==> (e in entries && e.category == Text(category) &&
      (priority.None? || |priority.value| == 0 || e.priority == Text(priority.value)))
  {
    var filtered := Filter(entries, (e: Entry) => e.category == Text(category));
    if priority.Some? && |priority.value| > 0 then Filter(filtered, (e: Entry) => e.priority == Text(priority.value))
    else filtered
  }

  lemma {:induction false} FilterFilter<T>(s: seq<T>, f: T -> bool, g: T -> bool, both: T -> bool)
    requires forall x :: both(x) == (f(x) && g(x))
    ensures Filter(Filter(s, f), g) == Filter(s, both)
  {
    if |s| > 0 {
      FilterFilter(s[1..], f, g, both);
      assert both(s[0]) == (f(s[0]) && g(s[0]));
      if f(s[0]) {
        assert Filter(s, f) == [s[0]] + Filter(s[1..], f);
        assert Filter(s, f)[1..] == Filter(s[1..], f);
      } else {
        assert Filter(s, f) == Filter(s[1..], f);
      }
    }
  }

  /** The category-then-priority filter is the one-pass order-preserving
      filter by both conditions. */
  lemma EntriesByCategoryOnePass(entries: seq<Entry>, category: string, p: string)
    requires |p| > 0
    ensures EntriesByCategory(entries, category, Some(p)) ==
      Filter(entries, (e: Entry) => e.category == Text(category) && e.priority == Text(p))
  {
    FilterFilter(entries, (e: Entry) => e.category == Text(category), (e: Entry) => e.priority == Text(p),
      (e: Entry) => e.category == Text(category) && e.priority == Text(p));
  }

  function CountWhere(entries: seq<Entry>, f: Entry -> bool): nat
  {
    |Filter(entries, f)|
  }

  function WithPriority(p: string): Entry -> bool { (e: Entry) => e.priority == Text(p) }
  function WithCategory(c: string): Entry -> bool { (e: Entry) => e.category == Text(c) }

  function CategoryStats(entries: seq<Entry>, cats: seq<string>): (t: seq<(string, nat)>)
    ensures |t| == |cats|
    ensures forall i :: 0 <= i < |cats| ==> t[i] == ("category_" + cats[i], CountWhere(entries, WithCategory(cats[i])))
  {
    if |cats| == 0 then []
    else [("category_" + cats[0], CountWhere(entries, WithCategory(cats[0])))] + CategoryStats(entries, cats[1..])
  }

  /** The statistics: the total, the three priority counts and one count
      per valid category, under their keys in this order. */
  function GenerateStats(entries: seq<Entry>): (t: seq<(string, nat)>)
    ensures |t| == 4 + |Categories|
    ensures t[0] == ("total", |entries|)
  {
    PriorityStats(entries) + CategoryStats(entries, Categories)
  }

  /** The total and the three priority counts. */
  function PriorityStats(entries: seq<Entry>): (t: seq<(string, nat)>)
    ensures |t| == 4 && t[0] == ("total", |entries|)
  {
    [("total", |entries|),
     ("priority_high", CountWhere(entries, WithPriority("高"))),
     ("priority_medium", CountWhere(entries, WithPriority("中"))),
     ("priority_low", CountWhere(entries, WithPriority("低")))]
  }

  lemma {:induction false} CountSplit(entries: seq<Entry>, f: Entry -> bool, g: Entry -> bool, h: Entry -> bool)
    requires forall i :: 0 <= i < |entries| ==>
      (if f(entries[i]) then 1 else 0) + (if g(entries[i]) then 1 else 0) + (if h(entries[i]) then 1 else 0) == 1
    ensures CountWhere(entries, f) + CountWhere(entries, g) + CountWhere(entries, h) == |entries|
  {
    if |entries| > 0 {
      CountSplit(entries[1..], f, g, h);
    }
  }

  /** Over valid entries the three priority counts add up to the total. */
  lemma PrioritiesAddUp(entries: seq<Entry>)
    requires forall i :: 0 <= i < |entries| ==> Valid(entries[i])
    ensures var t := GenerateStats(entries); t[1].1 + t[2].1 + t[3].1 == t[0].1
  {
    CountSplit(entries, WithPriority("高"), WithPriority("中"), WithPriority("低"));
  }

  function SumCounts(t: seq<(string, nat)>): nat
  {
    if |t| == 0 then 0 else t[0].1 + SumCounts(t[1..])
  }

  function InCategories(cats: seq<string>): Entry -> bool { (e: Entry) => OneOf(e.category, cats) }

  lemma {:induction false} CategoryCountsSum(entries: seq<Entry>, cats: seq<string>)
    requires Distinct(cats)
    ensures SumCounts(CategoryStats(entries, cats)) == CountWhere(entries, InCategories(cats))
  {
    if |cats| == 0 {
      FilterNone(entries, InCategories(cats));
    } else {
      CategoryCountsSum(entries, cats[1..]);
      assert cats == [cats[0]] + cats[1..];
      CountDisjoint(entries, InCategories(cats), WithCategory(cats[0]), InCategories(cats[1..]));
      assert CategoryStats(entries, cats)[1..] == CategoryStats(entries, cats[1..]);
    }
  }

  lemma {:induction false} CountDisjoint(entries: seq<Entry>, either: Entry -> bool, f: Entry -> bool, g: Entry -> bool)
    requires forall e :: either(e) == (f(e) || g(e))
    requires forall e :: !(f(e) && g(e))
    ensures CountWhere(entries, either) == CountWhere(entries, f) + CountWhere(entries, g)
  {
    if |entries| > 0 {
      CountDisjoint(entries[1..], either, f, g);
    }
  }

  lemma CategoriesDistinct()
    ensures Distinct(Categories)
  {
  }

  /** Over valid entries the per-category counts add up to the total. */
  lemma CategoriesAddUp(entries: seq<Entry>)
    requires forall i :: 0 <= i < |entries| ==> Valid(entries[i])
    ensures SumCounts(GenerateStats(entries)[4..]) == |entries|
  {
    var t := GenerateStats(entries);
    assert t[4..] == CategoryStats(entries, Categories);
    CategoriesDistinct();
    CategoryCountsSum(entries, Categories);
    assert forall x :: x in entries ==> InCategories(Categories)(x);
    FilterAll(entries, InCategories(Categories));
  }
}

=== FILE: profile.dfy ===
/** The user profile as system-prompt text: rendering of the stored
    profile into sections and the generation of answering guidelines. */
module Profile {
  import opened Wrappers
  import opened Text

  /** A topic's understanding entry: a record with optional level and
      evidence, or any other value, kept as its rendered text. */
  datatype LevelInfo = Detail(level: Option<string>, evidence: string) | Scalar(text: string)

  /** An unresolved-topic item: a record with an optional topic, or any
      other value, kept as its rendered text. */
  datatype Unresolved = TopicRecord(topic: Option<string>) | Other(text: string)

  datatype Behavior = Behavior(needsConcreteExamples: bool, tendsToDeepDive: bool, preferredInput: string)

  /** A decoded profile object; `None` fields are absent keys, and
      `otherKeys` records keys this rendering does not read. */
  datatype ProfileData = ProfileData(
    understanding: Option<seq<(string, LevelInfo)>>,
    behavior: Option<Behavior>,
    unresolved: Option<seq<Unresolved>>,
    otherKeys: bool)

  const Header := "## このユーザーについて"
  const UnderstandingHeader := "### 理解度"
  const BehaviorHeader := "### 行動傾向"
  const UnresolvedHeader := "### 過去に解決しなかった質問"
  const GuidelineHeader := "### 回答時の留意点"

  const JargonNote := "専門用語を使う際は簡単な説明を添えること"
  const NumbersNote := "可能な限り具体的な数値例を含めること"
  const AdvancedNote := "専門的な内容にも踏み込んで詳細に説明してよい"
  const ConcreteNote := "具体例や数値を交えた説明を優先すること"
  /** The phrase whose presence suppresses `ConcreteNote`. */
  const NumbersPhrase := "具体的な数値例を含めること"
  const UnresolvedPrefix := "過去に未解決の質問がある: "
  const UnresolvedSuffix := "。関連する質問には特に丁寧に回答すること"

  /** The empty object `{}`. */
  predicate Empty(p: ProfileData)
  {
    p.understanding.None? && p.behavior.None? && p.unresolved.None? && !p.otherKeys
  }

  function Entries(p: ProfileData): seq<(string, LevelInfo)>
  {
    p.understanding.GetOr([])
  }

  function Items(p: ProfileData): seq<Unresolved>
  {
    p.unresolved.GetOr([])
  }

  function Flags(p: ProfileData): Behavior
  {
    p.behavior.GetOr(Behavior(false, false, ""))
  }

  // ---------------------------------------------------------------------
  // Guidelines
  // ---------------------------------------------------------------------

  predicate BeginnerLevel(level: string)
  {
    Contains(level, "基礎") || Contains(level, "初心") || Contains(level, "学習中")
  }

  predicate AdvancedLevel(level: string)
  {
    Contains(level, "上級") || Contains(level, "実践") || Contains(level, "応用")
  }

  /** Some topic has a record whose level marks a beginner. */
  predicate HasBeginner(p: ProfileData)
  {
    exists i :: 0 <= i < |Entries(p)| && Entries(p)[i].1.Detail? && BeginnerLevel(Entries(p)[i].1.level.GetOr(""))
  }

  predicate HasAdvanced(p: ProfileData)
  {
    exists i :: 0 <= i < |Entries(p)| && Entries(p)[i].1.Detail? && AdvancedLevel(Entries(p)[i].1.level.GetOr(""))
  }

  function AnyLevel(es: seq<(string, LevelInfo)>, marks: string -> bool): (b: bool)
    ensures b <==> exists i :: 0 <= i < |es| && es[i].1.Detail? && marks(es[i].1.level.GetOr(""))
  {
    if |es| == 0 then false
    else
      (es[0].1.Detail? && marks(es[0].1.level.GetOr(""))) || (
        assert forall i :: 0 < i < |es| ==> es[i] == es[1..][i - 1];
        AnyLevel(es[1..], marks))
  }

  /** The topics named in the unresolved-topic guideline: those of the
      records among the first two items (missing topics as ""). */
  function NamedTopics(items: seq<Unresolved>): (ts: seq<string>)
    ensures |ts| <= |items|
  {
    if |items| == 0 then []
    else
      (match items[0] case TopicRecord(t) => [t.GetOr("")] case Other(_) => []) + NamedTopics(items[1..])
  }

  function LevelGuidelines(p: ProfileData): seq<string>
  {
    (if AnyLevel(Entries(p), BeginnerLevel) then [JargonNote, NumbersNote] else []) +
    (if AnyLevel(Entries(p), AdvancedLevel) then [AdvancedNote] else [])
  }

  function TopicGuidelines(p: ProfileData): seq<string>
  {
    var topics := NamedTopics(Take(Items(p), 2));
    if |topics| > 0 then [UnresolvedPrefix + Join(topics, ", ") + UnresolvedSuffix] else []
  }

  /** The answering guidelines: beginner, advanced, unresolved topics,
      then the concrete-examples note unless the numbers phrase already
      occurs in the guidelines so far. */
  function Guidelines(p: ProfileData): (g: seq<string>)
    ensures |g| <= 5
    ensures JargonNote in g <==> HasBeginner(p)
    ensures NumbersNote in g <==> HasBeginner(p)
    ensures AdvancedNote in g <==> HasAdvanced(p)
  {
    var before := LevelGuidelines(p) + TopicGuidelines(p);
    ConcreteDistinct();
    TopicGuidelineDistinct(TopicGuidelines(p));
    if Flags(p).needsConcreteExamples && !Contains(Join(before, ""), NumbersPhrase) then before + [ConcreteNote]
    else before
  }

  lemma ConcreteDistinct()
    ensures ConcreteNote != JargonNote && ConcreteNote != NumbersNote && ConcreteNote != AdvancedNote
    ensures JargonNote != AdvancedNote && NumbersNote != AdvancedNote
  {
    assert ConcreteNote[0] != JargonNote[0];
    assert ConcreteNote[1] != NumbersNote[1];
    assert ConcreteNote[0] != AdvancedNote[0];
    assert JargonNote[2] != AdvancedNote[2];
    assert NumbersNote[0] != AdvancedNote[0];
  }

  lemma TopicGuidelineDistinct(t: seq<string>)
    requires forall i :: 0 <= i < |t| ==> StartsWith(t[i], UnresolvedPrefix)
    ensures JargonNote !in t && NumbersNote !in t && AdvancedNote !in t
  {
    assert JargonNote[0] != UnresolvedPrefix[0];
    assert NumbersNote[0] != UnresolvedPrefix[0];
    assert AdvancedNote[0] != UnresolvedPrefix[0];
  }

  /** At most two topics are named, each the topic of one of the first
      two items. */
  lemma {:induction false} NamedTopicsBound(items: seq<Unresolved>)
    ensures |NamedTopics(Take(items, 2))| <= 2
    ensures forall t :: t in NamedTopics(Take(items, 2)) ==>
      exists i :: 0 <= i < 2 && i < |items| && items[i].TopicRecord? && items[i].topic.GetOr("") == t
  {
    var first := Take(items, 2);
    NamedTopicsFrom(first);
    forall t | t in NamedTopics(first)
      ensures exists i :: 0 <= i < 2 && i < |items| && items[i].TopicRecord? && items[i].topic.GetOr("") == t
    {
      var i :| 0 <= i < |first| && first[i].TopicRecord? && first[i].topic.GetOr("") == t;
      assert first[i] == items[i];
    }
  }

  lemma {:induction false} NamedTopicsFrom(items: seq<Unresolved>)
    ensures forall t :: t in NamedTopics(items) ==>
      exists i :: 0 <= i < |items| && items[i].TopicRecord? && items[i].topic.GetOr("") == t
  {
    if |items| > 0 {
      NamedTopicsFrom(items[1..]);
      forall t | t in NamedTopics(items)
        ensures exists i :: 0 <= i < |items| && items[i].TopicRecord? && items[i].topic.GetOr("") == t
      {
        if t !in NamedTopics(items[1..]) {
          assert items[0].TopicRecord? && items[0].topic.GetOr("") == t;
        } else {
          var i :| 0 <= i < |items[1..]| && items[1..][i].TopicRecord? && items[1..][i].topic.GetOr("") == t;
          assert items[i + 1] == items[1..][i];
        }
      }
    }
  }

  lemma ContainsWithin(big: string, mid: string, small: string)
    requires Contains(big, mid) && Contains(mid, small)
    ensures Contains(big, small)
  {
    var i :| 0 <= i <= |big| - |mid| && OccursAt(big, mid, i);
    var j :| 0 <= j <= |mid| - |small| && OccursAt(mid, small, j);
    forall k | 0 <= k < |small|
      ensures big[i + j + k] == small[k]
    {
      assert big[i + j + k] == big[i..i + |mid|][j + k];
      assert small[k] == mid[j..j + |small|][k];
    }
    assert big[i + j..i + j + |small|] == small;
    assert OccursAt(big, small, i + j);
  }

  /** The concrete-examples note is never added next to the beginner
      notes, whose numbers note already carries the phrase. */
  lemma ConcreteNeedsNoBeginner(p: ProfileData)
    ensures ConcreteNote in Guidelines(p) ==> Flags(p).needsConcreteExamples && !HasBeginner(p)
  {
    var before := LevelGuidelines(p) + TopicGuidelines(p);
    if HasBeginner(p) {
      assert before[1] == NumbersNote;
      JoinContains(before, "", 1);
      NumbersNoteHasPhrase();
      ContainsWithin(Join(before, ""), NumbersNote, NumbersPhrase);
      ConcreteDistinct();
      TopicGuidelineDistinct(TopicGuidelines(p));
      assert ConcreteNote !in before;
    } else if !Flags(p).needsConcreteExamples {
      ConcreteDistinct();
      TopicGuidelineDistinct(TopicGuidelines(p));
      assert ConcreteNote !in before;
    }
  }

  /** The beginner's numbers note carries the phrase the concrete note is
      checked against. */
  lemma NumbersNoteHasPhrase()
    ensures Contains(NumbersNote, NumbersPhrase)
  {
    assert NumbersNote[5..5 + |NumbersPhrase|] == NumbersPhrase;
    assert OccursAt(NumbersNote, NumbersPhrase, 5);
  }

  /** With the flag set and no level or unresolved-topic guideline, the
      concrete-examples note is the only guideline. */
  lemma ConcreteAlone(p: ProfileData)
    requires Flags(p).needsConcreteExamples && !HasBeginner(p) && !HasAdvanced(p)
    requires forall i :: 0 <= i < |Items(p)| ==> Items(p)[i].Other?
    ensures Guidelines(p) == [ConcreteNote]
  {
    NoTopics(Take(Items(p), 2));
    assert Join([], "") == "";
  }

  lemma {:induction false} NoTopics(items: seq<Unresolved>)
    requires forall i :: 0 <= i < |items| ==> items[i].Other?
    ensures NamedTopics(items) == []
  {
    if |items| > 0 {
      NoTopics(items[1..]);
    }
  }

  // ---------------------------------------------------------------------
  // Context text
  // ---------------------------------------------------------------------

  function LevelLines(es: seq<(string, LevelInfo)>): (lines: seq<string>)
    ensures |lines| >= |es|
  {
    if |es| == 0 then []
    else
      var (topic, info) := es[0];
      var here := match info
        case Detail(level, evidence) =>
          ["- " + topic + ": " + level.GetOr("不明")] + (if |evidence| > 0 then ["  （根拠: " + evidence + "）"] else [])
        case Scalar(text) => ["- " + topic + ": " + text];
      here + LevelLines(es[1..])
  }

  function UnderstandingSection(p: ProfileData): seq<string>
  {
    if |Entries(p)| > 0 then [UnderstandingHeader] + LevelLines(Entries(p)) else []
  }

  function Traits(b: Behavior): seq<string>
  {
    (if b.needsConcreteExamples then ["具体的な数値例を使った説明を好む"] else []) +
    (if b.tendsToDeepDive then ["1つのテーマを深掘りする傾向"] else []) +
    (if b.preferredInput == "guided_nav" then ["質問ナビ経由の利用が多い"] else [])
  }

  function Bullets(items: seq<string>): seq<string>
  {
    Enclose(items, "- ", "")
  }

  function BehaviorSection(p: ProfileData): seq<string>
  {
    var traits := Traits(Flags(p));
    if |traits| > 0 then [BehaviorHeader] + Bullets(traits) else []
  }

  function ItemText(item: Unresolved): string
  {
    match item
    case TopicRecord(t) => t.GetOr("")
    case Other(text) => text
  }

  function ItemTexts(items: seq<Unresolved>): (ts: seq<string>)
    ensures |ts| == |items|
    ensures forall i :: 0 <= i < |items| ==> ts[i] == ItemText(items[i])
  {
    if |items| == 0 then [] else [ItemText(items[0])] + ItemTexts(items[1..])
  }

  /** The first three items at most, in order, under the section header;
      nothing without items. */
  function UnresolvedSection(p: ProfileData): (lines: seq<string>)
    ensures |lines| == (if |Items(p)| == 0 then 0 else 1 + (if |Items(p)| < 3 then |Items(p)| else 3))
    ensures forall i :: 1 <= i < |lines| ==> lines[i] == "- " + ItemText(Items(p)[i - 1])
  {
    if |Items(p)| > 0 then [UnresolvedHeader] + Bullets(ItemTexts(Take(Items(p), 3))) else []
  }

  function GuidelineSection(p: ProfileData): seq<string>
  {
    var g := Guidelines(p);
    if |g| > 0 then [GuidelineHeader] + Bullets(g) else []
  }

  function Parts(p: ProfileData): (parts: seq<string>)
    ensures |parts| >= 1 && parts[0] == Header
  {
    [Header] + UnderstandingSection(p) + BehaviorSection(p) + UnresolvedSection(p) + GuidelineSection(p)
  }

  /** The context text for a user: `None` for a blank or anonymous user,
      an undecodable profile, the empty profile, or a profile none of
      whose sections has anything to say; otherwise the header and the
      non-empty sections, one per line. */
  function LoadProfileContext(userId: string, stored: Option<ProfileData>): (r: Option<string>)
    ensures userId == "" || userId == "anonymous" || stored.None? ==> r.None?
    ensures stored.Some? && Empty(stored.value) ==> r.None?
    ensures r.Some? ==> StartsWith(r.value, Header + "\n")
    ensures userId != "" && userId != "anonymous" && stored.Some? ==>
      (r.Some? <==> (!Empty(stored.value) && (|Entries(stored.value)| > 0 || |Traits(Flags(stored.value))| > 0 ||
                     |Items(stored.value)| > 0 || |Guidelines(stored.value)| > 0)))
  {
    if userId == "" || userId == "anonymous" then None
    else if stored.None? then None
    else
      var p := stored.value;
      if Empty(p) then None
      else
        var parts := Parts(p);
        if |parts| <= 1 then None
        else
          JoinHead(parts, "\n");
          Some(Join(parts, "\n"))
  }

  lemma JoinHead(parts: seq<string>, sep: string)
    requires |parts| >= 2
    ensures StartsWith(Join(parts, sep), parts[0] + sep)
  {
    Affixes(parts[0] + sep, Join(parts[1..], sep));
    assert Join(parts, sep) == parts[0] + sep + Join(parts[1..], sep);
    assert parts[0] + sep + Join(parts[1..], sep) == (parts[0] + sep) + Join(parts[1..], sep);
  }
}

=== FILE: prompt_builder.dfy ===
/** The advice prompt builder: the analysis block (one line per present
    analysis key, in a fixed key order), the catalogue-matches block, and
    which of the five prompt kinds carry the matches block. The fixed prose
    of each prompt and the fixed-point renderings of percentages are
    parameters. */
module PromptBuilder {
  import opened Wrappers
  import opened Text
  import opened Lists

  /** A number from the analysis JSON, with the text Python prints for it. */
  datatype Num = Num(value: real, shown: string)

  /** The analysis dictionary: each key present or absent. */
  datatype Analysis = Analysis(
    file: Option<string>,
    bpm: Option<Num>,
    key: Option<string>,
    duration: Option<Num>,
    spectralCentroid: Option<Num>,
    percussiveRatio: Option<Num>,
    rmsEnergy: Option<Num>,
    dynamicRange: Option<Num>)

  /** `percent1(x)` is the text of `f"{x * 100:.1f}"` and `percent0(x)` that
      of `f"{x * 100:.0f}"`. */
  datatype Formats = Formats(percent1: real -> string, percent0: real -> string)

  /** Every value the analysis holds is a single line. */
  predicate ValuesSingleLine(a: Analysis)
  {
    && (a.file.Some? ==> '\n' !in a.file.value)
    && (a.key.Some? ==> '\n' !in a.key.value)
    && (a.bpm.Some? ==> '\n' !in a.bpm.value.shown)
    && (a.duration.Some? ==> '\n' !in a.duration.value.shown)
    && (a.spectralCentroid.Some? ==> '\n' !in a.spectralCentroid.value.shown)
    && (a.rmsEnergy.Some? ==> '\n' !in a.rmsEnergy.value.shown)
    && (a.dynamicRange.Some? ==> '\n' !in a.dynamicRange.value.shown)
  }

  /** The formats never produce a line break. */
  ghost predicate SingleLine(fmt: Formats)
  {
    forall x: real :: '\n' !in fmt.percent1(x) && '\n' !in fmt.percent0(x)
  }

  // ---------------------------------------------------------------------
  // _format_analysis
  // ---------------------------------------------------------------------

  datatype Field = File | Bpm | Key | Duration | SpectralCentroid | PercussiveRatio | RmsEnergy | DynamicRange

  const FieldOrder: seq<Field> := [File, Bpm, Key, Duration, SpectralCentroid, PercussiveRatio, RmsEnergy, DynamicRange]

  /** The start of a field's line, up to its value. */
  function Label(f: Field): string
  {
    match f
    case File => "- File: "
    case Bpm => "- BPM: "
    case Key => "- Key: "
    case Duration => "- Duration: "
    case SpectralCentroid => "- Spectral Centroid: "
    case PercussiveRatio => "- Percussive Ratio: "
    case RmsEnergy => "- RMS Energy: "
    case DynamicRange => "- Dynamic Range: "
  }

  /** What follows a field's value on its line. */
  function Unit(f: Field): string
  {
    match f
    case Duration => "s"
    case SpectralCentroid => " Hz"
    case PercussiveRatio => "%"
    case _ => ""
  }

  predicate Present(a: Analysis, f: Field)
  {
    match f
    case File => a.file.Some?
    case Bpm => a.bpm.Some?
    case Key => a.key.Some?
    case Duration => a.duration.Some?
    case SpectralCentroid => a.spectralCentroid.Some?
    case PercussiveRatio => a.percussiveRatio.Some?
    case RmsEnergy => a.rmsEnergy.Some?
    case DynamicRange => a.dynamicRange.Some?
  }

  function Shown(n: Option<Num>): Option<string>
  {
    if n.Some? then Some(n.value.shown) else None
  }

  /** The value text of a field: its printed value, and the ratio as a
      percentage with one decimal. */
  function FieldText(a: Analysis, f: Field, fmt: Formats): (r: Option<string>)
    ensures r.Some? <==> Present(a, f)
  {
    match f
    case File => a.file
    case Bpm => Shown(a.bpm)
    case Key => a.key
    case Duration => Shown(a.duration)
    case SpectralCentroid => Shown(a.spectralCentroid)
    case PercussiveRatio => if a.percussiveRatio.Some? then Some(fmt.percent1(a.percussiveRatio.value.value)) else None
    case RmsEnergy => Shown(a.rmsEnergy)
    case DynamicRange => Shown(a.dynamicRange)
  }

  function FieldLine(a: Analysis, fmt: Formats): Field -> Option<string>
  {
    f => if FieldText(a, f, fmt).Some? then Some(Label(f) + FieldText(a, f, fmt).value + Unit(f)) else None
  }

  function AnalysisLines(a: Analysis, fmt: Formats): seq<string>
  {
    FilterMap(FieldOrder, FieldLine(a, fmt))
  }

  /** `_format_analysis`: the lines joined by line breaks. */
  function FormatAnalysis(a: Analysis, fmt: Formats): string
  {
    Join(AnalysisLines(a, fmt), "\n")
  }

  /** The present keys, in the fixed order. */
  function PresentFields(a: Analysis): seq<Field>
  {
    Filter(FieldOrder, (f: Field) => Present(a, f))
  }

  /** The field whose label starts a line, if any. */
  function LineField(line: string): (r: Option<Field>)
    ensures r.Some? ==> StartsWith(line, Label(r.value))
  {
    if StartsWith(line, "- File: ") then Some(File)
    else if StartsWith(line, "- BPM: ") then Some(Bpm)
    else if StartsWith(line, "- Key: ") then Some(Key)
    else if StartsWith(line, "- Duration: ") then Some(Duration)
    else if StartsWith(line, "- Spectral Centroid: ") then Some(SpectralCentroid)
    else if StartsWith(line, "- Percussive Ratio: ") then Some(PercussiveRatio)
    else if StartsWith(line, "- RMS Energy: ") then Some(RmsEnergy)
    else if StartsWith(line, "- Dynamic Range: ") then Some(DynamicRange)
    else None
  }

  /** No label starts another's line: the labels tell the lines apart. */
  lemma LineFieldOfLabel(f: Field, rest: string)
    ensures LineField(Label(f) + rest) == Some(f)
  {
    var lab := Label(f);
    var line := lab + rest;
    assert line[..|lab|] == lab;
    var c2, c3 := line[2], line[3];
    assert c2 == lab[2] && c3 == lab[3];
    match f {
      case File =>
      case Bpm => Skip1(line);
      case Key => Skip2(line);
      case Duration => Skip3(line);
      case SpectralCentroid => Skip4(line);
      case PercussiveRatio => Skip5(line);
      case RmsEnergy => Skip6(line);
      case DynamicRange => Skip6(line); NotPrefix(line, "- RMS Energy: ", 2);
    }
  }

  /** A text differing from `p` at a position within both is not prefixed by `p`. */
  lemma NotPrefix(s: string, p: string, k: nat)
    requires k < |p| && k < |s| && s[k] != p[k]
    ensures !StartsWith(s, p)
  {
  }

  lemma Skip1(s: string)
    requires |s| > 3 && s[2] != 'F'
    ensures !StartsWith(s, "- File: ")
  {
    NotPrefix(s, "- File: ", 2);
  }

  lemma Skip2(s: string)
    requires |s| > 3 && s[2] != 'F' && s[2] != 'B'
    ensures !StartsWith(s, "- File: ") && !StartsWith(s, "- BPM: ")
  {
    Skip1(s);
    NotPrefix(s, "- BPM: ", 2);
  }

  lemma Skip3(s: string)
    requires |s| > 3 && s[2] != 'F' && s[2] != 'B' && s[2] != 'K'
    ensures !StartsWith(s, "- File: ") && !StartsWith(s, "- BPM: ") && !StartsWith(s, "- Key: ")
  {
    Skip2(s);
    NotPrefix(s, "- Key: ", 2);
  }

  lemma Skip4(s: string)
    requires |s| > 3 && s[2] != 'F' && s[2] != 'B' && s[2] != 'K' && (s[2] != 'D' || s[3] != 'u')
    ensures !StartsWith(s, "- File: ") && !StartsWith(s, "- BPM: ") && !StartsWith(s, "- Key: ")
    ensures !StartsWith(s, "- Duration: ")
  {
    Skip3(s);
    if s[2] == 'D' {
      NotPrefix(s, "- Duration: ", 3);
    } else {
      NotPrefix(s, "- Duration: ", 2);
    }
  }

  lemma Skip5(s: string)
    requires |s| > 3 && s[2] != 'F' && s[2] != 'B' && s[2] != 'K' && (s[2] != 'D' || s[3] != 'u') && s[2] != 'S'
    ensures !StartsWith(s, "- File: ") && !StartsWith(s, "- BPM: ") && !StartsWith(s, "- Key: ")
    ensures !StartsWith(s, "- Duration: ") && !StartsWith(s, "- Spectral Centroid: ")
  {
    Skip4(s);
    NotPrefix(s, "- Spectral Centroid: ", 2);
  }

  lemma Skip6(s: string)
    requires |s| > 3 && s[2] != 'F' && s[2] != 'B' && s[2] != 'K' && (s[2] != 'D' || s[3] != 'u') && s[2] != 'S' && s[2] != 'P'
    ensures !StartsWith(s, "- File: ") && !StartsWith(s, "- BPM: ") && !StartsWith(s, "- Key: ")
    ensures !StartsWith(s, "- Duration: ") && !StartsWith(s, "- Spectral Centroid: ")
    ensures !StartsWith(s, "- Percussive Ratio: ")
  {
    Skip5(s);
    NotPrefix(s, "- Percussive Ratio: ", 2);
  }

  /** The fields named by a text's lines, in order. */
  function LineFields(text: string): seq<Field>
  {
    FilterMap(Split(text, '\n'), LineField)
  }

  /** Reading the labels back off the formatted block gives exactly the
      present keys in the fixed order: one line per present key, no line for
      an absent one, and nothing when no key is present. */
  lemma FormatAnalysisFields(a: Analysis, fmt: Formats)
    requires SingleLine(fmt)
    requires ValuesSingleLine(a)
    ensures PresentFields(a) == [] ==> FormatAnalysis(a, fmt) == ""
    ensures PresentFields(a) != [] ==> LineFields(FormatAnalysis(a, fmt)) == PresentFields(a)
  {
    var lines := AnalysisLines(a, fmt);
    LinesReadBack(a, fmt);
    if PresentFields(a) != [] {
      LinesUnbroken(a, fmt);
      SplitJoin(lines, '\n');
    }
  }

  /** The labels of the lines are the present keys, in order. */
  lemma LinesReadBack(a: Analysis, fmt: Formats)
    ensures FilterMap(AnalysisLines(a, fmt), LineField) == PresentFields(a)
    ensures |AnalysisLines(a, fmt)| == |PresentFields(a)|
  {
    var g := FieldLine(a, fmt);
    var p := (f: Field) => Present(a, f);
    forall f: Field ensures g(f).Some? <==> p(f) {
      assert FieldText(a, f, fmt).Some? <==> Present(a, f);
    }
    forall f: Field | g(f).Some? ensures LineField(g(f).value) == Some(f) {
      LineFieldOfLabel(f, FieldText(a, f, fmt).value + Unit(f));
      assert g(f).value == Label(f) + (FieldText(a, f, fmt).value + Unit(f));
    }
    FilterMapInverse(FieldOrder, g, LineField, p);
    FilterMapLength(FieldOrder, g, p);
  }

  lemma LinesUnbroken(a: Analysis, fmt: Formats)
    requires SingleLine(fmt)
    requires ValuesSingleLine(a)
    ensures forall k :: 0 <= k < |AnalysisLines(a, fmt)| ==> '\n' !in AnalysisLines(a, fmt)[k]
  {
    var g := FieldLine(a, fmt);
    var unbroken := (l: string) => '\n' !in l;
    forall f: Field | g(f).Some? ensures unbroken(g(f).value) {
      LineBreakFree(a, f, fmt);
    }
    FilterMapAll(FieldOrder, g, unbroken);
  }

  lemma LineBreakFree(a: Analysis, f: Field, fmt: Formats)
    requires SingleLine(fmt)
    requires ValuesSingleLine(a)
    requires Present(a, f)
    ensures '\n' !in Label(f) + FieldText(a, f, fmt).value + Unit(f)
  {
    var v := FieldText(a, f, fmt).value;
    assert '\n' !in v by {
      match f {
        case PercussiveRatio =>
        case _ =>
      }
    }
    LabelUnbroken(f);
    NoBreakConcat(Label(f), v, Unit(f));
  }

  lemma LabelUnbroken(f: Field)
    ensures '\n' !in Label(f) && '\n' !in Unit(f)
  {
    match f {
      case File =>
      case Bpm =>
      case Key =>
      case Duration =>
      case SpectralCentroid =>
      case PercussiveRatio =>
      case RmsEnergy =>
      case DynamicRange =>
    }
  }

  lemma NoBreakConcat(x: string, y: string, z: string)
    requires '\n' !in x && '\n' !in y && '\n' !in z
    ensures '\n' !in x + y + z
  {
  }

  // ---------------------------------------------------------------------
  // _format_matches
  // ---------------------------------------------------------------------

  /** A catalogue match as the prompt reads it. */
  datatype MatchInfo = MatchInfo(name: string, category: Option<string>, similarity: Option<real>)

  const NoMatches := "No similar sounds found in catalog."
  const MatchesHeader := "Similar sounds from Logic Pro library:"
  const MaxListed := 5

  /** The `i`-th numbered line (from 1): a missing category reads
      "Unknown" and a missing similarity 0. */
  function MatchLine(i: nat, m: MatchInfo, fmt: Formats): string
  {
    IntToString(i) + ". " + m.name + " (" + (if m.category.Some? then m.category.value else "Unknown") + ") - "
      + fmt.percent0(if m.similarity.Some? then m.similarity.value else 0.0) + "% similar"
  }

  /** The numbered lines of `ms`, the first numbered `from`. */
  function MatchLines(ms: seq<MatchInfo>, from: nat, fmt: Formats): (r: seq<string>)
    ensures |r| == |ms|
    ensures forall i :: 0 <= i < |ms| ==> r[i] == MatchLine(from + i, ms[i], fmt)
  {
    if |ms| == 0 then [] else [MatchLine(from, ms[0], fmt)] + MatchLines(ms[1..], from + 1, fmt)
  }

  /** `_format_matches`. */
  function FormatMatches(ms: seq<MatchInfo>, fmt: Formats): string
  {
    if |ms| == 0 then NoMatches
    else Join([MatchesHeader] + MatchLines(Take(ms, MaxListed), 1, fmt), "\n")
  }

  ghost predicate MatchSingleLine(m: MatchInfo)
  {
    '\n' !in m.name && (m.category.Some? ==> '\n' !in m.category.value)
  }

  /** The block is the header and one line per match up to five, the `i`-th
      naming the `i`-th match: what comes after the fifth does not show. */
  lemma FormatMatchesLines(ms: seq<MatchInfo>, fmt: Formats)
    requires |ms| > 0 && SingleLine(fmt)
    requires forall i :: 0 <= i < |ms| ==> MatchSingleLine(ms[i])
    ensures var lines := Split(FormatMatches(ms, fmt), '\n');
      && |lines| == 1 + (if |ms| < MaxListed then |ms| else MaxListed)
      && lines[0] == MatchesHeader
      && forall i :: 1 <= i < |lines| ==> StartsWith(lines[i], IntToString(i) + ". " + ms[i - 1].name + " (")
  {
    var shown := Take(ms, MaxListed);
    var body := MatchLines(shown, 1, fmt);
    var parts := [MatchesHeader] + body;
    BodyUnbroken(shown, fmt);
    HeaderUnbroken();
    forall k | 0 <= k < |parts| ensures '\n' !in parts[k] {
      if k > 0 {
        assert parts[k] == body[k - 1];
      }
    }
    SplitJoin(parts, '\n');
    forall i | 1 <= i < |parts| ensures StartsWith(parts[i], IntToString(i) + ". " + ms[i - 1].name + " (") {
      assert parts[i] == MatchLine(i, shown[i - 1], fmt);
      MatchLinePrefix(i, shown[i - 1], fmt);
    }
  }

  lemma HeaderUnbroken()
    ensures '\n' !in MatchesHeader
  {
  }

  lemma BodyUnbroken(shown: seq<MatchInfo>, fmt: Formats)
    requires SingleLine(fmt)
    requires forall i :: 0 <= i < |shown| ==> MatchSingleLine(shown[i])
    ensures forall k :: 0 <= k < |shown| ==> '\n' !in MatchLines(shown, 1, fmt)[k]
  {
    forall k | 0 <= k < |shown| ensures '\n' !in MatchLines(shown, 1, fmt)[k] {
      MatchLineUnbroken(k + 1, shown[k], fmt);
    }
  }

  lemma MatchLineUnbroken(i: nat, m: MatchInfo, fmt: Formats)
    requires SingleLine(fmt) && MatchSingleLine(m)
    ensures '\n' !in MatchLine(i, m, fmt)
  {
    NoBreakInInt(i);
  }

  lemma MatchLinePrefix(i: nat, m: MatchInfo, fmt: Formats)
    ensures StartsWith(MatchLine(i, m, fmt), IntToString(i) + ". " + m.name + " (")
  {
    var pre := IntToString(i) + ". " + m.name + " (";
    var rest := (if m.category.Some? then m.category.value else "Unknown") + ") - "
      + fmt.percent0(if m.similarity.Some? then m.similarity.value else 0.0) + "% similar";
    assert MatchLine(i, m, fmt) == pre + rest;
    Affixes(pre, rest);
  }

  lemma NoBreakInInt(i: int)
    ensures '\n' !in IntToString(i)
  {
    var r := IntToString(i);
    if i >= 0 {
      assert AllDigits(r);
    } else {
      assert AllDigits(r[1..]);
    }
  }

  // ---------------------------------------------------------------------
  // build
  // ---------------------------------------------------------------------

  datatype PromptKind = Recreation | Mixing | Arrangement | GenreConversion | Comparison

  /** The fixed prose of a prompt: its opening role line and the body of
      its instructions section. */
  datatype Prose = Prose(role: string, instructions: string)

  /** `build`'s dispatch: the five known advice types, and the recreation
      prompt for anything else. */
  function KindOf(adviceType: string): (k: PromptKind)
    ensures adviceType == "mixing" <==> k == Mixing
    ensures adviceType == "arrangement" <==> k == Arrangement
    ensures adviceType == "genre_conversion" <==> k == GenreConversion
    ensures adviceType == "comparison" <==> k == Comparison
    ensures k == Recreation <==> adviceType !in {"mixing", "arrangement", "genre_conversion", "comparison"}
  {
    if adviceType == "mixing" then Mixing
    else if adviceType == "arrangement" then Arrangement
    else if adviceType == "genre_conversion" then GenreConversion
    else if adviceType == "comparison" then Comparison
    else Recreation
  }

  predicate CarriesMatches(k: PromptKind)
  {
    k == Recreation || k == Comparison
  }

  function AnalysisHeading(k: PromptKind): string
  {
    if k == GenreConversion then "## Original Sound Analysis" else "## Audio Analysis"
  }

  /** The blank-line-separated matches section of the two prompts that have
      one: the formatted matches, or nothing when there are none. */
  function MatchesSection(k: PromptKind, ms: seq<MatchInfo>, fmt: Formats): string
  {
    if CarriesMatches(k) then "\n\n" + (if |ms| > 0 then FormatMatches(ms, fmt) else "") else ""
  }

  /** The text before the matches section. */
  function PromptHead(k: PromptKind, a: Analysis, fmt: Formats, prose: PromptKind -> Prose): string
  {
    prose(k).role + "\n\n" + AnalysisHeading(k) + "\n" + FormatAnalysis(a, fmt)
  }

  function PromptTail(k: PromptKind, prose: PromptKind -> Prose): string
  {
    "\n\n## Instructions\n" + prose(k).instructions
  }

  /** `build`. `ms` is empty when no matches are passed. */
  function Build(adviceType: string, a: Analysis, ms: seq<MatchInfo>, fmt: Formats, prose: PromptKind -> Prose): string
  {
    var k := KindOf(adviceType);
    PromptHead(k, a, fmt, prose) + MatchesSection(k, ms, fmt) + PromptTail(k, prose)
  }

  /** Only the recreation and comparison prompts show matches, and only
      when there are some; those insert exactly the formatted matches after
      the analysis. */
  lemma MatchesInclusion(adviceType: string, a: Analysis, ms: seq<MatchInfo>, fmt: Formats, prose: PromptKind -> Prose)
    ensures var k := KindOf(adviceType);
      var n := |PromptHead(k, a, fmt, prose)| + (if CarriesMatches(k) then 2 else 0);
      var bare := Build(adviceType, a, [], fmt, prose);
      && n <= |bare|
      && (!CarriesMatches(k) || |ms| == 0 ==> Build(adviceType, a, ms, fmt, prose) == bare)
      && (CarriesMatches(k) && |ms| > 0 ==>
            Build(adviceType, a, ms, fmt, prose) == bare[..n] + FormatMatches(ms, fmt) + bare[n..])
  {
    var k := KindOf(adviceType);
    var head := PromptHead(k, a, fmt, prose);
    var tail := PromptTail(k, prose);
    assert Build(adviceType, a, ms, fmt, prose) == head + MatchesSection(k, ms, fmt) + tail;
    assert Build(adviceType, a, [], fmt, prose) == head + MatchesSection(k, [], fmt) + tail;
    if CarriesMatches(k) {
      var sep := "\n\n";
      assert MatchesSection(k, [], fmt) == sep;
      if |ms| > 0 {
        assert MatchesSection(k, ms, fmt) == sep + FormatMatches(ms, fmt);
        Inserted(head, sep, FormatMatches(ms, fmt), tail);
      } else {
        Inserted(head, sep, "", tail);
      }
    }
  }

  /** Text inserted after a separator. */
  lemma Inserted(h: string, sep: string, m: string, t: string)
    ensures var bare := h + sep + t;
      var n := |h| + |sep|;
      n <= |bare| && h + (sep + m) + t == bare[..n] + m + bare[n..]
  {
    var bare := h + sep + t;
    assert bare[..|h| + |sep|] == h + sep;
    assert bare[|h| + |sep|..] == t;
  }
}

=== FILE: rag.dfy ===
/** The keyword retrieval engine of the companion: chunking of knowledge
    files, front-matter parsing, routing of directories to conversation
    patterns, keyword scoring with a top-k cut, and the context and source
    lists handed to the language model. */
module Rag {
  import opened Wrappers
  import opened Text
  import opened Lists

  /** One chunk of a knowledge file. `metadata` is the front-matter
      mapping, as an insertion-ordered association list. */
  datatype Chunk = Chunk(
    content: string,
    sourceFile: string,
    category: string,
    metadata: seq<(string, string)>,
    patternIds: seq<int>)

  datatype SearchResult = SearchResult(chunk: Chunk, score: real)

  // ---------------------------------------------------------------------
  // Routing of top-level directories
  // ---------------------------------------------------------------------

  /** The four pattern directories, in pattern order (pattern p is
      `PatternDir[p - 1]`); the shared directory serves every pattern. */
  const PatternDir: seq<string> := ["general", "doctor", "corporate", "mentoring"]
  const SharedDir: string := "shared"
  const AllPatterns: seq<int> := [1, 2, 3, 4]
  const Uncategorized: string := "未分類"
  const DisplayNames: set<string> := {"生保全般", "ドクターマーケット", "法人保険", "メンタリング", "共通"}

  /** The directory-to-patterns table. */
  function PatternDirs(dir: string): Option<seq<int>>
  {
    if dir == "general" then Some([1])
    else if dir == "doctor" then Some([2])
    else if dir == "corporate" then Some([3])
    else if dir == "mentoring" then Some([4])
    else if dir == "shared" then Some(AllPatterns)
    else None
  }

  /** The directory-to-display-name table. */
  function DirCategory(dir: string): Option<string>
  {
    if dir == "general" then Some("生保全般")
    else if dir == "doctor" then Some("ドクターマーケット")
    else if dir == "corporate" then Some("法人保険")
    else if dir == "mentoring" then Some("メンタリング")
    else if dir == "shared" then Some("共通")
    else None
  }

  /** The category of a file from its path components under the root. */
  function InferCategory(parts: seq<string>): (c: string)
    ensures |parts| == 0 ==> c == Uncategorized
    ensures |parts| > 0 && PatternDirs(parts[0]).Some? ==> c in DisplayNames
    ensures |parts| > 0 && DirCategory(parts[0]).Some? ==> c == DirCategory(parts[0]).value
    ensures |parts| > 0 && PatternDirs(parts[0]).None? ==> c == parts[0]
  {
    if |parts| == 0 then Uncategorized
    else DirCategory(parts[0]).GetOr(parts[0])
  }

  /** The conversation patterns that may see a file, from its path
      components under the root. */
  function InferPatternIds(parts: seq<string>): (ids: seq<int>)
    ensures |ids| > 0
    ensures forall i :: 0 <= i < |ids| ==> 1 <= ids[i] <= 4
    ensures |parts| == 0 || PatternDirs(parts[0]).None? ==> ids == AllPatterns
  {
    if |parts| == 0 then AllPatterns
    else PatternDirs(parts[0]).GetOr(AllPatterns)
  }

  /** A file is visible to pattern `p` exactly when it lies under that
      pattern's directory, under the shared directory, under an unknown
      directory, or directly under the root. */
  lemma PatternVisible(parts: seq<string>, p: int)
    requires 1 <= p <= 4
    ensures p in InferPatternIds(parts) <==>
      |parts| == 0 || PatternDirs(parts[0]).None? || parts[0] == SharedDir || parts[0] == PatternDir[p - 1]
  {
  }

  /** The two tables have the same directories. */
  lemma TablesAgree(dir: string)
    ensures PatternDirs(dir).Some? <==> DirCategory(dir).Some?
  {
  }

  // ---------------------------------------------------------------------
  // Chunking
  // ---------------------------------------------------------------------

  /** Python's normalisation of a slice bound: a negative index counts
      from the end, and the result is clamped to `[0, n]`. */
  function PyIndex(i: int, n: nat): (r: nat)
    ensures r <= n
  {
    if i < 0 then (if i + n >= 0 then i + n else 0)
    else if i > n then n else i
  }

  /** Python's `s[a:b]`. */
  function Slice<T>(s: seq<T>, a: int, b: int): seq<T>
  {
    var x := PyIndex(a, |s|);
    var y := PyIndex(b, |s|);
    if x <= y then s[x..y] else []
  }

  /** A slice is never longer than its bounds are apart. */
  lemma SliceLength<T>(s: seq<T>, a: int, b: int)
    requires a <= b
    ensures |Slice(s, a, b)| <= b - a
  {
  }

  const Period: char := '。'

  /** The end of the window starting at `start`: `start + size`, pulled
      back to just after the last full stop strictly after `start` when the
      window does not reach the end of the text. */
  function WindowEnd(text: string, start: int, size: int): int
  {
    var end := start + size;
    if end < |text| then
      var last := RFindChar(text, Period, PyIndex(start, |text|), PyIndex(end, |text|));
      if last > start then last + 1 else end
    else end
  }

  /** A window that does not reach the end is cut just after the last full
      stop strictly after `start`, and left at `start + size` when there is
      none. */
  lemma WindowCut(text: string, start: int, size: int)
    requires 0 <= start && 0 <= size && start + size < |text|
    ensures var e := WindowEnd(text, start, size);
      (e == start + size && forall j :: start < j < start + size ==> text[j] != Period) ||
      (start + 1 < e <= start + size && text[e - 1] == Period &&
       forall j :: e - 1 < j < start + size ==> text[j] != Period)
  {
  }

  /** The loop of the chunker from `start`; `None` when `fuel` runs out
      before the loop would exit. */
  function ChunkLoop(text: string, start: int, size: int, overlap: int, fuel: nat): Option<seq<string>>
    decreases fuel
  {
    if start >= |text| then Some([])
    else if fuel == 0 then None
    else
      var end := WindowEnd(text, start, size);
      var rest := ChunkLoop(text, end - overlap, size, overlap, fuel - 1);
      if rest.None? then None else Some([Slice(text, start, end)] + rest.value)
  }

  /** The chunker as written: the whole text when it fits, otherwise the
      windows of the loop, each starting `overlap` before the last cut. */
  function ChunkText(text: string, size: int, overlap: int, fuel: nat): Option<seq<string>>
  {
    if |text| <= size then Some([text])
    else ChunkLoop(text, 0, size, overlap, fuel)
  }

  /** One window's chunk is never longer than the chunk size, even from a
      negative start. */
  lemma WindowFits(text: string, start: int, size: int)
    requires 0 <= size && start < |text|
    ensures |Slice(text, start, WindowEnd(text, start, size))| <= size
  {
    SliceLength(text, start, start + size);
  }

  lemma {:induction false} LoopFits(text: string, start: int, size: int, overlap: int, fuel: nat)
    requires 0 <= size
    requires ChunkLoop(text, start, size, overlap, fuel).Some?
    ensures forall k :: 0 <= k < |ChunkLoop(text, start, size, overlap, fuel).value| ==>
      |ChunkLoop(text, start, size, overlap, fuel).value[k]| <= size
    decreases fuel
  {
    if start < |text| {
      var end := WindowEnd(text, start, size);
      WindowFits(text, start, size);
      LoopFits(text, end - overlap, size, overlap, fuel - 1);
    }
  }

  /** The chunker returns the text itself when it fits, and otherwise
      chunks no longer than the chunk size. */
  lemma ChunksFit(text: string, size: int, overlap: int, fuel: nat)
    requires 0 <= size
    ensures |text| <= size ==> ChunkText(text, size, overlap, fuel) == Some([text])
    ensures ChunkText(text, size, overlap, fuel).Some? ==>
      forall k :: 0 <= k < |ChunkText(text, size, overlap, fuel).value| ==>
        |ChunkText(text, size, overlap, fuel).value[k]| <= size
  {
    if |text| > size {
      if ChunkLoop(text, 0, size, overlap, fuel).Some? {
        LoopFits(text, 0, size, overlap, fuel);
      }
    }
  }

  /** Without overlap the loop always advances, finishes within one step
      per character, and its chunks put back together are the text. */
  lemma {:induction false} NoOverlapPartitions(text: string, start: nat, size: int, fuel: nat)
    requires 0 < size && start <= |text| && |text| - start <= fuel
    ensures ChunkLoop(text, start, size, 0, fuel).Some?
    ensures Concat(ChunkLoop(text, start, size, 0, fuel).value) == text[start..]
    decreases |text| - start
  {
    if start < |text| {
      var stop := WindowStep(text, start, size);
      NoOverlapPartitions(text, stop, size, fuel - 1);
      var rest := ChunkLoop(text, stop, size, 0, fuel - 1).value;
      LoopStep(text, start, size, fuel, stop);
      ConcatPiece(text, start, stop, rest);
    }
  }

  /** One turn of the loop without overlap: the window's chunk, then the
      loop from where the window stopped. */
  lemma LoopStep(text: string, start: nat, size: int, fuel: nat, stop: nat)
    requires 0 < size && start < |text| && 0 < fuel
    requires stop == if WindowEnd(text, start, size) < |text| then WindowEnd(text, start, size) else |text|
    requires Slice(text, start, WindowEnd(text, start, size)) == text[start..stop]
    requires ChunkLoop(text, stop, size, 0, fuel - 1).Some?
    ensures ChunkLoop(text, start, size, 0, fuel)
         == Some([text[start..stop]] + ChunkLoop(text, stop, size, 0, fuel - 1).value)
  {
    SameTail(text, WindowEnd(text, start, size), stop, size, fuel - 1);
  }

  /** From a non-negative start inside the text with a positive size, the
      window ends past the start and its chunk is the plain substring up
      to the returned position. */
  lemma WindowStep(text: string, start: nat, size: int) returns (stop: nat)
    requires 0 < size && start < |text|
    ensures start < stop <= |text|
    ensures stop == if WindowEnd(text, start, size) < |text| then WindowEnd(text, start, size) else |text|
    ensures Slice(text, start, WindowEnd(text, start, size)) == text[start..stop]
  {
    WindowAdvances(text, start, size);
    var end := WindowEnd(text, start, size);
    stop := if end < |text| then end else |text|;
  }

  /** From a non-negative start, a positive size moves the window end past
      the start by at most the size. */
  lemma WindowAdvances(text: string, start: nat, size: int)
    requires 0 < size
    ensures start < WindowEnd(text, start, size) <= start + size
  {
  }

  /** Past the end, the loop stops wherever it starts. */
  lemma SameTail(text: string, end: int, stop: int, size: int, fuel: nat)
    requires stop == if end < |text| then end else |text|
    ensures ChunkLoop(text, end, size, 0, fuel) == ChunkLoop(text, stop, size, 0, fuel)
  {
  }

  /** A full stop within `overlap` of the window start sends the next
      window back to the same start: "a。xxxx" with size 5 and overlap 2
      never finishes, whatever the fuel. */
  lemma {:induction false} ChunkTextStalls(fuel: nat)
    ensures ChunkText("a。xxxx", 5, 2, fuel) == None
  {
    StallLoop(fuel);
  }

  lemma {:induction false} StallLoop(fuel: nat)
    ensures ChunkLoop("a。xxxx", 0, 5, 2, fuel) == None
  {
    if fuel > 0 {
      assert WindowEnd("a。xxxx", 0, 5) == 2;
      StallLoop(fuel - 1);
    }
  }

  /** A cut close to the start makes the next start negative, which Python
      reads from the end: the next window is empty and the one after skips
      ahead, so "b" of "a。bcdefghi" lands in no chunk with size 7 and
      overlap 3. */
  lemma ChunkTextSkipsText()
    ensures ChunkText(SkipText, 7, 3, 10) == Some(["a。", "", "cdefghi", "ghi"])
    ensures 'b' in SkipText
    ensures forall k :: 0 <= k < |ChunkText(SkipText, 7, 3, 10).value| ==>
      'b' !in ChunkText(SkipText, 7, 3, 10).value[k]
  {
    SkipFrom0();
    assert SkipText[2] == 'b';
    SkipChunksLackB(["a。", "", "cdefghi", "ghi"]);
  }

  lemma SkipChunksLackB(r: seq<string>)
    requires r == ["a。", "", "cdefghi", "ghi"]
    ensures forall k :: 0 <= k < |r| ==> 'b' !in r[k]
  {
    assert 'b' !in r[0] && 'b' !in r[1] && 'b' !in r[2] && 'b' !in r[3];
  }

  const SkipText := "a。bcdefghi"

  lemma SkipFrom7()
    ensures ChunkLoop(SkipText, 7, 7, 3, 7) == Some(["ghi"])
  {
    assert WindowEnd(SkipText, 7, 7) == 14;
    assert Slice(SkipText, 7, 14) == "ghi";
    assert ChunkLoop(SkipText, 11, 7, 3, 6) == Some([]);
    assert ChunkLoop(SkipText, 7, 7, 3, 7) == Some([Slice(SkipText, 7, 14)] + []);
    assert [Slice(SkipText, 7, 14)] + [] == ["ghi"];
  }

  lemma SkipFrom3()
    ensures ChunkLoop(SkipText, 3, 7, 3, 8) == Some(["cdefghi", "ghi"])
  {
    SkipFrom7();
    assert WindowEnd(SkipText, 3, 7) == 10;
    assert Slice(SkipText, 3, 10) == "cdefghi";
    assert ChunkLoop(SkipText, 3, 7, 3, 8) == Some([Slice(SkipText, 3, 10)] + ["ghi"]);
    assert [Slice(SkipText, 3, 10)] + ["ghi"] == ["cdefghi", "ghi"];
  }

  lemma SkipFromBack()
    ensures ChunkLoop(SkipText, -1, 7, 3, 9) == Some(["", "cdefghi", "ghi"])
  {
    SkipFrom3();
    assert WindowEnd(SkipText, -1, 7) == 6;
    assert Slice(SkipText, -1, 6) == "";
    assert ChunkLoop(SkipText, -1, 7, 3, 9) == Some([Slice(SkipText, -1, 6)] + ["cdefghi", "ghi"]);
    assert [Slice(SkipText, -1, 6)] + ["cdefghi", "ghi"] == ["", "cdefghi", "ghi"];
  }

  lemma SkipFrom0()
    ensures ChunkText(SkipText, 7, 3, 10) == Some(["a。", "", "cdefghi", "ghi"])
  {
    SkipFromBack();
    SkipCut0();
    assert ChunkLoop(SkipText, 0, 7, 3, 10) == Some([Slice(SkipText, 0, 2)] + ["", "cdefghi", "ghi"]);
    assert [Slice(SkipText, 0, 2)] + ["", "cdefghi", "ghi"] == ["a。", "", "cdefghi", "ghi"];
  }

  lemma SkipCut0()
    ensures WindowEnd(SkipText, 0, 7) == 2 && Slice(SkipText, 0, 2) == "a。"
  {
    assert WindowEnd(SkipText, 0, 7) == 2;
  }

  /** The corrected step: the next window starts `overlap` before the cut
      only when that is still past the current start, and at the cut
      otherwise, so starts stay non-negative and strictly increase. */
  function NextStart(start: nat, end: int, overlap: int): int
  {
    if end - overlap > start then end - overlap else end
  }

  /** The windows `(from, to)` of the corrected loop, as text positions. */
  function FixedWindows(text: string, start: nat, size: int, overlap: int, fuel: nat): Option<seq<(nat, nat)>>
    decreases fuel
  {
    if start >= |text| then Some([])
    else if fuel == 0 then None
    else
      var end := WindowEnd(text, start, size);
      var stop := if end < |text| then end else |text|;
      var next := NextStart(start, end, overlap);
      if stop <= start || next <= start then None
      else
        var rest := FixedWindows(text, next, size, overlap, fuel - 1);
        if rest.None? then None else Some([(start, stop)] + rest.value)
  }

  /** Windows that tile `[start, n)`: each non-empty and within bounds,
      starts strictly increasing, and each window starting no later than
      the previous one ends, the last one ending at `n`. */
  predicate Tiles(ws: seq<(nat, nat)>, start: nat, n: nat)
  {
    (|ws| == 0 <==> start >= n) &&
    (|ws| > 0 ==> ws[0].0 == start && ws[|ws| - 1].1 == n) &&
    (forall k :: 0 <= k < |ws| ==> ws[k].0 < ws[k].1 <= n) &&
    (forall k :: 0 <= k < |ws| - 1 ==> ws[k].0 < ws[k + 1].0 <= ws[k].1)
  }

  /** The corrected loop finishes within one step per character and its
      windows tile the rest of the text, each no wider than the size. */
  lemma {:induction false} FixedWindowsTile(text: string, start: nat, size: int, overlap: int, fuel: nat)
    requires 0 < size && 0 <= overlap && start <= |text| && |text| - start <= fuel
    ensures FixedWindows(text, start, size, overlap, fuel).Some?
    ensures Tiles(FixedWindows(text, start, size, overlap, fuel).value, start, |text|)
    ensures Narrow(FixedWindows(text, start, size, overlap, fuel).value, size)
    decreases |text| - start
  {
    if start < |text| {
      WindowAdvances(text, start, size);
      var next := NextStart(start, WindowEnd(text, start, size), overlap);
      if next < |text| {
        FixedWindowsTile(text, next, size, overlap, fuel - 1);
      }
      TileStep(text, start, size, overlap, fuel);
    }
  }

  /** The inductive step: a first window in front of the tiling of the rest. */
  lemma TileStep(text: string, start: nat, size: int, overlap: int, fuel: nat)
    requires 0 < size && 0 <= overlap && start < |text| && |text| - start <= fuel
    requires var next := NextStart(start, WindowEnd(text, start, size), overlap);
      next < |text| ==>
        FixedWindows(text, next, size, overlap, fuel - 1).Some? &&
        Tiles(FixedWindows(text, next, size, overlap, fuel - 1).value, next, |text|) &&
        Narrow(FixedWindows(text, next, size, overlap, fuel - 1).value, size)
    ensures FixedWindows(text, start, size, overlap, fuel).Some?
    ensures Tiles(FixedWindows(text, start, size, overlap, fuel).value, start, |text|)
    ensures Narrow(FixedWindows(text, start, size, overlap, fuel).value, size)
  {
    var end := WindowEnd(text, start, size);
    WindowAdvances(text, start, size);
    var stop := if end < |text| then end else |text|;
    var next := NextStart(start, end, overlap);
    if next < |text| {
      FixedUnfold(text, start, size, overlap, fuel);
      TilesCons(start, stop, FixedWindows(text, next, size, overlap, fuel - 1).value, next, |text|, size);
    } else {
      assert FixedWindows(text, next, size, overlap, fuel - 1) == Some([]);
      FixedUnfold(text, start, size, overlap, fuel);
      TilesLast(start, stop, next, |text|, size);
    }
  }

  /** One step of the corrected loop, when the rest of it finishes. */
  lemma FixedUnfold(text: string, start: nat, size: int, overlap: int, fuel: nat)
    requires 0 < size && start < |text| && 0 < fuel
    requires FixedWindows(text, NextStart(start, WindowEnd(text, start, size), overlap), size, overlap, fuel - 1).Some?
    ensures var end := WindowEnd(text, start, size);
      var stop := if end < |text| then end else |text|;
      var next := NextStart(start, end, overlap);
      FixedWindows(text, start, size, overlap, fuel) == Some([(start, stop)] + FixedWindows(text, next, size, overlap, fuel - 1).value)
  {
    WindowAdvances(text, start, size);
  }

  /** A single window reaching the end tiles the rest of the text. */
  lemma TilesLast(start: nat, stop: nat, next: nat, n: nat, size: int)
    requires start < stop == n && stop - start <= size && n <= next
    ensures Tiles([(start, stop)] + [], start, n) && Narrow([(start, stop)] + [], size)
  {
    assert [(start, stop)] + [] == [(start, stop)];
  }

  /** No window is wider than `size`. */
  predicate Narrow(ws: seq<(nat, nat)>, size: int)
  {
    forall k :: 0 <= k < |ws| ==> ws[k].1 - ws[k].0 <= size
  }

  /** A window in front of a tiling of the rest that it reaches tiles the
      whole. */
  lemma TilesCons(start: nat, stop: nat, rest: seq<(nat, nat)>, next: nat, n: nat, size: int)
    requires Tiles(rest, next, n) && Narrow(rest, size)
    requires start < stop <= n && stop - start <= size && start < next
    requires next < n ==> next <= stop
    requires next >= n ==> stop == n
    ensures Tiles([(start, stop)] + rest, start, n) && Narrow([(start, stop)] + rest, size)
  {
    var ws := [(start, stop)] + rest;
    forall k | 0 <= k < |ws| - 1 ensures ws[k].0 < ws[k + 1].0 <= ws[k].1 {
      if k > 0 {
        assert ws[k] == rest[k - 1] && ws[k + 1] == rest[k];
      }
    }
    assert forall k :: 0 < k < |ws| ==> ws[k] == rest[k - 1];
  }

  /** Every position inside tiling windows lies in one of them. */
  lemma {:induction false} TilesCover(ws: seq<(nat, nat)>, start: nat, n: nat, i: nat)
    requires Tiles(ws, start, n) && start <= i < n
    ensures exists k :: 0 <= k < |ws| && ws[k].0 <= i < ws[k].1
  {
    if i >= ws[0].1 {
      assert |ws| > 1;
      var rest := ws[1..];
      assert Tiles(rest, ws[1].0, n) by {
        forall k | 0 <= k < |rest| - 1 ensures rest[k].0 < rest[k + 1].0 <= rest[k].1 {
          assert rest[k] == ws[k + 1] && rest[k + 1] == ws[k + 2];
        }
      }
      TilesCover(rest, ws[1].0, n, i);
      var k :| 0 <= k < |rest| && rest[k].0 <= i < rest[k].1;
      assert ws[k + 1] == rest[k];
    }
  }

  /** The corrected chunker. */
  function FixedChunkText(text: string, size: int, overlap: int, fuel: nat): Option<seq<string>>
  {
    if |text| <= size then Some([text])
    else
      var ws := FixedWindows(text, 0, size, overlap, fuel);
      if ws.None? then None
      else if forall k :: 0 <= k < |ws.value| ==> ws.value[k].0 <= ws.value[k].1 <= |text| then
        Some(seq(|ws.value|, k requires 0 <= k < |ws.value| => text[ws.value[k].0..ws.value[k].1]))
      else None
  }

  /** With a positive size the corrected chunker always finishes within
      one step per character, every chunk fits the size, and every
      character of the text lies in some chunk. */
  lemma FixedChunksCover(text: string, size: int, overlap: int)
    requires 0 < size && 0 <= overlap
    ensures FixedChunkText(text, size, overlap, |text|).Some?
    ensures forall k :: 0 <= k < |FixedChunkText(text, size, overlap, |text|).value| ==>
      |FixedChunkText(text, size, overlap, |text|).value[k]| <= size
    ensures forall i :: 0 <= i < |text| ==>
      exists k :: 0 <= k < |FixedChunkText(text, size, overlap, |text|).value| &&
        text[i] in FixedChunkText(text, size, overlap, |text|).value[k]
  {
    if |text| > size {
      FixedWindowsTile(text, 0, size, overlap, |text|);
      var ws := FixedWindows(text, 0, size, overlap, |text|).value;
      assert Narrow(ws, size);
      var cs := FixedChunkText(text, size, overlap, |text|).value;
      forall i | 0 <= i < |text|
        ensures exists k :: 0 <= k < |cs| && text[i] in cs[k]
      {
        TilesCover(ws, 0, |text|, i);
        var k :| 0 <= k < |ws| && ws[k].0 <= i < ws[k].1;
        assert cs[k] == text[ws[k].0..ws[k].1];
        assert text[i] == cs[k][i - ws[k].0];
      }
    } else {
      forall i | 0 <= i < |text|
        ensures exists k :: 0 <= k < 1 && text[i] in [text][k]
      {
        assert text[i] in [text][0];
      }
    }
  }

  // ---------------------------------------------------------------------
  // Front matter
  // ---------------------------------------------------------------------

  const Fence: string := "---\n"
  const Closer: string := "\n---"

  /** The block of a leading `---` fence: the text between the opening
      line and the first following newline-and-dashes, if any. */
  function FrontBlock(content: string): (r: Option<string>)
    ensures r.Some? ==> StartsWith(content, Fence + r.value + Closer)
    ensures r.Some? ==> forall j :: 0 <= j < |r.value| ==> !OccursAt(content[4..], Closer, j)
    ensures r.None? ==> !StartsWith(content, Fence) || !Contains(content[4..], Closer)
  {
    if !StartsWith(content, Fence) then None
    else
      var rest := content[4..];
      var k := Find(rest, Closer);
      if k < 0 then None
      else
        assert content == Fence + rest[..k] + Closer + rest[k + 4..];
        Some(rest[..k])
  }

  /** A block line with a colon: the stripped text before the first colon
      and the stripped rest. */
  function LineEntry(line: string): Option<(string, string)>
  {
    if ':' in line then
      var i := IndexOfChar(line, ':');
      Some((Strip(line[..i]), Strip(line[i + 1..])))
    else None
  }

  /** The mapping built from the block lines in order, later keys
      overwriting earlier ones in place. */
  function ParseLines(lines: seq<string>): (d: seq<(string, string)>)
    ensures Distinct(Keys(d))
  {
    if |lines| == 0 then []
    else
      var d := ParseLines(lines[..|lines| - 1]);
      match LineEntry(lines[|lines| - 1])
      case None => d
      case Some(kv) => Assign(d, kv.0, kv.1)
  }

  /** The front-matter mapping of a knowledge file. */
  function ExtractMetadata(content: string): (d: seq<(string, string)>)
    ensures Distinct(Keys(d))
    ensures !StartsWith(content, Fence) ==> d == []
  {
    match FrontBlock(content)
    case None => []
    case Some(block) => ParseLines(Split(block, '\n'))
  }

  /** Reference: the value of the last line carrying key `k`. */
  function LastValue(lines: seq<string>, k: string): Option<string>
  {
    if |lines| == 0 then None
    else
      var e := LineEntry(lines[|lines| - 1]);
      if e.Some? && e.value.0 == k then Some(e.value.1)
      else LastValue(lines[..|lines| - 1], k)
  }

  /** Looking a key up in the parsed mapping gives the value of the last
      line carrying that key, and nothing when no line carries it. */
  lemma {:induction false} LastLineWins(lines: seq<string>, k: string)
    ensures Lookup(ParseLines(lines), k) == LastValue(lines, k)
  {
    if |lines| > 0 {
      LastLineWins(lines[..|lines| - 1], k);
      var e := LineEntry(lines[|lines| - 1]);
      if e.Some? && e.value.0 != k {
        AssignOther(ParseLines(lines[..|lines| - 1]), e.value.0, e.value.1, k);
      }
    }
  }

  /** The metadata of a file maps each key to its last value in the block. */
  lemma MetadataLastWins(content: string, block: string, k: string)
    requires FrontBlock(content) == Some(block)
    ensures Lookup(ExtractMetadata(content), k) == LastValue(Split(block, '\n'), k)
  {
    LastLineWins(Split(block, '\n'), k);
  }

  // ---------------------------------------------------------------------
  // Keyword search
  // ---------------------------------------------------------------------

  /** The distinct lower-cased whitespace-separated words of the query. */
  function QueryTerms(query: string): (ts: seq<string>)
    ensures Distinct(ts)
    ensures forall k :: 0 <= k < |ts| ==> |ts[k]| > 0
  {
    Dedup(Words(Lower(query)))
  }

  /** The number of query terms occurring in the lower-cased content. */
  function Hits(terms: seq<string>, content: string): (h: nat)
    ensures h <= |terms|
  {
    |Filter(terms, (t: string) => Contains(Lower(content), t))|
  }

  datatype Scored = Scored(hits: nat, chunk: Chunk)

  /** The chunks with at least one hit, in order, with their hit counts. */
  function ScoreAll(chunks: seq<Chunk>, terms: seq<string>): (r: seq<Scored>)
    ensures |r| <= |chunks|
    ensures forall i :: 0 <= i < |r| ==>
      r[i].hits > 0 && r[i].chunk in chunks && r[i].hits == Hits(terms, r[i].chunk.content)
  {
    if |chunks| == 0 then []
    else
      var h := Hits(terms, chunks[0].content);
      (if h > 0 then [Scored(h, chunks[0])] else []) + ScoreAll(chunks[1..], terms)
  }

  /** Every chunk sharing a term with the query is scored. */
  lemma {:induction false} ScoreAllComplete(chunks: seq<Chunk>, terms: seq<string>, c: Chunk)
    requires c in chunks && Hits(terms, c.content) > 0
    ensures Scored(Hits(terms, c.content), c) in ScoreAll(chunks, terms)
  {
    if chunks[0] != c {
      assert c in chunks[1..];
      ScoreAllComplete(chunks[1..], terms, c);
    }
  }

  function ByHits(): Scored -> int
  {
    (s: Scored) => s.hits as int
  }

  function HasPattern(pattern: Option<int>): Chunk -> bool
  {
    (c: Chunk) => pattern.None? || pattern.value in c.patternIds
  }

  /** The ranked hits before the cut: the matching chunks of the pool,
      stably sorted by hit count, highest first. */
  function Ranked(chunks: seq<Chunk>, query: string, pattern: Option<int>): seq<Scored>
  {
    SortBy(ScoreAll(Filter(chunks, HasPattern(pattern)), QueryTerms(query)), ByHits(), Flip(IntLe()))
  }

  /** Keyword search: the first `topK` ranked chunks (Python's `[:top_k]`),
      each scored by the share of query terms it contains. */
  function Search(chunks: seq<Chunk>, query: string, topK: int, pattern: Option<int>): (rs: seq<SearchResult>)
    ensures topK >= 0 ==> |rs| <= topK
  {
    var top := Take(Ranked(chunks, query, pattern), topK);
    var n := |QueryTerms(query)|;
    seq(|top|, i requires 0 <= i < |top| => SearchResult(top[i].chunk, ScoreOf(top[i].hits, n)))
  }

  /** The score of a chunk with `hits` of `n` query terms. */
  function ScoreOf(hits: nat, n: nat): real
  {
    if n == 0 then 0.0 else hits as real / n as real
  }

  lemma ScoreMonotone(a: nat, b: nat, n: nat)
    requires b <= a
    ensures ScoreOf(b, n) <= ScoreOf(a, n)
  {
    if n > 0 {
      var q := 1.0 / n as real;
      assert a as real / n as real == a as real * q;
      assert b as real / n as real == b as real * q;
    }
  }

  /** Search returns chunks of the input with positive scores, each
      listing the pattern when one is given, at most one per chunk. */
  lemma SearchSound(chunks: seq<Chunk>, query: string, topK: int, pattern: Option<int>)
    ensures var rs := Search(chunks, query, topK, pattern);
      |rs| <= |chunks| &&
      (forall i :: 0 <= i < |rs| ==> rs[i].score > 0.0 && rs[i].chunk in chunks) &&
      (pattern.Some? ==> forall i :: 0 <= i < |rs| ==> pattern.value in rs[i].chunk.patternIds)
  {
    var terms := QueryTerms(query);
    var ranked := Ranked(chunks, query, pattern);
    RankedSound(chunks, query, pattern);
    var top := Take(ranked, topK);
    var rs := Search(chunks, query, topK, pattern);
    forall i | 0 <= i < |rs|
      ensures rs[i].score > 0.0 && rs[i].chunk in chunks
      ensures pattern.Some? ==> pattern.value in rs[i].chunk.patternIds
    {
      assert top[i] == ranked[i];
      PositiveScore(top[i].hits, |terms|);
    }
  }

  lemma PositiveScore(hits: nat, n: nat)
    requires 0 < hits <= n
    ensures ScoreOf(hits, n) > 0.0
  {
  }

  /** The ranked list holds chunks of the pool with a hit count between one
      and the number of terms. */
  lemma RankedSound(chunks: seq<Chunk>, query: string, pattern: Option<int>)
    ensures var ranked := Ranked(chunks, query, pattern);
      |ranked| <= |chunks| &&
      forall i :: 0 <= i < |ranked| ==>
        0 < ranked[i].hits <= |QueryTerms(query)| && ranked[i].chunk in chunks &&
        HasPattern(pattern)(ranked[i].chunk) &&
        ranked[i].hits == Hits(QueryTerms(query), ranked[i].chunk.content)
  {
    var pool := ScoreAll(Filter(chunks, HasPattern(pattern)), QueryTerms(query));
    SortByMembers(pool, ByHits(), Flip(IntLe()));
    var ranked := Ranked(chunks, query, pattern);
    forall i | 0 <= i < |ranked|
      ensures 0 < ranked[i].hits <= |QueryTerms(query)| && ranked[i].chunk in chunks
      ensures HasPattern(pattern)(ranked[i].chunk)
      ensures ranked[i].hits == Hits(QueryTerms(query), ranked[i].chunk.content)
    {
      assert ranked[i] in pool;
      PoolMember(chunks, QueryTerms(query), pattern, ranked[i]);
    }
  }

  /** An entry of the scored pool is a matching chunk of the input. */
  lemma PoolMember(chunks: seq<Chunk>, terms: seq<string>, pattern: Option<int>, e: Scored)
    requires e in ScoreAll(Filter(chunks, HasPattern(pattern)), terms)
    ensures 0 < e.hits <= |terms| && e.chunk in chunks && HasPattern(pattern)(e.chunk)
    ensures e.hits == Hits(terms, e.chunk.content)
  {
    var pool := ScoreAll(Filter(chunks, HasPattern(pattern)), terms);
    var j :| 0 <= j < |pool| && pool[j] == e;
    assert pool[j].chunk in Filter(chunks, HasPattern(pattern));
  }

  /** Search results come highest score first. */
  lemma SearchOrdered(chunks: seq<Chunk>, query: string, topK: int, pattern: Option<int>)
    ensures var rs := Search(chunks, query, topK, pattern);
      forall i, j :: 0 <= i < j < |rs| ==> rs[i].score >= rs[j].score
  {
    var ranked := Ranked(chunks, query, pattern);
    IntLePreorder();
    FlipPreorder(IntLe());
    SortSorted(ScoreAll(Filter(chunks, HasPattern(pattern)), QueryTerms(query)), ByHits(), Flip(IntLe()));
    var top := Take(ranked, topK);
    var rs := Search(chunks, query, topK, pattern);
    forall i, j | 0 <= i < j < |rs| ensures rs[i].score >= rs[j].score {
      assert top[i] == ranked[i] && top[j] == ranked[j];
      assert Flip(IntLe())(ByHits()(ranked[i]), ByHits()(ranked[j]));
      ScoreMonotone(top[i].hits, top[j].hits, |QueryTerms(query)|);
    }
  }

  /** Every result's score is the share of distinct query terms its chunk
      contains. */
  lemma SearchScores(chunks: seq<Chunk>, query: string, topK: int, pattern: Option<int>)
    ensures var rs := Search(chunks, query, topK, pattern);
      forall i :: 0 <= i < |rs| ==>
        rs[i].score == Hits(QueryTerms(query), rs[i].chunk.content) as real / |QueryTerms(query)| as real
  {
    var terms := QueryTerms(query);
    var ranked := Ranked(chunks, query, pattern);
    RankedSound(chunks, query, pattern);
    var top := Take(ranked, topK);
    var rs := Search(chunks, query, topK, pattern);
    forall i | 0 <= i < |rs|
      ensures rs[i].score == Hits(terms, rs[i].chunk.content) as real / |terms| as real
    {
      assert top[i] == ranked[i];
    }
  }

  /** When `topK` covers every chunk, each chunk of the pool sharing a term
      with the query is returned. */
  lemma SearchFindsAll(chunks: seq<Chunk>, query: string, topK: int, pattern: Option<int>, c: Chunk)
    requires topK >= |chunks|
    requires c in chunks && HasPattern(pattern)(c) && Hits(QueryTerms(query), c.content) > 0
    ensures exists i :: (0 <= i < |Search(chunks, query, topK, pattern)| &&
      Search(chunks, query, topK, pattern)[i].chunk == c)
  {
    var pool := ScoreAll(Filter(chunks, HasPattern(pattern)), QueryTerms(query));
    var s := Scored(Hits(QueryTerms(query), c.content), c);
    ScoreAllComplete(Filter(chunks, HasPattern(pattern)), QueryTerms(query), c);
    assert s in pool;
    SortByMembers(pool, ByHits(), Flip(IntLe()));
    var ranked := Ranked(chunks, query, pattern);
    assert s in ranked;
    var i :| 0 <= i < |ranked| && ranked[i] == s;
    TakeWhole(ranked, topK);
    SearchAt(chunks, query, topK, pattern, i);
  }

  /** The cut to `top_k` keeps the best chunks: when a chunk of the pool
      sharing a term with the query is missing from the results, there are
      `topK` of them and every one scores at least as high as that chunk. */
  lemma SearchTopK(chunks: seq<Chunk>, query: string, topK: int, pattern: Option<int>, c: Chunk)
    requires c in chunks && HasPattern(pattern)(c) && Hits(QueryTerms(query), c.content) > 0 && topK >= 0
    requires forall i :: 0 <= i < |Search(chunks, query, topK, pattern)| ==> Search(chunks, query, topK, pattern)[i].chunk != c
    ensures var rs := Search(chunks, query, topK, pattern);
      && |rs| == topK
      && forall i :: 0 <= i < |rs| ==> rs[i].score >= ScoreOf(Hits(QueryTerms(query), c.content), |QueryTerms(query)|)
  {
    var terms := QueryTerms(query);
    var pool := ScoreAll(Filter(chunks, HasPattern(pattern)), terms);
    var s := Scored(Hits(terms, c.content), c);
    ScoreAllComplete(Filter(chunks, HasPattern(pattern)), terms, c);
    SortByMembers(pool, ByHits(), Flip(IntLe()));
    IntLePreorder();
    FlipPreorder(IntLe());
    SortSorted(pool, ByHits(), Flip(IntLe()));
    var ranked := Ranked(chunks, query, pattern);
    var top := Take(ranked, topK);
    assert s !in top by {
      if s in top {
        var i :| 0 <= i < |top| && top[i] == s;
        SearchAt(chunks, query, topK, pattern, i);
      }
    }
    TakeKeepsBest(ranked, ByHits(), Flip(IntLe()), topK, s);
    var rs := Search(chunks, query, topK, pattern);
    forall i | 0 <= i < |rs| ensures rs[i].score >= ScoreOf(s.hits, |terms|) {
      assert top[i] in top;
      ScoreMonotone(top[i].hits, s.hits, |terms|);
    }
  }

  /** The `i`-th result carries the `i`-th ranked chunk. */
  lemma SearchAt(chunks: seq<Chunk>, query: string, topK: int, pattern: Option<int>, i: nat)
    requires i < |Take(Ranked(chunks, query, pattern), topK)|
    ensures i < |Search(chunks, query, topK, pattern)|
    ensures Search(chunks, query, topK, pattern)[i].chunk == Take(Ranked(chunks, query, pattern), topK)[i].chunk
  {
  }

  lemma {:induction false} ScoreAllFilter(chunks: seq<Chunk>, f: Chunk -> bool, terms: seq<string>)
    ensures |ScoreAll(Filter(chunks, f), terms)| <= |ScoreAll(chunks, terms)|
  {
    if |chunks| > 0 {
      ScoreAllFilter(chunks[1..], f, terms);
      assert Filter(chunks, f) == (if f(chunks[0]) then [chunks[0]] else []) + Filter(chunks[1..], f);
      if f(chunks[0]) {
        var fs := Filter(chunks, f);
        assert fs[0] == chunks[0];
        assert fs[1..] == Filter(chunks[1..], f);
        var h := Hits(terms, chunks[0].content);
        assert ScoreAll(fs, terms) == (if h > 0 then [Scored(h, chunks[0])] else []) + ScoreAll(fs[1..], terms);
        assert ScoreAll(chunks, terms) == (if h > 0 then [Scored(h, chunks[0])] else []) + ScoreAll(chunks[1..], terms);
      } else {
        assert Filter(chunks, f) == Filter(chunks[1..], f);
        var h := Hits(terms, chunks[0].content);
        assert ScoreAll(chunks, terms) == (if h > 0 then [Scored(h, chunks[0])] else []) + ScoreAll(chunks[1..], terms);
      }
    }
  }

  /** For the same query and cut, searching every pattern returns at least
      as many results as searching one. */
  lemma UnfilteredFindsMore(chunks: seq<Chunk>, query: string, topK: int, p: int)
    ensures |Search(chunks, query, topK, None)| >= |Search(chunks, query, topK, Some(p))|
  {
    FilterAll(chunks, HasPattern(None));
    ScoreAllFilter(chunks, HasPattern(Some(p)), QueryTerms(query));
  }

  // ---------------------------------------------------------------------
  // Context and sources
  // ---------------------------------------------------------------------

  const NotFound: string := "（関連するナレッジが見つかりませんでした）"

  /** The `i`-th reference block of the context. */
  function Block(i: nat, r: SearchResult): (b: string)
    ensures StartsWith(b, "【参照")
  {
    var b := "【参照" + NatToString(i) + "】出典: " + r.chunk.sourceFile + "\n" + r.chunk.content;
    assert b == "【参照" + (NatToString(i) + "】出典: " + r.chunk.sourceFile + "\n" + r.chunk.content);
    Affixes("【参照", NatToString(i) + "】出典: " + r.chunk.sourceFile + "\n" + r.chunk.content);
    b
  }

  function Blocks(rs: seq<SearchResult>, from: nat): (bs: seq<string>)
    ensures |bs| == |rs|
    ensures forall k :: 0 <= k < |rs| ==> bs[k] == Block(from + k, rs[k])
  {
    if |rs| == 0 then [] else [Block(from, rs[0])] + Blocks(rs[1..], from + 1)
  }

  /** The context for the model: the fixed not-found notice for no
      results, else one numbered reference block per result, separated by
      blank lines. */
  function FormatContext(rs: seq<SearchResult>): (r: string)
    ensures |rs| == 0 ==> r == NotFound
  {
    if |rs| == 0 then NotFound else Join(Blocks(rs, 1), "\n\n")
  }

  /** The context is the not-found notice exactly when there are no
      results, and otherwise carries every result's numbered block. */
  lemma ContextBlocks(rs: seq<SearchResult>)
    ensures FormatContext(rs) == NotFound <==> |rs| == 0
    ensures forall k :: 0 <= k < |rs| ==> Contains(FormatContext(rs), Block(k + 1, rs[k]))
  {
    var bs := Blocks(rs, 1);
    if |rs| > 0 {
      ContextOpensWithBlock(rs);
      assert NotFound[0] != '【';
    }
    forall k | 0 <= k < |rs| ensures Contains(FormatContext(rs), Block(k + 1, rs[k])) {
      JoinContains(bs, "\n\n", k);
    }
  }

  /** A context with results opens with the first block's bracket. */
  lemma ContextOpensWithBlock(rs: seq<SearchResult>)
    requires |rs| > 0
    ensures |FormatContext(rs)| > 0 && FormatContext(rs)[0] == '【'
  {
    var bs := Blocks(rs, 1);
    assert StartsWith(bs[0], "【参照");
    JoinFirstChar(bs, "\n\n");
  }

  /** The distinct source files of the results, in first-occurrence order. */
  function GetSources(rs: seq<SearchResult>): (srcs: seq<string>)
    ensures Distinct(srcs)
    ensures forall i :: 0 <= i < |rs| ==> rs[i].chunk.sourceFile in srcs
    ensures forall i :: 0 <= i < |srcs| ==> exists j :: 0 <= j < |rs| && rs[j].chunk.sourceFile == srcs[i]
  {
    var all := seq(|rs|, i requires 0 <= i < |rs| => rs[i].chunk.sourceFile);
    assert forall i :: 0 <= i < |rs| ==> all[i] == rs[i].chunk.sourceFile;
    Dedup(all)
  }

  /** The sources list keeps exactly the first occurrence of each source. */
  lemma SourcesFirstOccurrence(rs: seq<SearchResult>)
    ensures var all := seq(|rs|, i requires 0 <= i < |rs| => rs[i].chunk.sourceFile);
      GetSources(rs) == FirstOccurrences(all, |all|)
  {
    var all := seq(|rs|, i requires 0 <= i < |rs| => rs[i].chunk.sourceFile);
    DedupFirstOccurrences(all);
  }
}

=== FILE: slugs.dfy ===
/** File names of the AI-development knowledge base: the title slug both
    content handlers build (`_slugify`), and the first free numbered
    variant of a name, which entry creation and image registration use so
    as never to overwrite a file. */
module Slugs {
  import opened Text
  import opened Lists

  // ---------------------------------------------------------------------
  // Slugs
  // ---------------------------------------------------------------------

  const MaxSlug := 80

  /** A character the slug keeps: a word character (`isWord` is the
      regular-expression class `\w`, whose Unicode table is not part of
      this model), hiragana, katakana, a CJK ideograph or "-". */
  predicate Kept(isWord: char -> bool, c: char)
  {
    isWord(c) || ('\U{3040}' <= c <= '\U{309F}') || ('\U{30A0}' <= c <= '\U{30FF}')
    || ('\U{4E00}' <= c <= '\U{9FFF}') || c == '-'
  }

  function SafeChar(isWord: char -> bool, c: char): char
  {
    if Kept(isWord, c) then c else '_'
  }

  /** The first substitution: every character outside the kept class
      becomes "_". */
  function Sanitize(title: string, isWord: char -> bool): (r: string)
    ensures |r| == |title|
    ensures forall i :: 0 <= i < |title| ==> r[i] == SafeChar(isWord, title[i])
  {
    if |title| == 0 then "" else [SafeChar(isWord, title[0])] + Sanitize(title[1..], isWord)
  }

  /** No "__" anywhere. */
  predicate NoRun(s: string)
  {
    forall i :: 0 < i < |s| ==> s[i - 1] != '_' || s[i] != '_'
  }

  /** The second substitution: every run of "_" becomes a single "_". */
  function Squeeze(s: string): (r: string)
    ensures |r| <= |s|
    ensures |s| > 0 ==> |r| > 0 && r[0] == s[0]
    ensures NoRun(r)
    ensures forall c :: c in r ==> c in s
    decreases |s|
  {
    if |s| <= 1 then s
    else if s[0] == '_' && s[1] == '_' then Squeeze(s[1..])
    else
      var rest := Squeeze(s[1..]);
      assert forall c :: c in [s[0]] + rest ==> c == s[0] || c in rest;
      [s[0]] + rest
  }

  function Underscore(): char -> bool
  {
    IsChar('_')
  }

  /** The outer "_" stripped from a squeezed string. */
  function Trim(s: string): (t: string)
    requires NoRun(s)
    ensures NoRun(t)
    ensures |t| > 0 ==> t[0] != '_' && t[|t| - 1] != '_'
    ensures forall c :: c in t ==> c in s
    ensures Letters(t) == Letters(s)
  {
    var a := SkipFrom(s, Underscore(), 0);
    var b := SkipBack(s, Underscore(), a, |s|);
    SliceNoRun(s, a, b);
    SliceLetters(s, a, b);
    s[a..b]
  }

  /** The cut to 80 characters, dropping any "_" left at the cut end. */
  function Cut(s: string): (t: string)
    requires NoRun(s)
    requires |s| > 0 ==> s[0] != '_' && s[|s| - 1] != '_'
    ensures |t| <= MaxSlug && |t| <= |s| && t == s[..|t|]
    ensures |s| <= MaxSlug ==> t == s
    ensures NoRun(t)
    ensures |t| > 0 ==> t[0] != '_' && t[|t| - 1] != '_'
    ensures |s| > 0 ==> |t| > 0
  {
    if |s| > MaxSlug then
      var t := RStripBy(s[..MaxSlug], Underscore());
      SliceNoRun(s, 0, |t|);
      assert t == s[..MaxSlug][..|t|] == s[..|t|];
      assert |t| > 0 ==> t[0] == s[0];
      t
    else s
  }

  /** Python's `_slugify`: substitute, squeeze, strip the outer "_", and
      cut to 80 characters with any "_" left at the cut end removed. */
  function Slugify(title: string, isWord: char -> bool): (slug: string)
    ensures |slug| <= MaxSlug
    ensures NoRun(slug)
    ensures |slug| > 0 ==> slug[0] != '_' && slug[|slug| - 1] != '_'
    ensures forall c :: c in slug ==> c == '_' || Kept(isWord, c)
  {
    var s := Trim(Squeeze(Sanitize(title, isWord)));
    var t := Cut(s);
    assert forall c :: c in t ==> c in s;
    t
  }

  lemma SliceNoRun(s: string, a: nat, b: nat)
    requires a <= b <= |s|
    requires NoRun(s)
    ensures NoRun(s[a..b])
  {
    forall i | 0 < i < b - a ensures s[a..b][i - 1] != '_' || s[a..b][i] != '_' {
      assert s[a..b][i - 1] == s[a + i - 1] && s[a..b][i] == s[a + i];
    }
  }

  // ---------------------------------------------------------------------
  // What a slug keeps of its title
  // ---------------------------------------------------------------------

  function NotUnderscore(): char -> bool
  {
    c => c != '_'
  }

  /** A kept character other than "_": what survives into the slug. */
  function KeptLetter(isWord: char -> bool): char -> bool
  {
    c => Kept(isWord, c) && c != '_'
  }

  /** The characters of `s` other than "_", in order. */
  function Letters(s: string): string
  {
    Filter(s, NotUnderscore())
  }

  lemma {:induction false} SanitizeLetters(title: string, isWord: char -> bool)
    ensures Letters(Sanitize(title, isWord)) == Filter(title, KeptLetter(isWord))
  {
    if |title| > 0 {
      SanitizeLetters(title[1..], isWord);
      assert Sanitize(title, isWord)[1..] == Sanitize(title[1..], isWord);
    }
  }

  lemma {:induction false} SqueezeLetters(s: string)
    ensures Letters(Squeeze(s)) == Letters(s)
    decreases |s|
  {
    if |s| > 1 {
      SqueezeLetters(s[1..]);
      if !(s[0] == '_' && s[1] == '_') {
        assert Squeeze(s) == [s[0]] + Squeeze(s[1..]);
        assert ([s[0]] + Squeeze(s[1..]))[1..] == Squeeze(s[1..]);
      }
    }
  }

  /** Dropping an outer part made only of "_" keeps the letters. */
  lemma SliceLetters(s: string, a: nat, b: nat)
    requires a <= b <= |s|
    requires forall k :: 0 <= k < a ==> s[k] == '_'
    requires forall k :: b <= k < |s| ==> s[k] == '_'
    ensures Letters(s[a..b]) == Letters(s)
  {
    FilterSlice(s, a, b, NotUnderscore());
  }

  /** Filtering ignores an outer part that the filter drops entirely. */
  lemma FilterSlice<T>(s: seq<T>, a: nat, b: nat, f: T -> bool)
    requires a <= b <= |s|
    requires forall k :: 0 <= k < a ==> !f(s[k])
    requires forall k :: b <= k < |s| ==> !f(s[k])
    ensures Filter(s[a..b], f) == Filter(s, f)
  {
    FilterDropBack(s, b, f);
    FilterDropFront(s[..b], a, f);
    assert s[..b][a..] == s[a..b];
  }

  lemma {:induction false} FilterDropFront<T>(s: seq<T>, a: nat, f: T -> bool)
    requires a <= |s|
    requires forall k :: 0 <= k < a ==> !f(s[k])
    ensures Filter(s[a..], f) == Filter(s, f)
  {
    if a > 0 {
      assert !f(s[0]);
      FilterDropFront(s[1..], a - 1, f);
      assert s[1..][a - 1..] == s[a..];
    }
  }

  lemma {:induction false} FilterDropBack<T>(s: seq<T>, b: nat, f: T -> bool)
    requires b <= |s|
    requires forall k :: b <= k < |s| ==> !f(s[k])
    ensures Filter(s[..b], f) == Filter(s, f)
  {
    if b < |s| {
      var back := s[b..];
      forall i | 0 <= i < |back| ensures !f(back[i]) {
        assert back[i] == s[b + i];
      }
      FilterNone(back, f);
      FilterAppend(s[..b], back, f);
      assert s[..b] + back == s;
      assert Filter(s[..b], f) + [] == Filter(s[..b], f);
    } else {
      assert s[..b] == s;
    }
  }

  /** The letters of a prefix are a prefix of the letters. */
  lemma PrefixLetters(s: string, k: nat)
    requires k <= |s|
    ensures |Letters(s[..k])| <= |Letters(s)|
    ensures Letters(s[..k]) == Letters(s)[..|Letters(s[..k])|]
  {
    assert s == s[..k] + s[k..];
    FilterAppend(s[..k], s[k..], NotUnderscore());
  }

  /** The slug's characters other than "_" are the title's kept
      characters other than "_", in order: all of them for a title of at
      most 80 characters, and a leading part of them otherwise. */
  lemma SlugifyLetters(title: string, isWord: char -> bool)
    ensures var want := Filter(title, KeptLetter(isWord));
      |Letters(Slugify(title, isWord))| <= |want|
      && Letters(Slugify(title, isWord)) == want[..|Letters(Slugify(title, isWord))|]
    ensures |title| <= MaxSlug ==> Letters(Slugify(title, isWord)) == Filter(title, KeptLetter(isWord))
  {
    var sanitized := Sanitize(title, isWord);
    var s := Trim(Squeeze(sanitized));
    SanitizeLetters(title, isWord);
    SqueezeLetters(sanitized);
    PrefixLetters(s, |Cut(s)|);
  }

  // ---------------------------------------------------------------------
  // Fixed points
  // ---------------------------------------------------------------------

  /** A string that already has the form of a slug. */
  predicate IsSlug(s: string, isWord: char -> bool)
  {
    |s| <= MaxSlug && NoRun(s) && (|s| > 0 ==> s[0] != '_' && s[|s| - 1] != '_')
    && forall i :: 0 <= i < |s| ==> s[i] == '_' || Kept(isWord, s[i])
  }

  lemma SanitizeSafe(s: string, isWord: char -> bool)
    requires forall i :: 0 <= i < |s| ==> s[i] == '_' || Kept(isWord, s[i])
    ensures Sanitize(s, isWord) == s
  {
  }

  lemma {:induction false} SqueezeNoRun(s: string)
    requires NoRun(s)
    ensures Squeeze(s) == s
    decreases |s|
  {
    if |s| > 1 {
      SliceNoRun(s, 1, |s|);
      SqueezeNoRun(s[1..]);
      assert s == [s[0]] + s[1..];
    }
  }

  /** A slug is its own slug, so slugifying twice changes nothing. */
  lemma SlugifyFixes(s: string, isWord: char -> bool)
    requires IsSlug(s, isWord)
    ensures Slugify(s, isWord) == s
  {
    SanitizeSafe(s, isWord);
    SqueezeNoRun(s);
    if |s| > 0 {
      assert SkipFrom(s, Underscore(), 0) == 0;
      assert SkipBack(s, Underscore(), 0, |s|) == |s|;
    }
    assert s[0..|s|] == s;
    assert Trim(s) == s;
  }

  lemma SlugifyIdempotent(title: string, isWord: char -> bool)
    ensures Slugify(Slugify(title, isWord), isWord) == Slugify(title, isWord)
  {
    var slug := Slugify(title, isWord);
    assert forall i :: 0 <= i < |slug| ==> slug[i] in slug;
    SlugifyFixes(slug, isWord);
  }

  // ---------------------------------------------------------------------
  // Free names
  // ---------------------------------------------------------------------

  /** The `k`-th name tried for `stem` and extension `ext`: the plain name
      first, then "_1", "_2", … before the extension. */
  function Candidate(stem: string, ext: string, k: nat): (name: string)
    ensures k == 0 ==> name == stem + ext
  {
    if k == 0 then stem + ext else stem + "_" + NatToString(k) + ext
  }

  /** Different attempts give different names. */
  lemma CandidateInjective(stem: string, ext: string, i: nat, j: nat)
    requires Candidate(stem, ext, i) == Candidate(stem, ext, j)
    ensures i == j
  {
    if i != 0 && j != 0 {
      var a := Candidate(stem, ext, i);
      var b := Candidate(stem, ext, j);
      var lo := |stem| + 1;
      assert a[lo..|a| - |ext|] == NatToString(i);
      assert b[lo..|b| - |ext|] == NatToString(j);
      ParseNatToString(i);
      ParseNatToString(j);
    }
  }

  /** `k` distinct names all taken means at least `k` taken names. */
  lemma {:induction false} TakenBound(stem: string, ext: string, taken: set<string>, k: nat)
    requires forall j :: 0 <= j < k ==> Candidate(stem, ext, j) in taken
    ensures k <= |taken|
  {
    if k > 0 {
      var last := Candidate(stem, ext, k - 1);
      var rest := taken - {last};
      forall j | 0 <= j < k - 1 ensures Candidate(stem, ext, j) in rest {
        if Candidate(stem, ext, j) == last {
          CandidateInjective(stem, ext, j, k - 1);
        }
      }
      TakenBound(stem, ext, rest, k - 1);
    }
  }

  /** The first free attempt from `k` on, when the attempts before `k`
      are all taken. */
  function FirstFree(stem: string, ext: string, taken: set<string>, k: nat): (r: nat)
    requires forall j :: 0 <= j < k ==> Candidate(stem, ext, j) in taken
    ensures k <= r <= |taken|
    ensures Candidate(stem, ext, r) !in taken
    ensures forall j :: 0 <= j < r ==> Candidate(stem, ext, j) in taken
    decreases |taken| - k
  {
    TakenBound(stem, ext, taken, k);
    if Candidate(stem, ext, k) !in taken then k
    else
      TakenBound(stem, ext, taken, k + 1);
      FirstFree(stem, ext, taken, k + 1)
  }

  /** The name the loop of `create_entry` and `register_image` settles on. */
  function FreeNameOf(stem: string, ext: string, taken: set<string>): (name: string)
    ensures name !in taken
    ensures stem + ext !in taken ==> name == stem + ext
  {
    Candidate(stem, ext, FirstFree(stem, ext, taken, 0))
  }

  /** The loop of `create_entry` and `register_image`: try the candidates
      in order and take the first one not already present, so no existing
      file is ever overwritten. */
  method FreeName(stem: string, ext: string, taken: set<string>) returns (name: string, k: nat)
    ensures name == Candidate(stem, ext, k)
    ensures name !in taken
    ensures forall j :: 0 <= j < k ==> Candidate(stem, ext, j) in taken
    ensures name == FreeNameOf(stem, ext, taken)
  {
    k := 0;
    name := stem + ext;
    while name in taken
      invariant name == Candidate(stem, ext, k)
      invariant forall j :: 0 <= j < k ==> Candidate(stem, ext, j) in taken
      invariant FirstFree(stem, ext, taken, k) == FirstFree(stem, ext, taken, 0)
      decreases |taken| - k
    {
      TakenBound(stem, ext, taken, k + 1);
      k := k + 1;
      name := stem + "_" + NatToString(k) + ext;
    }
  }
}

=== FILE: text.dfy ===
/** Python string operations the modelled code relies on, over `string`
    (a sequence of Unicode scalar values). */
module Text {
  import opened Wrappers

  // ---------------------------------------------------------------------
  // Character classes
  // ---------------------------------------------------------------------

  /** Python's `str.isspace` for a single character. */
  predicate IsSpace(c: char)
  {
    c == ' ' || ('\t' <= c <= '\r') || ('\U{1c}' <= c <= '\U{1f}')
    || c == '\U{85}' || c == '\U{a0}' || c == '\U{1680}'
    || ('\U{2000}' <= c <= '\U{200a}') || c == '\U{2028}' || c == '\U{2029}'
    || c == '\U{202f}' || c == '\U{205f}' || c == '\U{3000}'
  }

  /** An ASCII decimal digit (the model's reading of `\d`). */
  predicate IsDigit(c: char)
  {
    '0' <= c <= '9'
  }

  function DigitValue(c: char): (d: nat)
    requires IsDigit(c)
    ensures d < 10
  {
    c as int - '0' as int
  }

  function DigitChar(d: nat): (c: char)
    requires d < 10
    ensures IsDigit(c) && DigitValue(c) == d
  {
    ('0' as int + d) as char
  }

  predicate AllDigits(s: string)
  {
    forall i :: 0 <= i < |s| ==> IsDigit(s[i])
  }

  /** Lower-casing of one character; only ASCII letters change. */
  function LowerChar(c: char): (r: char)
    ensures 'A' <= c <= 'Z' ==> r as int == c as int + 32
    ensures !('A' <= c <= 'Z') ==> r == c
  {
    if 'A' <= c <= 'Z' then (c as int + 32) as char else c
  }

  /** `str.lower()`, restricted to ASCII letters; it keeps the length. */
  function Lower(s: string): (r: string)
    ensures |r| == |s|
    ensures forall i :: 0 <= i < |s| ==> r[i] == LowerChar(s[i])
  {
    seq(|s|, i requires 0 <= i < |s| => LowerChar(s[i]))
  }

  lemma LowerIdempotent(s: string)
    ensures Lower(Lower(s)) == Lower(s)
  {
  }

  // ---------------------------------------------------------------------
  // Prefixes, slicing, occurrences
  // ---------------------------------------------------------------------

  predicate StartsWith(s: string, p: string)
  {
    |p| <= |s| && s[..|p|] == p
  }

  predicate EndsWith(s: string, p: string)
  {
    |p| <= |s| && s[|s| - |p|..] == p
  }

  lemma Affixes(a: string, b: string)
    ensures StartsWith(a + b, a) && EndsWith(a + b, b)
  {
    assert (a + b)[..|a|] == a;
    assert (a + b)[|a|..] == b;
  }

  /** A prefix of `s` is a prefix of anything `s` is extended to. */
  lemma PrefixAppend(s: string, p: string, x: string)
    requires StartsWith(s, p)
    ensures StartsWith(s + x, p)
  {
    assert (s + x)[..|p|] == s[..|p|];
  }

  lemma PrefixShorten(s: string, p: string, x: string)
    requires StartsWith(s, p + x)
    ensures StartsWith(s, p)
  {
    assert (p + x)[..|p|] == p;
  }

  /** Python's `s[:k]` for any integer `k`, negative counting from the end. */
  function Take<T>(s: seq<T>, k: int): (r: seq<T>)
    ensures k >= 0 ==> |r| == if k <= |s| then k else |s|
    ensures k < 0 ==> |r| == if |s| + k >= 0 then |s| + k else 0
    ensures r == s[..|r|]
  {
    if k >= 0 then (if k <= |s| then s[..k] else s)
    else if |s| + k >= 0 then s[..|s| + k] else []
  }

  /** Every element of a prefix is an element of the whole. */
  lemma TakeMembers<T>(s: seq<T>, k: int)
    ensures forall x :: x in Take(s, k) ==> x in s
  {
    var r := Take(s, k);
    forall x | x in r ensures x in s {
      var i :| 0 <= i < |r| && r[i] == x;
      assert s[i] == x;
    }
  }

  /** Cutting a sequence ordered by `le` on `key` to its first `topK`
      elements: an element left out means the cut is full and every kept
      element ranks at least as high as it. */
  lemma TakeKeepsBest<T, K>(sorted: seq<T>, key: T -> K, le: (K, K) -> bool, topK: int, x: T)
    requires forall i, j :: 0 <= i < j < |sorted| ==> le(key(sorted[i]), key(sorted[j]))
    requires topK >= 0 && x in sorted && x !in Take(sorted, topK)
    ensures |Take(sorted, topK)| == topK
    ensures forall y :: y in Take(sorted, topK) ==> le(key(y), key(x))
  {
    var r := Take(sorted, topK);
    var j :| 0 <= j < |sorted| && sorted[j] == x;
    assert j >= |r|;
    forall y | y in r ensures le(key(y), key(x)) {
      var i :| 0 <= i < |r| && r[i] == y;
      assert sorted[i] == y;
    }
  }

  /** A cut at least as long as the sequence keeps all of it. */
  lemma TakeWhole<T>(s: seq<T>, k: int)
    requires |s| <= k
    ensures Take(s, k) == s
  {
    assert s[..|s|] == s;
  }

  /** The number of results a loop can collect when it checks
      `len(results) >= limit` only after appending: a limit below one still
      lets the first result through. */
  function Cap(limit: int): (n: nat)
    ensures n >= 1 && n >= limit
    ensures limit >= 1 ==> n == limit
  {
    if limit < 1 then 1 else limit
  }

  /** Python's `s[-k:]` for `k >= 0`: the last `k` elements (all when fewer). */
  function Last<T>(s: seq<T>, k: nat): (r: seq<T>)
    ensures |r| == if k <= |s| then k else |s|
    ensures r == s[|s| - |r|..]
  {
    if k <= |s| then s[|s| - k..] else s
  }

  predicate OccursAt(hay: string, needle: string, i: int)
  {
    0 <= i && i + |needle| <= |hay| && hay[i..i + |needle|] == needle
  }

  /** Python's `needle in hay`. */
  predicate Contains(hay: string, needle: string)
  {
    exists i :: 0 <= i <= |hay| - |needle| && OccursAt(hay, needle, i)
  }

  /** The index of the first of `words` occurring in `hay`, as a loop
      `for w in words: if w in hay: return w` picks it. */
  function FirstContained(hay: string, words: seq<string>): (r: Option<nat>)
    ensures r.Some? ==> r.value < |words| && Contains(hay, words[r.value])
    ensures r.Some? ==> forall j :: 0 <= j < r.value ==> !Contains(hay, words[j])
    ensures r.None? <==> forall j :: 0 <= j < |words| ==> !Contains(hay, words[j])
  {
    if |words| == 0 then None
    else if Contains(hay, words[0]) then Some(0)
    else
      var r := FirstContained(hay, words[1..]);
      if r.None? then None else Some(r.value + 1)
  }

  function FindFrom(hay: string, needle: string, from: nat): (r: int)
    requires from <= |hay|
    ensures r == -1 || (from <= r && OccursAt(hay, needle, r))
    ensures r >= 0 ==> forall j :: from <= j < r ==> !OccursAt(hay, needle, j)
    ensures r == -1 ==> forall j :: from <= j ==> !OccursAt(hay, needle, j)
    decreases |hay| - from
  {
    if from + |needle| > |hay| then -1
    else if hay[from..from + |needle|] == needle then from
    else FindFrom(hay, needle, from + 1)
  }

  /** Python's `hay.find(needle)`: the first occurrence, or -1. */
  function Find(hay: string, needle: string): (r: int)
    ensures r >= 0 <==> Contains(hay, needle)
    ensures r >= 0 ==> OccursAt(hay, needle, r)
    ensures r >= 0 ==> forall j :: 0 <= j < r ==> !OccursAt(hay, needle, j)
  {
    FindFrom(hay, needle, 0)
  }

  /** Python's `s.rfind(c, lo, hi)` for a single character, with `hi <= |s|`. */
  function RFindChar(s: string, c: char, lo: int, hi: int): (r: int)
    requires 0 <= lo && hi <= |s|
    ensures r == -1 || (lo <= r < hi && s[r] == c)
    ensures r >= 0 ==> forall j :: r < j < hi ==> s[j] != c
    ensures r == -1 ==> forall j :: lo <= j < hi ==> s[j] != c
    decreases hi - lo
  {
    if hi <= lo then -1
    else if s[hi - 1] == c then hi - 1
    else RFindChar(s, c, lo, hi - 1)
  }

  /** Python's `s.count(needle)`: non-overlapping occurrences, left to right;
      an empty needle counts every position. */
  function Count(s: string, needle: string): (n: nat)
    ensures n > 0 <==> Contains(s, needle)
    decreases |s|
  {
    if |needle| == 0 then
      assert OccursAt(s, needle, 0);
      |s| + 1
    else
      var i := Find(s, needle);
      if i < 0 then 0
      else
        assert OccursAt(s, needle, i);
        1 + Count(s[i + |needle|..], needle)
  }

  /** Python's `s.replace(pat, repl)` for a non-empty `pat`: every
      non-overlapping occurrence, left to right, is replaced. */
  function Replace(s: string, pat: string, repl: string): (r: string)
    requires |pat| > 0
    ensures !Contains(s, pat) ==> r == s
    decreases |s|
  {
    var i := Find(s, pat);
    if i < 0 then s
    else s[..i] + repl + Replace(s[i + |pat|..], pat, repl)
  }

  /** A string without the pattern's first character cannot contain it. */
  lemma NoContains(s: string, pat: string)
    requires |pat| > 0 && pat[0] !in s
    ensures !Contains(s, pat)
  {
    forall i | 0 <= i <= |s| - |pat| ensures !OccursAt(s, pat, i) {
      assert s[i..i + |pat|][0] == s[i];
    }
  }

  /** The pattern occurring once, at the end, is replaced there. */
  lemma ReplaceSuffix(a: string, pat: string, repl: string)
    requires |pat| > 0 && pat[0] !in a
    ensures Replace(a + pat, pat, repl) == a + repl
  {
    var s := a + pat;
    assert OccursAt(s, pat, |a|) by {
      assert s[|a|..|a| + |pat|] == pat;
    }
    forall j | 0 <= j < |a| ensures !OccursAt(s, pat, j) {
      assert s[j..j + |pat|][0] == a[j];
    }
    assert Find(s, pat) == |a|;
    assert s[..|a|] == a;
    assert s[|a| + |pat|..] == "";
    NoContains("", pat);
  }

  // ---------------------------------------------------------------------
  // Stripping
  // ---------------------------------------------------------------------

  /** The index of the first character at or after `i` not satisfying `p`. */
  function SkipFrom(s: string, p: char -> bool, i: nat): (j: nat)
    requires i <= |s|
    ensures i <= j <= |s|
    ensures forall k :: i <= k < j ==> p(s[k])
    ensures j < |s| ==> !p(s[j])
    decreases |s| - i
  {
    if i < |s| && p(s[i]) then SkipFrom(s, p, i + 1) else i
  }

  /** The index just past the last character before `hi` (and at or after
      `lo`) not satisfying `p`, or `lo` when there is none. */
  function SkipBack(s: string, p: char -> bool, lo: nat, hi: nat): (j: nat)
    requires lo <= hi <= |s|
    ensures lo <= j <= hi
    ensures forall k :: j <= k < hi ==> p(s[k])
    ensures j > lo ==> !p(s[j - 1])
    decreases hi - lo
  {
    if lo < hi && p(s[hi - 1]) then SkipBack(s, p, lo, hi - 1) else hi
  }

  /** Python's `s.strip(chars)` with the character set given as `p`: the
      slice left once the outer characters satisfying `p` are dropped. */
  function StripBy(s: string, p: char -> bool): (r: string)
    ensures |r| <= |s|
    ensures |r| > 0 ==> !p(r[0]) && !p(r[|r| - 1])
    ensures forall c :: c in r ==> c in s
  {
    var a := SkipFrom(s, p, 0);
    var b := SkipBack(s, p, a, |s|);
    s[a..b]
  }

  /** Python's `s.rstrip(chars)` with the character set given as `p`. */
  function RStripBy(s: string, p: char -> bool): (r: string)
    ensures |r| <= |s| && r == s[..|r|]
    ensures |r| > 0 ==> !p(r[|r| - 1])
    ensures forall k :: |r| <= k < |s| ==> p(s[k])
  {
    s[..SkipBack(s, p, 0, |s|)]
  }

  /** Python's `s.strip()`. */
  function Strip(s: string): (r: string)
    ensures |r| <= |s|
    ensures |r| > 0 ==> !IsSpace(r[0]) && !IsSpace(r[|r| - 1])
    ensures forall c :: c in r ==> c in s
  {
    StripBy(s, IsSpace)
  }

  /** A string with no outer whitespace strips to itself. */
  lemma StripUnspaced(s: string)
    requires |s| > 0 && !IsSpace(s[0]) && !IsSpace(s[|s| - 1])
    ensures Strip(s) == s
  {
    assert SkipFrom(s, IsSpace, 0) == 0;
    assert SkipBack(s, IsSpace, 0, |s|) == |s|;
    assert s[0..|s|] == s;
  }

  /** A string with exactly one leading space strips to the rest. */
  lemma StripOneLeading(s: string)
    requires |s| >= 2 && IsSpace(s[0]) && !IsSpace(s[1]) && !IsSpace(s[|s| - 1])
    ensures Strip(s) == s[1..]
  {
    assert SkipFrom(s, IsSpace, 1) == 1;
    assert SkipBack(s, IsSpace, 1, |s|) == |s|;
  }

  function IsChar(c: char): char -> bool
  {
    x => x == c
  }

  // ---------------------------------------------------------------------
  // Splitting and joining
  // ---------------------------------------------------------------------

  /** Python's `sep.join(parts)`. */
  function Join(parts: seq<string>, sep: string): string
  {
    if |parts| == 0 then ""
    else if |parts| == 1 then parts[0]
    else parts[0] + sep + Join(parts[1..], sep)
  }

  /** Each item between a fixed prefix and suffix, as in a list of
      bullet lines. */
  function Enclose(items: seq<string>, pre: string, post: string): (r: seq<string>)
    ensures |r| == |items|
    ensures forall i :: 0 <= i < |items| ==> r[i] == pre + items[i] + post
  {
    if |items| == 0 then [] else [pre + items[0] + post] + Enclose(items[1..], pre, post)
  }

  lemma OccursShift(a: string, b: string, needle: string, j: int)
    requires OccursAt(b, needle, j)
    ensures OccursAt(a + b, needle, |a| + j)
  {
    assert (a + b)[|a| + j..|a| + j + |needle|] == b[j..j + |needle|];
  }

  /** What occurs in a part occurs in the whole. */
  lemma ContainsTrans(a: string, b: string, c: string)
    requires Contains(a, b) && Contains(b, c)
    ensures Contains(a, c)
  {
    var i :| 0 <= i <= |a| - |b| && OccursAt(a, b, i);
    var j :| 0 <= j <= |b| - |c| && OccursAt(b, c, j);
    forall k | 0 <= k < |c| ensures a[i + j..i + j + |c|][k] == c[k] {
      assert a[i..i + |b|][j + k] == b[j + k];
      assert b[j..j + |c|][k] == c[k];
    }
    assert OccursAt(a, c, i + j);
  }

  /** Every piece of a join occurs in the joined string. */
  /** A join opens with the first part's first character. */
  lemma JoinFirstChar(parts: seq<string>, sep: string)
    requires |parts| > 0 && |parts[0]| > 0
    ensures |Join(parts, sep)| > 0 && Join(parts, sep)[0] == parts[0][0]
  {
    if |parts| > 1 {
      assert Join(parts, sep) == parts[0] + (sep + Join(parts[1..], sep));
    }
  }

  lemma {:induction false} JoinContains(parts: seq<string>, sep: string, k: nat)
    requires k < |parts|
    ensures Contains(Join(parts, sep), parts[k])
  {
    if |parts| == 1 {
      assert OccursAt(Join(parts, sep), parts[k], 0);
    } else if k == 0 {
      assert (parts[0] + sep + Join(parts[1..], sep))[..|parts[0]|] == parts[0];
      assert OccursAt(Join(parts, sep), parts[k], 0);
    } else {
      JoinContains(parts[1..], sep, k - 1);
      var j :| 0 <= j <= |Join(parts[1..], sep)| - |parts[k]| && OccursAt(Join(parts[1..], sep), parts[k], j);
      OccursShift(parts[0] + sep, Join(parts[1..], sep), parts[k], j);
    }
  }

  function IndexOfChar(s: string, c: char): (i: nat)
    requires c in s
    ensures i < |s| && s[i] == c && c !in s[..i]
  {
    if s[0] == c then 0 else 1 + IndexOfChar(s[1..], c)
  }

  /** Python's `s.split(sep)` for a one-character separator: always at
      least one piece, none containing the separator. */
  function Split(s: string, sep: char): (r: seq<string>)
    ensures |r| >= 1
    ensures forall k :: 0 <= k < |r| ==> sep !in r[k]
    decreases |s|
  {
    if sep !in s then [s]
    else
      var i := IndexOfChar(s, sep);
      [s[..i]] + Split(s[i + 1..], sep)
  }

  /** A string with a single separator splits into the two sides of it. */
  lemma SplitOnce(s: string, sep: char, i: nat)
    requires i < |s| && s[i] == sep && sep !in s[..i] && sep !in s[i + 1..]
    ensures Split(s, sep) == [s[..i], s[i + 1..]]
  {
    assert IndexOfChar(s, sep) == i;
  }

  /** Joining the pieces of a split with the separator gives back the input. */
  lemma {:induction false} JoinSplit(s: string, sep: char)
    ensures Join(Split(s, sep), [sep]) == s
    decreases |s|
  {
    if sep in s {
      var i := IndexOfChar(s, sep);
      JoinSplit(s[i + 1..], sep);
      var rest := Split(s[i + 1..], sep);
      assert Split(s, sep) == [s[..i]] + rest;
      assert s == s[..i] + [sep] + s[i + 1..];
    }
  }

  /** Splitting a join of separator-free pieces gives back the pieces. */
  lemma {:induction false} SplitJoin(parts: seq<string>, sep: char)
    requires |parts| >= 1
    requires forall k :: 0 <= k < |parts| ==> sep !in parts[k]
    ensures Split(Join(parts, [sep]), sep) == parts
  {
    if |parts| > 1 {
      var tail := parts[1..];
      forall k | 0 <= k < |tail| ensures sep !in tail[k] {
        assert tail[k] == parts[k + 1];
      }
      SplitJoin(tail, sep);
      assert Join(parts, [sep]) == parts[0] + [sep] + Join(tail, [sep]);
      SplitFront(parts[0], sep, Join(tail, [sep]));
    } else {
      assert sep !in parts[0];
    }
  }

  /** A separator-free front, the separator, and a rest split into the
      front followed by the pieces of the rest. */
  lemma SplitFront(front: string, sep: char, rest: string)
    requires sep !in front
    ensures Split(front + [sep] + rest, sep) == [front] + Split(rest, sep)
  {
    var s := front + [sep] + rest;
    var i := |front|;
    assert s[..i] == front;
    assert s[i + 1..] == rest;
    assert IndexOfChar(s, sep) == i;
  }

  /** The maximal runs of non-whitespace characters from index `i` on. */
  function WordsFrom(s: string, i: nat): (r: seq<string>)
    requires i <= |s|
    ensures forall k :: 0 <= k < |r| ==> |r[k]| > 0
    ensures forall k, j :: 0 <= k < |r| && 0 <= j < |r[k]| ==> !IsSpace(r[k][j])
    decreases |s| - i
  {
    var a := SkipFrom(s, IsSpace, i);
    if a == |s| then []
    else
      var b := SkipFrom(s, c => !IsSpace(c), a);
      [s[a..b]] + WordsFrom(s, b)
  }

  /** Python's `s.split()`: the maximal runs of non-whitespace characters. */
  function Words(s: string): (r: seq<string>)
    ensures forall k :: 0 <= k < |r| ==> |r[k]| > 0
    ensures forall k, j :: 0 <= k < |r| && 0 <= j < |r[k]| ==> !IsSpace(r[k][j])
  {
    WordsFrom(s, 0)
  }

  // ---------------------------------------------------------------------
  // Decimal formatting
  // ---------------------------------------------------------------------

  /** `str(n)` for a natural number. */
  function NatToString(n: nat): (r: string)
    ensures |r| >= 1 && AllDigits(r)
    ensures |r| > 1 ==> r[0] != '0'
  {
    if n < 10 then [DigitChar(n)] else NatToString(n / 10) + [DigitChar(n % 10)]
  }

  /** The value of a run of decimal digits (leading zeros allowed). */
  function ParseNat(s: string): nat
    requires AllDigits(s)
  {
    if |s| == 0 then 0 else 10 * ParseNat(s[..|s| - 1]) + DigitValue(s[|s| - 1])
  }

  lemma {:induction false} ParseNatToString(n: nat)
    ensures ParseNat(NatToString(n)) == n
  {
    if n >= 10 {
      ParseNatToString(n / 10);
      var s := NatToString(n);
      assert s[..|s| - 1] == NatToString(n / 10);
    }
  }

  /** A leading zero does not change the value of a digit run. */
  lemma {:induction false} ParseNatLeadingZero(s: string)
    requires AllDigits(s)
    ensures AllDigits("0" + s) && ParseNat("0" + s) == ParseNat(s)
    decreases |s|
  {
    if |s| > 0 {
      ParseNatLeadingZero(s[..|s| - 1]);
      assert ("0" + s)[..|s|] == "0" + s[..|s| - 1];
    }
  }

  function Zeros(k: nat): (r: string)
    ensures |r| == k && forall i :: 0 <= i < k ==> r[i] == '0'
  {
    if k == 0 then "" else "0" + Zeros(k - 1)
  }

  /** Python's `f"{n:0wd}"` for a natural number `n`. */
  function ZeroPad(n: nat, width: nat): (r: string)
    ensures |r| >= width && AllDigits(r)
    ensures |r| >= |NatToString(n)|
  {
    var d := NatToString(n);
    if |d| >= width then d else Zeros(width - |d|) + d
  }

  lemma {:induction false} ParseZerosPrefix(k: nat, s: string)
    requires AllDigits(s)
    ensures AllDigits(Zeros(k) + s) && ParseNat(Zeros(k) + s) == ParseNat(s)
  {
    if k > 0 {
      ParseZerosPrefix(k - 1, s);
      var t := Zeros(k - 1) + s;
      ParseNatLeadingZero(t);
      assert Zeros(k) + s == "0" + t;
    } else {
      assert Zeros(k) + s == s;
    }
  }

  /** Zero-padded decimal formatting reads back as the number. */
  lemma {:induction false} ParseZeroPad(n: nat, width: nat)
    ensures ParseNat(ZeroPad(n, width)) == n
  {
    var d := NatToString(n);
    assert ParseNat(ZeroPad(n, width)) == ParseNat(d) by {
      if |d| < width {
        ParseZerosPrefix(width - |d|, d);
      }
    }
    ParseNatToString(n);
  }

  /** `str(i)` for any integer. */
  function IntToString(i: int): (r: string)
    ensures |r| >= 1
    ensures i < 0 <==> r[0] == '-'
  {
    if i < 0 then "-" + NatToString(-i) else NatToString(i)
  }

  // ---------------------------------------------------------------------
  // File names (pathlib's `suffix` and `stem` of a final component)
  // ---------------------------------------------------------------------

  function RFindDot(name: string, hi: nat): (r: int)
    requires hi <= |name|
    ensures r == -1 || (0 <= r < hi && name[r] == '.')
    ensures forall j :: r < j < hi ==> name[j] != '.'
  {
    if hi == 0 then -1 else if name[hi - 1] == '.' then hi - 1 else RFindDot(name, hi - 1)
  }

  /** pathlib's `suffix`: from the last dot, unless that dot is the first
      or the last character. */
  function Suffix(name: string): (r: string)
    ensures r == "" || (r[0] == '.' && |r| >= 2 && EndsWith(name, r) && |r| < |name|)
    ensures forall j :: 0 < j < |r| ==> r[j] != '.'
  {
    var i := RFindDot(name, |name|);
    if 0 < i < |name| - 1 then name[i..] else ""
  }

  /** pathlib's `stem`: the name without its suffix. */
  function Stem(name: string): (r: string)
    ensures |r| <= |name| && StartsWith(name, r)
  {
    name[..|name| - |Suffix(name)|]
  }

  lemma StemSuffix(name: string)
    ensures Stem(name) + Suffix(name) == name
  {
  }
}

=== FILE: theme_index.dfy ===
/** The theme index of the writing project: a small front-matter reader
    for the material files and the grouping of fragments, dialogues and
    essays under the themes their front matter names. */
module ThemeIndex {
  import opened Wrappers
  import opened Text
  import opened Lists

  // ---------------------------------------------------------------------
  // Front matter
  // ---------------------------------------------------------------------

  const Opener := "---\n"
  const Closer := "\n---"

  /** The text between an opening "---" line and the first later line
      starting with "---" (at least one character of it), when the file
      opens with such a block. */
  function Block(content: string): (r: Option<string>)
    ensures r.Some? ==> |r.value| >= 1 && StartsWith(content, Opener + r.value + Closer)
    ensures r.Some? ==> forall e :: 5 <= e < 4 + |r.value| ==> !OccursAt(content, Closer, e)
    ensures r.None? <==> !StartsWith(content, Opener) || forall e :: 5 <= e ==> !OccursAt(content, Closer, e)
  {
    if |content| < 5 || content[..4] != Opener then None
    else
      var e := FindFrom(content, Closer, 5);
      if e < 0 then None
      else
        assert content[..e + 4] == Opener + content[4..e] + Closer by {
          assert content[e..e + 4] == Closer;
        }
        Some(content[4..e])
  }

  /** A block with no "\n---" inside is read back from the file. */
  lemma BlockRoundTrip(b: string, rest: string)
    requires |b| >= 1 && !Contains(b, Closer)
    ensures Block(Opener + b + Closer + rest) == Some(b)
  {
    var t := Opener + b + Closer + rest;
    var n := 4 + |b|;
    assert t[..4] == Opener;
    assert t[n..n + 4] == Closer;
    forall e | 5 <= e < n ensures !OccursAt(t, Closer, e) {
      var j := e - 4;
      if e + 4 <= n {
        assert t[e..e + 4] == b[j..j + 4];
        assert !OccursAt(b, Closer, j);
      } else {
        assert t[n] == '\n' && Closer[n - e] == '-';
        assert e + 4 > |t| || t[e..e + 4][n - e] == t[n];
      }
    }
    assert OccursAt(t, Closer, n);
    assert FindFrom(t, Closer, 5) == n;
    assert t[4..n] == b;
  }

  /** A front-matter value: a bracketed list or a plain string. */
  datatype Value = Scalar(text: string) | Items(items: seq<string>)

  predicate IsQuote(c: char)
  {
    c == '"' || c == '\''
  }

  /** One list item: `item.strip().strip("\"'")`, dropped when blank. */
  function ListItem(piece: string): (r: Option<string>)
    ensures r.None? <==> Strip(piece) == ""
    ensures r.Some? ==> r.value == StripBy(Strip(piece), IsQuote)
  {
    var s := Strip(piece);
    if s == "" then None else Some(StripBy(s, IsQuote))
  }

  /** The items of the text between the brackets: split at commas, blank
      pieces dropped, each stripped of whitespace and then of quotes. */
  function ListItems(inner: string): (r: seq<string>)
    ensures |r| <= |Split(inner, ',')|
    ensures forall k :: 0 <= k < |r| ==> ',' !in r[k]
  {
    var r := FilterMap(Split(inner, ','), ListItem);
    assert forall k :: 0 <= k < |r| ==> ',' !in r[k] by {
      FilterMapExact(Split(inner, ','), ListItem);
      forall k | 0 <= k < |r| ensures ',' !in r[k] {
        var j :| 0 <= j < |Split(inner, ',')| && ListItem(Split(inner, ',')[j]) == Some(r[k]);
        var p := Split(inner, ',')[j];
        assert ',' !in p;
      }
    }
    r
  }

  /** An item written as is: no comma, no outer whitespace or quotes. */
  predicate PlainItem(x: string)
  {
    |x| > 0 && ',' !in x && !IsSpace(x[0]) && !IsSpace(x[|x| - 1]) && !IsQuote(x[0]) && !IsQuote(x[|x| - 1])
  }

  lemma PlainItemKept(x: string)
    requires PlainItem(x)
    ensures ListItem(x) == Some(x)
  {
    StripUnspaced(x);
    assert SkipFrom(x, IsQuote, 0) == 0;
    assert SkipBack(x, IsQuote, 0, |x|) == |x|;
    assert x[0..|x|] == x;
  }

  lemma {:induction false} FilterMapPlain(xs: seq<string>)
    requires forall k :: 0 <= k < |xs| ==> PlainItem(xs[k])
    ensures FilterMap(xs, ListItem) == xs
  {
    if |xs| > 0 {
      PlainItemKept(xs[0]);
      FilterMapPlain(xs[1..]);
    }
  }

  /** Plain items joined with commas read back as the same items. */
  lemma ListItemsJoin(items: seq<string>)
    requires |items| >= 1 && forall k :: 0 <= k < |items| ==> PlainItem(items[k])
    ensures ListItems(Join(items, ",")) == items
  {
    SplitJoin(items, ',');
    assert Join(items, ",") == Join(items, [',']);
    FilterMapPlain(items);
  }

  /** The value part of a line, already stripped: a list when bracketed. */
  function ParseValue(v: string): (r: Value)
    ensures r.Items? <==> |v| >= 2 && v[0] == '[' && v[|v| - 1] == ']'
    ensures r.Items? ==> r.items == ListItems(v[1..|v| - 1])
    ensures r.Scalar? ==> r.text == v
  {
    if |v| >= 2 && v[0] == '[' && v[|v| - 1] == ']' then Items(ListItems(v[1..|v| - 1])) else Scalar(v)
  }

  /** A line with a colon gives the stripped text before the first colon
      as the key and the parsed stripped rest as the value. */
  function ParseLine(line: string): (r: Option<(string, Value)>)
    ensures r.Some? <==> ':' in line
    ensures r.Some? ==> ':' !in r.value.0 && (|r.value.0| > 0 ==> !IsSpace(r.value.0[0]) && !IsSpace(r.value.0[|r.value.0| - 1]))
  {
    if ':' !in line then None
    else
      var i := IndexOfChar(line, ':');
      Some((Strip(line[..i]), ParseValue(Strip(line[i + 1..]))))
  }

  /** A key without a colon, followed by a colon and a value, parses to
      the stripped key and value. */
  lemma ParseLineOf(key: string, value: string)
    requires ':' !in key
    ensures ParseLine(key + ":" + value) == Some((Strip(key), ParseValue(Strip(value))))
  {
    var line := key + ":" + value;
    assert line[|key|] == ':';
    assert line[..|key|] == key;
    assert IndexOfChar(line, ':') == |key|;
    assert line[|key| + 1..] == value;
  }

  /** The dictionary of the lines `lines[..n]`: a later line with the same
      key replaces the value in the key's first position. */
  function Fields(lines: seq<string>, n: nat): seq<(string, Value)>
    requires n <= |lines|
  {
    if n == 0 then []
    else
      var d := Fields(lines, n - 1);
      match ParseLine(lines[n - 1])
      case None => d
      case Some(kv) => Assign(d, kv.0, kv.1)
  }

  /** The value the last line with key `k` among `lines[..n]` gives. */
  function LastValue(lines: seq<string>, n: nat, k: string): Option<Value>
    requires n <= |lines|
  {
    if n == 0 then None
    else
      var p := ParseLine(lines[n - 1]);
      if p.Some? && p.value.0 == k then Some(p.value.1) else LastValue(lines, n - 1, k)
  }

  /** Each key holds the value of its last line. */
  lemma {:induction false} FieldsLast(lines: seq<string>, n: nat, k: string)
    requires n <= |lines|
    ensures Lookup(Fields(lines, n), k) == LastValue(lines, n, k)
  {
    if n > 0 {
      FieldsLast(lines, n - 1, k);
      var p := ParseLine(lines[n - 1]);
      if p.Some? && p.value.0 != k {
        AssignOther(Fields(lines, n - 1), p.value.0, p.value.1, k);
      }
    }
  }

  /** The front matter of a file: empty without a block, else the fields
      of the block's lines. */
  function Frontmatter(content: string): (fm: seq<(string, Value)>)
    ensures Block(content).None? ==> fm == []
  {
    match Block(content)
    case None => []
    case Some(b) => Fields(Split(b, '\n'), |Split(b, '\n')|)
  }

  /** `fm.get("themes", [])` iterated: a list gives its items; a plain
      string gives each of its characters as a theme of its own. */
  function Themes(fm: seq<(string, Value)>): (ts: seq<string>)
    ensures Lookup(fm, "themes").None? ==> ts == []
    ensures Lookup(fm, "themes").Some? && Lookup(fm, "themes").value.Scalar? ==>
      var s := Lookup(fm, "themes").value.text;
      |ts| == |s| && forall i :: 0 <= i < |s| ==> ts[i] == [s[i]]
  {
    var v := Lookup(fm, "themes");
    if v.None? then []
    else if v.value.Items? then v.value.items
    else seq(|v.value.text|, i requires 0 <= i < |v.value.text| => [v.value.text[i]])
  }

  // ---------------------------------------------------------------------
  // Grouping materials by theme
  // ---------------------------------------------------------------------

  datatype Kind = Fragment | Dialogue | Essay

  datatype Materials = Materials(fragments: seq<string>, dialogues: seq<string>, essays: seq<string>)

  const NoMaterials := Materials([], [], [])

  function Add(m: Materials, kind: Kind, path: string): (r: Materials)
    ensures kind == Fragment ==> r == m.(fragments := m.fragments + [path])
    ensures kind == Dialogue ==> r == m.(dialogues := m.dialogues + [path])
    ensures kind == Essay ==> r == m.(essays := m.essays + [path])
  {
    match kind
    case Fragment => m.(fragments := m.fragments + [path])
    case Dialogue => m.(dialogues := m.dialogues + [path])
    case Essay => m.(essays := m.essays + [path])
  }

  /** The list of `m` for `kind`. */
  function PathsOf(m: Materials, kind: Kind): seq<string>
  {
    match kind
    case Fragment => m.fragments
    case Dialogue => m.dialogues
    case Essay => m.essays
  }

  /** The directory each kind of material is read from. */
  function KindDir(root: string, kind: Kind): string
  {
    match kind
    case Fragment => root + "/output/fragments"
    case Dialogue => root + "/output/dialogues"
    case Essay => root + "/output/essays"
  }

  /** The listing of the directory for `kind`, `None` when it is missing. */
  function Listing<L>(kind: Kind, fragments: L, dialogues: L, essays: L): L
  {
    match kind
    case Fragment => fragments
    case Dialogue => dialogues
    case Essay => essays
  }

  /** One (file, theme) pair met during the scan. */
  datatype Tag = Tag(kind: Kind, theme: string, path: string)

  /** The index after the tags `tags`, met in order: the theme's entry is
      created with three empty lists on first sight, and the path appended
      to the list for its kind. */
  function Build(tags: seq<Tag>): seq<(string, Materials)>
  {
    if |tags| == 0 then []
    else
      var d := Build(tags[..|tags| - 1]);
      var t := tags[|tags| - 1];
      Assign(d, t.theme, Add(Current(d, t.theme), t.kind, t.path))
  }

  /** `index[theme]` after `setdefault`: the entry, or three empty lists. */
  function Current(d: seq<(string, Materials)>, theme: string): Materials
  {
    match Lookup(d, theme) case Some(m) => m case None => NoMaterials
  }

  /** Reference: the paths tagged with `theme` for `kind`, in order. */
  function PathsFor(tags: seq<Tag>, theme: string, kind: Kind): seq<string>
  {
    if |tags| == 0 then []
    else
      var t := tags[|tags| - 1];
      PathsFor(tags[..|tags| - 1], theme, kind) + (if t.theme == theme && t.kind == kind then [t.path] else [])
  }

  /** A theme no tag names has no paths. */
  lemma {:induction false} PathsForNone(tags: seq<Tag>, theme: string, kind: Kind)
    requires theme !in TagThemes(tags)
    ensures PathsFor(tags, theme, kind) == []
  {
    if |tags| > 0 {
      var init := tags[..|tags| - 1];
      assert TagThemes(tags) == TagThemes(init) + [tags[|tags| - 1].theme];
      PathsForNone(init, theme, kind);
    }
  }

  function TagThemes(tags: seq<Tag>): (ts: seq<string>)
    ensures |ts| == |tags| && forall i :: 0 <= i < |tags| ==> ts[i] == tags[i].theme
  {
    seq(|tags|, i requires 0 <= i < |tags| => tags[i].theme)
  }

  /** The three lists of paths tagged with `theme`, per kind. */
  function MaterialsOf(tags: seq<Tag>, theme: string): Materials
  {
    Materials(PathsFor(tags, theme, Fragment), PathsFor(tags, theme, Dialogue), PathsFor(tags, theme, Essay))
  }

  /** A theme has an entry exactly when some tag names it, and its three
      lists are then exactly the paths tagged with it, per kind, in order. */
  lemma {:induction false} BuildLookup(tags: seq<Tag>, theme: string)
    ensures Lookup(Build(tags), theme) ==
      if theme in TagThemes(tags) then Some(MaterialsOf(tags, theme)) else None
  {
    if |tags| > 0 {
      var init := tags[..|tags| - 1];
      var t := tags[|tags| - 1];
      BuildLookup(init, theme);
      TagThemesSnoc(tags);
      if t.theme != theme {
        BuildOther(tags, theme);
        MaterialsOther(tags, theme);
      } else {
        BuildSame(tags);
      }
    }
  }

  lemma TagThemesSnoc(tags: seq<Tag>)
    requires |tags| > 0
    ensures TagThemes(tags) == TagThemes(tags[..|tags| - 1]) + [tags[|tags| - 1].theme]
  {
  }

  lemma BuildSnoc(tags: seq<Tag>)
    requires |tags| > 0
    ensures var d := Build(tags[..|tags| - 1]);
            var t := tags[|tags| - 1];
            Build(tags) == Assign(d, t.theme, Add(Current(d, t.theme), t.kind, t.path))
  {
  }

  /** A tag naming another theme leaves the theme's entry alone. */
  lemma BuildOther(tags: seq<Tag>, theme: string)
    requires |tags| > 0 && tags[|tags| - 1].theme != theme
    ensures Lookup(Build(tags), theme) == Lookup(Build(tags[..|tags| - 1]), theme)
  {
    var d := Build(tags[..|tags| - 1]);
    var t := tags[|tags| - 1];
    BuildSnoc(tags);
    AssignOther(d, t.theme, Add(Current(d, t.theme), t.kind, t.path), theme);
  }

  /** A tag naming another theme leaves the theme's paths alone. */
  lemma MaterialsOther(tags: seq<Tag>, theme: string)
    requires |tags| > 0 && tags[|tags| - 1].theme != theme
    ensures MaterialsOf(tags, theme) == MaterialsOf(tags[..|tags| - 1], theme)
  {
  }

  /** The entry found before a tag is the reference lists, empty when the
      theme is new. */
  lemma CurrentIs(d: seq<(string, Materials)>, init: seq<Tag>, theme: string)
    requires Lookup(d, theme) == if theme in TagThemes(init) then Some(MaterialsOf(init, theme)) else None
    ensures Current(d, theme) == MaterialsOf(init, theme)
  {
    if theme !in TagThemes(init) {
      PathsForNone(init, theme, Fragment);
      PathsForNone(init, theme, Dialogue);
      PathsForNone(init, theme, Essay);
    }
  }

  /** Appending a tag's path to its kind's list extends the reference lists. */
  lemma AddMaterials(tags: seq<Tag>)
    requires |tags| > 0
    ensures var t := tags[|tags| - 1];
            Add(MaterialsOf(tags[..|tags| - 1], t.theme), t.kind, t.path) == MaterialsOf(tags, t.theme)
  {
    match tags[|tags| - 1].kind
    case Fragment =>
    case Dialogue =>
    case Essay =>
  }

  /** A tag naming the theme appends its path to the theme's entry. */
  lemma BuildSame(tags: seq<Tag>)
    requires |tags| > 0
    requires var init := tags[..|tags| - 1];
             var theme := tags[|tags| - 1].theme;
             Lookup(Build(init), theme) == if theme in TagThemes(init) then Some(MaterialsOf(init, theme)) else None
    ensures Lookup(Build(tags), tags[|tags| - 1].theme) == Some(MaterialsOf(tags, tags[|tags| - 1].theme))
  {
    var init := tags[..|tags| - 1];
    var t := tags[|tags| - 1];
    var d := Build(init);
    BuildSnoc(tags);
    CurrentIs(d, init, t.theme);
    AddMaterials(tags);
  }

  /** The themes appear in the order they were first met. */
  lemma {:induction false} BuildKeys(tags: seq<Tag>)
    ensures Keys(Build(tags)) == Dedup(TagThemes(tags))
  {
    if |tags| > 0 {
      var init := tags[..|tags| - 1];
      var t := tags[|tags| - 1];
      BuildKeys(init);
      TagThemesSnoc(tags);
      BuildSnoc(tags);
      LookupKeys(Build(init), t.theme);
      BuildLookup(init, t.theme);
      DedupMember(TagThemes(init), t.theme);
      DedupSnoc(TagThemes(init), t.theme);
    }
  }

  /** A material file: its name and content. */
  datatype File = File(name: string, content: string)

  /** The files `glob("*.md")` picks, in sorted order. */
  function MarkdownFiles(files: seq<File>): (r: seq<File>)
    ensures forall f :: f in r <==> f in files && EndsWith(f.name, ".md")
  {
    var r := SortBy(Filter(files, (f: File) => EndsWith(f.name, ".md")), (f: File) => f.name, StringLe());
    SortByMembers(Filter(files, (f: File) => EndsWith(f.name, ".md")), (f: File) => f.name, StringLe());
    r
  }

  /** The themes a file's front matter names. */
  const ReadThemes: File -> seq<string> := (f: File) => Themes(Frontmatter(f.content))

  /** The tags of `files`, in order: one per file and theme it names, by
      `themesOf`, with the file's path under `dir`. */
  function TagsOf(kind: Kind, dir: string, files: seq<File>, themesOf: File -> seq<string>): seq<Tag>
  {
    if |files| == 0 then []
    else
      var ts := themesOf(files[0]);
      seq(|ts|, i requires 0 <= i < |ts| => Tag(kind, ts[i], dir + "/" + files[0].name))
        + TagsOf(kind, dir, files[1..], themesOf)
  }

  /** The tags of one directory, or none when it does not exist. */
  function DirTags(kind: Kind, dir: string, listing: Option<seq<File>>, themesOf: File -> seq<string>): seq<Tag>
  {
    if listing.None? then [] else TagsOf(kind, dir, MarkdownFiles(listing.value), themesOf)
  }

  /** All tags of the scan: fragments, then dialogues, then essays, each
      directory's Markdown files in sorted order. */
  function AllTags(root: string, fragments: Option<seq<File>>, dialogues: Option<seq<File>>, essays: Option<seq<File>>, themesOf: File -> seq<string>): seq<Tag>
  {
    DirTags(Fragment, KindDir(root, Fragment), fragments, themesOf)
      + DirTags(Dialogue, KindDir(root, Dialogue), dialogues, themesOf)
      + DirTags(Essay, KindDir(root, Essay), essays, themesOf)
  }

  /** The scan: each file listed under each theme its front matter names. */
  function ScanMaterials(root: string, fragments: Option<seq<File>>, dialogues: Option<seq<File>>, essays: Option<seq<File>>): seq<(string, Materials)>
  {
    Build(AllTags(root, fragments, dialogues, essays, ReadThemes))
  }

  /** Every theme a file names gives a tag for that file. */
  lemma {:induction false} TagsOfListed(kind: Kind, dir: string, files: seq<File>, themesOf: File -> seq<string>, k: nat, i: nat)
    requires k < |files| && i < |themesOf(files[k])|
    ensures Tag(kind, themesOf(files[k])[i], dir + "/" + files[k].name) in TagsOf(kind, dir, files, themesOf)
  {
    var ts := themesOf(files[0]);
    var own := seq(|ts|, i requires 0 <= i < |ts| => Tag(kind, ts[i], dir + "/" + files[0].name));
    if k > 0 {
      TagsOfListed(kind, dir, files[1..], themesOf, k - 1, i);
      assert files[1..][k - 1] == files[k];
      assert TagsOf(kind, dir, files, themesOf) == own + TagsOf(kind, dir, files[1..], themesOf);
    } else {
      assert own[i] in own;
    }
  }

  /** Each tag puts its path in its theme's list for its kind. */
  lemma {:induction false} PathsForHas(tags: seq<Tag>, t: Tag)
    requires t in tags
    ensures t.path in PathsFor(tags, t.theme, t.kind)
  {
    var init := tags[..|tags| - 1];
    if tags[|tags| - 1] != t {
      assert tags == init + [tags[|tags| - 1]];
      PathsForHas(init, t);
    }
  }

  /** A tag's path is listed under its theme for its kind. */
  lemma TagListed(tags: seq<Tag>, t: Tag)
    requires t in tags
    ensures Lookup(Build(tags), t.theme).Some? && t.path in PathsFor(tags, t.theme, t.kind)
    ensures t.kind == Fragment ==> t.path in Lookup(Build(tags), t.theme).value.fragments
    ensures t.kind == Dialogue ==> t.path in Lookup(Build(tags), t.theme).value.dialogues
    ensures t.kind == Essay ==> t.path in Lookup(Build(tags), t.theme).value.essays
  {
    PathsForHas(tags, t);
    var j :| 0 <= j < |tags| && tags[j] == t;
    assert TagThemes(tags)[j] == t.theme;
    BuildLookup(tags, t.theme);
  }

  /** A Markdown file of a listed directory gives a tag per theme it names. */
  lemma DirTagsListed(kind: Kind, dir: string, listing: Option<seq<File>>, themesOf: File -> seq<string>, f: File, i: nat)
    requires listing.Some? && f in listing.value && EndsWith(f.name, ".md")
    requires i < |themesOf(f)|
    ensures Tag(kind, themesOf(f)[i], dir + "/" + f.name) in DirTags(kind, dir, listing, themesOf)
  {
    var files := MarkdownFiles(listing.value);
    var k :| 0 <= k < |files| && files[k] == f;
    TagsOfListed(kind, dir, files, themesOf, k, i);
  }

  /** A tag of any of the three directories is a tag of the scan. */
  lemma InAllTags(root: string, fragments: Option<seq<File>>, dialogues: Option<seq<File>>, essays: Option<seq<File>>, themesOf: File -> seq<string>, t: Tag)
    requires || t in DirTags(Fragment, KindDir(root, Fragment), fragments, themesOf)
             || t in DirTags(Dialogue, KindDir(root, Dialogue), dialogues, themesOf)
             || t in DirTags(Essay, KindDir(root, Essay), essays, themesOf)
    ensures t in AllTags(root, fragments, dialogues, essays, themesOf)
  {
  }

  /** A file of a listed directory naming a theme is listed under it with
      the directory's kind, whatever `themesOf` reads from the files. */
  lemma ScanListed(root: string, fragments: Option<seq<File>>, dialogues: Option<seq<File>>, essays: Option<seq<File>>, themesOf: File -> seq<string>,
                   kind: Kind, dir: string, listing: Option<seq<File>>, f: File, i: nat)
    requires dir == KindDir(root, kind) && listing == Listing(kind, fragments, dialogues, essays)
    requires listing.Some? && f in listing.value && EndsWith(f.name, ".md") && i < |themesOf(f)|
    ensures var all := AllTags(root, fragments, dialogues, essays, themesOf);
      Lookup(Build(all), themesOf(f)[i]).Some? && dir + "/" + f.name in PathsFor(all, themesOf(f)[i], kind)
  {
    var t := Tag(kind, themesOf(f)[i], dir + "/" + f.name);
    DirTagsListed(kind, dir, listing, themesOf, f, i);
    InAllTags(root, fragments, dialogues, essays, themesOf, t);
    TagListed(AllTags(root, fragments, dialogues, essays, themesOf), t);
  }

  /** Each file of a listed directory naming a theme in its front matter
      is listed under that theme with the directory's kind. */
  lemma FileListed(root: string, fragments: Option<seq<File>>, dialogues: Option<seq<File>>, essays: Option<seq<File>>, kind: Kind, f: File, i: nat)
    requires Listing(kind, fragments, dialogues, essays).Some? && f in Listing(kind, fragments, dialogues, essays).value
    requires EndsWith(f.name, ".md") && i < |ReadThemes(f)|
    ensures var entry := Lookup(ScanMaterials(root, fragments, dialogues, essays), ReadThemes(f)[i]);
      entry.Some? && KindDir(root, kind) + "/" + f.name in PathsOf(entry.value, kind)
  {
    var all := AllTags(root, fragments, dialogues, essays, ReadThemes);
    BuildLookup(all, ReadThemes(f)[i]);
    ScanListed(root, fragments, dialogues, essays, ReadThemes, kind, KindDir(root, kind), Listing(kind, fragments, dialogues, essays), f, i);
  }

  /** The count the summary prints for a theme. */
  function Size(m: Materials): nat
  {
    |m.fragments| + |m.dialogues| + |m.essays|
  }

  /** A theme's total is the number of (file, theme) pairs naming it. */
  lemma {:induction false} SizeCountsTags(tags: seq<Tag>, theme: string)
    requires theme in TagThemes(tags)
    ensures Lookup(Build(tags), theme).Some? && Size(Lookup(Build(tags), theme).value) == Occurrences(TagThemes(tags), theme)
  {
    BuildLookup(tags, theme);
    PathsForCount(tags, theme);
  }

  lemma {:induction false} PathsForCount(tags: seq<Tag>, theme: string)
    ensures |PathsFor(tags, theme, Fragment)| + |PathsFor(tags, theme, Dialogue)| + |PathsFor(tags, theme, Essay)|
      == Occurrences(TagThemes(tags), theme)
  {
    if |tags| > 0 {
      var init := tags[..|tags| - 1];
      PathsForCount(init, theme);
      assert TagThemes(tags) == TagThemes(init) + [tags[|tags| - 1].theme];
      assert TagThemes(tags)[..|tags| - 1] == TagThemes(init);
    }
  }
}

=== FILE: vector_rag.dfy ===
/** The vector retrieval engine: the consistency check between a saved
    index and its chunk file, and the post-filtering of the nearest
    neighbours the vector index returns. The embedding model and the index
    search itself are oracles. */
module VectorRag {
  import opened Wrappers
  import opened Text
  import opened Lists
  import opened Rag

  /** The saved index directory: whether each of the two files exists
      and, when reading both succeeds, the vector count of the saved index
      and the saved chunk records. */
  datatype SavedIndex = SavedIndex(hasIndex: bool, hasChunks: bool, read: Option<(nat, seq<Chunk>)>)

  /** The engine: its chunks, the vector count of its index (`None` while
      there is no index) and the similarity threshold. */
  datatype Engine = Engine(chunks: seq<Chunk>, ntotal: Option<nat>, threshold: real)

  const DefaultThreshold: real := 0.3

  /** The outcome of loading a saved index: whether it is usable, the
      chunks afterwards (replaced by the saved ones once they are read, even
      when the counts then disagree), and the loaded vector count. */
  datatype Loaded = Loaded(ok: bool, chunks: seq<Chunk>, ntotal: Option<nat>)

  function LoadIndex(chunks: seq<Chunk>, disk: SavedIndex): (l: Loaded)
    ensures l.ok <==> disk.hasIndex && disk.hasChunks && disk.read.Some? && disk.read.value.0 == |disk.read.value.1|
    ensures l.ok ==> l.ntotal == Some(|l.chunks|)
  {
    if !disk.hasIndex || !disk.hasChunks then Loaded(false, chunks, None)
    else match disk.read
      case None => Loaded(false, chunks, None)
      case Some(saved) =>
        var (n, meta) := saved;
        if n != |meta| then Loaded(false, meta, Some(n)) else Loaded(true, meta, Some(n))
  }

  /** Building an index from the chunks: one vector per chunk, saved
      (both files) only when there is a path and at least one chunk. */
  function BuildIndex(chunks: seq<Chunk>, hasPath: bool, disk: SavedIndex, threshold: real): (Engine, SavedIndex)
  {
    var saved := if hasPath && |chunks| > 0 then SavedIndex(true, true, Some((|chunks|, chunks))) else disk;
    (Engine(chunks, Some(|chunks|), threshold), saved)
  }

  /** Construction: load the saved index when there is a path and it is
      usable, otherwise build (and maybe save) a new one. */
  function Construct(chunks: seq<Chunk>, hasPath: bool, disk: SavedIndex, threshold: real): (r: (Engine, SavedIndex))
    ensures r.0.ntotal == Some(|r.0.chunks|)
    ensures r.0.threshold == threshold
  {
    if !hasPath then BuildIndex(chunks, false, disk, threshold)
    else
      var l := LoadIndex(chunks, disk);
      if l.ok then (Engine(l.chunks, l.ntotal, threshold), disk)
      else BuildIndex(l.chunks, true, disk, threshold)
  }

  /** A constructed engine is loaded from disk exactly when there is a
      path and the saved files are present, readable and of equal size; in
      that case it serves the saved chunks. */
  lemma ConstructLoads(chunks: seq<Chunk>, hasPath: bool, disk: SavedIndex, threshold: real)
    ensures var (e, d) := Construct(chunks, hasPath, disk, threshold);
      (hasPath && LoadIndex(chunks, disk).ok ==> e.chunks == disk.read.value.1 && d == disk) &&
      (!hasPath || !disk.hasIndex || !disk.hasChunks || disk.read.None? ==> e.chunks == chunks)
  {
  }

  /** When the saved counts disagree, the rebuild indexes the chunks read
      from the chunk file rather than the ones the engine was given. */
  lemma MismatchRebuildsSavedChunks(chunks: seq<Chunk>, disk: SavedIndex, threshold: real)
    requires disk.hasIndex && disk.hasChunks && disk.read.Some?
    requires disk.read.value.0 != |disk.read.value.1|
    ensures Construct(chunks, true, disk, threshold).0.chunks == disk.read.value.1
  {
  }

  /** Saving then loading: an engine built with a path from at least one
      chunk leaves files from which the next construction loads the same
      chunks instead of rebuilding. */
  lemma SaveThenLoad(chunks: seq<Chunk>, disk: SavedIndex, threshold: real, other: seq<Chunk>)
    requires |chunks| > 0 && !LoadIndex(chunks, disk).ok
    requires LoadIndex(chunks, disk).chunks == chunks
    ensures var (_, saved) := Construct(chunks, true, disk, threshold);
      LoadIndex(other, saved).ok && Construct(other, true, saved, threshold).0.chunks == chunks
  {
  }

  // ---------------------------------------------------------------------
  // Search
  // ---------------------------------------------------------------------

  /** The number of neighbours asked of the index: three times the cut
      when a pattern filter follows, the cut otherwise, at most the number
      of vectors. */
  function Requested(topK: int, pattern: Option<int>, ntotal: nat): (k: int)
    ensures k <= ntotal
    ensures k == ntotal || k == (if pattern.Some? then 3 * topK else topK)
  {
    var fetch := if pattern.Some? then topK * 3 else topK;
    if fetch < ntotal then fetch else ntotal
  }

  /** The request never asks for fewer neighbours than the cut needs, up
      to the size of the index. */
  lemma RequestedCoversCut(topK: int, pattern: Option<int>, ntotal: nat)
    requires topK >= 0
    ensures Requested(topK, pattern, ntotal) >= (if topK < ntotal then topK else ntotal)
  {
  }

  /** A neighbour survives the filters: a real index, a score at least the
      threshold, and (given a pattern) a chunk listing the pattern. */
  predicate Passes(hit: (real, int), chunks: seq<Chunk>, threshold: real, pattern: Option<int>)
  {
    hit.1 >= 0 && hit.0 >= threshold && hit.1 < |chunks| &&
    (pattern.None? || pattern.value in chunks[hit.1].patternIds)
  }

  /** A neighbour the filters would look up past the end of the chunks,
      which raises an index error. */
  predicate OutOfRange(hit: (real, int), chunks: seq<Chunk>, threshold: real)
  {
    hit.1 >= 0 && hit.0 >= threshold && hit.1 >= |chunks|
  }

  /** The filtering loop over the neighbours in the order the index
      returns them. */
  function PostFilter(hits: seq<(real, int)>, chunks: seq<Chunk>, threshold: real, pattern: Option<int>): (r: Result<seq<SearchResult>, string>)
    ensures r.Failure? <==> exists i :: 0 <= i < |hits| && OutOfRange(hits[i], chunks, threshold)
    ensures r.Success? ==> |r.value| <= |hits|
    ensures r.Success? ==> forall i :: 0 <= i < |r.value| ==>
      r.value[i].score >= threshold && r.value[i].chunk in chunks &&
      (pattern.None? || pattern.value in r.value[i].chunk.patternIds)
  {
    if |hits| == 0 then Success([])
    else
      var (score, idx) := hits[0];
      if OutOfRange(hits[0], chunks, threshold) then Failure("IndexError")
      else
        var rest := PostFilter(hits[1..], chunks, threshold, pattern);
        if rest.Failure? then rest
        else if Passes(hits[0], chunks, threshold, pattern) then
          Success([SearchResult(chunks[idx], score)] + rest.value)
        else rest
  }

  /** Vector search: nothing without vectors; otherwise the filtered
      neighbours `faiss(k)` for the requested `k`, cut to `topK`. */
  function Search(e: Engine, topK: int, pattern: Option<int>, faiss: int -> seq<(real, int)>): (r: Result<seq<SearchResult>, string>)
    ensures e.ntotal.None? || e.ntotal == Some(0) ==> r == Success([])
    ensures r.Success? && topK >= 0 ==> |r.value| <= topK
    ensures r.Success? ==> forall i :: 0 <= i < |r.value| ==>
      r.value[i].score >= e.threshold && r.value[i].chunk in e.chunks &&
      (pattern.None? || pattern.value in r.value[i].chunk.patternIds)
  {
    if e.ntotal.None? || e.ntotal.value == 0 then Success([])
    else
      var k := Requested(topK, pattern, e.ntotal.value);
      var filtered := PostFilter(faiss(k), e.chunks, e.threshold, pattern);
      if filtered.Failure? then filtered
      else Success(Take(filtered.value, topK))
  }

  /** One turn of the filtering loop: the neighbour's result, when it
      passes, in front of the results of the rest. */
  lemma PostFilterStep(hits: seq<(real, int)>, chunks: seq<Chunk>, threshold: real, pattern: Option<int>)
    requires |hits| > 0 && PostFilter(hits, chunks, threshold, pattern).Success?
    ensures PostFilter(hits[1..], chunks, threshold, pattern).Success?
    ensures var rs := PostFilter(hits, chunks, threshold, pattern).value;
            var rest := PostFilter(hits[1..], chunks, threshold, pattern).value;
            rs == if Passes(hits[0], chunks, threshold, pattern)
                  then [SearchResult(chunks[hits[0].1], hits[0].0)] + rest else rest
  {
  }

  /** Every result's score is the score of one of the neighbours. */
  lemma {:induction false} PostFilterScores(hits: seq<(real, int)>, chunks: seq<Chunk>, threshold: real, pattern: Option<int>)
    requires PostFilter(hits, chunks, threshold, pattern).Success?
    ensures var rs := PostFilter(hits, chunks, threshold, pattern).value;
      forall i :: 0 <= i < |rs| ==> exists j :: 0 <= j < |hits| && hits[j].0 == rs[i].score
  {
    if |hits| > 0 {
      PostFilterStep(hits, chunks, threshold, pattern);
      PostFilterScores(hits[1..], chunks, threshold, pattern);
      var rest := PostFilter(hits[1..], chunks, threshold, pattern).value;
      var rs := PostFilter(hits, chunks, threshold, pattern).value;
      var passes := Passes(hits[0], chunks, threshold, pattern);
      forall i | 0 <= i < |rs| ensures exists j :: 0 <= j < |hits| && hits[j].0 == rs[i].score {
        if passes && i == 0 {
          assert hits[0].0 == rs[0].score;
        } else {
          var i' := if passes then i - 1 else i;
          assert rs[i] == rest[i'];
          var j :| 0 <= j < |hits[1..]| && hits[1..][j].0 == rest[i'].score;
          assert hits[j + 1].0 == rs[i].score;
        }
      }
    }
  }

  /** Filtering keeps the index's order: when the neighbours come highest
      score first, so do the results. */
  lemma {:induction false} PostFilterOrdered(hits: seq<(real, int)>, chunks: seq<Chunk>, threshold: real, pattern: Option<int>)
    requires forall i, j :: 0 <= i < j < |hits| ==> hits[i].0 >= hits[j].0
    requires PostFilter(hits, chunks, threshold, pattern).Success?
    ensures var rs := PostFilter(hits, chunks, threshold, pattern).value;
      forall i, j :: 0 <= i < j < |rs| ==> rs[i].score >= rs[j].score
  {
    if |hits| > 0 {
      PostFilterStep(hits, chunks, threshold, pattern);
      PostFilterOrdered(hits[1..], chunks, threshold, pattern);
      PostFilterScores(hits[1..], chunks, threshold, pattern);
      var rest := PostFilter(hits[1..], chunks, threshold, pattern).value;
      forall i | 0 <= i < |rest| ensures hits[0].0 >= rest[i].score {
        var j :| 0 <= j < |hits[1..]| && hits[1..][j].0 == rest[i].score;
        assert hits[j + 1].0 == rest[i].score;
      }
    }
  }

  /** An engine whose index matches its chunks never raises, provided the
      index only returns positions of its own vectors (or -1 for none). */
  lemma ConsistentSearchSucceeds(e: Engine, topK: int, pattern: Option<int>, faiss: int -> seq<(real, int)>)
    requires e.ntotal == Some(|e.chunks|)
    requires forall k :: forall i :: 0 <= i < |faiss(k)| ==> faiss(k)[i].1 < |e.chunks|
    ensures Search(e, topK, pattern, faiss).Success?
  {
    if |e.chunks| > 0 {
      var hits := faiss(Requested(topK, pattern, |e.chunks|));
      assert forall i :: 0 <= i < |hits| ==> !OutOfRange(hits[i], e.chunks, e.threshold);
    }
  }

  // ---------------------------------------------------------------------
  // Context
  // ---------------------------------------------------------------------

  /** The `i`-th reference block, with the similarity rendered by `fmt`
      (two decimals in the source). */
  function ScoredBlock(i: nat, r: SearchResult, fmt: real -> string): (b: string)
    ensures StartsWith(b, "【参照")
  {
    var tail := NatToString(i) + "】出典: " + r.chunk.sourceFile + " (類似度: " + fmt(r.score) + ")\n" + r.chunk.content;
    Affixes("【参照", tail);
    "【参照" + tail
  }

  function ScoredBlocks(rs: seq<SearchResult>, from: nat, fmt: real -> string): (bs: seq<string>)
    ensures |bs| == |rs|
    ensures forall k :: 0 <= k < |rs| ==> bs[k] == ScoredBlock(from + k, rs[k], fmt)
  {
    if |rs| == 0 then [] else [ScoredBlock(from, rs[0], fmt)] + ScoredBlocks(rs[1..], from + 1, fmt)
  }

  /** The context with similarities: the not-found notice for no results,
      else the numbered blocks separated by blank lines. */
  function FormatContext(rs: seq<SearchResult>, fmt: real -> string): (r: string)
    ensures |rs| == 0 ==> r == NotFound
  {
    if |rs| == 0 then NotFound else Join(ScoredBlocks(rs, 1, fmt), "\n\n")
  }

  /** The context is the not-found notice exactly when there are no
      results, and otherwise carries every result's numbered block. */
  lemma ContextBlocks(rs: seq<SearchResult>, fmt: real -> string)
    ensures FormatContext(rs, fmt) == NotFound <==> |rs| == 0
    ensures forall k :: 0 <= k < |rs| ==> Contains(FormatContext(rs, fmt), ScoredBlock(k + 1, rs[k], fmt))
  {
    var bs := ScoredBlocks(rs, 1, fmt);
    if |rs| > 0 {
      assert StartsWith(bs[0], "【参照");
      if |rs| > 1 {
        assert FormatContext(rs, fmt) == bs[0] + ("\n\n" + Join(bs[1..], "\n\n"));
      }
      assert FormatContext(rs, fmt)[0] == bs[0][0];
      assert FormatContext(rs, fmt)[0] != NotFound[0];
    }
    forall k | 0 <= k < |rs| ensures Contains(FormatContext(rs, fmt), ScoredBlock(k + 1, rs[k], fmt)) {
      JoinContains(bs, "\n\n", k);
    }
  }
}

=== FILE: webhook.dfy ===
/** Forwarding of conversation logs to the spreadsheet endpoint, with a
    bounded number of attempts, and the single-shot escalation notice. */
module Webhook {
  import opened Wrappers

  /** The answer to one post: a status code, a request-level failure
      (connection, timeout), or any other exception, which propagates. */
  datatype Reply = Status(code: int) | RequestFailed | Crashed(message: string)

  predicate Retryable(r: Reply)
  {
    (r.Status? && r.code != 200) || r.RequestFailed?
  }

  /** The end of a forwarding run: delivered or not after `posts` posts
      and `sleeps` pauses, or an exception that escaped on the last post. */
  datatype Forwarded =
    | Done(delivered: bool, posts: nat, sleeps: nat)
    | Raised(message: string, posts: nat, sleeps: nat)

  /** Reference: the run as a recursion over the attempts `k..n`, given
      the reply to each attempt. */
  function Attempts(k: nat, n: int, reply: nat -> Reply): (r: Forwarded)
    requires k >= 1
    decreases n - k
  {
    if k > n then Done(false, k - 1, if k == 1 then 0 else k - 2)
    else
      match reply(k)
      case Status(code) =>
        if code == 200 then Done(true, k, k - 1)
        else Attempts(k + 1, n, reply)
      case RequestFailed => Attempts(k + 1, n, reply)
      case Crashed(m) => Raised(m, k, k - 1)
  }

  /** Posts the payload up to `retryCount` times, stopping at the first
      status 200, pausing between attempts but not after the last one. */
  method ForwardToGas(retryCount: int, reply: nat -> Reply) returns (r: Forwarded)
    ensures r == Attempts(1, retryCount, reply)
    ensures retryCount <= 0 ==> r == Done(false, 0, 0)
    ensures r.posts <= if retryCount < 0 then 0 else retryCount
    ensures r.Done? && r.delivered ==> reply(r.posts) == Status(200) && r.sleeps == r.posts - 1
    ensures r.Done? && !r.delivered ==> r.posts == (if retryCount < 0 then 0 else retryCount) && r.sleeps == if retryCount <= 0 then 0 else retryCount - 1
    ensures r.Raised? ==> r.posts >= 1 && reply(r.posts) == Crashed(r.message) && r.sleeps == r.posts - 1
    ensures forall k :: 1 <= k < r.posts ==> Retryable(reply(k))
  {
    var attempt := 1;
    var sleeps := 0;
    while attempt <= retryCount
      invariant 1 <= attempt
      invariant attempt == 1 || attempt <= retryCount
      invariant sleeps == attempt - 1
      invariant forall k :: 1 <= k < attempt ==> Retryable(reply(k))
      invariant Attempts(1, retryCount, reply) == Attempts(attempt, retryCount, reply)
      decreases retryCount - attempt
    {
      var answer := reply(attempt);
      match answer {
        case Status(code) =>
          if code == 200 {
            return Done(true, attempt, sleeps);
          }
        case RequestFailed =>
        case Crashed(m) =>
          return Raised(m, attempt, sleeps);
      }
      if attempt < retryCount {
        sleeps := sleeps + 1;
      }
      attempt := attempt + 1;
      if attempt > retryCount {
        return Done(false, attempt - 1, sleeps);
      }
    }
    return Done(false, attempt - 1, sleeps);
  }

  /** The endpoint of an escalation notice: the given one when it is
      non-empty, else the forwarding endpoint. */
  function NoticeEndpoint(gasEndpoint: string, endpoint: Option<string>): (url: string)
    ensures endpoint.Some? && endpoint.value != "" ==> url == endpoint.value
    ensures endpoint.None? || endpoint.value == "" ==> url == gasEndpoint
  {
    if endpoint.Some? && endpoint.value != "" then endpoint.value else gasEndpoint
  }

  /** One post of the escalation notice: delivered exactly on status 200,
      not delivered on any other status or a request failure, and any
      other exception propagates. */
  function SendEscalationNotification(reply: Reply): (r: Result<bool, string>)
    ensures r == Success(true) <==> reply == Status(200)
    ensures r == Success(false) <==> Retryable(reply)
    ensures r.Failure? <==> reply.Crashed?
  {
    match reply
    case Status(code) => Success(code == 200)
    case RequestFailed => Success(false)
    case Crashed(m) => Failure(m)
  }
}

=== FILE: wrappers.dfy ===
/** Failure-carrying wrappers shared by every module of the model. */
module Wrappers {

  /** Python's `None` or a present value. */
  datatype Option<+T> = None | Some(value: T) {

    /** The value, or `default` for `None`. */
    function GetOr(default: T): T
    {
      match this
      case Some(v) => v
      case None => default
    }
  }

  /** A value or the exception the source raises instead. */
  datatype Result<+R, +E> = Success(value: R) | Failure(error: E) {

    predicate IsFailure()
    {
      Failure?
    }

    function PropagateFailure<U>(): Result<U, E>
      requires Failure?
    {
      Failure(error)
    }

    function Extract(): R
      requires Success?
    {
      value
    }
  }
}
